=== FILE: README.md ===
# Standup bot conversation core, in Dafny

A Dafny model of the core of a Zoho Cliq standup bot. Users talk to the bot in a chat channel; the bot registers organizations, creates teams, adds members and collects daily standups (what was done yesterday, what is planned today, what blocks). The model covers:

- **Session store** (`user_session.dfy`, `session_manager.dfy`). One `UserSession` per chat identity: state, step, a data map and the last activity. Operations are get-or-create, state changes, step moves, data puts and gets, reset, clear, and the 30-minute expiry sweep. Time is an integer parameter.
- **Directory** (`entities.dfy`). Organizations, teams, users, standups and per-user integrations are tables (`seq`s) whose generated ids are positions plus one. Saving a row runs the entity's persist-time defaults, then the table's NOT NULL, UNIQUE and foreign-key checks. A refused row is a `ConstraintViolation` and nothing changes. Saving a row identical to the stored one issues no UPDATE (Hibernate's dirty check), so it keeps its `updatedAt`; any other update restamps it. Single-result queries distinguish no match, one match and several (which throws in the source).
- **Permissions** (`permissions.dfy`). Every predicate of the permission service, with a lookup that throws turned into "no".
- **Domain services** (`organization_service.dfy`, `team_service.dfy`, `team_config.dfy`, `user_service.dfy`, `integration_service.dfy`, `ai_service.dfy`). Each operation is a guarded functional update of the directory that leaves it unchanged on failure, which is the both-or-neither behaviour of the transactional services. The AI service's remote providers are function parameters that may fail; a failure falls back to the template summary, and a provider answer whose text is null gives a null summary.
- **Command router** (`command_router.dfy`, `router_properties.dfy`). The per-identity state machine: the first-match command table for idle sessions, and the step handlers of the organization, team, member and standup flows with their `cancel`, `skip` and `none` keywords.
- **Webhook parsers** (`webhook_v3.dfy`, `webhook_v2.dfy`, `webhook_v1.dfy` and their property files). Sender identification for JSON and plain-text payloads, and the keyword parsers and substring routers of the two older webhooks, on top of a model of Java's `trim` and literal `split` (exact), and of `toLowerCase` and `Long.parseLong` restricted to ASCII letters and digits (`java_string.dfy`).

Every step takes the directory, the session map and an environment (clock, today's date, remote collaborators) and returns the new directory, the new session map and a reply. Reply texts are constructors, not strings.

## Model

| member | source | states |
|---|---|---|
| UserSessions.GetData | src/main/java/com/devsync/standupbot/dto/UserSession.java:79-81 | a key reads as present exactly when the data map exists and holds it, and then as the stored value |
| UserSessions.PutData | src/main/java/com/devsync/standupbot/dto/UserSession.java:68-74 | afterwards the key reads as the new value, every other key reads as before (a null map acts as empty), state and step are kept and the activity is stamped |
| UserSessions.Reset | src/main/java/com/devsync/standupbot/dto/UserSession.java:95-100 | the session is Idle at step 0 with no data under any key; identity and creation time are kept |
| SessionStore.GetSession | src/main/java/com/devsync/standupbot/service/SessionManager.java:28-39 | a stored session is returned untouched; an unknown identity gets a new Idle session at step 0 with an empty data map, which is stored; no other entry changes |
| SessionStore.SetState | src/main/java/com/devsync/standupbot/service/SessionManager.java:44-50 | the session (created if missing) is in the new state at step 0 with its data kept and a new stamp; no other entry changes |
| SessionStore.NextStep | src/main/java/com/devsync/standupbot/service/SessionManager.java:55-59 | the step grows by one with Java int wrap-around; state and data are kept; no other entry changes |
| SessionStore.PutData | src/main/java/com/devsync/standupbot/service/SessionManager.java:64-67 | the key then reads as the value in that identity's session, other keys as before; no other entry changes |
| SessionStore.GetData | src/main/java/com/devsync/standupbot/service/SessionManager.java:72-75 | the read goes through getSession, so it creates a missing session; a stored session is not changed |
| SessionStore.ResetSession | src/main/java/com/devsync/standupbot/service/SessionManager.java:88-94 | an existing session becomes Idle at step 0 with empty data; an unknown identity gets no session |
| SessionStore.ClearSession | src/main/java/com/devsync/standupbot/service/SessionManager.java:99-102 | the identity has no entry afterwards and every other entry is as before |
| SessionStore.CleanupExpired | src/main/java/com/devsync/standupbot/service/SessionManager.java:131-148 | exactly the sessions idle for more than 30 minutes are removed and the rest are kept unchanged |
| SessionStore.QueriesOnUnknown | src/main/java/com/devsync/standupbot/service/SessionManager.java:107-126 | for an unknown identity the read-only queries say inactive, Idle and step 0 without creating anything |
| SessionStore.ActiveIffNotIdle | src/main/java/com/devsync/standupbot/service/SessionManager.java:107-118 | hasActiveSession holds exactly when getState is not Idle |
| SessionStore.ClearThenInactive | src/main/java/com/devsync/standupbot/service/SessionManager.java:99-126 | after clearSession the identity is inactive, Idle and at step 0 |
| SessionStore.PutThenGet | src/main/java/com/devsync/standupbot/service/SessionManager.java:64-75 | getData returns what putData stored and changes nothing further |
| SessionStore.ResetDeactivates | src/main/java/com/devsync/standupbot/service/SessionManager.java:88-110 | after resetSession the identity is inactive, and it is stored exactly when it was stored before |
| SessionStore.SetStateActivates | src/main/java/com/devsync/standupbot/service/SessionManager.java:44-50 | entering a non-Idle state makes the session active; a newly created one starts with empty data |
| SessionStore.CleanupIdempotent | src/main/java/com/devsync/standupbot/service/SessionManager.java:136-143 | a second sweep at the same instant removes nothing more |
| SessionStore.CleanupBoundary | src/main/java/com/devsync/standupbot/service/SessionManager.java:22-23 | a session active within the last 30 minutes survives the sweep; one idle for longer is removed |
| Entities.OrgOnCreate | src/main/java/com/devsync/standupbot/model/Organization.java:48-55 | both stamps are set, active defaults to true only when null, and no other column changes |
| Entities.TeamOnCreate | src/main/java/com/devsync/standupbot/model/Team.java:89-102 | both stamps are set; active, openaiModel and timezone default to true, "gpt-4" and "UTC" only when null; no other column changes |
| Entities.UserOnCreate | src/main/java/com/devsync/standupbot/model/User.java:57-61 | both stamps are set and no other column changes |
| Entities.StandupOnCreate | src/main/java/com/devsync/standupbot/model/Standup.java:73-83 | both stamps are set; status defaults to IN_PROGRESS and currentStep to 1 only when null; no other column changes |
| Entities.IntegrationOnCreate | src/main/java/com/devsync/standupbot/model/UserIntegration.java:56-63 | both stamps are set, useTeamTokens defaults to true only when null, and no other column changes |
| Entities.EmptyDirectoryValid | src/main/java/com/devsync/standupbot/model/Organization.java:27-43 | the empty database satisfies every table constraint |
| Entities.InsertOrg | src/main/java/com/devsync/standupbot/model/Organization.java:23-55 | a save succeeds exactly when the row after onCreate meets the NOT NULL, length and UNIQUE columns; it then gets the next identity, only that table grows, validity is kept; otherwise a constraint violation |
| Entities.InsertTeam | src/main/java/com/devsync/standupbot/model/Team.java:17-102 | as InsertOrg for teams: NOT NULL organization, team name and lead, declared lengths and 255 characters for the undeclared string columns, unique (organization, team name) and channel id, organization foreign key |
| Entities.UpdateTeam | src/main/java/com/devsync/standupbot/model/Team.java:104-107 | saving a row identical to the stored one writes nothing and keeps its `updatedAt`; any other save succeeds exactly when the row restamped with the current instant meets the constraints at its own position, replaces only that row and keeps validity |
| Entities.InsertUser | src/main/java/com/devsync/standupbot/model/User.java:24-61 | as InsertOrg for users: NOT NULL e-mail and name, 255 characters for e-mail, name, Zoho id, GitHub username and Jira account id, unique e-mail and Zoho id, team foreign key |
| Entities.UpdateUser | src/main/java/com/devsync/standupbot/model/User.java:63-66 | saving a row identical to the stored one writes nothing and keeps its `updatedAt`; any other save succeeds exactly when the row restamped with the current instant meets the constraints at its own position, replaces only that row and keeps validity |
| Entities.InsertStandup | src/main/java/com/devsync/standupbot/model/Standup.java:25-83 | a save succeeds exactly when the row after onCreate names an existing user, a date and a status; only the standups grow |
| Entities.UpdateStandup | src/main/java/com/devsync/standupbot/model/Standup.java:85-88 | saving a row identical to the stored one writes nothing and keeps its `updatedAt`; any other save succeeds exactly when the row restamped with the current instant meets the constraints at its own position, replaces only that row and keeps validity |
| Entities.InsertIntegration | src/main/java/com/devsync/standupbot/model/UserIntegration.java:24-63 | a save succeeds exactly when the row after onCreate names an existing user and an existing team or none, with tokens of at most 500 and GitHub username and Jira account id of at most 255 characters |
| Entities.UpdateIntegration | src/main/java/com/devsync/standupbot/model/UserIntegration.java:65-68 | saving a row identical to the stored one writes nothing and keeps its `updatedAt`; any other save succeeds exactly when the row restamped with the current instant meets the constraints at its own position, replaces only that row and keeps validity |
| Entities.FindSpec | src/main/java/com/devsync/standupbot/repository/UserRepository.java:18-21 | an Optional query is ambiguous exactly when two rows match, missing exactly when none does, and otherwise names the one matching row |
| Entities.FindAfterUpdate | src/main/java/com/devsync/standupbot/repository/StandupRepository.java:24 | overwriting a row with one that agrees on the query's condition changes neither the lookup nor the exists test |
| Entities.FindAppendMatch | src/main/java/com/devsync/standupbot/repository/StandupRepository.java:24 | a matching row saved where nothing matched becomes the unique answer |
| Entities.FindAfterAppend | src/main/java/com/devsync/standupbot/repository/UserRepository.java:18-36 | a saved row that does not match leaves the lookup and the exists test as they were |
| Entities.TeamById | src/main/java/com/devsync/standupbot/repository/TeamRepository.java:14 | findById finds a row exactly for the identities handed out so far |
| Entities.UserByZohoId | src/main/java/com/devsync/standupbot/repository/UserRepository.java:18 | no match exactly when no row has the identity; one match is the only row with it; several only when two rows have it, so two such rows always give several |
| Entities.UserByEmail | src/main/java/com/devsync/standupbot/repository/UserRepository.java:21 | no match exactly when no row has the e-mail; one match is the only row with it; several only when two rows have it, so two such rows always give several |
| Entities.TeamByName | src/main/java/com/devsync/standupbot/repository/TeamRepository.java:17 | across all organizations: no match exactly when no team has the name; one match is the only team with it; several only when two teams have it |
| Entities.TeamByOrgAndName | src/main/java/com/devsync/standupbot/repository/TeamRepository.java:19 | no match exactly when no team of the organization has the name; one match is the only such team; several only when two such teams exist |
| Entities.IntegrationByUser | src/main/java/com/devsync/standupbot/repository/UserIntegrationRepository.java:16 | no match exactly when no integration belongs to the user; one match is the user's only integration; several only when two belong to the user |
| Entities.StandupByUserAndDate | src/main/java/com/devsync/standupbot/repository/StandupRepository.java:24 | no match exactly when the user has no standup on that date; one match is the only one; several only when two exist |
| Entities.UserByZohoIdUnique | src/main/java/com/devsync/standupbot/repository/UserRepository.java:18-36 | with the UNIQUE key on zohoUserId the lookup is never ambiguous, finds exactly when existsByZohoUserId holds, and names a row with that identity |
| Entities.UserByEmailUnique | src/main/java/com/devsync/standupbot/repository/UserRepository.java:21 | with the UNIQUE key on e-mail the lookup by e-mail is never ambiguous |
| Entities.TeamByOrgAndNameUnique | src/main/java/com/devsync/standupbot/repository/TeamRepository.java:19 | with the UNIQUE key on (organization, team name) the lookup inside an organization is never ambiguous |
| Entities.SameTeamNameInTwoOrgs | src/main/java/com/devsync/standupbot/repository/TeamRepository.java:17 | two organizations may hold teams of the same name, and the global lookup by name is then ambiguous |
| Permissions.UserOf | src/main/java/com/devsync/standupbot/service/PermissionService.java:175-182 | the lookup yields a user exactly when one row has the identity (several rows throw and are caught as none), and that row carries the identity |
| Permissions.CanManageOrganization | src/main/java/com/devsync/standupbot/service/PermissionService.java:32-37 | false for an unknown identity; throws exactly for a known user without an organization; true exactly for an ORG_ADMIN of that very organization |
| Permissions.CanCreateTeam | src/main/java/com/devsync/standupbot/service/PermissionService.java:42-44 | the same rule as managing the organization: true exactly for an ORG_ADMIN of that organization, throwing only for a user without one |
| Permissions.CanViewOrgDashboard | src/main/java/com/devsync/standupbot/service/PermissionService.java:109-111 | the same rule as managing the organization: true exactly for an ORG_ADMIN of that organization, throwing only for a user without one |
| Permissions.CanManageTeam | src/main/java/com/devsync/standupbot/service/PermissionService.java:49-70 | false for an unknown identity; true exactly for an admin whose organization owns the existing team or a lead the existing team names as lead; throws exactly when the team exists and the admin's or the team's organization, or the team's lead id, is null |
| Permissions.CanAddUserToTeam | src/main/java/com/devsync/standupbot/service/PermissionService.java:75-77 | the managing rule: an admin for the teams of its organization, a lead for the teams naming it, with the same null-reference throws |
| Permissions.CanRemoveUserFromTeam | src/main/java/com/devsync/standupbot/service/PermissionService.java:82-84 | the managing rule: an admin for the teams of its organization, a lead for the teams naming it, with the same null-reference throws |
| Permissions.CanViewTeamProgress | src/main/java/com/devsync/standupbot/service/PermissionService.java:89-104 | false for an unknown identity; an admin sees the existing teams of its organization (throwing when either organization is null); anybody else exactly the team recorded on their row |
| Permissions.IsOrgAdmin | src/main/java/com/devsync/standupbot/service/PermissionService.java:116-120 | true exactly when a single user row carries the identity and its role is ORG_ADMIN |
| Permissions.IsTeamLead | src/main/java/com/devsync/standupbot/service/PermissionService.java:140-144 | true exactly when a single user row carries the identity and its role is TEAM_LEAD |
| Permissions.IsTeamLeadOf | src/main/java/com/devsync/standupbot/service/PermissionService.java:125-135 | false unless the caller has the lead role; then true exactly when the team exists and names the caller as lead, throwing when its lead id is null |
| Permissions.BelongsToOrganization | src/main/java/com/devsync/standupbot/service/PermissionService.java:149-153 | false for an unknown identity; throws for a user without an organization; true exactly when the single row with the identity is in that organization |
| Permissions.BelongsToTeam | src/main/java/com/devsync/standupbot/service/PermissionService.java:158-162 | true exactly when the single row with the identity records that team |
| Permissions.UnknownUserRefused | src/main/java/com/devsync/standupbot/service/PermissionService.java:32-182 | for an unknown or ambiguous identity every predicate answers false without throwing |
| Permissions.OrgScope | src/main/java/com/devsync/standupbot/service/PermissionService.java:32-44 | canManageOrganization holds exactly for an ORG_ADMIN of that organization and throws exactly for a known user without one; canCreateTeam and canViewOrgDashboard (lines 109-111) are the same predicate |
| Permissions.AdminManagesOwnOrgTeams | src/main/java/com/devsync/standupbot/service/PermissionService.java:56-60 | for an admin with an organization, canManageTeam never throws and holds exactly when the team exists in that organization |
| Permissions.LeadManagesLedTeams | src/main/java/com/devsync/standupbot/service/PermissionService.java:63-67 | for a TEAM_LEAD, canManageTeam never throws and holds exactly when the team exists and names the caller as lead |
| Permissions.LeadOfForeignTeam | src/main/java/com/devsync/standupbot/service/PermissionService.java:63-67 | a lead is allowed to manage a team of another organization, since only the lead id is compared |
| Permissions.OthersManageNothing | src/main/java/com/devsync/standupbot/service/PermissionService.java:69-84 | a user with neither role manages, adds to and removes from no team |
| Permissions.AddRemoveAreManage | src/main/java/com/devsync/standupbot/service/PermissionService.java:75-84 | canAddUserToTeam and canRemoveUserFromTeam always equal canManageTeam |
| Permissions.NonAdminSeesOwnTeam | src/main/java/com/devsync/standupbot/service/PermissionService.java:89-104 | anyone but an admin may view a team exactly when their own team is that team, which is belongsToTeam (lines 158-162) |
| Permissions.AdminSeesManagedTeams | src/main/java/com/devsync/standupbot/service/PermissionService.java:95-100 | an admin may view exactly the teams it may manage |
| Permissions.LeadImplications | src/main/java/com/devsync/standupbot/service/PermissionService.java:125-144 | isTeamLead(user, team) implies isTeamLead(user) and canManageTeam(user, team) |
| OrganizationService.RegisterOrganization | src/main/java/com/devsync/standupbot/service/OrganizationService.java:30-68 | a taken name is refused as a duplicate and an existing creator is refused; on success exactly one active organization created by the creator and one ORG_ADMIN user of it with no team are added, nothing else changes, and validity is kept |
| OrganizationService.RegisterSucceeds | src/main/java/com/devsync/standupbot/service/OrganizationService.java:33-64 | in a valid directory registration succeeds whenever the name is free and fits its column, the creator is not yet a user, and the creator's e-mail is present, at most 255 characters and unused |
| TeamConfig.NotBlankIff | src/main/java/com/devsync/standupbot/dto/TeamConfigRequest.java:18-19 | a team name passes @NotBlank exactly when it is present and holds a character above U+0020 |
| TeamConfig.HourPartIsHour | src/main/java/com/devsync/standupbot/dto/TeamConfigRequest.java:41 | the hour alternatives accept exactly one or two digits worth at most 23 |
| TeamConfig.MinutePartIsMinute | src/main/java/com/devsync/standupbot/dto/TeamConfigRequest.java:41 | the minute part accepts exactly two digits worth at most 59 |
| TeamConfig.PatternIsClockTime | src/main/java/com/devsync/standupbot/dto/TeamConfigRequest.java:41 | the anchored pattern accepts exactly a one- or two-digit hour up to 23, a colon and a two-digit minute up to 59, with nothing around them |
| TeamConfig.ReminderExamples | src/main/java/com/devsync/standupbot/dto/TeamConfigRequest.java:41 | concrete instance: "24:00", "09:60", "9:5" and "09:00 " are refused; "9:05", "23:59" and "00:00" are accepted |
| TeamService.CreateTeam | src/main/java/com/devsync/standupbot/service/TeamService.java:34-73 | an unregistered creator is refused; success requires canCreateTeam for the creator's organization and a name new inside it, appends exactly the built team, makes the creator its TEAM_LEAD and member, changes no other row, and keeps validity |
| TeamService.UpdateGitHubToken | src/main/java/com/devsync/standupbot/service/TeamService.java:92-104 | a caller refused by canManageTeam is refused; for an allowed caller the save succeeds exactly when the changed row fits, replaces only that team with its new GitHub token (restamped only if something changed), and any failure is a constraint violation |
| TeamService.UpdateGitHubTokenSucceeds | src/main/java/com/devsync/standupbot/service/TeamService.java:92-104 | in a valid directory an allowed caller always sets a token of at most 500 characters, keeping validity and the team count |
| TeamService.UpdateJiraCredentials | src/main/java/com/devsync/standupbot/service/TeamService.java:109-123 | a caller refused by canManageTeam is refused; for an allowed caller the save succeeds exactly when the changed row fits, replaces only that team with its new Jira URL, e-mail and token (restamped only if something changed), and any failure is a constraint violation |
| TeamService.UpdateJiraCredentialsSucceeds | src/main/java/com/devsync/standupbot/service/TeamService.java:109-123 | in a valid directory an allowed caller always sets Jira values that fit their columns, keeping validity and the team count |
| TeamService.ApplyConfig | src/main/java/com/devsync/standupbot/service/TeamService.java:146-157 | the upsert's copy leaves organization, name, lead, timezone, active and stamps alone |
| TeamService.CreateOrUpdateTeam | src/main/java/com/devsync/standupbot/service/TeamService.java:129-160 | an ambiguous name is a NonUniqueResult; an existing team of that name keeps its identity and the save succeeds exactly when the row carrying every configuration field of the request, nulls included, fits; then only that row changes, and any failure is a constraint violation |
| TeamService.CreateOrUpdateTeamSucceeds | src/main/java/com/devsync/standupbot/service/TeamService.java:129-160 | in a valid directory an existing team name with a configuration whose values fit and whose channel no other team uses is always updated in place, keeping validity, with the request's configuration |
| TeamService.GetGithubToken | src/main/java/com/devsync/standupbot/service/TeamService.java:195-197 | the team's token when it has one, otherwise the global token |
| TeamService.GetOpenAiKey | src/main/java/com/devsync/standupbot/service/TeamService.java:209-211 | the team's key when it has one, otherwise the global key |
| TeamService.CreateTeamDemotesCreator | src/main/java/com/devsync/standupbot/service/TeamService.java:66-69 | after a creation the creator is the TEAM_LEAD of the new team and fails canCreateTeam for its organization from then on |
| TeamService.CreateTeamSucceeds | src/main/java/com/devsync/standupbot/service/TeamService.java:37-69 | in a valid directory an admin with an organization creates a team whenever the name is new in that organization and the row fits its columns (255 characters for the GitHub organization and channel id), even if another organization uses the name |
| TeamService.MissingTeamForbidden | src/main/java/com/devsync/standupbot/service/TeamService.java:93-99 | for a team that does not exist both credential updates answer Forbidden, because the permission check runs before the lookup |
| TeamService.UpsertNeverCreates | src/main/java/com/devsync/standupbot/service/TeamService.java:139-159 | a name not yet taken makes the upsert fail with a constraint violation, since the new row has no organization and no lead; so the upsert never adds a team |
| TeamService.JiraConfigAfterUpdate | src/main/java/com/devsync/standupbot/service/TeamService.java:202-204 | after a Jira update hasJiraConfig holds exactly when the new URL and token are both non-null |
| UserService.RegisterUser | src/main/java/com/devsync/standupbot/service/UserService.java:30-57 | an adder refused by canAddUserToTeam is refused and a registered identity is a duplicate (a NullPointer when that user has no organization, whose name the message reads); otherwise the addition succeeds exactly when the new DEVELOPER row fits, and any failure is a constraint violation; success appends exactly that member of the team and of the team's organization, changes nothing else and keeps validity |
| UserService.RegisterUserSucceeds | src/main/java/com/devsync/standupbot/service/UserService.java:30-57 | in a valid directory an allowed adder always adds a new identity with a name and an unused e-mail whose values fit their columns |
| UserService.UpdateGitHubCredentials | src/main/java/com/devsync/standupbot/service/UserService.java:62-72 | an unknown identity is NotFound and an ambiguous one NonUniqueResult; for a known user the save succeeds exactly when the changed row fits, replaces only that user with the new GitHub username and token (restamped only if something changed), and any failure is a constraint violation |
| UserService.UpdateGitHubCredentialsSucceeds | src/main/java/com/devsync/standupbot/service/UserService.java:62-72 | in a valid directory a GitHub update of a known user with a username that fits always succeeds, keeps validity, and the identity then resolves to a user with that username and token |
| UserService.SameGitHubCredentialsKeepRow | src/main/java/com/devsync/standupbot/model/User.java:63-66 | re-sending a user's current GitHub credentials leaves the directory exactly as it was, `updatedAt` included |
| UserService.UpdateJiraCredentials | src/main/java/com/devsync/standupbot/service/UserService.java:77-88 | an unknown identity is NotFound and an ambiguous one NonUniqueResult; for a known user the save succeeds exactly when the changed row fits, replaces only that user with the new Jira account, e-mail and token (restamped only if something changed), and any failure is a constraint violation |
| UserService.UpdateJiraCredentialsSucceeds | src/main/java/com/devsync/standupbot/service/UserService.java:77-88 | in a valid directory a Jira update of a known user with an account id that fits always succeeds, keeps validity, and the identity then resolves to a user with those three Jira values |
| UserService.FindOrCreateUser | src/main/java/com/devsync/standupbot/service/UserService.java:130-160 | an existing identity is returned with nothing changed; several users with the identity, or (without one) several with the e-mail, throw; with no user for the identity the single user with the e-mail is given the identity, succeeding exactly when the changed row fits; with neither matching, a new user with the identity, name and e-mail is appended exactly when its row fits; every other failure is a constraint violation, at most one row is added and no other row changes |
| UserService.AttachIdentity | src/main/java/com/devsync/standupbot/service/UserService.java:142-148 | the user found by e-mail is given the identity: the save succeeds exactly when the changed row fits, then only that row changes, gaining the identity and the update time, and any failure is a constraint violation |
| UserService.RegisteredIff | src/main/java/com/devsync/standupbot/service/UserService.java:114-116 | isUserRegistered holds exactly when some row carries the identity |
| UserService.FindOrCreateAttachesByEmail | src/main/java/com/devsync/standupbot/service/UserService.java:145-151 | an unknown identity whose e-mail belongs to exactly one user is attached to that user: same user count, that row gains the identity and the update time and keeps its e-mail, and the identity now resolves to it |
| UserService.FindOrCreateCreates | src/main/java/com/devsync/standupbot/service/UserService.java:150-159 | in a valid directory an unknown identity with an unknown e-mail and fitting name, e-mail and identity always creates the next user, with no role, organization or team, and the identity then resolves to it |
| UserService.FindOrCreateThenFound | src/main/java/com/devsync/standupbot/service/UserService.java:131-159 | after findOrCreateUser the identity resolves to exactly the user returned |
| UserService.RegisterUserThenMember | src/main/java/com/devsync/standupbot/service/UserService.java:44-53 | a newly added member is registered, belongs to the team, is a DEVELOPER and manages no team |
| IntegrationService.Overwrite | src/main/java/com/devsync/standupbot/service/UserIntegrationService.java:56-61 | overwriting the integration fields from the request keeps its user and its timestamps |
| IntegrationService.CreateOrUpdateIntegration | src/main/java/com/devsync/standupbot/service/UserIntegrationService.java:32-70 | an unknown or ambiguous e-mail, an unknown team id and an ambiguous integration are refused; otherwise the call succeeds exactly when both the integration row (overwritten, or created for a user without one) and the mirrored user row fit, and any failure is a constraint violation; success leaves an integration of that user carrying the request's team, GitHub and Jira fields, mirrors the GitHub username, Jira account and team onto the user, and keeps validity |
| IntegrationService.OverwriteExisting | src/main/java/com/devsync/standupbot/service/UserIntegrationService.java:44-69 | overwriting the user's existing integration succeeds exactly when the overwritten integration and the mirrored user row both fit, copies the request's flag as is, and any failure is a constraint violation |
| IntegrationService.AttachNew | src/main/java/com/devsync/standupbot/service/UserIntegrationService.java:50-69 | creating an integration for a user without one succeeds exactly when the new row (flag defaulting to true) and the mirrored user row fit; it is appended and any failure is a constraint violation |
| IntegrationService.MirrorFits | src/main/java/com/devsync/standupbot/service/UserIntegrationService.java:64-67 | mirroring a known team and fitting GitHub and Jira values onto a user of a valid directory always saves |
| IntegrationService.OverwriteExistingSucceeds | src/main/java/com/devsync/standupbot/service/UserIntegrationService.java:44-69 | with fitting values and a known team, an existing integration is always overwritten and stays the user's only one |
| IntegrationService.AttachNewSucceeds | src/main/java/com/devsync/standupbot/service/UserIntegrationService.java:50-69 | with fitting values and a known team, a user without an integration always gets one, which is then the user's only one |
| IntegrationService.CreateOrUpdateIntegrationSucceeds | src/main/java/com/devsync/standupbot/service/UserIntegrationService.java:32-70 | in a valid directory with at most one integration per user, a unique e-mail, a known team and fitting values always succeed, keep validity, and the returned integration is then the user's only one |
| IntegrationService.ChooseToken | src/main/java/com/devsync/standupbot/service/UserIntegrationService.java:82-113 | no integration gives the team token; with one, a null flag throws, and otherwise the personal token is chosen exactly when the flag is false and the personal token is set |
| IntegrationService.GetGithubToken | src/main/java/com/devsync/standupbot/service/UserIntegrationService.java:82-95 | no integration gives the team token and several throw; with one, a null flag throws, a false flag with a personal GitHub token gives that token, and a true flag or a missing personal token gives the team token |
| IntegrationService.GetJiraToken | src/main/java/com/devsync/standupbot/service/UserIntegrationService.java:100-113 | no integration gives the team token and several throw; with one, a null flag throws, a false flag with a personal Jira token gives that token, and a true flag or a missing personal token gives the team token |
| IntegrationService.ChooseTokenNullSafe | src/main/java/com/devsync/standupbot/service/UserIntegrationService.java:82-95 | the corrected choice fails only on an ambiguous lookup, and picks the personal token only when the flag is false |
| IntegrationService.GetGithubTokenNullSafe | src/main/java/com/devsync/standupbot/service/UserIntegrationService.java:82-95 | the corrected GitHub token choice throws only on several integrations, and otherwise gives the personal token exactly when the flag is false and the token set, the team token in every other case, a null flag included |
| IntegrationService.GetJiraTokenNullSafe | src/main/java/com/devsync/standupbot/service/UserIntegrationService.java:100-113 | the corrected Jira token choice throws only on several integrations, and otherwise gives the personal token exactly when the flag is false and the token set, the team token in every other case, a null flag included |
| IntegrationService.OnePerUserUnambiguous | src/main/java/com/devsync/standupbot/service/UserIntegrationService.java:44 | with at most one integration per user, findByUser is never ambiguous |
| IntegrationService.UpsertKeepsOnePerUser | src/main/java/com/devsync/standupbot/service/UserIntegrationService.java:44-54 | the upsert overwrites the existing integration or creates one for a user without, so at most one integration per user is kept |
| IntegrationService.NullSafeAgrees | src/main/java/com/devsync/standupbot/service/UserIntegrationService.java:85-94 | wherever the choice as written answers, the corrected choice gives the same token |
| IntegrationService.NullFlagAfterUpdateThrows | src/main/java/com/devsync/standupbot/service/UserIntegrationService.java:61 | an update whose request leaves the flag null stores null, after which both token getters as written throw for that user while the corrected ones return the team token |
| IntegrationService.NullFlagExample | src/main/java/com/devsync/standupbot/service/UserIntegrationService.java:61-88 | concrete instance: a concrete user whose personal GitHub token is returned before re-submitting the form without the flag, and whose token lookup throws after |
| AIService.FormatBulletPoint | src/main/java/com/devsync/standupbot/service/AIService.java:249-261 | every entry ends in a newline; blank or null text gives the "no information" entry; any other text is kept in full at the end, behind a bullet unless it already starts with a marker |
| AIService.BulletLedIsMarked | src/main/java/com/devsync/standupbot/service/AIService.java:255 | text that begins with the bullet counts as already marked |
| AIService.MarkerSurvivesNewline | src/main/java/com/devsync/standupbot/service/AIService.java:255 | adding a newline does not change which marker trimmed text starts with |
| AIService.MarkedWithNewline | src/main/java/com/devsync/standupbot/service/AIService.java:255-256 | marked text stays marked once its newline is added |
| AIService.FormattedIsMarked | src/main/java/com/devsync/standupbot/service/AIService.java:249-261 | every formatted entry starts with a list marker once trimmed |
| AIService.FormatMarked | src/main/java/com/devsync/standupbot/service/AIService.java:255-257 | already marked text is returned unchanged apart from the newline |
| AIService.EntryBodyIsMarked | src/main/java/com/devsync/standupbot/service/AIService.java:249-261 | an entry without its final newline is marked text |
| AIService.FormatIdempotent | src/main/java/com/devsync/standupbot/service/AIService.java:249-261 | formatting an entry again, without its final newline, gives the same entry |
| AIService.BlockerFiltersDifferOnNo | src/main/java/com/devsync/standupbot/service/AIService.java:69-70 | the prompt filter keeps every blocker answer the template reports, and the two differ exactly on "no" in any case |
| AIService.BlockerFiltersIgnoreCase | src/main/java/com/devsync/standupbot/service/AIService.java:230-233 | both blocker filters give the same answer for a text and for its lower-cased form |
| AIService.BlockersPart | src/main/java/com/devsync/standupbot/service/AIService.java:229-239 | reported blockers give the blockers heading and the formatted entry; anything else gives the "no blockers" line |
| AIService.FallbackSummary | src/main/java/com/devsync/standupbot/service/AIService.java:215-244 | the template starts with the header, the yesterday entry and the today heading, ends with the blockers part and the note, and what lies between them is exactly the formatted plan for today |
| AIService.TopStartsWithHeader | src/main/java/com/devsync/standupbot/service/AIService.java:217-221 | the template opens with the summary header and the yesterday heading |
| AIService.BottomEnds | src/main/java/com/devsync/standupbot/service/AIService.java:229-241 | the template closes with the note, after the blockers entry when blockers are reported and after the "no blockers" line otherwise |
| AIService.FallbackLayout | src/main/java/com/devsync/standupbot/service/AIService.java:215-244 | the two ends of the template: header and yesterday heading first, the note last, and a blockers section exactly when blockers are reported, otherwise the "no blockers" line |
| AIService.FallbackSections | src/main/java/com/devsync/standupbot/service/AIService.java:215-244 | the template in order: the header, the yesterday entry between the yesterday and today headings, the today entry, then the blockers part and the note |
| AIService.FallbackTodayDetermined | src/main/java/com/devsync/standupbot/service/AIService.java:225-227 | two templates that differ only in the plan for today are equal exactly when the formatted plans are, so the plan is never dropped |
| AIService.BuildPrompt | src/main/java/com/devsync/standupbot/service/AIService.java:63-90 | the prompt carries both answers, and carries the blockers exactly when the prompt filter keeps them |
| AIService.ProviderFor | src/main/java/com/devsync/standupbot/service/AIService.java:48-56 | a null, empty or placeholder key selects the template, and a configured key selects Gemini exactly when it starts with "AIza" |
| AIService.GenerateSummary | src/main/java/com/devsync/standupbot/service/AIService.java:45-120 | the template when unconfigured; otherwise the chosen provider's answer (null when its text is null), or the template when that provider fails; OpenAI gets "gpt-4" when no model is given |
| AIService.SummaryIsAnswerOrTemplate | src/main/java/com/devsync/standupbot/service/AIService.java:45-208 | the summary is the template or one provider's answer, it is null exactly when the chosen provider answered with a null text, and an unconfigured key never reaches a provider |
| AIService.ProviderExamples | src/main/java/com/devsync/standupbot/service/AIService.java:48-54 | concrete instance: no key, an empty key and the placeholder select the template; an "AIza" key selects Gemini and any other key OpenAI |
| CommandRouter.AsText | src/main/java/com/devsync/standupbot/service/CommandRouter.java:142 | a missing answer reads as null, a stored text as that text, and anything else fails the cast |
| CommandRouter.AsId | src/main/java/com/devsync/standupbot/service/CommandRouter.java:346 | a team id is read only from a stored id |
| CommandRouter.AsLines | src/main/java/com/devsync/standupbot/service/CommandRouter.java:513-518 | a missing list reads as the empty list, a stored list as itself |
| CommandRouter.TheUser | src/main/java/com/devsync/standupbot/service/CommandRouter.java:110 | the lookup by identity succeeds exactly when one row carries the identity, and returns that row and its id |
| CommandRouter.OrgNameOf | src/main/java/com/devsync/standupbot/service/CommandRouter.java:111 | a user without an organization throws; otherwise the result is that organization's name |
| CommandRouter.CommandFor | src/main/java/com/devsync/standupbot/service/CommandRouter.java:49-71 | the command chosen is one the trimmed, lower-cased message triggers and no command earlier in the table triggers; none is chosen exactly when no command is triggered |
| CommandRouter.Route | src/main/java/com/devsync/standupbot/service/CommandRouter.java:39-75 | an open dialogue takes the message as an answer; otherwise the command table picks the start handler, and text it does not know gets the "didn't understand" reply with nothing changed |
| CommandRouter.Start | src/main/java/com/devsync/standupbot/service/CommandRouter.java:48-71 | no start handler writes the directory; help, status and refusals leave the sessions alone; an unregistered identity is asked for an organization name by the register command and told to register first by the other dialogue commands |
| CommandRouter.Continue | src/main/java/com/devsync/standupbot/service/CommandRouter.java:80-102 | each dialogue state goes to its own flow handler; the GitHub and Jira update states answer "not implemented" and change nothing; an idle session is reset with "session expired" |
| CommandRouter.RegisterFromSession | src/main/java/com/devsync/standupbot/service/CommandRouter.java:141-149 | no stored name fails the save and a non-text one the cast; on success the new organization has the stored name and the answer as domain, and the sender, with the context's name and e-mail, is its ORG_ADMIN |
| CommandRouter.CreateFromSession | src/main/java/com/devsync/standupbot/service/CommandRouter.java:212-220 | no stored name fails the save and a non-text one the cast; on success the new team of the sender's organization has the stored name, the sender as lead, the answer as GitHub organization (none for "skip") and the context's channel |
| CommandRouter.StartOrganizationRegistration | src/main/java/com/devsync/standupbot/service/CommandRouter.java:107-118 | in a valid directory a registered user with an organization is refused with that organization's name and nothing changes; an ambiguous identity is a NonUniqueResult and a user without an organization, as the two older webhooks create, a NullPointer; anyone unregistered is asked for the organization name and enters the dialogue at step 0 |
| CommandRouter.OrganizationFlow | src/main/java/com/devsync/standupbot/service/CommandRouter.java:123-167 | step 0 stores the answer as the name and asks for the domain; step 1 cancels or registers, resetting the session either way and changing the directory only on success; other steps get "something went wrong" |
| CommandRouter.StartTeamCreation | src/main/java/com/devsync/standupbot/service/CommandRouter.java:172-187 | unregistered identities are told to register; only an identity that canCreateTeam allows for its own organization enters the team dialogue; every refusal changes nothing |
| CommandRouter.GithubOrgAnswer | src/main/java/com/devsync/standupbot/service/CommandRouter.java:212 | "skip" in any case means no GitHub organization, and any other answer is that organization |
| CommandRouter.TeamFlow | src/main/java/com/devsync/standupbot/service/CommandRouter.java:192-238 | step 0 stores the team name and asks for the GitHub organization; step 1 cancels or creates the team, resetting the session either way; other steps get "something went wrong" |
| CommandRouter.StartUserAddition | src/main/java/com/devsync/standupbot/service/CommandRouter.java:243-266 | an unregistered identity is asked to register and an ambiguous one is a NonUniqueResult; a user without a team, or one canAddUserToTeam refuses for their own team, is refused with nothing changed, and a throwing check is passed on; a user it allows always enters the dialogue, with that team's id stored in the session |
| CommandRouter.EnterAddition | src/main/java/com/devsync/standupbot/service/CommandRouter.java:258-259 | entering the add-user dialogue moves only the sender's session to ADDING_USER at step 0 and stores the team id in it |
| CommandRouter.TempId | src/main/java/com/devsync/standupbot/service/CommandRouter.java:353 | the invented identity is "temp_" followed by at least one digit |
| CommandRouter.SaveGithub | src/main/java/com/devsync/standupbot/service/CommandRouter.java:365-369 | the GitHub credentials are written only when both the username and the token were collected |
| CommandRouter.SaveJira | src/main/java/com/devsync/standupbot/service/CommandRouter.java:371-377 | the Jira credentials are written only when the account id, the e-mail and the token were all collected |
| CommandRouter.AddMember | src/main/java/com/devsync/standupbot/service/CommandRouter.java:345-388 | a successful addition replies "user added" |
| CommandRouter.CreateUserFromSession | src/main/java/com/devsync/standupbot/service/CommandRouter.java:344-394 | the session is reset whatever happens; the reply is "user added" or an add-user failure that keeps what was committed before it |
| CommandRouter.Record | src/main/java/com/devsync/standupbot/service/CommandRouter.java:283-295 | the answer is stored under its key, the step advances by one, and no other answer and no other session changes |
| CommandRouter.KeepUnlessSkip | src/main/java/com/devsync/standupbot/service/CommandRouter.java:306-308 | "skip" stores nothing; any other answer is stored under the key; state, step and other answers stay |
| CommandRouter.NextQuestion | src/main/java/com/devsync/standupbot/service/CommandRouter.java:280-326 | steps 0 to 5 store the answer and move to the next step, except a skipped GitHub username, which jumps to step 4 with nothing stored and asks for the Jira e-mail |
| CommandRouter.FinishMember | src/main/java/com/devsync/standupbot/service/CommandRouter.java:317-335 | the dialogue's last step, or a skip at step 4 or 5, resets the session and either adds the member or reports the failure |
| CommandRouter.UserFlow | src/main/java/com/devsync/standupbot/service/CommandRouter.java:271-339 | "cancel" at any step resets the session; each answer before the end advances exactly one step, except the skipped GitHub username; the last answer or an early skip adds the member; any other step gets "something went wrong" |
| CommandRouter.FetchCommits | src/main/java/com/devsync/standupbot/service/CommandRouter.java:420-437 | commits are shown and kept in the session exactly when both GitHub credentials are set and the fetch returns a non-empty list, and then they are that list; otherwise nothing changes |
| CommandRouter.FetchIssues | src/main/java/com/devsync/standupbot/service/CommandRouter.java:439-461 | issues are shown and kept exactly when there are an account id, a token, a team with a Jira URL and a non-empty fetch for those values, and then they are that fetch; otherwise nothing changes |
| CommandRouter.StartStandup | src/main/java/com/devsync/standupbot/service/CommandRouter.java:399-469 | a registered user is asked about yesterday exactly when they have a team and no standup dated today; the directory never changes; refusals change nothing |
| CommandRouter.BlockersColumn | src/main/java/com/devsync/standupbot/service/CommandRouter.java:530 | the blockers column is null exactly for "none" in any case, and otherwise holds the answer |
| CommandRouter.SaveStandup | src/main/java/com/devsync/standupbot/service/CommandRouter.java:504-535 | a saved standup is appended as a new row for the sender, dated today, built from the collected answers, and nothing else in the directory changes |
| CommandRouter.CompletedStandup | src/main/java/com/devsync/standupbot/service/CommandRouter.java:525-533 | the saved row is the user's COMPLETED standup of today with both answers and the summary, and null blockers exactly for "none" in any case |
| CommandRouter.Advance | src/main/java/com/devsync/standupbot/service/CommandRouter.java:485-491 | a standup answer is stored under its key and the dialogue moves to the next state at step 0 |
| CommandRouter.FinishStandup | src/main/java/com/devsync/standupbot/service/CommandRouter.java:504-547 | the session is reset whether or not the standup is saved; success replies with the summary, and failure leaves the directory unchanged |
| CommandRouter.StandupFlow | src/main/java/com/devsync/standupbot/service/CommandRouter.java:474-499 | "cancel" ends the dialogue in any state; yesterday's work, then today's plan are stored and the next question asked; the blockers answer completes the standup |
| CommandRouter.VisibleCommands | src/main/java/com/devsync/standupbot/service/CommandRouter.java:573-587 | /create-team is listed exactly for organization admins, /add-user exactly for team leads with a team, standup and /status exactly for users with a team, and /help always |
| CommandRouter.HelpMessage | src/main/java/com/devsync/standupbot/service/CommandRouter.java:560-590 | unknown identities get the getting-started text; an ambiguous identity is a NonUniqueResult and a user without an organization a NullPointer; in a valid directory every other registered user gets help naming their organization and role and listing exactly the commands visible to them |
| CommandRouter.UserStatus | src/main/java/com/devsync/standupbot/service/CommandRouter.java:595-624 | unknown identities are refused; a user without an organization throws; in a valid directory a registered user with an organization sees their own stored name, e-mail, organization name, role, GitHub and Jira settings, and a team line with the team's name exactly when they have a team |
| RouterProperties.CommandTextExample | src/main/java/com/devsync/standupbot/service/CommandRouter.java:41-65 | concrete instance: "Help" between any whitespace selects the help command, because the text is trimmed and lower-cased first |
| RouterProperties.CommandTableExamples | src/main/java/com/devsync/standupbot/service/CommandRouter.java:49-65 | concrete instance: a slash command matches as a prefix ("/helpme" is help), while a bare word must be the whole message |
| RouterProperties.TrimAround | src/main/java/com/devsync/standupbot/service/CommandRouter.java:41 | trimming whitespace on both sides of trimmed text gives back that text |
| RouterProperties.AnswerNotCommand | src/main/java/com/devsync/standupbot/service/CommandRouter.java:44-46 | while a dialogue is open, the message is taken as an answer and never matched against the command table |
| RouterProperties.UnknownCommandChangesNothing | src/main/java/com/devsync/standupbot/service/CommandRouter.java:73-74 | with no command and no open dialogue, the reply is "didn't understand" and nothing changes |
| RouterProperties.RefusalChangesNothing | src/main/java/com/devsync/standupbot/service/CommandRouter.java:107-266 | a refusal leaves the directory and every session unchanged and opens no dialogue |
| RouterProperties.ChangedOkKeeps | src/main/java/com/devsync/standupbot/service/SessionManager.java:44-67 | a change confined to one session, into a reachable state, keeps every session reachable |
| RouterProperties.SweepKeepsReachable | src/main/java/com/devsync/standupbot/service/SessionManager.java:131-148 | the expiry sweep only removes sessions, so reachability is kept |
| RouterProperties.StartOutcome | src/main/java/com/devsync/standupbot/service/CommandRouter.java:48-74 | a start handler never changes the directory; it either refuses with nothing changed or opens its dialogue, and never gives a dead-end reply |
| RouterProperties.StartHandlerOutcome | src/main/java/com/devsync/standupbot/service/CommandRouter.java:107-469 | each of the six start handlers changes only the sender's session, into a reachable state, and never the directory |
| RouterProperties.OrganizationAnswer | src/main/java/com/devsync/standupbot/service/CommandRouter.java:123-167 | an answer in the organization dialogue is never refused, and from a reachable step it keeps the session reachable and gives a productive reply |
| RouterProperties.TeamAnswer | src/main/java/com/devsync/standupbot/service/CommandRouter.java:192-238 | the same for the team dialogue |
| RouterProperties.MemberAnswer | src/main/java/com/devsync/standupbot/service/CommandRouter.java:271-339 | the same for the add-user dialogue, through all seven steps |
| RouterProperties.StandupAnswer | src/main/java/com/devsync/standupbot/service/CommandRouter.java:474-499 | an answer in the standup dialogue keeps the session reachable and gives a productive reply |
| RouterProperties.AnswerNeverRefused | src/main/java/com/devsync/standupbot/service/CommandRouter.java:80-102 | no answer inside a dialogue is refused; from a reachable state the session stays reachable and the reply is productive |
| RouterProperties.RouteKeepsReachable | src/main/java/com/devsync/standupbot/service/CommandRouter.java:39-102 | every call keeps every session in a state the dialogues can reach |
| RouterProperties.NoDeadEndReplies | src/main/java/com/devsync/standupbot/service/CommandRouter.java:98-100 | from reachable sessions the "something went wrong", "session expired" and "to be implemented" replies never occur |
| RouterProperties.RowFound | src/main/java/com/devsync/standupbot/repository/UserRepository.java:18 | in a valid directory an identity carried by a row resolves to that row |
| RouterProperties.SaveGithubEffect | src/main/java/com/devsync/standupbot/service/CommandRouter.java:365-369 | the GitHub update changes only the new member's row, and only when both answers were given |
| RouterProperties.SaveJiraEffect | src/main/java/com/devsync/standupbot/service/CommandRouter.java:371-377 | the Jira update changes only the new member's row, and only when all three answers were given |
| RouterProperties.AddMemberStores | src/main/java/com/devsync/standupbot/service/CommandRouter.java:344-389 | a successful addition appends exactly one DEVELOPER with a temp_ identity and the collected name and e-mail; the GitHub pair is stored only when both answers were given and the Jira triple only when all three were |
| RouterProperties.AdminStatusAfterRegistration | src/main/java/com/devsync/standupbot/service/CommandRouter.java:595-624 | right after an organization is registered, `/status` for its creator shows the stored name and e-mail, the organization's name, the ORG_ADMIN role, no team line and no GitHub or Jira setting |
| RouterProperties.AdminHelpAfterRegistration | src/main/java/com/devsync/standupbot/service/CommandRouter.java:560-590 | right after an organization is registered, `/help` for its creator names the organization, shows ORG_ADMIN and lists only `/create-team` and `/help` |
| RouterProperties.RegisterAgainRefused | src/main/java/com/devsync/standupbot/service/CommandRouter.java:107-112 | `/register-org` right after registering an organization refuses the creator with that organization's name and changes nothing |
| RouterProperties.StandupCompletion | src/main/java/com/devsync/standupbot/service/CommandRouter.java:493-547 | the blockers answer resets the session; on success exactly one standup is appended, COMPLETED, dated today, for the sender, with the summary shown, and null blockers exactly for "none"; on failure nothing is saved |
| RouterProperties.SameDayStandupsAllowed | src/main/java/com/devsync/standupbot/model/Standup.java:16-34 | the standups table has no constraint against two standups of one user for the same day |
| RouterProperties.ListedCreateTeamIsUsable | src/main/java/com/devsync/standupbot/service/CommandRouter.java:575-577 | an identity shown /create-team in the help is let into the team dialogue |
| RouterProperties.ListedAddUserIsUsable | src/main/java/com/devsync/standupbot/service/CommandRouter.java:579-582 | a sender shown `/add-user` (any TEAM_LEAD with a team) enters the add-user dialogue, with the team id stored, exactly when that team names the sender as its lead |
| RouterProperties.CredentialUpdates | src/main/java/com/devsync/standupbot/service/CommandRouter.java:364-377 | the optional credential updates after registering a member keep the user count, the other rows and the member's identity, role, name and e-mail; GitHub fields are set only when both answers were given, Jira fields only when all three were |
| RouterProperties.HelpWord | src/main/java/com/devsync/standupbot/service/CommandRouter.java:65 | concrete instance: the bare word "help" selects the help command |
| WebhookV3.ParseUserContext | src/main/java/com/devsync/standupbot/controller/ZohoWebhookControllerV3.java:95-129 | a context is built exactly when the payload has a user object |
| WebhookV3.Sought | src/main/java/com/devsync/standupbot/controller/ZohoWebhookControllerV3.java:204-236 | the sender fields come whole from one place: the headers, or the actor, sender or from object |
| WebhookV3.TestUserId | src/main/java/com/devsync/standupbot/controller/ZohoWebhookControllerV3.java:270-282 | the fallback identity is always "test_user_" followed by a suffix |
| WebhookV3.ClientIp | src/main/java/com/devsync/standupbot/controller/ZohoWebhookControllerV3.java:250 | `x-real-ip` wins over `x-forwarded-for`, and "unknown" stands only when neither header is present or the chosen one says "unknown" |
| WebhookV3.NoAddressDefaultUser | src/main/java/com/devsync/standupbot/controller/ZohoWebhookControllerV3.java:250-282 | without either address header the fallback identity is always the default test user |
| WebhookV3.FromPayloadAndHeaders | src/main/java/com/devsync/standupbot/controller/ZohoWebhookControllerV3.java:195-265 | a non-empty id found in the headers or the payload names the sender, with placeholder name and e-mail when those are missing; otherwise the test user of the client address; the message is the message field and there is never a channel |
| WebhookV3.SpaceIsWs | src/main/java/com/devsync/standupbot/controller/ZohoWebhookControllerV3.java:157-160 | a message containing a space has a whitespace position to split at |
| WebhookV3.ParsePlainText | src/main/java/com/devsync/standupbot/controller/ZohoWebhookControllerV3.java:135-190 | the plain-text parser always names a sender and never a channel |
| WebhookV3.Identify | src/main/java/com/devsync/standupbot/controller/ZohoWebhookControllerV3.java:51-69 | a JSON user object with an id decides the sender; other JSON falls back to the headers and payload objects; text that is not JSON goes to the plain-text parser; a sender is always found |
| WebhookV3.HandleWebhook | src/main/java/com/devsync/standupbot/controller/ZohoWebhookControllerV3.java:43-90 | the "could not identify user" reply never occurs; the router's outcome is returned, and an exception escaping the router changes nothing |
| WebhookV3.ToContext | src/main/java/com/devsync/standupbot/controller/ZohoWebhookControllerV3.java:81 | the router receives the identified sender's id, name, e-mail, channel and message unchanged |
| WebhookV3.JsonUserNode | src/main/java/com/devsync/standupbot/controller/ZohoWebhookControllerV3.java:98-123 | with a user object carrying an id, the sender is that object's id, its name or "Unknown User", and its e-mail; the message is "message", or "text" when "message" is missing or empty |
| WebhookV3.IdPrecedence | src/main/java/com/devsync/standupbot/controller/ZohoWebhookControllerV3.java:205-236 | the id is the first one present among the two id headers and the actor, sender and from objects, in that order |
| WebhookV3.JsonAlwaysIdentifies | src/main/java/com/devsync/standupbot/controller/ZohoWebhookControllerV3.java:59-69 | a JSON payload always identifies the sender without the plain-text forms, and the identity is empty only when the user object carries an empty id |
| WebhookV3.TestIdFromFourthPart | src/main/java/com/devsync/standupbot/controller/ZohoWebhookControllerV3.java:274-276 | an address with four dot-separated parts gives the test user named by the fourth |
| WebhookV3.TrailingDotGivesDefault | src/main/java/com/devsync/standupbot/controller/ZohoWebhookControllerV3.java:274-281 | an address ending in a dot after three parts has only three pieces once trailing empty pieces are dropped, so it gives the default test user |
| WebhookV3.UnknownHasNoDot | src/main/java/com/devsync/standupbot/controller/ZohoWebhookControllerV3.java:250 | the address "unknown" has no dot to split at |
| WebhookV3.UnknownIpGivesDefault | src/main/java/com/devsync/standupbot/controller/ZohoWebhookControllerV3.java:272-281 | an unknown client address gives the default test user |
| WebhookV3.ColonPieces | src/main/java/com/devsync/standupbot/controller/ZohoWebhookControllerV3.java:142 | three colon-free parts, the last non-empty, give at least three pieces when split at colons |
| WebhookV3.TripleTokenSplits | src/main/java/com/devsync/standupbot/controller/ZohoWebhookControllerV3.java:144 | "id:name:email" splits back into exactly its three parts |
| WebhookV3.TripleTokenNoWs | src/main/java/com/devsync/standupbot/controller/ZohoWebhookControllerV3.java:143 | "id:name:email" has no whitespace when its parts have none |
| WebhookV3.TripleFormOf | src/main/java/com/devsync/standupbot/controller/ZohoWebhookControllerV3.java:142-153 | "id:name:email message" is read in the triple form as that sender with the rest as the message |
| WebhookV3.PlainTextTriple | src/main/java/com/devsync/standupbot/controller/ZohoWebhookControllerV3.java:139-153 | the plain-text parser maps "id:name:email message" to exactly that sender and message |
| WebhookV3.TestUserPieces | src/main/java/com/devsync/standupbot/controller/ZohoWebhookControllerV3.java:158-163 | "user:N message" splits once at whitespace into the token and the message, and the token splits into "user" and N |
| WebhookV3.TestUserFormOf | src/main/java/com/devsync/standupbot/controller/ZohoWebhookControllerV3.java:157-173 | "user:N message" is not read in the triple form but is read as test user N |
| WebhookV3.PlainTextTestUser | src/main/java/com/devsync/standupbot/controller/ZohoWebhookControllerV3.java:139-173 | the plain-text parser maps "user:N message" to test user N with that message |
| WebhookV3.BareUserForm | src/main/java/com/devsync/standupbot/controller/ZohoWebhookControllerV3.java:142-175 | "user: message" matches neither the triple form nor the test-user form |
| WebhookV3.BareUserPrefix | src/main/java/com/devsync/standupbot/controller/ZohoWebhookControllerV3.java:157-184 | "user:" with nothing before the space falls through to the default test user, whole text kept as the message |
| WebhookV3.PlainTextDefault | src/main/java/com/devsync/standupbot/controller/ZohoWebhookControllerV3.java:142-184 | text without a colon goes to the default test user, whole text kept as the message |
| WebhookV2.ExtractValue | src/main/java/com/devsync/standupbot/controller/ZohoWebhookControllerNew.java:470-479 | an absent key gives the default; any other value is a non-empty, whitespace-free token that does not contain the key |
| WebhookV2.ExtractTextAfter | src/main/java/com/devsync/standupbot/controller/ZohoWebhookControllerNew.java:481-493 | an absent key gives ""; the only failure is the index error; text read is trimmed and contains neither the key nor "email:" |
| WebhookV2.Classify | src/main/java/com/devsync/standupbot/controller/ZohoWebhookControllerNew.java:44-61 | the handler is the one whose substring test comes first among those that hold, and the welcome reply only when none holds |
| WebhookV2Properties.StandupAnswerRoutedAway | src/main/java/com/devsync/standupbot/controller/ZohoWebhookControllerNew.java:44-51 | a standup answer reaches the standup-input handler exactly when it mentions none of "create team", "register", "add user" and "start standup"; one mentioning "register" goes to registration or team creation |
| WebhookV2.Truncate | src/main/java/com/devsync/standupbot/controller/ZohoWebhookControllerNew.java:495-498 | null gives ""; text within the limit is kept whole; longer text is its first `n` characters followed by "..." |
| WebhookV2.CreateTeam | src/main/java/com/devsync/standupbot/controller/ZohoWebhookControllerNew.java:76-115 | the directory never changes: a taken name is reported, and a free name is refused by the database because the row names no organization or team lead |
| WebhookV2.TeamFor | src/main/java/com/devsync/standupbot/controller/ZohoWebhookControllerNew.java:145-159 | a team id that is read must name an existing team; otherwise the reply is "invalid team id" or "team not found" |
| WebhookV2.Register | src/main/java/com/devsync/standupbot/controller/ZohoWebhookControllerNew.java:119-181 | the directory changes exactly when a user is registered; missing name or e-mail, a used or ambiguous e-mail, an e-mail without `@` (an index error) and a bad team id are reported with nothing saved; otherwise registration succeeds exactly when the row with "zoho-" plus the local part as identity fits, and is then appended, and a row that does not fit is a constraint violation |
| WebhookV2.RegisterUser | src/main/java/com/devsync/standupbot/controller/ZohoWebhookControllerNew.java:119-181 | a message without name or e-mail, or with a used e-mail, is refused; with a fresh e-mail, a local part and a good team id the registration succeeds exactly when the row fits, and then appends one user with the name, e-mail and GitHub username read from the message |
| WebhookV2.CreateToday | src/main/java/com/devsync/standupbot/controller/ZohoWebhookControllerNew.java:213-227 | the creation succeeds exactly when the user id names a row, and otherwise is a constraint violation with nothing changed; a created standup is appended as a new IN_PROGRESS row of that user for today, found by user and date, and the session points to it at step 1 |
| WebhookV2.ResumeOrCreate | src/main/java/com/devsync/standupbot/controller/ZohoWebhookControllerNew.java:204-227 | an ambiguous standup lookup is a NonUniqueResult and a completed standup today is reported; an uncompleted one is resumed with the directory unchanged and a missing one created; the session then points to it at step 1 |
| WebhookV2.StartFor | src/main/java/com/devsync/standupbot/controller/ZohoWebhookControllerNew.java:195-227 | an unknown e-mail, an ambiguous one and a completed standup today are reported with nothing changed; a user without a standup today gets one created, and one with an uncompleted standup today resumes it with the directory unchanged; either way the session points to it at step 1 |
| WebhookV2.StartStandup | src/main/java/com/devsync/standupbot/controller/ZohoWebhookControllerNew.java:185-238 | a message without an e-mail is refused and an unknown e-mail reported; a known user without a completed standup today always starts, and a start opens the e-mail's session at step 1 on the user's standup of today; anything else changes nothing |
| WebhookV2.SaveAnswer | src/main/java/com/devsync/standupbot/controller/ZohoWebhookControllerNew.java:264-283 | an answer overwrites the session's standup row and sets the session's step when the row still fits the table; otherwise nothing changes |
| WebhookV2.CompletedRow | src/main/java/com/devsync/standupbot/controller/ZohoWebhookControllerNew.java:286-301 | the completed row has the blockers, COMPLETED status, the submission time and the summary (null included), and every other field as before |
| WebhookV2.Complete | src/main/java/com/devsync/standupbot/controller/ZohoWebhookControllerNew.java:285-307 | completing stores the completed row in place and ends the session, or changes nothing when the table refuses the row |
| WebhookV2.Summary | src/main/java/com/devsync/standupbot/controller/ZohoWebhookControllerNew.java:292-300 | the summary is the template of the row's three answers, or one provider's answer to the prompt built from them with no commits, issues or events; an unconfigured key gives the template |
| WebhookV2.SummaryFor | src/main/java/com/devsync/standupbot/controller/ZohoWebhookControllerNew.java:285-300 | the summary is generated from the row with the new blockers: the template of the three answers, or one provider's answer to their prompt; an unconfigured key gives the template |
| WebhookV2.Record | src/main/java/com/devsync/standupbot/controller/ZohoWebhookControllerNew.java:264-323 | errors and messages without any of the three keys change nothing; a message without any of the three keys gets no reply |
| WebhookV2.StandupInput | src/main/java/com/devsync/standupbot/controller/ZohoWebhookControllerNew.java:240-329 | a message without an e-mail, with no live session for its e-mail, or whose standup is gone, is refused with nothing changed; otherwise the answer is recorded |
| WebhookV2.Webhook | src/main/java/com/devsync/standupbot/controller/ZohoWebhookControllerNew.java:35-72 | the lower-cased payload goes to the first handler whose keyword it contains; only registering and the two standup handlers can change anything, so team creation never saves |
| WebhookV2Properties.ExtractValueReadsBetween | src/main/java/com/devsync/standupbot/controller/ZohoWebhookControllerNew.java:470-479 | the value after a key is the first token of the trimmed text between its first and second occurrence, or the default when that text is blank |
| WebhookV2Properties.ExtractValueDefaultIff | src/main/java/com/devsync/standupbot/controller/ZohoWebhookControllerNew.java:470-479 | the default is returned exactly when the key is absent, the text after it is blank, or the token read equals the default |
| WebhookV2Properties.ExtractTextAfterReadsBetween | src/main/java/com/devsync/standupbot/controller/ZohoWebhookControllerNew.java:481-493 | the text after a key is the trimmed text between the first and second key, cut before "email:"; it fails exactly when that text is nothing but "email:" markers |
| WebhookV2Properties.KeyAlone | src/main/java/com/devsync/standupbot/controller/ZohoWebhookControllerNew.java:486-487 | concrete instance: a key occurs in itself, and nothing but copies of it follow |
| WebhookV2Properties.TrimLeadingSpace | src/main/java/com/devsync/standupbot/controller/ZohoWebhookControllerNew.java:485 | concrete instance: a space before trimmed text is dropped by trimming |
| WebhookV2Properties.EmailOnlyAnswerFails | src/main/java/com/devsync/standupbot/controller/ZohoWebhookControllerNew.java:485-487 | an answer whose text is only an "email:" marker throws the index error |
| WebhookV2Properties.DanglingEmailFails | src/main/java/com/devsync/standupbot/controller/ZohoWebhookControllerNew.java:481-493 | a key followed only by " email:" throws |
| WebhookV2Properties.YesterdayDanglingEmail | src/main/java/com/devsync/standupbot/controller/ZohoWebhookControllerNew.java:264-265 | concrete instance: the answer "yesterday: email:" throws, and the handler replies with an error |
| WebhookV2Properties.RegisterTwice | src/main/java/com/devsync/standupbot/controller/ZohoWebhookControllerNew.java:133-136 | once an e-mail is registered, registering it again, under any name and team, is refused and saves nothing |
| WebhookV2Properties.RegisterSucceeds | src/main/java/com/devsync/standupbot/controller/ZohoWebhookControllerNew.java:119-181 | in a valid directory a fresh e-mail with a local part, a good team id, fitting values and an unused derived identity is always registered as the next user, and the e-mail then finds it |
| WebhookV2Properties.SameLocalPartCollides | src/main/java/com/devsync/standupbot/controller/ZohoWebhookControllerNew.java:141-161 | after one registration, another e-mail with the same local part cannot register: the derived identity is taken |
| WebhookV2Properties.StartTwiceResumes | src/main/java/com/devsync/standupbot/controller/ZohoWebhookControllerNew.java:204-227 | starting again on the same day after a start changes nothing and gives the same reply: the standup just opened is resumed |
| WebhookV2Properties.TeamForNumber | src/main/java/com/devsync/standupbot/controller/ZohoWebhookControllerNew.java:145-150 | the decimal text of an existing team's id resolves to that team |
| WebhookV2Properties.BlockersAnswerCompletes | src/main/java/com/devsync/standupbot/controller/ZohoWebhookControllerNew.java:285-307 | an answer carrying only the blockers key completes the session's standup with the summary of the row as the blockers leave it, whatever step the session is at |
| WebhookV2Properties.CompletionSucceeds | src/main/java/com/devsync/standupbot/controller/ZohoWebhookControllerNew.java:285-307 | completing a valid standup row succeeds: the row is COMPLETED with the summary and keeps its user and date, and the session ends |
| WebhookV2Properties.CompletedStaysFound | src/main/java/com/devsync/standupbot/controller/ZohoWebhookControllerNew.java:204-212 | after completion the lookup by user and date still finds the standup, so starting again that day is refused |
| WebhookV2Properties.StartedFacts | src/main/java/com/devsync/standupbot/controller/ZohoWebhookControllerNew.java:195-227 | after a start the directory is valid, the e-mail has a session pointing to an existing standup, and that standup is the user's standup of today |
| WebhookV2Properties.CompleteThenRestart | src/main/java/com/devsync/standupbot/controller/ZohoWebhookControllerNew.java:204-212 | completing an open standup of today, with any summary, ends its session and stores the summary, and starting again the same day is refused |
| WebhookV2Properties.StartThenComplete | src/main/java/com/devsync/standupbot/controller/ZohoWebhookControllerNew.java:185-307 | the standup flow end to end: after a start, completion stores the summary, ends the session, and a second start the same day gets "already completed" |
| WebhookV1.ValueOr | src/main/java/com/devsync/standupbot/controller/ZohoWebhookController.java:67-70 | an absent key gives the default; the only failure is the index error; a value read has no whitespace and does not contain the key |
| WebhookV1.CreateTeam | src/main/java/com/devsync/standupbot/controller/ZohoWebhookController.java:63-94 | no team is ever created: a taken name is reported, a free name is refused by the database because the row names no organization or team lead, and a failed read is caught as an error reply |
| WebhookV1.RegisterAs | src/main/java/com/devsync/standupbot/controller/ZohoWebhookController.java:110-121 | the directory changes exactly when a user is registered; a used e-mail is reported and an ambiguous one is a NonUniqueResult; a fresh e-mail whose row fits is always registered, appending that row with "zoho-" plus the name as identity |
| WebhookV1.Register | src/main/java/com/devsync/standupbot/controller/ZohoWebhookController.java:96-133 | a name or e-mail read that throws is caught as an error reply with nothing saved; otherwise the values read, or their defaults, are registered |
| WebhookV1.Classify | src/main/java/com/devsync/standupbot/controller/ZohoWebhookController.java:39-51 | the handler is the one whose substring test comes first among those that hold, and the welcome reply only when none holds |
| WebhookV1.Webhook | src/main/java/com/devsync/standupbot/controller/ZohoWebhookController.java:28-61 | the lower-cased payload goes to the first handler whose keyword it contains; only registration can change the directory, and the status reply reports the team and user counts |
| WebhookV1Properties.ValueOrReadsBetween | src/main/java/com/devsync/standupbot/controller/ZohoWebhookController.java:69 | a read fails exactly when nothing but copies of the key follow its first occurrence; otherwise it is the first token of the trimmed text between the first and second occurrence |
| WebhookV1Properties.StandupWordShadowed | src/main/java/com/devsync/standupbot/controller/ZohoWebhookController.java:39-44 | a message mentioning "standup" gets the standup instructions exactly when it mentions neither "create team" nor "register" or "add user" |
| WebhookV1Properties.NameAtEndFails | src/main/java/com/devsync/standupbot/controller/ZohoWebhookController.java:68-69 | "name:" at the very end of a message leaves no second piece, so the read throws |
| WebhookV1Properties.DanglingTeamNameCaught | src/main/java/com/devsync/standupbot/controller/ZohoWebhookController.java:63-93 | a team-creation message ending in "name:" gets the error reply and changes nothing |
| WebhookV1Properties.DanglingEmailCaught | src/main/java/com/devsync/standupbot/controller/ZohoWebhookController.java:96-132 | a registration message ending in "email:" gets the error reply and changes nothing |
| WebhookV1Properties.RegisterTwice | src/main/java/com/devsync/standupbot/controller/ZohoWebhookController.java:110-114 | once an e-mail is registered, registering it again under any name is refused and saves nothing |
| WebhookV1Properties.RegisterSucceeds | src/main/java/com/devsync/standupbot/controller/ZohoWebhookController.java:110-121 | in a valid directory a fresh e-mail with fitting values and an unused derived identity is always registered as the next user, and the e-mail then finds it |
| WebhookV1Properties.SameNameCollides | src/main/java/com/devsync/standupbot/controller/ZohoWebhookController.java:117-121 | after one registration, the same name under another e-mail cannot register: the derived identity is taken |
| UserSessions.Int32Succ | src/main/java/com/devsync/standupbot/service/SessionManager.java:57 | the step increment adds one on a Java `int`, and the largest value wraps to the smallest |
| SessionStore.SetStep | src/main/java/com/devsync/standupbot/service/CommandRouter.java:301 | jumping to a step sets only that session's step, creating the session first if absent, and leaves every other session alone |
| Entities.Find | src/main/java/com/devsync/standupbot/repository/UserRepository.java:18-21 | a single-result query that finds one row names a row of the table that matches the query |
| JavaString.Trim | src/main/java/com/devsync/standupbot/service/CommandRouter.java:41 | trimming keeps one contiguous slice of the text, with no character at or below U+0020 at either end, and drops only such characters |
| JavaString.Lower | src/main/java/com/devsync/standupbot/controller/ZohoWebhookControllerNew.java:40 | lower-casing keeps the length and maps each character on its own |
| JavaString.Split | src/main/java/com/devsync/standupbot/controller/ZohoWebhookControllerNew.java:472 | splitting at a literal key yields pieces none of which contains the key |
| JavaString.SplitJoin | src/main/java/com/devsync/standupbot/controller/ZohoWebhookControllerV3.java:144 | splitting text joined with a separator character, whose pieces lack it and whose last piece is non-empty, gives the pieces back |
| JavaString.SplitEmptyIff | src/main/java/com/devsync/standupbot/controller/ZohoWebhookControllerNew.java:487 | a split yields no pieces at all exactly when the text holds the key and is nothing but copies of it |
| JavaString.FirstToken | src/main/java/com/devsync/standupbot/controller/ZohoWebhookControllerNew.java:474 | the first piece of splitting trimmed text at whitespace is a whitespace-free prefix of it, empty only for empty text |
| JavaString.ParseLong | src/main/java/com/devsync/standupbot/controller/ZohoWebhookControllerNew.java:147 | text parses exactly when, after an optional `+` or `-`, it is one or more digits whose signed value lies within the 64-bit range, and then gives that signed value; anything else is a NumberFormatException |
| JavaString.ParseLongLeadingZero | src/main/java/com/devsync/standupbot/controller/ZohoWebhookControllerNew.java:147 | a leading zero does not change what a digit string parses to |
| JavaString.ParseLongOfRendering | src/main/java/com/devsync/standupbot/controller/ZohoWebhookControllerNew.java:147 | every 64-bit value is parsed back from its decimal text, with `-` for negatives and an optional `+` otherwise |
| JavaString.ParseLongOfNatToString | src/main/java/com/devsync/standupbot/controller/ZohoWebhookControllerNew.java:147 | parsing the decimal text of a number within range gives the number back |

## Left out

- HTTP and Spring plumbing: response wrapping, the other controllers, the exception handler and the application class have no logic of their own.
- JSON parsing: a JSON payload arrives already parsed, as a record of optional fields (`WebhookV3.Payload`); malformed JSON and Jackson's own behaviour are not modelled.
- Request headers are an exact-key map; HTTP's case-insensitive header names are not modelled.
- Network calls (GitHub, Jira, OpenAI, Gemini) are function parameters that either answer or fail; what they answer is not modelled, and the calendar service is left out.
- Clocks are parameters: the current instant is an integer count of nanoseconds and today's date is an integer. Persist-time timestamps take the instant passed in.
- Concurrency: the session map is one value and the scheduled sweep is a single atomic function.
- Logging is left out.
- Reply and summary texts are opaque constructors or fixed constants; their exact characters (including the mis-decoded bullet characters) are not verified.
- JavaString.ParseLong: accepts ASCII digits only; `Long.parseLong` also accepts other Unicode decimal digits (Arabic-Indic, fullwidth and the like), which the model rejects as a NumberFormatException, because the digit classes need a character database.
- JavaString.Lower: lower-cases ASCII letters only, because Unicode case mapping (the Kelvin sign, dotless i and similar) is out of reach without a character database; `equalsIgnoreCase` is modelled the same way.
- Strings are sequences of Unicode scalar values rather than UTF-16 code units, so lengths of text beyond the basic plane differ from Java's.
- The read-only report handlers of the chat webhook in `ZohoWebhookControllerNew.java` (history, statistics, status, help, welcome) are reduced to a `ReadOnly` reply: they change nothing, and their text is not modelled.
- The read-only accessors of the services (role, organization and team getters, list queries) are used through the directory lookups and have no members of their own.
- StandupService is not part of this model; the standup controller that calls it is plumbing.
- `UserRole.java` and `User.java` disagree with every service: the model uses the roles `ORG_ADMIN`, `TEAM_LEAD` and `DEVELOPER` and the user fields (organization, GitHub token, Jira e-mail and token) that the services and the router read and write.
- The catch blocks that no modelled exception reaches are left out: the AI service's outer catch and the outer catches of the two older webhooks, whose handlers catch their own failures.
- JPA query ordering and lazy loading are not modelled; a lookup that finds several rows is a `NonUniqueResult` failure.
- WebhookV2.TeamForNumber: holds only for team ids up to the largest `long`, since larger numbers are not `long` text at all.
- WebhookV2.StartStandup: states when a start happens and the session it opens, but not the standup row created or reused; `WebhookV2.StartFor` states that row.
- CommandRouter.AddMember: states only the reply of a successful addition; what is stored is stated by `RouterProperties.AddMemberStores` and `RouterProperties.CredentialUpdates`.
- WebhookV3.ParsePlainText: states only that a sender is always named; the three forms it recognises are stated by `WebhookV3.PlainTextTriple`, `WebhookV3.PlainTextTestUser` and `WebhookV3.PlainTextDefault`.
- Entities.Find: states only that a unique answer names a matching row; `Entities.FindSpec` states the full meaning.

## Findings

| source | as written | input that shows it | evidently intended | confidence | as-written member | corrected member |
|---|---|---|---|---|---|---|
| src/main/java/com/devsync/standupbot/service/UserIntegrationService.java:61 | an update copies `useTeamTokens` from the request even when the request leaves it null, and no update callback restores the default, so `getGithubToken` and `getJiraToken` then unbox a null flag and throw | an existing integration with the flag false, updated by a request without the flag, then a GitHub token lookup for that user | a missing flag behaves like the persist-time default (use the team token) and the token lookups never throw | not executed | IntegrationService.NullFlagAfterUpdateThrows | IntegrationService.GetGithubTokenNullSafe |

=== FILE: ai_service.dfy ===
/** Standup summaries (`service/AIService.java`): the choice of provider by
    API key, the prompt sent to a provider and the template summary used
    when no provider answers. The providers themselves are parameters: a
    call that throws or returns an unusable response is `None`, an answer
    whose text is null is `Some(None)`, and an answer with text `t` is
    `Some(Some(t))`. */
module AIService {
  import opened Wrappers
  import opened JavaString

  /** The bullet character exactly as the source file spells it (the UTF-8
      bytes of a bullet read back as three Mac Roman characters). */
  const Bullet: string := "\U{201A}\U{00C4}\U{00A2}"

  const NoInformation: string := Bullet + " _No information provided_\n"

  /** The headings of the template summary. */
  const SummaryHeader: string := "\U{F8FF}\U{00FC}\U{00EC}\U{00E3} **Daily Standup Summary**\n\n"
  const YesterdayHeading: string := "\U{201A}\U{00FA}\U{00D6} **Completed Yesterday:**\n"
  const TodayHeading: string := "\U{F8FF}\U{00FC}\U{00E9}\U{00D8} **Plan for Today:**\n"
  const BlockersHeading: string := "\U{201A}\U{00F6}\U{2020}\U{00D4}\U{220F}\U{00E8} **Blockers:**\n"
  const NoBlockersLine: string := "\U{201A}\U{00FA}\U{00AE} **No blockers reported**\n\n"
  const SimplifiedNote: string := "_Note: Using simplified summary (OpenAI not configured)_"

  /** The placeholder key shipped in the configuration. */
  const PlaceholderKey: string := "YOUR_OPENAI_API_KEY"
  /** Google API keys start with this prefix. */
  const GeminiKeyPrefix: string := "AIza"
  const DefaultModel: string := "gpt-4"

  // --------------------------------------------------------------- bullets

  /** Null, or nothing but characters `trim` removes. */
  predicate IsBlank(text: Option<string>) {
    text.None? || Trim(text.value) == []
  }

  /** Text that, once trimmed, already starts with a list marker. */
  predicate IsMarked(s: string) {
    StartsWith(Trim(s), Bullet) || StartsWith(Trim(s), "-") || StartsWith(Trim(s), "*")
  }

  /** `formatBulletPoint(text)`: one list entry ending in a newline; blank
      text becomes the "no information" entry, marked text is kept, any
      other text gets a bullet in front. */
  function FormatBulletPoint(text: Option<string>): (r: string)
    ensures EndsWith(r, "\n")
    ensures IsBlank(text) ==> r == NoInformation
    ensures !IsBlank(text) ==> EndsWith(r, text.value + "\n")
    ensures !IsBlank(text) && !IsMarked(text.value) ==> StartsWith(r, Bullet + " ")
  {
    if IsBlank(text) then
      ConcatEnds(Bullet, " _No information provided_", "\n");
      NoInformation
    else if IsMarked(text.value) then
      ConcatEnds(text.value, "\n", "");
      text.value + "\n"
    else
      ConcatEnds(Bullet + " ", text.value, "\n");
      SuffixOfThree(Bullet + " ", text.value, "\n");
      Bullet + " " + text.value + "\n"
  }

  /** Text led by the bullet is marked. */
  lemma BulletLedIsMarked(s: string, rest: string)
    requires s == Bullet + rest
    ensures IsMarked(s)
  {
    assert s[0..3] == Bullet;
    TrimHead(s, 0, Bullet);
  }

  /** A marker at the head of trimmed text stays there when a newline is
      appended. */
  lemma MarkerSurvivesNewline(t: string, m: string)
    requires |m| > 0 && !IsTrimmable(m[0]) && !IsTrimmable(m[|m| - 1])
    requires StartsWith(Trim(t), m)
    ensures StartsWith(Trim(t + "\n"), m)
  {
    var k := TrimOffset(t);
    var w := t + "\n";
    assert Trim(t)[..|m|] == t[k..k + |m|];
    assert w[k..k + |m|] == t[k..k + |m|];
    assert forall i :: 0 <= i < k ==> w[i] == t[i];
    TrimHead(w, k, m);
  }

  /** A newline after marked text keeps it marked. */
  lemma MarkedWithNewline(t: string)
    requires IsMarked(t)
    ensures IsMarked(t + "\n")
  {
    if StartsWith(Trim(t), Bullet) {
      MarkerSurvivesNewline(t, Bullet);
    } else if StartsWith(Trim(t), "-") {
      MarkerSurvivesNewline(t, "-");
    } else {
      MarkerSurvivesNewline(t, "*");
    }
  }

  /** Every entry is marked: after leading blanks it starts with the
      bullet, a dash or a star. */
  lemma FormattedIsMarked(text: Option<string>)
    ensures IsMarked(FormatBulletPoint(text))
  {
    EntryBodyIsMarked(text);
    var r := FormatBulletPoint(text);
    MarkedWithNewline(r[..|r| - 1]);
  }

  /** Marked text is kept as it is, with a newline added. */
  lemma FormatMarked(s: string)
    requires IsMarked(s)
    ensures FormatBulletPoint(Some(s)) == s + "\n"
  {
    assert Trim(s) != [];
  }

  /** A line without its final newline is the text it was made from. */
  lemma LineBody(body: string)
    ensures var r := body + "\n";
            |r| > 0 && r[..|r| - 1] == body && r == r[..|r| - 1] + "\n"
  {
    var r := body + "\n";
    assert r[..|r| - 1] == body;
  }

  /** The three kinds of entry, each without its final newline. */
  lemma BlankEntry(text: Option<string>)
    requires IsBlank(text)
    ensures FormatBulletPoint(text) == Bullet + " _No information provided_" + "\n"
  {
  }

  lemma MarkedEntry(text: Option<string>)
    requires !IsBlank(text) && IsMarked(text.value)
    ensures FormatBulletPoint(text) == text.value + "\n"
  {
  }

  lemma PlainEntry(text: Option<string>)
    requires !IsBlank(text) && !IsMarked(text.value)
    ensures FormatBulletPoint(text) == Bullet + (" " + text.value) + "\n"
  {
    assert Bullet + " " + text.value == Bullet + (" " + text.value);
  }

  /** An entry with its final newline removed is marked. */
  lemma EntryBodyIsMarked(text: Option<string>)
    ensures var r := FormatBulletPoint(text);
            |r| > 0 && r == r[..|r| - 1] + "\n" && IsMarked(r[..|r| - 1])
  {
    if IsBlank(text) {
      var body := Bullet + " _No information provided_";
      BlankEntry(text);
      LineBody(body);
      BulletLedIsMarked(body, " _No information provided_");
    } else if IsMarked(text.value) {
      MarkedEntry(text);
      LineBody(text.value);
    } else {
      var body := Bullet + (" " + text.value);
      PlainEntry(text);
      LineBody(body);
      BulletLedIsMarked(body, " " + text.value);
    }
  }

  /** Formatting is stable: an entry, without its final newline, formats to
      itself. */
  lemma FormatIdempotent(text: Option<string>)
    ensures var r := FormatBulletPoint(text);
            FormatBulletPoint(Some(r[..|r| - 1])) == r
  {
    EntryBodyIsMarked(text);
    var r := FormatBulletPoint(text);
    FormatMarked(r[..|r| - 1]);
  }

  // -------------------------------------------------------------- blockers

  /** The template reports blockers unless they are null, empty, or "none",
      "no blockers" or "no" in any case. */
  predicate ReportsBlockers(b: Option<string>) {
    b.Some? && b.value != [] && !EqualsIgnoreCase(b.value, "none")
    && !EqualsIgnoreCase(b.value, "no blockers") && !EqualsIgnoreCase(b.value, "no")
  }

  /** The provider prompts leave out blockers only when they are null,
      empty, "none" or "no blockers" in any case. */
  predicate PromptHasBlockers(b: Option<string>) {
    b.Some? && b.value != [] && !EqualsIgnoreCase(b.value, "none") && !EqualsIgnoreCase(b.value, "no blockers")
  }

  /** The two blocker filters differ on exactly one answer: "no", in any
      case, which the prompt keeps and the template drops. */
  lemma BlockerFiltersDifferOnNo(b: Option<string>)
    ensures ReportsBlockers(b) ==> PromptHasBlockers(b)
    ensures PromptHasBlockers(b) && !ReportsBlockers(b) <==> b.Some? && EqualsIgnoreCase(b.value, "no")
  {
    if b.Some? && EqualsIgnoreCase(b.value, "no") {
      assert |b.value| == 2;
      assert Lower("none") != Lower("no") && Lower("no blockers") != Lower("no");
    }
  }

  /** Both filters ignore letter case. */
  lemma {:induction false} BlockerFiltersIgnoreCase(s: string)
    ensures ReportsBlockers(Some(s)) <==> ReportsBlockers(Some(Lower(s)))
    ensures PromptHasBlockers(Some(s)) <==> PromptHasBlockers(Some(Lower(s)))
  {
    LowerIdempotent(s);
    assert |Lower(s)| == |s|;
  }

  // ------------------------------------------------------ template summary

  /** The blockers part of the template: a blockers section, or the
      "no blockers" line. */
  function BlockersPart(b: Option<string>): (r: string)
    ensures ReportsBlockers(b) ==> StartsWith(r, BlockersHeading) && EndsWith(r, FormatBulletPoint(b) + "\n")
    ensures !ReportsBlockers(b) ==> r == NoBlockersLine
  {
    if ReportsBlockers(b) then
      var tail := FormatBulletPoint(b) + "\n";
      ConcatEnds(BlockersHeading, tail, "");
      BlockersHeading + tail
    else NoBlockersLine
  }

  /** The header, the yesterday section and the today heading: the
      yesterday entry sits between the yesterday heading and the today
      heading. */
  function FallbackTop(yesterday: Option<string>): (r: string)
    ensures StartsWith(r, SummaryHeader + YesterdayHeading) && EndsWith(r, TodayHeading)
    ensures |SummaryHeader + YesterdayHeading| + |TodayHeading| <= |r|
    ensures r[|SummaryHeader + YesterdayHeading|..|r| - |TodayHeading|] == FormatBulletPoint(yesterday) + "\n"
  {
    var head := SummaryHeader + YesterdayHeading;
    var entry := FormatBulletPoint(yesterday) + "\n";
    MiddleOfThree(head, entry, TodayHeading);
    assert head + entry + TodayHeading == SummaryHeader + YesterdayHeading + FormatBulletPoint(yesterday) + "\n" + TodayHeading;
    SummaryHeader + YesterdayHeading + FormatBulletPoint(yesterday) + "\n" + TodayHeading
  }

  /** The blockers part and the closing note. */
  function FallbackBottom(blockers: Option<string>): string {
    BlockersPart(blockers) + SimplifiedNote
  }

  /** `generateFallbackSummary(yesterday, today, blockers)`. */
  function FallbackSummary(yesterday: Option<string>, today: Option<string>, blockers: Option<string>): (r: string)
    ensures StartsWith(r, FallbackTop(yesterday))
    ensures EndsWith(r, FallbackBottom(blockers))
    ensures |r| == |FallbackTop(yesterday)| + |FormatBulletPoint(today) + "\n"| + |FallbackBottom(blockers)|
    ensures r[|FallbackTop(yesterday)|..|r| - |FallbackBottom(blockers)|] == FormatBulletPoint(today) + "\n"
  {
    var top := FallbackTop(yesterday);
    var bottom := FallbackBottom(blockers);
    ConcatEnds(top, FormatBulletPoint(today) + "\n", bottom);
    MiddleOfThree(top, FormatBulletPoint(today) + "\n", bottom);
    top + (FormatBulletPoint(today) + "\n") + bottom
  }

  lemma TopStartsWithHeader(yesterday: Option<string>)
    ensures StartsWith(FallbackTop(yesterday), SummaryHeader + YesterdayHeading)
  {
    PrefixOfFour(SummaryHeader + YesterdayHeading, FormatBulletPoint(yesterday), "\n", TodayHeading);
  }

  lemma BottomEnds(blockers: Option<string>)
    ensures EndsWith(FallbackBottom(blockers), SimplifiedNote)
    ensures ReportsBlockers(blockers) ==>
              EndsWith(FallbackBottom(blockers), FormatBulletPoint(blockers) + "\n" + SimplifiedNote)
    ensures !ReportsBlockers(blockers) ==> FallbackBottom(blockers) == NoBlockersLine + SimplifiedNote
  {
    var part := BlockersPart(blockers);
    ConcatEnds(part, SimplifiedNote, "");
    if ReportsBlockers(blockers) {
      var e := FormatBulletPoint(blockers) + "\n";
      SuffixOfThree(BlockersHeading, e, SimplifiedNote);
    }
  }

  /** The two ends of the template: it opens with the header and the
      yesterday heading and closes with the note; it shows a blockers section
      exactly when the blockers are reported, and otherwise ends with the
      "no blockers" line and the note. `FallbackSections` places the entries
      in between. */
  lemma FallbackLayout(yesterday: Option<string>, today: Option<string>, blockers: Option<string>)
    ensures var r := FallbackSummary(yesterday, today, blockers);
            && StartsWith(r, SummaryHeader + YesterdayHeading)
            && EndsWith(r, SimplifiedNote)
            && (ReportsBlockers(blockers) ==>
                  EndsWith(r, FormatBulletPoint(blockers) + "\n" + SimplifiedNote))
            && (!ReportsBlockers(blockers) ==> EndsWith(r, NoBlockersLine + SimplifiedNote))
  {
    var r := FallbackSummary(yesterday, today, blockers);
    var bottom := FallbackBottom(blockers);
    TopStartsWithHeader(yesterday);
    StartsWithTrans(r, FallbackTop(yesterday), SummaryHeader + YesterdayHeading);
    BottomEnds(blockers);
    EndsWithTrans(r, bottom, SimplifiedNote);
    if ReportsBlockers(blockers) {
      EndsWithTrans(r, bottom, FormatBulletPoint(blockers) + "\n" + SimplifiedNote);
    }
  }

  /** The sections of the template in order: the yesterday entry between
      the yesterday and today headings, then today's entry, then the
      blockers part with the note. */
  lemma {:induction false} FallbackSections(yesterday: Option<string>, today: Option<string>, blockers: Option<string>)
    ensures var r := FallbackSummary(yesterday, today, blockers);
            var head := SummaryHeader + YesterdayHeading;
            var top := FallbackTop(yesterday);
            var entry := FormatBulletPoint(today) + "\n";
            && |head| + |TodayHeading| <= |top| && |top| + |entry| <= |r|
            && r[..|head|] == head
            && r[|head|..|top| - |TodayHeading|] == FormatBulletPoint(yesterday) + "\n"
            && r[|top| - |TodayHeading|..|top|] == TodayHeading
            && r[|top|..|top| + |entry|] == entry
            && r[|top| + |entry|..] == FallbackBottom(blockers)
  {
    var r := FallbackSummary(yesterday, today, blockers);
    var head := SummaryHeader + YesterdayHeading;
    var top := FallbackTop(yesterday);
    var entry := FormatBulletPoint(today) + "\n";
    StartsWithTrans(r, top, head);
    SliceOfPrefix(r, top, |head|, |top| - |TodayHeading|);
    SliceOfPrefix(r, top, |top| - |TodayHeading|, |top|);
    assert top[|top| - |TodayHeading|..|top|] == top[|top| - |TodayHeading|..];
  }

  /** Two templates for the same yesterday and blockers that differ only in
      the plan for today are equal exactly when the formatted today entries
      are: the plan is never dropped from the template. */
  lemma {:induction false} FallbackTodayDetermined(yesterday: Option<string>, today1: Option<string>,
                                                   today2: Option<string>, blockers: Option<string>)
    ensures FallbackSummary(yesterday, today1, blockers) == FallbackSummary(yesterday, today2, blockers)
            <==> FormatBulletPoint(today1) == FormatBulletPoint(today2)
  {
    var r1 := FallbackSummary(yesterday, today1, blockers);
    var r2 := FallbackSummary(yesterday, today2, blockers);
    if r1 == r2 {
      var e1 := FormatBulletPoint(today1) + "\n";
      var e2 := FormatBulletPoint(today2) + "\n";
      assert e1 == e2;
      assert FormatBulletPoint(today1) == e1[..|e1| - 1];
    }
  }

  // --------------------------------------------------------------- prompts

  /** What a provider is asked: the two answers, the blockers when the
      prompt keeps them, and the commit, issue and meeting lists (a null
      list and an empty one are both left out). The wording around them is
      not modelled. */
  datatype Prompt = Prompt(
    yesterday: Option<string>,
    today: Option<string>,
    blockers: Option<string>,
    commits: seq<string>,
    jiraTasks: seq<string>,
    calendarEvents: seq<string>)

  function BuildPrompt(yesterday: Option<string>, today: Option<string>, blockers: Option<string>,
                       commits: seq<string>, jiraTasks: seq<string>, calendarEvents: seq<string>): (p: Prompt)
    ensures p.blockers.Some? <==> PromptHasBlockers(blockers)
    ensures p.blockers.Some? ==> p.blockers == blockers
    ensures p.yesterday == yesterday && p.today == today
  {
    Prompt(yesterday, today, if PromptHasBlockers(blockers) then blockers else None, commits, jiraTasks, calendarEvents)
  }

  // -------------------------------------------------------------- dispatch

  /** A null, empty or placeholder key means "not configured". */
  predicate KeyConfigured(key: Option<string>) {
    key.Some? && key.value != [] && key.value != PlaceholderKey
  }

  /** The provider a key selects. */
  datatype Provider = Template | Gemini | OpenAi

  function ProviderFor(key: Option<string>): (p: Provider)
    ensures p == Template <==> !KeyConfigured(key)
    ensures p == Gemini <==> KeyConfigured(key) && StartsWith(key.value, GeminiKeyPrefix)
  {
    if !KeyConfigured(key) then Template
    else if StartsWith(key.value, GeminiKeyPrefix) then Gemini
    else OpenAi
  }

  /** `generateStandupSummary(..., apiKey, model)`. `gemini(prompt, key)`
      and `openAi(prompt, key, model)` are the remote calls; `None` is a
      call that threw or an unusable response, which falls back to the
      template, while a null text in an answer is returned as it is. The
      OpenAI model defaults to "gpt-4". */
  function GenerateSummary(yesterday: Option<string>, today: Option<string>, blockers: Option<string>,
                           commits: seq<string>, jiraTasks: seq<string>, calendarEvents: seq<string>,
                           key: Option<string>, model: Option<string>,
                           gemini: (Prompt, string) -> Option<Option<string>>,
                           openAi: (Prompt, string, string) -> Option<Option<string>>): (r: Option<string>)
    ensures var prompt := BuildPrompt(yesterday, today, blockers, commits, jiraTasks, calendarEvents);
            var fallback := Some(FallbackSummary(yesterday, today, blockers));
            && (ProviderFor(key) == Template ==> r == fallback)
            && (ProviderFor(key) == Gemini ==>
                  r == (if gemini(prompt, key.value).Some? then gemini(prompt, key.value).value else fallback))
            && (ProviderFor(key) == OpenAi ==>
                  var m := model.GetOr(DefaultModel);
                  r == (if openAi(prompt, key.value, m).Some? then openAi(prompt, key.value, m).value else fallback))
  {
    var prompt := BuildPrompt(yesterday, today, blockers, commits, jiraTasks, calendarEvents);
    var fallback := Some(FallbackSummary(yesterday, today, blockers));
    var provider := ProviderFor(key);
    if provider == Template then fallback
    else if provider == Gemini then
      (if gemini(prompt, key.value).Some? then gemini(prompt, key.value).value else fallback)
    else
      var m := model.GetOr(DefaultModel);
      if openAi(prompt, key.value, m).Some? then openAi(prompt, key.value, m).value else fallback
  }

  /** The summary is the provider's answer, or the template whenever the
      key is missing or the chosen provider fails; it is null only when the
      chosen provider answered with a null text. An unconfigured key never
      reaches a provider. */
  lemma SummaryIsAnswerOrTemplate(yesterday: Option<string>, today: Option<string>, blockers: Option<string>,
                                  commits: seq<string>, jiraTasks: seq<string>, calendarEvents: seq<string>,
                                  key: Option<string>, model: Option<string>,
                                  gemini: (Prompt, string) -> Option<Option<string>>,
                                  openAi: (Prompt, string, string) -> Option<Option<string>>)
    ensures var r := GenerateSummary(yesterday, today, blockers, commits, jiraTasks, calendarEvents, key, model,
                                     gemini, openAi);
            var prompt := BuildPrompt(yesterday, today, blockers, commits, jiraTasks, calendarEvents);
            r == Some(FallbackSummary(yesterday, today, blockers))
            || (KeyConfigured(key) && (gemini(prompt, key.value) == Some(r)
                                       || openAi(prompt, key.value, model.GetOr(DefaultModel)) == Some(r)))
    ensures var r := GenerateSummary(yesterday, today, blockers, commits, jiraTasks, calendarEvents, key, model,
                                     gemini, openAi);
            var prompt := BuildPrompt(yesterday, today, blockers, commits, jiraTasks, calendarEvents);
            r.None? <==> (ProviderFor(key) == Gemini && gemini(prompt, key.value) == Some(None))
                         || (ProviderFor(key) == OpenAi && openAi(prompt, key.value, model.GetOr(DefaultModel)) == Some(None))
    ensures !KeyConfigured(key) ==>
              GenerateSummary(yesterday, today, blockers, commits, jiraTasks, calendarEvents, key, model,
                              gemini, openAi) == Some(FallbackSummary(yesterday, today, blockers))
  {
  }

  /** The placeholder key and a Gemini key are told apart by the prefix
      alone: the placeholder selects the template, "AIza..." keys Gemini,
      other keys OpenAI. */
  lemma ProviderExamples()
    ensures ProviderFor(None) == Template && ProviderFor(Some("")) == Template
    ensures ProviderFor(Some(PlaceholderKey)) == Template
    ensures ProviderFor(Some("AIzaXYZ")) == Gemini && ProviderFor(Some("sk-abc")) == OpenAi
  {
    assert "AIzaXYZ"[..4] == GeminiKeyPrefix;
    assert "sk-abc"[0] != GeminiKeyPrefix[0];
  }
}

=== FILE: command_router.dfy ===
/** The chat conversation engine (`service/CommandRouter.java`): a state
    machine per chat identity. One call takes the directory, the session
    store, the sender's context and the outside world, and yields the new
    directory, the new store and a reply. The router itself is not
    transactional: each service call it makes commits on its own. */
module CommandRouter {
  import opened Wrappers
  import opened JavaString
  import opened UserSessions
  import opened SessionStore
  import opened Entities
  import opened Permissions
  import OrganizationService
  import TeamService
  import UserService
  import AIService

  /** The fields of `ZohoUserContext` the router reads. The identity and the
      message are never null by the time a context reaches the router. */
  datatype Context = Context(
    zohoUserId: string,
    name: Option<string>,
    email: Option<string>,
    channelId: Option<string>,
    message: string)

  /** What the rest of the world contributes to one call: the clock, today's
      date, `System.currentTimeMillis()`, the GitHub and Jira clients (`None`
      is a call that threw) and the configured AI key, model and providers. */
  datatype Env = Env(
    now: Entities.Instant,
    today: Date,
    millis: nat,
    fetchCommits: (string, string) -> Option<seq<string>>,
    fetchIssues: (string, string, Option<string>, string) -> Option<seq<string>>,
    apiKey: Option<string>,
    model: Option<string>,
    gemini: (AIService.Prompt, string) -> Option<Option<string>>,
    openAi: (AIService.Prompt, string, string) -> Option<Option<string>>)

  /** The entries of the command table, in the order they are tried. */
  datatype Command = RegisterOrgCmd | CreateTeamCmd | AddUserCmd | StandupCmd | HelpCmd | StatusCmd

  /** Why a start handler refused. */
  datatype Refusal =
    | AlreadyRegistered(organization: Option<string>)
    | RegisterFirst
    | OnlyAdmins
    | NoTeamToAddTo
    | OnlyManagers
    | NoTeamForStandup
    | AlreadySubmitted
    | NotRegistered

  /** The questions the dialogues ask. */
  datatype Question =
    | OrgName | Domain
    | TeamName | GithubOrg
    | Member | MemberEmail(mention: string) | GithubUsername | GithubToken | JiraEmail | JiraAccountId | JiraToken
    | Yesterday(commits: seq<string>, issues: seq<string>) | Today | Blockers

  /** The `/status` profile. `team` is `None` when no team line is shown and
      `Some(name)` otherwise, with the team's (nullable) name. */
  datatype Profile = Profile(
    name: Option<string>,
    email: Option<string>,
    organization: Option<string>,
    role: Option<Role>,
    team: Option<Option<string>>,
    github: Option<string>,
    jira: Option<string>)

  /** The replies, with the data they show; their wording is not modelled. */
  datatype Reply =
    | NotUnderstood
    | Refused(why: Refusal)
    | Ask(question: Question)
    | Aborted(flow: SessionState)
    | OrgCreated(orgName: Option<string>, domain: string)
    | TeamCreated(teamName: Option<string>, githubOrg: Option<string>)
    | UserAdded(name: Option<string>, email: Option<string>, team: Option<string>, github: Option<string>,
                jira: Option<string>)
    | StandupSubmitted(summary: Option<string>)
    | Failed(flow: SessionState, fault: Fault)
    | SomethingWentWrong(flow: SessionState)
    | SessionExpired
    | NotImplemented(flow: SessionState)
    | GettingStarted
    | Help(organization: Option<string>, role: Option<Role>, commands: seq<Command>)
    | Status(profile: Profile)

  datatype Outcome = Outcome(dir: Directory, sessions: Sessions, reply: Reply)

  // Session data keys.
  const OrgNameKey := "orgName"
  const TeamNameKey := "teamName"
  const TeamIdKey := "teamId"
  const NewUserNameKey := "newUserName"
  const NewUserEmailKey := "newUserEmail"
  const GithubUsernameKey := "githubUsername"
  const GithubTokenKey := "githubToken"
  const JiraEmailKey := "jiraEmail"
  const JiraAccountIdKey := "jiraAccountId"
  const JiraApiTokenKey := "jiraApiToken"
  const YesterdayKey := "yesterdayWork"
  const TodayKey := "todayPlan"
  const CommitsKey := "githubCommits"
  const IssuesKey := "jiraIssues"

  /** The prefix of the identities `createUserFromSession` invents. */
  const TempIdPrefix := "temp_"

  // ------------------------------------------------------------ helpers

  /** A session's answers after the router's `trim()`. */
  function Answer(ctx: Context): string {
    Trim(ctx.message)
  }

  predicate IsCancel(s: string) {
    EqualsIgnoreCase(s, "cancel")
  }

  predicate IsSkip(s: string) {
    EqualsIgnoreCase(s, "skip")
  }

  /** The checked cast `(String) value` of a stored answer. */
  function AsText(v: Option<Value>): (r: Result<Option<string>, Fault>)
    ensures r == Ok(None) <==> v.None?
    ensures r.Ok? && r.value.Some? <==> v.Some? && v.value.Text?
  {
    match v
    case None => Ok(None)
    case Some(Text(s)) => Ok(Some(s))
    case Some(_) => Err(ClassCast)
  }

  /** The checked cast `(Long) value`. */
  function AsId(v: Option<Value>): (r: Result<Option<int>, Fault>)
    ensures r.Ok? && r.value.Some? <==> v.Some? && v.value.Id?
  {
    match v
    case None => Ok(None)
    case Some(Id(n)) => Ok(Some(n))
    case Some(_) => Err(ClassCast)
  }

  /** The cast `(List<String>) value`, a null list replaced by an empty one. */
  function AsLines(v: Option<Value>): (r: Result<seq<string>, Fault>)
    ensures v.None? ==> r == Ok([])
    ensures v.Some? && v.value.Lines? ==> r == Ok(v.value.lines)
  {
    match v
    case None => Ok([])
    case Some(Lines(l)) => Ok(l)
    case Some(_) => Err(ClassCast)
  }

  /** `userService.getUserByZohoId(zid).get()`: the row and its id, or the
      exception of an empty `Optional` or of a query matching several rows. */
  function TheUser(d: Directory, zid: string): (r: Result<(Id, User), Fault>)
    ensures r.Ok? <==> UserByZohoId(d, zid).Unique?
    ensures r.Ok? ==> var (id, u) := r.value;
                      id == UserByZohoId(d, zid).id && 1 <= id <= |d.users| && u == d.users[id - 1]
                      && UserOf(d, zid) == Some(u)
  {
    match UserByZohoId(d, zid)
    case Unique(id) => FindSpec(d.users, (u: User) => HasZohoId(u, zid)); Ok((id, d.users[id - 1]))
    case Missing => Err(NotFound)
    case Ambiguous => Err(NonUniqueResult)
  }

  /** `user.getOrganization().getName()`: a user without an organization
      throws, and so does a reference to a row that is not there. */
  function OrgNameOf(d: Directory, u: User): (r: Result<Option<string>, Fault>)
    ensures u.organization.None? ==> r == Err(NullPointer)
    ensures r.Ok? <==> u.organization.Some? && 1 <= u.organization.value <= |d.orgs|
    ensures r.Ok? ==> r.value == d.orgs[u.organization.value - 1].name
  {
    match u.organization
    case None => Err(NullPointer)
    case Some(o) => if 1 <= o <= |d.orgs| then Ok(d.orgs[o - 1].name) else Err(NotFound)
  }

  /** The session of `id` is back to `Idle` at step 0 with an empty data map,
      and nobody else's session changed. */
  ghost predicate ResetIn(m: Sessions, m': Sessions, id: string) {
    id in m' && m'[id].state == Idle && m'[id].step == 0 && m'[id].data == Some(map[])
    && OthersUnchanged(m, m', id)
  }

  /** The session of `id` is in dialogue `st` at step `n`; nobody else's
      session changed. */
  ghost predicate MovedTo(m: Sessions, m': Sessions, id: string, st: SessionState, n: Int32) {
    id in m' && m'[id].state == st && m'[id].step == n && OthersUnchanged(m, m', id)
  }

  /** The answer stored under `key` in the session of `id`. */
  ghost function Stored(m: Sessions, id: string, key: string): Option<Value>
    requires id in m
  {
    UserSessions.GetData(m[id], key)
  }

  /** Every stored answer other than the one under `key` is as before. */
  ghost predicate OtherAnswersKept(m: Sessions, m': Sessions, id: string, key: string)
    requires id in m && id in m'
  {
    forall k :: k != key ==> Stored(m', id, k) == Stored(m, id, k)
  }

  // ------------------------------------------------------- command table

  /** The message that starts each command, as the table tests it on the
      trimmed, lower-cased text. */
  predicate Triggers(c: Command, msg: string) {
    match c
    case RegisterOrgCmd => StartsWith(msg, "/register-org") || msg == "register org" || msg == "register organization"
    case CreateTeamCmd => StartsWith(msg, "/create-team") || msg == "create team"
    case AddUserCmd => StartsWith(msg, "/add-user") || msg == "add user"
    case StandupCmd => StartsWith(msg, "/standup") || msg == "standup"
    case HelpCmd => StartsWith(msg, "/help") || msg == "help"
    case StatusCmd => StartsWith(msg, "/status") || msg == "status" || msg == "my status"
  }

  /** The position of a command in the table. */
  function Rank(c: Command): nat {
    match c
    case RegisterOrgCmd => 0
    case CreateTeamCmd => 1
    case AddUserCmd => 2
    case StandupCmd => 3
    case HelpCmd => 4
    case StatusCmd => 5
  }

  /** The first command of the table the message starts, if any. */
  function CommandFor(msg: string): (r: Option<Command>)
    ensures r.Some? ==> Triggers(r.value, msg) && forall c :: Rank(c) < Rank(r.value) ==> !Triggers(c, msg)
    ensures r.None? <==> forall c :: !Triggers(c, msg)
  {
    if Triggers(RegisterOrgCmd, msg) then Some(RegisterOrgCmd)
    else if Triggers(CreateTeamCmd, msg) then Some(CreateTeamCmd)
    else if Triggers(AddUserCmd, msg) then Some(AddUserCmd)
    else if Triggers(StandupCmd, msg) then Some(StandupCmd)
    else if Triggers(HelpCmd, msg) then Some(HelpCmd)
    else if Triggers(StatusCmd, msg) then Some(StatusCmd)
    else None
  }

  // ------------------------------------------------------------ routing

  /** `routeCommand(context)`. An active session takes the message as an
      answer; otherwise the command table picks a start handler. `Err` is an
      exception escaping the router; no store or directory change happens
      before any of them. */
  function Route(d: Directory, m: Sessions, ctx: Context, env: Env): (r: Result<Outcome, Fault>)
    ensures HasActiveSession(m, ctx.zohoUserId) ==> r == Ok(Continue(d, m, ctx, env))
    ensures !HasActiveSession(m, ctx.zohoUserId) && CommandFor(Lower(Trim(ctx.message))).None? ==>
              r == Ok(Outcome(d, m, NotUnderstood))
    ensures !HasActiveSession(m, ctx.zohoUserId) && CommandFor(Lower(Trim(ctx.message))).Some? ==>
              r == Start(d, m, ctx, env, CommandFor(Lower(Trim(ctx.message))).value)
  {
    var zid := ctx.zohoUserId;
    if HasActiveSession(m, zid) then Ok(Continue(d, m, ctx, env))
    else match CommandFor(Lower(Trim(ctx.message)))
      case None => Ok(Outcome(d, m, NotUnderstood))
      case Some(c) => Start(d, m, ctx, env, c)
  }

  /** The handler the command table names for `c`. */
  function Start(d: Directory, m: Sessions, ctx: Context, env: Env, c: Command): (r: Result<Outcome, Fault>)
    ensures r.Ok? ==> r.value.dir == d
    ensures r.Ok? && r.value.reply.Refused? ==> r.value.sessions == m
    ensures (c == HelpCmd || c == StatusCmd) && r.Ok? ==> r.value.sessions == m
    ensures c != HelpCmd && c != StatusCmd && !UserService.IsUserRegistered(d, ctx.zohoUserId) ==>
              r.Ok?
              && (c == RegisterOrgCmd ==> r.value.reply == Ask(OrgName))
              && (c != RegisterOrgCmd ==> r.value.sessions == m && r.value.reply == Refused(RegisterFirst))
  {
    match c
    case RegisterOrgCmd => StartOrganizationRegistration(d, m, ctx, env)
    case CreateTeamCmd => StartTeamCreation(d, m, ctx, env)
    case AddUserCmd => StartUserAddition(d, m, ctx, env)
    case StandupCmd => StartStandup(d, m, ctx, env)
    case HelpCmd =>
      var reply :- HelpMessage(d, ctx.zohoUserId);
      Ok(Outcome(d, m, reply))
    case StatusCmd =>
      var reply :- UserStatus(d, ctx.zohoUserId);
      Ok(Outcome(d, m, reply))
  }

  /** `handleSessionContinuation(context)`: the handler of the session's
      state; an `Idle` session is reset with the "session expired" reply. */
  function Continue(d: Directory, m: Sessions, ctx: Context, env: Env): (r: Outcome)
    requires ctx.zohoUserId in m
    ensures m[ctx.zohoUserId].state == RegisteringOrg ==> r == OrganizationFlow(d, m, ctx, env)
    ensures m[ctx.zohoUserId].state == CreatingTeam ==> r == TeamFlow(d, m, ctx, env)
    ensures m[ctx.zohoUserId].state == AddingUser ==> r == UserFlow(d, m, ctx, env)
    ensures m[ctx.zohoUserId].state in {StandupYesterday, StandupToday, StandupBlockers} ==>
              r == StandupFlow(d, m, ctx, env)
    ensures m[ctx.zohoUserId].state in {UpdatingGithub, UpdatingJira} ==>
              r.dir == d && r.sessions == m && r.reply == NotImplemented(m[ctx.zohoUserId].state)
    ensures m[ctx.zohoUserId].state == Idle ==>
              r.dir == d && r.reply == SessionExpired && ResetIn(m, r.sessions, ctx.zohoUserId)
  {
    var zid := ctx.zohoUserId;
    match m[zid].state
    case RegisteringOrg => OrganizationFlow(d, m, ctx, env)
    case CreatingTeam => TeamFlow(d, m, ctx, env)
    case AddingUser => UserFlow(d, m, ctx, env)
    case StandupYesterday => StandupFlow(d, m, ctx, env)
    case StandupToday => StandupFlow(d, m, ctx, env)
    case StandupBlockers => StandupFlow(d, m, ctx, env)
    case UpdatingGithub => Outcome(d, m, NotImplemented(UpdatingGithub))
    case UpdatingJira => Outcome(d, m, NotImplemented(UpdatingJira))
    case Idle => Outcome(d, ResetSession(m, zid, env.now), SessionExpired)
  }

  // ------------------------------------------------ organization dialogue

  /** `startOrganizationRegistration`: a registered identity is refused
      with its organization's name, and reading that name throws for a user
      without an organization; anybody else enters the dialogue. */
  function StartOrganizationRegistration(d: Directory, m: Sessions, ctx: Context, env: Env)
    : (r: Result<Outcome, Fault>)
    ensures UserService.IsUserRegistered(d, ctx.zohoUserId) ==>
              r.Ok? ==> r.value.dir == d && r.value.sessions == m && r.value.reply.Refused?
    ensures UserService.IsUserRegistered(d, ctx.zohoUserId) && UserByZohoId(d, ctx.zohoUserId).Ambiguous? ==>
              r == Err(NonUniqueResult)
    ensures UserOf(d, ctx.zohoUserId).Some? && UserOf(d, ctx.zohoUserId).value.organization.None? ==>
              r == Err(NullPointer)
    ensures Valid(d) && UserOf(d, ctx.zohoUserId).Some? && UserOf(d, ctx.zohoUserId).value.organization.Some? ==>
              var o := UserOf(d, ctx.zohoUserId).value.organization.value;
              1 <= o <= |d.orgs| && r == Ok(Outcome(d, m, Refused(AlreadyRegistered(d.orgs[o - 1].name))))
    ensures !UserService.IsUserRegistered(d, ctx.zohoUserId) ==>
              r.Ok? && r.value.dir == d && r.value.reply == Ask(OrgName)
              && MovedTo(m, r.value.sessions, ctx.zohoUserId, RegisteringOrg, 0)
  {
    var zid := ctx.zohoUserId;
    if UserService.IsUserRegistered(d, zid) then
      var (_, u) :- TheUser(d, zid);
      var name :- OrgNameOf(d, u);
      Ok(Outcome(d, m, Refused(AlreadyRegistered(name))))
    else Ok(Outcome(d, SetState(m, zid, RegisteringOrg, env.now), Ask(OrgName)))
  }

  /** The `registerOrganization` call of step 1, with the name stored at
      step 0 and the answer as the domain. */
  function RegisterFromSession(d: Directory, s: UserSession, ctx: Context, env: Env)
    : (r: Result<(Directory, Id), Fault>)
    ensures UserSessions.GetData(s, OrgNameKey).None? ==> r == Err(ConstraintViolation)
    ensures UserSessions.GetData(s, OrgNameKey).Some? && !UserSessions.GetData(s, OrgNameKey).value.Text? ==>
              r == Err(ClassCast)
    ensures r.Ok? ==>
              && UserSessions.GetData(s, OrgNameKey).Some? && UserSessions.GetData(s, OrgNameKey).value.Text?
              && var (d', orgId) := r.value;
              && orgId == |d.orgs| + 1 && |d'.orgs| == orgId
              && d'.orgs[orgId - 1].name == Some(UserSessions.GetData(s, OrgNameKey).value.text)
              && d'.orgs[orgId - 1].domain == Some(Answer(ctx))
              && |d'.users| == |d.users| + 1
              && d'.users[|d.users|].zohoUserId == Some(ctx.zohoUserId)
              && d'.users[|d.users|].name == ctx.name && d'.users[|d.users|].email == ctx.email
              && d'.users[|d.users|].organization == Some(orgId) && d'.users[|d.users|].role == Some(OrgAdmin)
  {
    var orgName :- AsText(UserSessions.GetData(s, OrgNameKey));
    if orgName.None? then Err(ConstraintViolation)
    else OrganizationService.RegisterOrganization(d, orgName.value, Some(Answer(ctx)), ctx.zohoUserId, ctx.name,
                                                  ctx.email, env.now)
  }

  /** `handleOrganizationRegistrationFlow`. Step 0 stores the answer as the
      name, whatever it is ("cancel" included); step 1 cancels or registers,
      and the session is reset in both outcomes of the registration. */
  function OrganizationFlow(d: Directory, m: Sessions, ctx: Context, env: Env): (r: Outcome)
    requires ctx.zohoUserId in m
    ensures m[ctx.zohoUserId].step == 0 ==>
              && r.dir == d && r.reply == Ask(Domain)
              && MovedTo(m, r.sessions, ctx.zohoUserId, m[ctx.zohoUserId].state, 1)
              && Stored(r.sessions, ctx.zohoUserId, OrgNameKey) == Some(Text(Answer(ctx)))
              && OtherAnswersKept(m, r.sessions, ctx.zohoUserId, OrgNameKey)
    ensures m[ctx.zohoUserId].step == 1 ==> ResetIn(m, r.sessions, ctx.zohoUserId)
    ensures m[ctx.zohoUserId].step == 1 && IsCancel(Answer(ctx)) ==>
              r.dir == d && r.reply == Aborted(RegisteringOrg)
    ensures m[ctx.zohoUserId].step == 1 && !IsCancel(Answer(ctx)) ==>
              match RegisterFromSession(d, m[ctx.zohoUserId], ctx, env)
              case Ok((d', _)) => r.dir == d' && r.reply.OrgCreated?
              case Err(f) => r.dir == d && r.reply == Failed(RegisteringOrg, f)
    ensures m[ctx.zohoUserId].step !in {0, 1} ==>
              r == Outcome(d, m, SomethingWentWrong(RegisteringOrg))
  {
    var zid := ctx.zohoUserId;
    var msg := Answer(ctx);
    var step := m[zid].step;
    if step == 0 then
      var m1 := SessionStore.PutData(m, zid, OrgNameKey, Text(msg), env.now);
      Outcome(d, NextStep(m1, zid, env.now), Ask(Domain))
    else if step == 1 then
      var m' := ResetSession(m, zid, env.now);
      if IsCancel(msg) then Outcome(d, m', Aborted(RegisteringOrg))
      else match RegisterFromSession(d, m[zid], ctx, env)
        case Ok((d', _)) =>
          var orgName := UserSessions.GetData(m[zid], OrgNameKey);
          Outcome(d', m', OrgCreated(if orgName.Some? && orgName.value.Text? then Some(orgName.value.text) else None, msg))
        case Err(f) => Outcome(d, m', Failed(RegisteringOrg, f))
    else Outcome(d, m, SomethingWentWrong(RegisteringOrg))
  }

  // -------------------------------------------------------- team dialogue

  /** `startTeamCreation`: only an admin of the identity's own organization
      enters the dialogue. */
  function StartTeamCreation(d: Directory, m: Sessions, ctx: Context, env: Env): (r: Result<Outcome, Fault>)
    ensures !UserService.IsUserRegistered(d, ctx.zohoUserId) ==> r == Ok(Outcome(d, m, Refused(RegisterFirst)))
    ensures r.Ok? && r.value.reply != Ask(TeamName) ==>
              r.value.dir == d && r.value.sessions == m && r.value.reply.Refused?
    ensures r.Ok? && r.value.reply == Ask(TeamName) ==>
              && r.value.dir == d && MovedTo(m, r.value.sessions, ctx.zohoUserId, CreatingTeam, 0)
              && UserOf(d, ctx.zohoUserId).Some? && UserOf(d, ctx.zohoUserId).value.organization.Some?
              && CanCreateTeam(d, ctx.zohoUserId, UserOf(d, ctx.zohoUserId).value.organization.value) == Ok(true)
  {
    var zid := ctx.zohoUserId;
    if !UserService.IsUserRegistered(d, zid) then Ok(Outcome(d, m, Refused(RegisterFirst)))
    else
      var (_, u) :- TheUser(d, zid);
      var org :- OrgIdOf(u);
      // the organization is known, so the permission check cannot throw
      var allowed := CanCreateTeam(d, zid, org).value;
      if !allowed then Ok(Outcome(d, m, Refused(OnlyAdmins)))
      else Ok(Outcome(d, SetState(m, zid, CreatingTeam, env.now), Ask(TeamName)))
  }

  /** The answer of step 1: "skip" in any case means no GitHub organization. */
  function GithubOrgAnswer(msg: string): (r: Option<string>)
    ensures r.None? <==> IsSkip(msg)
    ensures r.Some? ==> r.value == msg
  {
    if IsSkip(msg) then None else Some(msg)
  }

  /** The `createTeam` call of step 1. */
  function CreateFromSession(d: Directory, s: UserSession, ctx: Context, env: Env)
    : (r: Result<(Directory, Id), Fault>)
    ensures UserSessions.GetData(s, TeamNameKey).None? ==> r == Err(ConstraintViolation)
    ensures UserSessions.GetData(s, TeamNameKey).Some? && !UserSessions.GetData(s, TeamNameKey).value.Text? ==>
              r == Err(ClassCast)
    ensures r.Ok? ==>
              && UserSessions.GetData(s, TeamNameKey).Some? && UserSessions.GetData(s, TeamNameKey).value.Text?
              && UserOf(d, ctx.zohoUserId).Some? && UserOf(d, ctx.zohoUserId).value.organization.Some?
              && var (d', tid) := r.value;
              && tid == |d.teams| + 1 && |d'.teams| == tid
              && d'.teams[tid - 1].teamName == Some(UserSessions.GetData(s, TeamNameKey).value.text)
              && d'.teams[tid - 1].organization == UserOf(d, ctx.zohoUserId).value.organization
              && d'.teams[tid - 1].teamLeadZohoId == Some(ctx.zohoUserId)
              && d'.teams[tid - 1].githubOrganization == (if IsSkip(Answer(ctx)) then None else Some(Answer(ctx)))
              && d'.teams[tid - 1].zohoChannelId == ctx.channelId
  {
    var teamName :- AsText(UserSessions.GetData(s, TeamNameKey));
    if teamName.None? then Err(ConstraintViolation)
    else TeamService.CreateTeam(d, ctx.zohoUserId, teamName.value, GithubOrgAnswer(Answer(ctx)), ctx.channelId,
                                env.now)
  }

  /** `handleTeamCreationFlow`, shaped like the organization dialogue. */
  function TeamFlow(d: Directory, m: Sessions, ctx: Context, env: Env): (r: Outcome)
    requires ctx.zohoUserId in m
    ensures m[ctx.zohoUserId].step == 0 ==>
              && r.dir == d && r.reply == Ask(GithubOrg)
              && MovedTo(m, r.sessions, ctx.zohoUserId, m[ctx.zohoUserId].state, 1)
              && Stored(r.sessions, ctx.zohoUserId, TeamNameKey) == Some(Text(Answer(ctx)))
              && OtherAnswersKept(m, r.sessions, ctx.zohoUserId, TeamNameKey)
    ensures m[ctx.zohoUserId].step == 1 ==> ResetIn(m, r.sessions, ctx.zohoUserId)
    ensures m[ctx.zohoUserId].step == 1 && IsCancel(Answer(ctx)) ==>
              r.dir == d && r.reply == Aborted(CreatingTeam)
    ensures m[ctx.zohoUserId].step == 1 && !IsCancel(Answer(ctx)) ==>
              match CreateFromSession(d, m[ctx.zohoUserId], ctx, env)
              case Ok((d', _)) => r.dir == d' && r.reply.TeamCreated?
                                  && r.reply.githubOrg == GithubOrgAnswer(Answer(ctx))
              case Err(f) => r.dir == d && r.reply == Failed(CreatingTeam, f)
    ensures m[ctx.zohoUserId].step !in {0, 1} ==>
              r == Outcome(d, m, SomethingWentWrong(CreatingTeam))
  {
    var zid := ctx.zohoUserId;
    var msg := Answer(ctx);
    var step := m[zid].step;
    if step == 0 then
      var m1 := SessionStore.PutData(m, zid, TeamNameKey, Text(msg), env.now);
      Outcome(d, NextStep(m1, zid, env.now), Ask(GithubOrg))
    else if step == 1 then
      var m' := ResetSession(m, zid, env.now);
      if IsCancel(msg) then Outcome(d, m', Aborted(CreatingTeam))
      else match CreateFromSession(d, m[zid], ctx, env)
        case Ok((d', _)) =>
          var name := UserSessions.GetData(m[zid], TeamNameKey);
          Outcome(d', m', TeamCreated(if name.Some? && name.value.Text? then Some(name.value.text) else None,
                                      GithubOrgAnswer(msg)))
        case Err(f) => Outcome(d, m', Failed(CreatingTeam, f))
    else Outcome(d, m, SomethingWentWrong(CreatingTeam))
  }

  // ---------------------------------------------------- add-user dialogue

  /** The sessions after a manager enters the add-user dialogue for team
      `t`: ADDING_USER at step 0 with the team id stored. */
  function EnterAddition(m: Sessions, zid: string, t: Id, env: Env): (r: Sessions)
    ensures MovedTo(m, r, zid, AddingUser, 0)
    ensures Stored(r, zid, TeamIdKey) == Some(Value.Id(t))
  {
    SessionStore.PutData(SetState(m, zid, AddingUser, env.now), zid, TeamIdKey, Value.Id(t), env.now)
  }

  /** `startUserAddition`: a manager of the identity's own team enters the
      dialogue, with the team id stored in the session. */
  function StartUserAddition(d: Directory, m: Sessions, ctx: Context, env: Env): (r: Result<Outcome, Fault>)
    ensures !UserService.IsUserRegistered(d, ctx.zohoUserId) ==> r == Ok(Outcome(d, m, Refused(RegisterFirst)))
    ensures r.Ok? && r.value.reply != Ask(Member) ==>
              r.value.dir == d && r.value.sessions == m && r.value.reply.Refused?
    ensures UserService.IsUserRegistered(d, ctx.zohoUserId) && UserByZohoId(d, ctx.zohoUserId).Ambiguous? ==>
              r == Err(NonUniqueResult)
    ensures UserOf(d, ctx.zohoUserId).Some? && UserOf(d, ctx.zohoUserId).value.team.None? ==>
              r == Ok(Outcome(d, m, Refused(NoTeamToAddTo)))
    ensures UserOf(d, ctx.zohoUserId).Some? && UserOf(d, ctx.zohoUserId).value.team.Some? ==>
              var allowed := CanAddUserToTeam(d, ctx.zohoUserId, UserOf(d, ctx.zohoUserId).value.team.value);
              && (allowed.Err? ==> r == Err(allowed.error))
              && (allowed == Ok(false) ==> r == Ok(Outcome(d, m, Refused(OnlyManagers))))
              && (allowed == Ok(true) ==> r.Ok? && r.value.reply == Ask(Member))
    ensures r.Ok? && r.value.reply == Ask(Member) ==>
              && r.value.dir == d && MovedTo(m, r.value.sessions, ctx.zohoUserId, AddingUser, 0)
              && UserOf(d, ctx.zohoUserId).Some? && UserOf(d, ctx.zohoUserId).value.team.Some?
              && var t := UserOf(d, ctx.zohoUserId).value.team.value;
              && CanAddUserToTeam(d, ctx.zohoUserId, t) == Ok(true)
              && Stored(r.value.sessions, ctx.zohoUserId, TeamIdKey) == Some(Value.Id(t))
  {
    var zid := ctx.zohoUserId;
    if !UserService.IsUserRegistered(d, zid) then Ok(Outcome(d, m, Refused(RegisterFirst)))
    else
      var (_, u) :- TheUser(d, zid);
      if u.team.None? then Ok(Outcome(d, m, Refused(NoTeamToAddTo)))
      else
        var allowed :- CanAddUserToTeam(d, zid, u.team.value);
        if !allowed then Ok(Outcome(d, m, Refused(OnlyManagers)))
        else
          Ok(Outcome(d, EnterAddition(m, zid, u.team.value, env), Ask(Member)))
  }

  /** The identity `createUserFromSession` gives the new member. */
  function TempId(millis: nat): (r: string)
    ensures StartsWith(r, TempIdPrefix) && |r| > |TempIdPrefix|
  {
    TempIdPrefix + NatToString(millis)
  }

  /** A failure, together with the directory as the commits so far left it. */
  function Blame<T>(d: Directory, r: Result<T, Fault>): Result<T, (Directory, Fault)> {
    match r
    case Ok(v) => Ok(v)
    case Err(f) => Err((d, f))
  }

  /** The GitHub update of `createUserFromSession`: made only when both the
      username and the token were collected. */
  function SaveGithub(d: Directory, newZid: string, user: Option<string>, token: Option<string>, now: Entities.Instant)
    : (r: Result<Directory, Fault>)
    ensures user.None? || token.None? ==> r == Ok(d)
    ensures user.Some? && token.Some? ==> r == UserService.UpdateGitHubCredentials(d, newZid, user, token, now)
  {
    if user.Some? && token.Some? then UserService.UpdateGitHubCredentials(d, newZid, user, token, now) else Ok(d)
  }

  /** The Jira update of `createUserFromSession`: made only when the account
      id, the e-mail and the token were all collected. */
  function SaveJira(d: Directory, newZid: string, account: Option<string>, email: Option<string>,
                    token: Option<string>, now: Entities.Instant): (r: Result<Directory, Fault>)
    ensures account.None? || email.None? || token.None? ==> r == Ok(d)
    ensures account.Some? && email.Some? && token.Some? ==>
              r == UserService.UpdateJiraCredentials(d, newZid, account, email, token, now)
  {
    if account.Some? && email.Some? && token.Some? then
      UserService.UpdateJiraCredentials(d, newZid, account, email, token, now)
    else Ok(d)
  }

  /** The work inside the `try` of `createUserFromSession`. The user is
      registered in one transaction and each credential update commits on
      its own, so a later failure keeps what was committed before it. */
  function AddMember(d: Directory, s: UserSession, zid: string, env: Env)
    : (r: Result<(Directory, Reply), (Directory, Fault)>)
    ensures r.Ok? ==> r.value.1.UserAdded?
  {
    var teamId :- Blame(d, AsId(UserSessions.GetData(s, TeamIdKey)));
    if teamId.None? then Err((d, IllegalArgument))
    else if !(1 <= teamId.value <= |d.teams|) then Err((d, NotFound))
    else
      var tid: Id := teamId.value;
      var name :- Blame(d, AsText(UserSessions.GetData(s, NewUserNameKey)));
      var email :- Blame(d, AsText(UserSessions.GetData(s, NewUserEmailKey)));
      var newZid := TempId(env.millis);
      var (d1, _) :- Blame(d, UserService.RegisterUser(d, zid, tid, newZid, name, email, env.now));
      var ghUser :- Blame(d1, AsText(UserSessions.GetData(s, GithubUsernameKey)));
      var ghToken :- Blame(d1, AsText(UserSessions.GetData(s, GithubTokenKey)));
      var d2 :- Blame(d1, SaveGithub(d1, newZid, ghUser, ghToken, env.now));
      var account :- Blame(d2, AsText(UserSessions.GetData(s, JiraAccountIdKey)));
      var jiraEmail :- Blame(d2, AsText(UserSessions.GetData(s, JiraEmailKey)));
      var jiraToken :- Blame(d2, AsText(UserSessions.GetData(s, JiraApiTokenKey)));
      var d3 :- Blame(d2, SaveJira(d2, newZid, account, jiraEmail, jiraToken, env.now));
      Ok((d3, UserAdded(name, email, d.teams[tid - 1].teamName, ghUser, jiraEmail)))
  }

  /** `createUserFromSession`: the session is reset whatever happens. */
  function CreateUserFromSession(d: Directory, m: Sessions, ctx: Context, env: Env): (r: Outcome)
    requires ctx.zohoUserId in m
    ensures ResetIn(m, r.sessions, ctx.zohoUserId)
    ensures r.reply.UserAdded? || (r.reply.Failed? && r.reply.flow == AddingUser)
    ensures match AddMember(d, m[ctx.zohoUserId], ctx.zohoUserId, env)
            case Ok((d', reply)) => r.dir == d' && r.reply == reply && reply.UserAdded?
            case Err((d', f)) => r.dir == d' && r.reply == Failed(AddingUser, f)
  {
    var zid := ctx.zohoUserId;
    var m' := ResetSession(m, zid, env.now);
    match AddMember(d, m[zid], zid, env)
    case Ok((d', reply)) => Outcome(d', m', reply)
    case Err((d', f)) => Outcome(d', m', Failed(AddingUser, f))
  }

  /** Stores the answer under `key` and moves to the next step. */
  function Record(m: Sessions, id: string, key: string, msg: string, now: Entities.Instant): (r: Sessions)
    requires id in m
    ensures id in r && r[id].state == m[id].state && r[id].step == Int32Succ(m[id].step)
    ensures Stored(r, id, key) == Some(Text(msg)) && OtherAnswersKept(m, r, id, key)
    ensures OthersUnchanged(m, r, id)
  {
    NextStep(SessionStore.PutData(m, id, key, Text(msg), now), id, now)
  }

  /** Stores an optional answer ("skip" stores nothing) without moving on. */
  function KeepUnlessSkip(m: Sessions, id: string, key: string, msg: string, now: Entities.Instant): (r: Sessions)
    requires id in m
    ensures id in r && r[id].state == m[id].state && r[id].step == m[id].step
    ensures Stored(r, id, key) == (if IsSkip(msg) then Stored(m, id, key) else Some(Text(msg)))
    ensures OtherAnswersKept(m, r, id, key)
    ensures r == m[id := r[id]]
  {
    if IsSkip(msg) then m else SessionStore.PutData(m, id, key, Text(msg), now)
  }

  /** The member dialogue at steps 0 to 5 when the answer does not end it:
      the answer is stored (the name without '@'; a skipped GitHub token
      stores nothing) and the next question is asked, or a skipped GitHub
      username jumps over the token question. */
  function NextQuestion(m: Sessions, zid: string, msg: string, now: Entities.Instant): (r: (Sessions, Question))
    requires zid in m && 0 <= m[zid].step <= 5 && !(IsSkip(msg) && m[zid].step in {4, 5})
    ensures !(IsSkip(msg) && m[zid].step == 2) ==> MovedTo(m, r.0, zid, m[zid].state, m[zid].step + 1)
    ensures IsSkip(msg) && m[zid].step == 2 ==>
              && r.1 == JiraEmail && MovedTo(m, r.0, zid, m[zid].state, 4) && r.0[zid].data == m[zid].data
  {
    var step := m[zid].step;
    if step == 0 then (Record(m, zid, NewUserNameKey, RemoveChar(msg, '@'), now), MemberEmail(msg))
    else if step == 1 then (Record(m, zid, NewUserEmailKey, msg, now), GithubUsername)
    else if step == 2 then
      if !IsSkip(msg) then (Record(m, zid, GithubUsernameKey, msg, now), GithubToken)
      else (SetStep(m, zid, 4, now), JiraEmail)
    else if step == 3 then (NextStep(KeepUnlessSkip(m, zid, GithubTokenKey, msg, now), zid, now), JiraEmail)
    else if step == 4 then (Record(m, zid, JiraEmailKey, msg, now), JiraAccountId)
    else (Record(m, zid, JiraAccountIdKey, msg, now), JiraToken)
  }

  /** The member dialogue's last step, or a skip that ends it early: the
      last answer is kept unless skipped and the member is added. */
  function FinishMember(d: Directory, m: Sessions, ctx: Context, env: Env): (r: Outcome)
    requires ctx.zohoUserId in m
    ensures ResetIn(m, r.sessions, ctx.zohoUserId)
    ensures r.reply.UserAdded? || (r.reply.Failed? && r.reply.flow == AddingUser)
  {
    var zid := ctx.zohoUserId;
    if m[zid].step == 6 then
      var m' := KeepUnlessSkip(m, zid, JiraApiTokenKey, Answer(ctx), env.now);
      var r := CreateUserFromSession(d, m', ctx, env);
      SessionStore.OthersUnchangedTrans(m, m', r.sessions, zid);
      r
    else CreateUserFromSession(d, m, ctx, env)
  }

  /** `handleUserAdditionFlow`. "cancel" ends the dialogue at any step. The
      questions are name, e-mail, GitHub username, GitHub token, Jira
      e-mail, Jira account id and Jira token; "skip" of the GitHub username
      jumps over the token question, "skip" of the Jira e-mail or account id
      adds the member at once, and the answer to the last question always
      adds the member. */
  function UserFlow(d: Directory, m: Sessions, ctx: Context, env: Env): (r: Outcome)
    requires ctx.zohoUserId in m
    ensures IsCancel(Answer(ctx)) ==>
              r.dir == d && r.reply == Aborted(AddingUser) && ResetIn(m, r.sessions, ctx.zohoUserId)
    ensures !IsCancel(Answer(ctx)) && 0 <= m[ctx.zohoUserId].step <= 5
            && !(IsSkip(Answer(ctx)) && m[ctx.zohoUserId].step in {2, 4, 5}) ==>
              && r.dir == d && r.reply.Ask?
              && MovedTo(m, r.sessions, ctx.zohoUserId, m[ctx.zohoUserId].state, m[ctx.zohoUserId].step + 1)
    ensures !IsCancel(Answer(ctx)) && m[ctx.zohoUserId].step == 2 && IsSkip(Answer(ctx)) ==>
              && r.dir == d && r.reply == Ask(JiraEmail)
              && MovedTo(m, r.sessions, ctx.zohoUserId, m[ctx.zohoUserId].state, 4)
              && r.sessions[ctx.zohoUserId].data == m[ctx.zohoUserId].data
    ensures !IsCancel(Answer(ctx))
            && (m[ctx.zohoUserId].step == 6 || (m[ctx.zohoUserId].step in {4, 5} && IsSkip(Answer(ctx)))) ==>
              ResetIn(m, r.sessions, ctx.zohoUserId) && (r.reply.UserAdded? || (r.reply.Failed? && r.reply.flow == AddingUser))
    ensures !IsCancel(Answer(ctx)) && !(0 <= m[ctx.zohoUserId].step <= 6) ==>
              r == Outcome(d, m, SomethingWentWrong(AddingUser))
  {
    var zid := ctx.zohoUserId;
    var msg := Answer(ctx);
    var step := m[zid].step;
    if IsCancel(msg) then Outcome(d, ResetSession(m, zid, env.now), Aborted(AddingUser))
    else if 0 <= step <= 5 && !(IsSkip(msg) && step in {4, 5}) then
      var (m', q) := NextQuestion(m, zid, msg, env.now);
      Outcome(d, m', Ask(q))
    else if 4 <= step <= 6 then FinishMember(d, m, ctx, env)
    else Outcome(d, m, SomethingWentWrong(AddingUser))
  }

  // ------------------------------------------------------ standup dialogue

  /** The GitHub part of `startStandup`: the commits are fetched only with
      both credentials; a failed fetch is swallowed, and a non-empty list is
      shown and kept in the session. */
  function FetchCommits(m: Sessions, zid: string, u: User, env: Env): (r: (Sessions, seq<string>))
    ensures r.1 == [] ==> r.0 == m
    ensures r.1 != [] ==> && u.githubUsername.Some? && u.githubToken.Some?
                          && env.fetchCommits(u.githubUsername.value, u.githubToken.value) == Some(r.1)
                          && zid in r.0 && Stored(r.0, zid, CommitsKey) == Some(Lines(r.1))
                          && OthersUnchanged(m, r.0, zid)
    ensures u.githubUsername.Some? && u.githubToken.Some? ==>
              var fetched := env.fetchCommits(u.githubUsername.value, u.githubToken.value);
              fetched.Some? && fetched.value != [] ==> r.1 == fetched.value
  {
    if u.githubUsername.Some? && u.githubToken.Some? then
      match env.fetchCommits(u.githubUsername.value, u.githubToken.value)
      case Some(commits) =>
        if commits != [] then (SessionStore.PutData(m, zid, CommitsKey, Lines(commits), env.now), commits)
        else (m, [])
      case None => (m, [])
    else (m, [])
  }

  /** The Jira part of `startStandup`: fetched only with an account id, a
      token, a team and a team Jira URL; failures, including a team row that
      cannot be loaded, are swallowed. */
  function FetchIssues(d: Directory, m: Sessions, zid: string, u: User, env: Env): (r: (Sessions, seq<string>))
    ensures r.1 == [] ==> r.0 == m
    ensures r.1 != [] ==> && u.jiraAccountId.Some? && u.jiraApiToken.Some? && u.team.Some?
                          && 1 <= u.team.value <= |d.teams| && d.teams[u.team.value - 1].jiraApiUrl.Some?
                          && zid in r.0 && Stored(r.0, zid, IssuesKey) == Some(Lines(r.1))
                          && OthersUnchanged(m, r.0, zid)
    ensures r.1 != [] ==> env.fetchIssues(u.jiraAccountId.value, d.teams[u.team.value - 1].jiraApiUrl.value,
                                          u.jiraEmail, u.jiraApiToken.value) == Some(r.1)
    ensures && u.jiraAccountId.Some? && u.jiraApiToken.Some? && u.team.Some?
            && 1 <= u.team.value <= |d.teams| && d.teams[u.team.value - 1].jiraApiUrl.Some? ==>
              var fetched := env.fetchIssues(u.jiraAccountId.value, d.teams[u.team.value - 1].jiraApiUrl.value,
                                             u.jiraEmail, u.jiraApiToken.value);
              fetched.Some? && fetched.value != [] ==> r.1 == fetched.value
  {
    if u.jiraAccountId.Some? && u.jiraApiToken.Some? && u.team.Some? && 1 <= u.team.value <= |d.teams| then
      var url := d.teams[u.team.value - 1].jiraApiUrl;
      if url.None? then (m, [])
      else match env.fetchIssues(u.jiraAccountId.value, url.value, u.jiraEmail, u.jiraApiToken.value)
        case Some(issues) =>
          if issues != [] then (SessionStore.PutData(m, zid, IssuesKey, Lines(issues), env.now), issues)
          else (m, [])
        case None => (m, [])
    else (m, [])
  }

  /** `startStandup`: registered members of a team who have not submitted a
      standup dated today enter the dialogue, whatever the GitHub and Jira
      fetches do. */
  function StartStandup(d: Directory, m: Sessions, ctx: Context, env: Env): (r: Result<Outcome, Fault>)
    ensures !UserService.IsUserRegistered(d, ctx.zohoUserId) ==> r == Ok(Outcome(d, m, Refused(RegisterFirst)))
    ensures r.Ok? ==> r.value.dir == d
    ensures r.Ok? && !r.value.reply.Ask? ==> r.value.sessions == m && r.value.reply.Refused?
    ensures r.Ok? && r.value.reply.Ask? ==>
              && r.value.reply.question.Yesterday?
              && MovedTo(m, r.value.sessions, ctx.zohoUserId, StandupYesterday, 0)
              && UserOf(d, ctx.zohoUserId).Some? && UserOf(d, ctx.zohoUserId).value.team.Some?
              && !StandupExists(d, UserByZohoId(d, ctx.zohoUserId).id, env.today)
    ensures UserByZohoId(d, ctx.zohoUserId).Unique? ==>
              var uid := UserByZohoId(d, ctx.zohoUserId).id;
              r.Ok? && (r.value.reply.Ask? <==> d.users[uid - 1].team.Some? && !StandupExists(d, uid, env.today))
  {
    var zid := ctx.zohoUserId;
    if !UserService.IsUserRegistered(d, zid) then Ok(Outcome(d, m, Refused(RegisterFirst)))
    else
      var (uid, u) :- TheUser(d, zid);
      if u.team.None? then Ok(Outcome(d, m, Refused(NoTeamForStandup)))
      else if StandupExists(d, uid, env.today) then Ok(Outcome(d, m, Refused(AlreadySubmitted)))
      else
        var (m1, commits) := FetchCommits(m, zid, u, env);
        var (m2, issues) := FetchIssues(d, m1, zid, u, env);
        Ok(Outcome(d, SetState(m2, zid, StandupYesterday, env.now), Ask(Yesterday(commits, issues))))
  }

  /** The blockers column: null for "none" in any case. */
  function BlockersColumn(answer: string): (r: Option<string>)
    ensures r.None? <==> EqualsIgnoreCase(answer, "none")
    ensures r.Some? ==> r.value == answer
  {
    if EqualsIgnoreCase(answer, "none") then None else Some(answer)
  }

  /** The row `createStandupFromSession` saves. */
  function CompletedStandup(uid: Id, today: Date, yesterday: Option<string>, plan: Option<string>, blockers: string,
                            summary: Option<string>): (r: Standup)
    ensures r.user == Some(uid) && r.standupDate == Some(today) && r.status == Some(Completed)
    ensures r.yesterdayWork == yesterday && r.todayPlan == plan && r.aiSummary == summary
    ensures r.blockers.None? <==> EqualsIgnoreCase(blockers, "none")
    ensures r.blockers.Some? ==> r.blockers.value == blockers
    ensures r.githubCommits.None? && r.jiraTasks.None? && r.createdAt.None? && r.submittedAt.None?
  {
    NoStandup.(user := Some(uid), standupDate := Some(today), yesterdayWork := yesterday, todayPlan := plan,
               blockers := BlockersColumn(blockers), status := Some(Completed), aiSummary := summary)
  }

  /** The work inside the `try` of `createStandupFromSession`: the answers,
      the fetched lists and the AI summary go into a COMPLETED standup
      dated today. */
  function SaveStandup(d: Directory, s: UserSession, zid: string, blockers: string, env: Env)
    : (r: Result<(Directory, Option<string>), Fault>)
    ensures r.Ok? ==> && UserByZohoId(d, zid).Unique?
                      && var uid := UserByZohoId(d, zid).id;
                      && AsText(UserSessions.GetData(s, YesterdayKey)).Ok?
                      && AsText(UserSessions.GetData(s, TodayKey)).Ok?
                      && var (d', summary) := r.value;
                      && d'.standups == d.standups + [StandupOnCreate(CompletedStandup(uid, env.today,
                           AsText(UserSessions.GetData(s, YesterdayKey)).value,
                           AsText(UserSessions.GetData(s, TodayKey)).value, blockers, summary), env.now)]
                      && d'.(standups := d.standups) == d
  {
    var (uid, _) :- TheUser(d, zid);
    var yesterday :- AsText(UserSessions.GetData(s, YesterdayKey));
    var plan :- AsText(UserSessions.GetData(s, TodayKey));
    var commits :- AsLines(UserSessions.GetData(s, CommitsKey));
    var issues :- AsLines(UserSessions.GetData(s, IssuesKey));
    var summary := AIService.GenerateSummary(yesterday, plan, Some(blockers), commits, issues, [], env.apiKey,
                                             env.model, env.gemini, env.openAi);
    var (d', _) :- InsertStandup(d, CompletedStandup(uid, env.today, yesterday, plan, blockers, summary), env.now);
    Ok((d', summary))
  }

  /** Stores a standup answer under `key` and moves the dialogue to `next`. */
  function Advance(m: Sessions, zid: string, key: string, msg: string, next: SessionState, now: Entities.Instant)
    : (r: Sessions)
    requires zid in m
    ensures MovedTo(m, r, zid, next, 0) && Stored(r, zid, key) == Some(Text(msg))
  {
    SetState(SessionStore.PutData(m, zid, key, Text(msg), now), zid, next, now)
  }

  /** `createStandupFromSession`: the session is reset whether or not the
      standup is saved, and a failure leaves the directory as it was. */
  function FinishStandup(d: Directory, m: Sessions, zid: string, blockers: string, env: Env): (r: Outcome)
    requires zid in m
    ensures ResetIn(m, r.sessions, zid)
    ensures r.reply.StandupSubmitted? || (r.reply.Failed? && r.reply.flow == StandupBlockers && r.dir == d)
    ensures match SaveStandup(d, m[zid], zid, blockers, env)
            case Ok((d', summary)) => r.dir == d' && r.reply == StandupSubmitted(summary)
            case Err(f) => r.dir == d && r.reply == Failed(StandupBlockers, f)
  {
    var m' := ResetSession(m, zid, env.now);
    match SaveStandup(d, m[zid], zid, blockers, env)
    case Ok((d', summary)) => Outcome(d', m', StandupSubmitted(summary))
    case Err(f) => Outcome(d, m', Failed(StandupBlockers, f))
  }

  /** `handleStandupFlow`. "cancel" ends the dialogue in any of its states;
      otherwise yesterday's work, today's plan and the blockers are
      collected in that order, the last answer completing the standup. */
  function StandupFlow(d: Directory, m: Sessions, ctx: Context, env: Env): (r: Outcome)
    requires ctx.zohoUserId in m
    ensures IsCancel(Answer(ctx)) ==>
              r.dir == d && r.reply == Aborted(m[ctx.zohoUserId].state) && ResetIn(m, r.sessions, ctx.zohoUserId)
    ensures !IsCancel(Answer(ctx)) && m[ctx.zohoUserId].state == StandupYesterday ==>
              && r.dir == d && r.reply == Ask(Today)
              && MovedTo(m, r.sessions, ctx.zohoUserId, StandupToday, 0)
              && Stored(r.sessions, ctx.zohoUserId, YesterdayKey) == Some(Text(Answer(ctx)))
    ensures !IsCancel(Answer(ctx)) && m[ctx.zohoUserId].state == StandupToday ==>
              && r.dir == d && r.reply == Ask(Blockers)
              && MovedTo(m, r.sessions, ctx.zohoUserId, StandupBlockers, 0)
              && Stored(r.sessions, ctx.zohoUserId, TodayKey) == Some(Text(Answer(ctx)))
    ensures !IsCancel(Answer(ctx)) && m[ctx.zohoUserId].state == StandupBlockers ==>
              r == FinishStandup(d, m, ctx.zohoUserId, Answer(ctx), env)
  {
    var zid := ctx.zohoUserId;
    var msg := Answer(ctx);
    var state := m[zid].state;
    if IsCancel(msg) then Outcome(d, ResetSession(m, zid, env.now), Aborted(state))
    else if state == StandupYesterday then Outcome(d, Advance(m, zid, YesterdayKey, msg, StandupToday, env.now), Ask(Today))
    else if state == StandupToday then Outcome(d, Advance(m, zid, TodayKey, msg, StandupBlockers, env.now), Ask(Blockers))
    else if state == StandupBlockers then FinishStandup(d, m, zid, msg, env)
    else Outcome(d, m, SomethingWentWrong(state))
  }

  // -------------------------------------------------------- help, status

  /** The commands `getHelpMessage` lists for a registered user. */
  function VisibleCommands(d: Directory, zid: string, u: User): (r: seq<Command>)
    ensures CreateTeamCmd in r <==> IsOrgAdmin(d, zid)
    ensures AddUserCmd in r <==> u.team.Some? && IsTeamLead(d, zid)
    ensures StandupCmd in r <==> u.team.Some?
    ensures StatusCmd in r <==> u.team.Some?
    ensures HelpCmd in r && RegisterOrgCmd !in r
  {
    (if IsOrgAdmin(d, zid) then [CreateTeamCmd] else [])
    + (if u.team.Some? then (if IsTeamLead(d, zid) then [AddUserCmd] else []) + [StandupCmd, StatusCmd] else [])
    + [HelpCmd]
  }

  /** `getHelpMessage`: getting-started text for unknown identities;
      otherwise the organization, the role and the commands the role and
      the team membership make available. */
  function HelpMessage(d: Directory, zid: string): (r: Result<Reply, Fault>)
    ensures !UserService.IsUserRegistered(d, zid) ==> r == Ok(GettingStarted)
    ensures r.Ok? ==> r.value == GettingStarted || r.value.Help?
    ensures UserService.IsUserRegistered(d, zid) && UserByZohoId(d, zid).Ambiguous? ==> r == Err(NonUniqueResult)
    ensures UserOf(d, zid).Some? && UserOf(d, zid).value.organization.None? ==> r == Err(NullPointer)
    ensures Valid(d) && UserOf(d, zid).Some? && UserOf(d, zid).value.organization.Some? ==> r.Ok? && r.value.Help?
    ensures r.Ok? && r.value.Help? ==>
              && UserOf(d, zid).Some?
              && var u := UserOf(d, zid).value;
              && r.value.commands == VisibleCommands(d, zid, u)
              && r.value.role == u.role
              && u.organization.Some? && 1 <= u.organization.value <= |d.orgs|
              && r.value.organization == d.orgs[u.organization.value - 1].name
  {
    if !UserService.IsUserRegistered(d, zid) then Ok(GettingStarted)
    else
      var (_, u) :- TheUser(d, zid);
      var org :- OrgNameOf(d, u);
      Ok(Help(org, u.role, VisibleCommands(d, zid, u)))
  }

  /** `getUserStatus`: the stored profile of a registered identity. */
  function UserStatus(d: Directory, zid: string): (r: Result<Reply, Fault>)
    ensures !UserService.IsUserRegistered(d, zid) ==> r == Ok(Refused(NotRegistered))
    ensures r.Ok? ==> r.value == Refused(NotRegistered) || r.value.Status?
    ensures UserService.IsUserRegistered(d, zid) && UserByZohoId(d, zid).Ambiguous? ==> r == Err(NonUniqueResult)
    ensures UserOf(d, zid).Some? && UserOf(d, zid).value.organization.None? ==> r == Err(NullPointer)
    ensures Valid(d) && UserOf(d, zid).Some? && UserOf(d, zid).value.organization.Some? ==> r.Ok? && r.value.Status?
    ensures r.Ok? && r.value.Status? ==>
              && UserOf(d, zid).Some?
              && var u := UserOf(d, zid).value;
              && var p := r.value.profile;
              && p.name == u.name && p.email == u.email && p.role == u.role
              && p.github == u.githubUsername && p.jira == u.jiraEmail
              && u.organization.Some? && 1 <= u.organization.value <= |d.orgs|
              && p.organization == d.orgs[u.organization.value - 1].name
              && (p.team.Some? <==> u.team.Some?)
              && (u.team.Some? ==> 1 <= u.team.value <= |d.teams| && p.team == Some(d.teams[u.team.value - 1].teamName))
  {
    if !UserService.IsUserRegistered(d, zid) then Ok(Refused(NotRegistered))
    else
      var (_, u) :- TheUser(d, zid);
      var org :- OrgNameOf(d, u);
      var team :- match u.team
                  case None => Ok(None)
                  case Some(t) => if 1 <= t <= |d.teams| then Ok(Some(d.teams[t - 1].teamName)) else Err(NotFound);
      Ok(Status(Profile(u.name, u.email, org, u.role, team, u.githubUsername, u.jiraEmail)))
  }
}

=== FILE: entities.dfy ===
/** The persistent entities (the `model` package) and the relational store that
    holds them. Tables are sequences whose generated identity id is the
    position plus one; rows are never deleted by the modelled operations.
    A save runs the entity's `@PrePersist`/`@PreUpdate` callback and then
    the column constraints: NOT NULL, lengths (255 where a string column
    declares none), foreign keys and UNIQUE keys. Every nullable column is
    an `Option`. */
module Entities {
  import opened Wrappers

  type Id = nat
  /** `LocalDate`, as a day number. */
  type Date = int
  /** `LocalDateTime`, as nanoseconds. */
  type Instant = int

  /** The roles every service uses (`ORG_ADMIN`, `TEAM_LEAD`, `DEVELOPER`). */
  datatype Role = OrgAdmin | TeamLead | Developer

  /** `Standup.StandupStatus`: exactly three values. */
  datatype StandupStatus = InProgress | Completed | Cancelled

  /** The exceptions the services and the persistence layer throw. */
  datatype Fault =
    | NotFound            // `orElseThrow`, "... not found"
    | Forbidden           // a permission check refused
    | Duplicate           // "... already exists" / "already registered"
    | ConstraintViolation // the database refused the row
    | NullPointer         // a null reference was dereferenced
    | NonUniqueResult     // a single-result query matched several rows
    | NumberFormat        // `Long.parseLong` refused its argument
    | IndexOutOfBounds    // an array index past the end
    | ClassCast           // a session value of another type than expected
    | IllegalArgument     // a repository given a null id

  datatype Organization = Organization(
    name: Option<string>,
    domain: Option<string>,
    createdByZohoId: Option<string>,
    createdByName: Option<string>,
    active: Option<bool>,
    createdAt: Option<Instant>,
    updatedAt: Option<Instant>)

  datatype Team = Team(
    organization: Option<Id>,
    teamName: Option<string>,
    teamLeadZohoId: Option<string>,
    zohoChannelId: Option<string>,
    zohoWebhookUrl: Option<string>,
    jiraApiUrl: Option<string>,
    jiraEmail: Option<string>,
    jiraApiToken: Option<string>,
    githubOrganization: Option<string>,
    githubToken: Option<string>,
    openaiApiKey: Option<string>,
    openaiModel: Option<string>,
    calendarEnabled: Option<bool>,
    reminderEnabled: Option<bool>,
    reminderTime: Option<string>,
    timezone: Option<string>,
    active: Option<bool>,
    createdAt: Option<Instant>,
    updatedAt: Option<Instant>)

  /** A user as the services use it: organization, role and the personal
      GitHub and Jira credentials included. */
  datatype User = User(
    email: Option<string>,
    name: Option<string>,
    zohoUserId: Option<string>,
    organization: Option<Id>,
    team: Option<Id>,
    githubUsername: Option<string>,
    githubToken: Option<string>,
    jiraAccountId: Option<string>,
    jiraEmail: Option<string>,
    jiraApiToken: Option<string>,
    role: Option<Role>,
    createdAt: Option<Instant>,
    updatedAt: Option<Instant>)

  datatype Standup = Standup(
    user: Option<Id>,
    standupDate: Option<Date>,
    yesterdayWork: Option<string>,
    todayPlan: Option<string>,
    blockers: Option<string>,
    status: Option<StandupStatus>,
    aiSummary: Option<string>,
    githubCommits: Option<string>,
    jiraTasks: Option<string>,
    calendarEvents: Option<string>,
    currentStep: Option<int>,
    createdAt: Option<Instant>,
    updatedAt: Option<Instant>,
    submittedAt: Option<Instant>)

  datatype UserIntegration = UserIntegration(
    user: Option<Id>,
    team: Option<Id>,
    githubUsername: Option<string>,
    githubPersonalToken: Option<string>,
    jiraAccountId: Option<string>,
    jiraPersonalToken: Option<string>,
    useTeamTokens: Option<bool>,
    createdAt: Option<Instant>,
    updatedAt: Option<Instant>)

  /** Rows as the builders and no-argument constructors make them: every
      field null. */
  const NoOrganization := Organization(None, None, None, None, None, None, None)
  const NoTeam := Team(None, None, None, None, None, None, None, None, None, None, None, None,
                       None, None, None, None, None, None, None)
  const NoUser := User(None, None, None, None, None, None, None, None, None, None, None, None, None)
  const NoStandup := Standup(None, None, None, None, None, None, None, None, None, None, None,
                             None, None, None)
  const NoIntegration := UserIntegration(None, None, None, None, None, None, None, None, None)

  datatype Directory = Directory(
    orgs: seq<Organization>,
    teams: seq<Team>,
    users: seq<User>,
    standups: seq<Standup>,
    integrations: seq<UserIntegration>)

  const EmptyDirectory := Directory([], [], [], [], [])

  // ------------------------------------------------------ persist callbacks

  /** `Organization.onCreate`: both stamps, and `active` defaults to true. */
  function OrgOnCreate(o: Organization, now: Instant): (r: Organization)
    ensures r.active == (if o.active.None? then Some(true) else o.active)
    ensures r.createdAt == Some(now) && r.updatedAt == Some(now)
    ensures r.(active := o.active, createdAt := o.createdAt, updatedAt := o.updatedAt) == o
  {
    o.(createdAt := Some(now), updatedAt := Some(now), active := Some(o.active.GetOr(true)))
  }

  /** `Team.onCreate`: both stamps; `active` defaults to true, `openaiModel`
      to "gpt-4" and `timezone` to "UTC"; values already set are kept. */
  function TeamOnCreate(t: Team, now: Instant): (r: Team)
    ensures r.active == (if t.active.None? then Some(true) else t.active)
    ensures r.openaiModel == (if t.openaiModel.None? then Some("gpt-4") else t.openaiModel)
    ensures r.timezone == (if t.timezone.None? then Some("UTC") else t.timezone)
    ensures r.createdAt == Some(now) && r.updatedAt == Some(now)
    ensures r.(active := t.active, openaiModel := t.openaiModel, timezone := t.timezone,
               createdAt := t.createdAt, updatedAt := t.updatedAt) == t
  {
    t.(createdAt := Some(now), updatedAt := Some(now), active := Some(t.active.GetOr(true)),
       openaiModel := Some(t.openaiModel.GetOr("gpt-4")), timezone := Some(t.timezone.GetOr("UTC")))
  }

  /** `User.onCreate`: both stamps. */
  function UserOnCreate(u: User, now: Instant): (r: User)
    ensures r.createdAt == Some(now) && r.updatedAt == Some(now)
    ensures r.(createdAt := u.createdAt, updatedAt := u.updatedAt) == u
  {
    u.(createdAt := Some(now), updatedAt := Some(now))
  }

  /** `Standup.onCreate`: both stamps; `status` defaults to IN_PROGRESS and
      `currentStep` to 1. */
  function StandupOnCreate(s: Standup, now: Instant): (r: Standup)
    ensures r.status == (if s.status.None? then Some(InProgress) else s.status)
    ensures r.currentStep == (if s.currentStep.None? then Some(1) else s.currentStep)
    ensures r.createdAt == Some(now) && r.updatedAt == Some(now)
    ensures r.(status := s.status, currentStep := s.currentStep,
               createdAt := s.createdAt, updatedAt := s.updatedAt) == s
  {
    s.(createdAt := Some(now), updatedAt := Some(now), status := Some(s.status.GetOr(InProgress)),
       currentStep := Some(s.currentStep.GetOr(1)))
  }

  /** `UserIntegration.onCreate`: both stamps; `useTeamTokens` defaults to
      true, an explicit false is kept. */
  function IntegrationOnCreate(i: UserIntegration, now: Instant): (r: UserIntegration)
    ensures r.useTeamTokens == (if i.useTeamTokens.None? then Some(true) else i.useTeamTokens)
    ensures r.createdAt == Some(now) && r.updatedAt == Some(now)
    ensures r.(useTeamTokens := i.useTeamTokens, createdAt := i.createdAt, updatedAt := i.updatedAt) == i
  {
    i.(createdAt := Some(now), updatedAt := Some(now), useTeamTokens := Some(i.useTeamTokens.GetOr(true)))
  }

  // ------------------------------------------------------------ constraints

  /** The length of a string column that declares none (`VARCHAR(255)`). */
  const DefaultLength := 255

  predicate FitsIn(v: Option<string>, n: nat) {
    v.None? || |v.value| <= n
  }

  /** Every one of the columns `vs` fits `n` characters. */
  predicate AllFit(vs: seq<Option<string>>, n: nat) {
    forall k :: 0 <= k < |vs| ==> FitsIn(vs[k], n)
  }

  /** A nullable foreign key into a table with `n` rows. */
  predicate RefersTo(r: Option<Id>, n: nat) {
    r.None? || 1 <= r.value <= n
  }

  /** Column constraints of `organizations` other than uniqueness. */
  predicate OrgRowOk(o: Organization) {
    o.name.Some? && FitsIn(o.name, 100) && FitsIn(o.domain, 100)
    && o.createdByZohoId.Some? && FitsIn(o.createdByZohoId, 100) && FitsIn(o.createdByName, 100)
    && o.active.Some? && o.createdAt.Some?
  }

  predicate TeamRowOk(t: Team, orgCount: nat) {
    t.organization.Some? && RefersTo(t.organization, orgCount)
    && t.teamName.Some? && FitsIn(t.teamName, 100)
    && t.teamLeadZohoId.Some? && FitsIn(t.teamLeadZohoId, 100)
    && FitsIn(t.zohoWebhookUrl, 500) && FitsIn(t.jiraApiToken, 500)
    && FitsIn(t.githubToken, 500) && FitsIn(t.openaiApiKey, 500)
    && AllFit([t.zohoChannelId, t.jiraApiUrl, t.jiraEmail, t.githubOrganization, t.openaiModel,
               t.reminderTime, t.timezone], DefaultLength)
    && t.active.Some? && t.createdAt.Some?
  }

  predicate UserRowOk(u: User, orgCount: nat, teamCount: nat) {
    u.email.Some? && u.name.Some? && u.createdAt.Some?
    && AllFit([u.email, u.name, u.zohoUserId, u.githubUsername, u.jiraAccountId], DefaultLength)
    && RefersTo(u.organization, orgCount) && RefersTo(u.team, teamCount)
  }

  predicate StandupRowOk(s: Standup, userCount: nat) {
    s.user.Some? && RefersTo(s.user, userCount)
    && s.standupDate.Some? && s.status.Some? && s.createdAt.Some?
  }

  predicate IntegrationRowOk(i: UserIntegration, userCount: nat, teamCount: nat) {
    i.user.Some? && RefersTo(i.user, userCount) && RefersTo(i.team, teamCount)
    && FitsIn(i.githubPersonalToken, 500) && FitsIn(i.jiraPersonalToken, 500)
    && AllFit([i.githubUsername, i.jiraAccountId], DefaultLength)
    && i.createdAt.Some?
  }

  /** Row `o` may stand at position `self` of `organizations` (`self` outside
      the table for a new row): its columns are valid and no other row has
      its name. */
  predicate OrgFits(d: Directory, o: Organization, self: int) {
    OrgRowOk(o) && forall j :: 0 <= j < |d.orgs| && j != self ==> d.orgs[j].name != o.name
  }

  /** (organization, team_name) and `zohoChannelId` are unique. */
  predicate TeamFits(d: Directory, t: Team, self: int) {
    TeamRowOk(t, |d.orgs|)
    && forall j :: 0 <= j < |d.teams| && j != self ==>
         (d.teams[j].organization != t.organization || d.teams[j].teamName != t.teamName)
         && (t.zohoChannelId.Some? ==> d.teams[j].zohoChannelId != t.zohoChannelId)
  }

  /** `email` and `zohoUserId` are unique. */
  predicate UserFits(d: Directory, u: User, self: int) {
    UserRowOk(u, |d.orgs|, |d.teams|)
    && forall j :: 0 <= j < |d.users| && j != self ==>
         d.users[j].email != u.email
         && (u.zohoUserId.Some? ==> d.users[j].zohoUserId != u.zohoUserId)
  }

  /** `standups` declares no uniqueness: one standup per user and day is not
      a table constraint. */
  predicate StandupFits(d: Directory, s: Standup) {
    StandupRowOk(s, |d.users|)
  }

  predicate IntegrationFits(d: Directory, i: UserIntegration) {
    IntegrationRowOk(i, |d.users|, |d.teams|)
  }

  /** Every row satisfies the constraints of its table. */
  predicate Valid(d: Directory) {
    (forall i :: 0 <= i < |d.orgs| ==> OrgFits(d, d.orgs[i], i))
    && (forall i :: 0 <= i < |d.teams| ==> TeamFits(d, d.teams[i], i))
    && (forall i :: 0 <= i < |d.users| ==> UserFits(d, d.users[i], i))
    && (forall i :: 0 <= i < |d.standups| ==> StandupFits(d, d.standups[i]))
    && (forall i :: 0 <= i < |d.integrations| ==> IntegrationFits(d, d.integrations[i]))
  }

  lemma EmptyDirectoryValid()
    ensures Valid(EmptyDirectory)
  {
  }

  // ------------------------------------------------------------------ saves

  /** `organizationRepository.save` of a new row. */
  function InsertOrg(d: Directory, o: Organization, now: Instant): (r: Result<(Directory, Id), Fault>)
    ensures r.Ok? <==> OrgFits(d, OrgOnCreate(o, now), -1)
    ensures r.Ok? ==> r.value.1 == |d.orgs| + 1 && r.value.0.orgs == d.orgs + [OrgOnCreate(o, now)]
    ensures r.Ok? ==> r.value.0.(orgs := d.orgs) == d
    ensures r.Ok? && Valid(d) ==> Valid(r.value.0)
    ensures r.Err? ==> r.error == ConstraintViolation
  {
    var row := OrgOnCreate(o, now);
    if OrgFits(d, row, -1) then
      var d' := d.(orgs := d.orgs + [row]);
      assert Valid(d) ==> Valid(d') by {
        if Valid(d) {
          assert forall i :: 0 <= i < |d.orgs| ==> d'.orgs[i] == d.orgs[i];
        }
      }
      Ok((d', |d'.orgs|))
    else Err(ConstraintViolation)
  }

  /** `teamRepository.save` of a new row. */
  function InsertTeam(d: Directory, t: Team, now: Instant): (r: Result<(Directory, Id), Fault>)
    ensures r.Ok? <==> TeamFits(d, TeamOnCreate(t, now), -1)
    ensures r.Ok? ==> r.value.1 == |d.teams| + 1 && r.value.0.teams == d.teams + [TeamOnCreate(t, now)]
    ensures r.Ok? ==> r.value.0.(teams := d.teams) == d
    ensures r.Ok? && Valid(d) ==> Valid(r.value.0)
    ensures r.Err? ==> r.error == ConstraintViolation
  {
    var row := TeamOnCreate(t, now);
    if TeamFits(d, row, -1) then
      var d' := d.(teams := d.teams + [row]);
      assert Valid(d) ==> Valid(d') by {
        if Valid(d) {
          assert forall i :: 0 <= i < |d.teams| ==> d'.teams[i] == d.teams[i];
        }
      }
      Ok((d', |d'.teams|))
    else Err(ConstraintViolation)
  }

  /** The row a save of `t` leaves in place of the row `stored`: Hibernate's
      dirty check issues no UPDATE for an unchanged entity, so `onUpdate`
      restamps `updatedAt` only when the row differs. */
  function TeamOnUpdate(stored: Team, t: Team, now: Instant): (r: Team)
    ensures r.(updatedAt := t.updatedAt) == t
    ensures r.updatedAt == if t == stored then stored.updatedAt else Some(now)
  {
    if t == stored then stored else t.(updatedAt := Some(now))
  }

  /** A save of `t` over row `id` goes through: there is nothing to write,
      or the restamped row meets the table's constraints. */
  predicate TeamSaves(d: Directory, id: Id, t: Team, now: Instant)
    requires 1 <= id <= |d.teams|
  {
    t == d.teams[id - 1] || TeamFits(d, t.(updatedAt := Some(now)), id - 1)
  }

  /** `teamRepository.save` of the existing row `id`. */
  function UpdateTeam(d: Directory, id: Id, t: Team, now: Instant): (r: Result<Directory, Fault>)
    requires 1 <= id <= |d.teams|
    ensures r.Ok? <==> TeamSaves(d, id, t, now)
    ensures r.Ok? ==> r.value == d.(teams := d.teams[id - 1 := TeamOnUpdate(d.teams[id - 1], t, now)])
    ensures t == d.teams[id - 1] ==> r == Ok(d)
    ensures r.Ok? && Valid(d) ==> Valid(r.value)
    ensures r.Err? ==> r.error == ConstraintViolation
  {
    var row := t.(updatedAt := Some(now));
    if t == d.teams[id - 1] then
      assert d.teams[id - 1 := t] == d.teams;
      Ok(d)
    else if TeamFits(d, row, id - 1) then
      var d' := d.(teams := d.teams[id - 1 := row]);
      assert Valid(d) ==> Valid(d') by {
        if Valid(d) {
          forall i | 0 <= i < |d'.teams| ensures TeamFits(d', d'.teams[i], i) {
            if i != id - 1 {
              assert d'.teams[i] == d.teams[i];
              assert TeamFits(d, d.teams[i], i);
            }
          }
        }
      }
      Ok(d')
    else Err(ConstraintViolation)
  }

  /** `userRepository.save` of a new row. */
  function InsertUser(d: Directory, u: User, now: Instant): (r: Result<(Directory, Id), Fault>)
    ensures r.Ok? <==> UserFits(d, UserOnCreate(u, now), -1)
    ensures r.Ok? ==> r.value.1 == |d.users| + 1 && r.value.0.users == d.users + [UserOnCreate(u, now)]
    ensures r.Ok? ==> r.value.0.(users := d.users) == d
    ensures r.Ok? && Valid(d) ==> Valid(r.value.0)
    ensures r.Err? ==> r.error == ConstraintViolation
  {
    var row := UserOnCreate(u, now);
    if UserFits(d, row, -1) then
      var d' := d.(users := d.users + [row]);
      assert Valid(d) ==> Valid(d') by {
        if Valid(d) {
          assert forall i :: 0 <= i < |d.users| ==> d'.users[i] == d.users[i];
        }
      }
      Ok((d', |d'.users|))
    else Err(ConstraintViolation)
  }

  /** The row a save of `u` leaves in place of the row `stored` (see
      `TeamOnUpdate`). */
  function UserOnUpdate(stored: User, u: User, now: Instant): (r: User)
    ensures r.(updatedAt := u.updatedAt) == u
    ensures r.updatedAt == if u == stored then stored.updatedAt else Some(now)
  {
    if u == stored then stored else u.(updatedAt := Some(now))
  }

  /** A save of `u` over row `id` goes through. */
  predicate UserSaves(d: Directory, id: Id, u: User, now: Instant)
    requires 1 <= id <= |d.users|
  {
    u == d.users[id - 1] || UserFits(d, u.(updatedAt := Some(now)), id - 1)
  }

  /** `userRepository.save` of the existing row `id`. */
  function UpdateUser(d: Directory, id: Id, u: User, now: Instant): (r: Result<Directory, Fault>)
    requires 1 <= id <= |d.users|
    ensures r.Ok? <==> UserSaves(d, id, u, now)
    ensures r.Ok? ==> r.value == d.(users := d.users[id - 1 := UserOnUpdate(d.users[id - 1], u, now)])
    ensures u == d.users[id - 1] ==> r == Ok(d)
    ensures r.Ok? && Valid(d) ==> Valid(r.value)
    ensures r.Err? ==> r.error == ConstraintViolation
  {
    var row := u.(updatedAt := Some(now));
    if u == d.users[id - 1] then
      assert d.users[id - 1 := u] == d.users;
      Ok(d)
    else if UserFits(d, row, id - 1) then
      var d' := d.(users := d.users[id - 1 := row]);
      assert Valid(d) ==> Valid(d') by {
        if Valid(d) {
          forall i | 0 <= i < |d'.users| ensures UserFits(d', d'.users[i], i) {
            if i != id - 1 {
              assert d'.users[i] == d.users[i];
              assert UserFits(d, d.users[i], i);
            }
          }
        }
      }
      Ok(d')
    else Err(ConstraintViolation)
  }

  /** `standupRepository.save` of a new row. */
  function InsertStandup(d: Directory, s: Standup, now: Instant): (r: Result<(Directory, Id), Fault>)
    ensures r.Ok? <==> StandupFits(d, StandupOnCreate(s, now))
    ensures r.Ok? ==> r.value.1 == |d.standups| + 1
                      && r.value.0.standups == d.standups + [StandupOnCreate(s, now)]
    ensures r.Ok? ==> r.value.0.(standups := d.standups) == d
    ensures r.Ok? && Valid(d) ==> Valid(r.value.0)
    ensures r.Err? ==> r.error == ConstraintViolation
  {
    var row := StandupOnCreate(s, now);
    if StandupFits(d, row) then
      var d' := d.(standups := d.standups + [row]);
      assert Valid(d) ==> Valid(d') by {
        if Valid(d) {
          assert forall i :: 0 <= i < |d.standups| ==> d'.standups[i] == d.standups[i];
        }
      }
      Ok((d', |d'.standups|))
    else Err(ConstraintViolation)
  }

  /** The row a save of `s` leaves in place of the row `stored` (see
      `TeamOnUpdate`). */
  function StandupOnUpdate(stored: Standup, s: Standup, now: Instant): (r: Standup)
    ensures r.(updatedAt := s.updatedAt) == s
    ensures r.updatedAt == if s == stored then stored.updatedAt else Some(now)
  {
    if s == stored then stored else s.(updatedAt := Some(now))
  }

  /** A save of `s` over row `id` goes through. */
  predicate StandupSaves(d: Directory, id: Id, s: Standup, now: Instant)
    requires 1 <= id <= |d.standups|
  {
    s == d.standups[id - 1] || StandupFits(d, s.(updatedAt := Some(now)))
  }

  /** `standupRepository.save` of the existing row `id`. */
  function UpdateStandup(d: Directory, id: Id, s: Standup, now: Instant): (r: Result<Directory, Fault>)
    requires 1 <= id <= |d.standups|
    ensures r.Ok? <==> StandupSaves(d, id, s, now)
    ensures r.Ok? ==> r.value == d.(standups := d.standups[id - 1 := StandupOnUpdate(d.standups[id - 1], s, now)])
    ensures s == d.standups[id - 1] ==> r == Ok(d)
    ensures r.Ok? && Valid(d) ==> Valid(r.value)
    ensures r.Err? ==> r.error == ConstraintViolation
  {
    var row := s.(updatedAt := Some(now));
    if s == d.standups[id - 1] then
      assert d.standups[id - 1 := s] == d.standups;
      Ok(d)
    else if StandupFits(d, row) then Ok(d.(standups := d.standups[id - 1 := row]))
    else Err(ConstraintViolation)
  }

  /** `userIntegrationRepository.save` of a new row. */
  function InsertIntegration(d: Directory, i: UserIntegration, now: Instant): (r: Result<(Directory, Id), Fault>)
    ensures r.Ok? <==> IntegrationFits(d, IntegrationOnCreate(i, now))
    ensures r.Ok? ==> r.value.1 == |d.integrations| + 1
                      && r.value.0.integrations == d.integrations + [IntegrationOnCreate(i, now)]
    ensures r.Ok? ==> r.value.0.(integrations := d.integrations) == d
    ensures r.Ok? && Valid(d) ==> Valid(r.value.0)
    ensures r.Err? ==> r.error == ConstraintViolation
  {
    var row := IntegrationOnCreate(i, now);
    if IntegrationFits(d, row) then Ok((d.(integrations := d.integrations + [row]), |d.integrations| + 1))
    else Err(ConstraintViolation)
  }

  /** The row a save of `i` leaves in place of the row `stored` (see
      `TeamOnUpdate`). */
  function IntegrationOnUpdate(stored: UserIntegration, i: UserIntegration, now: Instant): (r: UserIntegration)
    ensures r.(updatedAt := i.updatedAt) == i
    ensures r.updatedAt == if i == stored then stored.updatedAt else Some(now)
  {
    if i == stored then stored else i.(updatedAt := Some(now))
  }

  /** A save of `i` over row `id` goes through. */
  predicate IntegrationSaves(d: Directory, id: Id, i: UserIntegration, now: Instant)
    requires 1 <= id <= |d.integrations|
  {
    i == d.integrations[id - 1] || IntegrationFits(d, i.(updatedAt := Some(now)))
  }

  /** `userIntegrationRepository.save` of the existing row `id`. */
  function UpdateIntegration(d: Directory, id: Id, i: UserIntegration, now: Instant): (r: Result<Directory, Fault>)
    requires 1 <= id <= |d.integrations|
    ensures r.Ok? <==> IntegrationSaves(d, id, i, now)
    ensures r.Ok? ==> r.value == d.(integrations := d.integrations[id - 1 := IntegrationOnUpdate(d.integrations[id - 1], i, now)])
    ensures i == d.integrations[id - 1] ==> r == Ok(d)
    ensures r.Ok? && Valid(d) ==> Valid(r.value)
    ensures r.Err? ==> r.error == ConstraintViolation
  {
    var row := i.(updatedAt := Some(now));
    if i == d.integrations[id - 1] then
      assert d.integrations[id - 1 := i] == d.integrations;
      Ok(d)
    else if IntegrationFits(d, row) then Ok(d.(integrations := d.integrations[id - 1 := row]))
    else Err(ConstraintViolation)
  }

  // ---------------------------------------------------------------- queries

  /** The position of the first row at or after `from` satisfying `p`. */
  function FirstFrom<T>(rows: seq<T>, p: T -> bool, from: nat): (r: Option<nat>)
    requires from <= |rows|
    ensures r.Some? ==> from <= r.value < |rows| && p(rows[r.value])
    ensures r.Some? ==> forall j :: from <= j < r.value ==> !p(rows[j])
    ensures r.None? ==> forall j :: from <= j < |rows| ==> !p(rows[j])
    decreases |rows| - from
  {
    if from == |rows| then None
    else if p(rows[from]) then Some(from)
    else FirstFrom(rows, p, from + 1)
  }

  /** What a Spring Data query returning `Optional` yields: nothing, the one
      match, or an `IncorrectResultSizeDataAccessException` for several. */
  datatype Lookup = Missing | Unique(id: Id) | Ambiguous

  function Find<T>(rows: seq<T>, p: T -> bool): (r: Lookup)
    ensures r.Unique? ==> 1 <= r.id <= |rows| && p(rows[r.id - 1])
  {
    match FirstFrom(rows, p, 0)
    case None => Missing
    case Some(i) => if FirstFrom(rows, p, i + 1).None? then Unique(i + 1) else Ambiguous
  }

  /** An `existsBy...` query. */
  predicate Any<T>(rows: seq<T>, p: T -> bool) {
    FirstFrom(rows, p, 0).Some?
  }

  /** The query is ambiguous exactly when two distinct rows satisfy `p`,
      finds nothing exactly when no row does, and otherwise names the one
      row that does. */
  lemma FindSpec<T>(rows: seq<T>, p: T -> bool)
    ensures Find(rows, p) == Ambiguous <==> exists a, b :: 0 <= a < b < |rows| && p(rows[a]) && p(rows[b])
    ensures Find(rows, p) == Missing <==> forall i :: 0 <= i < |rows| ==> !p(rows[i])
    ensures Find(rows, p) == Missing <==> !Any(rows, p)
    ensures Find(rows, p).Unique? ==> var k := Find(rows, p).id - 1;
              0 <= k < |rows| && p(rows[k]) && forall j :: 0 <= j < |rows| && j != k ==> !p(rows[j])
  {
    match FirstFrom(rows, p, 0)
    case None =>
    case Some(i) =>
      match FirstFrom(rows, p, i + 1)
      case None =>
      case Some(j) =>
        assert 0 <= i < j < |rows| && p(rows[i]) && p(rows[j]);
  }

  /** Tables that agree on which rows satisfy `p` give the same answers. */
  lemma {:induction false} FirstFromAgree<T>(a: seq<T>, b: seq<T>, p: T -> bool, from: nat)
    requires |a| == |b| && from <= |a|
    requires forall i :: 0 <= i < |a| ==> p(a[i]) == p(b[i])
    ensures FirstFrom(a, p, from) == FirstFrom(b, p, from)
    decreases |a| - from
  {
    if from < |a| {
      FirstFromAgree(a, b, p, from + 1);
    }
  }

  /** Overwriting a row with one that agrees on `p` leaves the query's
      answer as it was. */
  lemma FindAfterUpdate<T>(rows: seq<T>, p: T -> bool, k: nat, v: T)
    requires k < |rows| && p(v) == p(rows[k])
    ensures Find(rows[k := v], p) == Find(rows, p)
    ensures Any(rows[k := v], p) == Any(rows, p)
  {
    FirstFromAgree(rows[k := v], rows, p, 0);
    match FirstFrom(rows, p, 0)
    case None =>
    case Some(i) => FirstFromAgree(rows[k := v], rows, p, i + 1);
  }

  /** A matching row appended to a table where nothing matched is the one
      row found. */
  lemma FindAppendMatch<T>(rows: seq<T>, p: T -> bool, v: T)
    requires Find(rows, p) == Missing && p(v)
    ensures Find(rows + [v], p) == Unique(|rows| + 1)
  {
    FindSpec(rows, p);
    FindSpec(rows + [v], p);
    assert (rows + [v])[|rows|] == v;
    assert forall i :: 0 <= i < |rows| ==> (rows + [v])[i] == rows[i];
  }

  /** A row appended at the end that does not satisfy `p` is never found. */
  lemma {:induction false} FirstFromAppend<T>(rows: seq<T>, p: T -> bool, v: T, from: nat)
    requires from <= |rows| && !p(v)
    ensures FirstFrom(rows + [v], p, from) == FirstFrom(rows, p, from)
    decreases |rows| - from
  {
    if from < |rows| {
      assert (rows + [v])[from] == rows[from];
      FirstFromAppend(rows, p, v, from + 1);
    }
  }

  lemma FindAfterAppend<T>(rows: seq<T>, p: T -> bool, v: T)
    requires !p(v)
    ensures Find(rows + [v], p) == Find(rows, p)
    ensures Any(rows + [v], p) == Any(rows, p)
  {
    FirstFromAppend(rows, p, v, 0);
    match FirstFrom(rows, p, 0)
    case None =>
    case Some(i) => FirstFromAppend(rows, p, v, i + 1);
  }

  predicate HasZohoId(u: User, zid: string) {
    u.zohoUserId == Some(zid)
  }

  /** `userRepository.findByZohoUserId`. */
  function UserByZohoId(d: Directory, zid: string): (r: Lookup)
    ensures r == Missing <==> forall i :: 0 <= i < |d.users| ==> d.users[i].zohoUserId != Some(zid)
    ensures r == Ambiguous ==>
              exists a, b :: 0 <= a < b < |d.users| && d.users[a].zohoUserId == Some(zid) && d.users[b].zohoUserId == Some(zid)
    ensures r.Unique? ==>
              && 1 <= r.id <= |d.users| && d.users[r.id - 1].zohoUserId == Some(zid)
              && forall j :: 0 <= j < |d.users| && j != r.id - 1 ==> d.users[j].zohoUserId != Some(zid)
  {
    var p := (u: User) => HasZohoId(u, zid);
    FindSpec(d.users, p);
    Find(d.users, p)
  }

  /** `userRepository.existsByZohoUserId`. */
  predicate UserExists(d: Directory, zid: string) {
    Any(d.users, u => HasZohoId(u, zid))
  }

  /** `userRepository.findByEmail`. */
  function UserByEmail(d: Directory, email: string): (r: Lookup)
    ensures r == Missing <==> forall i :: 0 <= i < |d.users| ==> d.users[i].email != Some(email)
    ensures r == Ambiguous ==>
              exists a, b :: 0 <= a < b < |d.users| && d.users[a].email == Some(email) && d.users[b].email == Some(email)
    ensures r.Unique? ==>
              && 1 <= r.id <= |d.users| && d.users[r.id - 1].email == Some(email)
              && forall j :: 0 <= j < |d.users| && j != r.id - 1 ==> d.users[j].email != Some(email)
  {
    var p := (u: User) => u.email == Some(email);
    FindSpec(d.users, p);
    Find(d.users, p)
  }

  /** `organizationRepository.existsByName`. */
  predicate OrgNameTaken(d: Directory, name: string) {
    Any(d.orgs, (o: Organization) => o.name == Some(name))
  }

  /** `teamRepository.findByTeamName`: across all organizations. */
  function TeamByName(d: Directory, name: string): (r: Lookup)
    ensures r == Missing <==> forall i :: 0 <= i < |d.teams| ==> d.teams[i].teamName != Some(name)
    ensures r == Ambiguous ==>
              exists a, b :: 0 <= a < b < |d.teams| && d.teams[a].teamName == Some(name) && d.teams[b].teamName == Some(name)
    ensures r.Unique? ==>
              && 1 <= r.id <= |d.teams| && d.teams[r.id - 1].teamName == Some(name)
              && forall j :: 0 <= j < |d.teams| && j != r.id - 1 ==> d.teams[j].teamName != Some(name)
  {
    var p := (t: Team) => t.teamName == Some(name);
    FindSpec(d.teams, p);
    Find(d.teams, p)
  }

  /** `teamRepository.findByOrganizationAndTeamName`. */
  function TeamByOrgAndName(d: Directory, org: Id, name: string): (r: Lookup)
    ensures r == Missing <==> forall i :: 0 <= i < |d.teams| ==> !(d.teams[i].organization == Some(org) && d.teams[i].teamName == Some(name))
    ensures r == Ambiguous ==>
              exists a, b :: 0 <= a < b < |d.teams| && (d.teams[a].organization == Some(org) && d.teams[a].teamName == Some(name)) && (d.teams[b].organization == Some(org) && d.teams[b].teamName == Some(name))
    ensures r.Unique? ==>
              && 1 <= r.id <= |d.teams| && (d.teams[r.id - 1].organization == Some(org) && d.teams[r.id - 1].teamName == Some(name))
              && forall j :: 0 <= j < |d.teams| && j != r.id - 1 ==> !(d.teams[j].organization == Some(org) && d.teams[j].teamName == Some(name))
  {
    var p := (t: Team) => t.organization == Some(org) && t.teamName == Some(name);
    FindSpec(d.teams, p);
    Find(d.teams, p)
  }

  /** `teamRepository.findById`. */
  function TeamById(d: Directory, id: Id): (r: Option<Team>)
    ensures r.Some? <==> 1 <= id <= |d.teams|
  {
    if 1 <= id <= |d.teams| then Some(d.teams[id - 1]) else None
  }

  /** `userIntegrationRepository.findByUser`. */
  function IntegrationByUser(d: Directory, user: Id): (r: Lookup)
    ensures r == Missing <==> forall i :: 0 <= i < |d.integrations| ==> d.integrations[i].user != Some(user)
    ensures r == Ambiguous ==>
              exists a, b :: 0 <= a < b < |d.integrations| && d.integrations[a].user == Some(user) && d.integrations[b].user == Some(user)
    ensures r.Unique? ==>
              && 1 <= r.id <= |d.integrations| && d.integrations[r.id - 1].user == Some(user)
              && forall j :: 0 <= j < |d.integrations| && j != r.id - 1 ==> d.integrations[j].user != Some(user)
  {
    var p := (i: UserIntegration) => i.user == Some(user);
    FindSpec(d.integrations, p);
    Find(d.integrations, p)
  }

  /** `standupRepository.findByUserAndStandupDate`. */
  function StandupByUserAndDate(d: Directory, user: Id, date: Date): (r: Lookup)
    ensures r == Missing <==> forall i :: 0 <= i < |d.standups| ==> !(d.standups[i].user == Some(user) && d.standups[i].standupDate == Some(date))
    ensures r == Ambiguous ==>
              exists a, b :: 0 <= a < b < |d.standups| && (d.standups[a].user == Some(user) && d.standups[a].standupDate == Some(date)) && (d.standups[b].user == Some(user) && d.standups[b].standupDate == Some(date))
    ensures r.Unique? ==>
              && 1 <= r.id <= |d.standups| && (d.standups[r.id - 1].user == Some(user) && d.standups[r.id - 1].standupDate == Some(date))
              && forall j :: 0 <= j < |d.standups| && j != r.id - 1 ==> !(d.standups[j].user == Some(user) && d.standups[j].standupDate == Some(date))
  {
    var p := (s: Standup) => s.user == Some(user) && s.standupDate == Some(date);
    FindSpec(d.standups, p);
    Find(d.standups, p)
  }

  /** `standupRepository.existsByUserAndStandupDate`. */
  predicate StandupExists(d: Directory, user: Id, date: Date) {
    Any(d.standups, (s: Standup) => s.user == Some(user) && s.standupDate == Some(date))
  }

  /** In a valid directory the UNIQUE key on `zohoUserId` makes the lookup
      by identity unambiguous, and it finds a row exactly when one has that
      identity. */
  lemma UserByZohoIdUnique(d: Directory, zid: string)
    requires Valid(d)
    ensures UserByZohoId(d, zid) != Ambiguous
    ensures UserByZohoId(d, zid).Unique? <==> UserExists(d, zid)
    ensures UserByZohoId(d, zid).Unique? ==>
              var id := UserByZohoId(d, zid).id;
              1 <= id <= |d.users| && d.users[id - 1].zohoUserId == Some(zid)
  {
    var p := (u: User) => HasZohoId(u, zid);
    FindSpec(d.users, p);
  }

  /** The UNIQUE key on `email` makes the lookup by e-mail unambiguous. */
  lemma UserByEmailUnique(d: Directory, email: string)
    requires Valid(d)
    ensures UserByEmail(d, email) != Ambiguous
  {
    var p := (u: User) => u.email == Some(email);
    FindSpec(d.users, p);
  }

  /** The UNIQUE key on (organization, team_name) makes the lookup inside an
      organization unambiguous; the global lookup by name is not covered by
      any key. */
  lemma TeamByOrgAndNameUnique(d: Directory, org: Id, name: string)
    requires Valid(d)
    ensures TeamByOrgAndName(d, org, name) != Ambiguous
  {
    var p := (t: Team) => t.organization == Some(org) && t.teamName == Some(name);
    FindSpec(d.teams, p);
  }

  /** Two organizations may each hold a team of the same name, and the
      global lookup by that name is then ambiguous. */
  lemma SameTeamNameInTwoOrgs()
    ensures var d := SameNameWitness();
            Valid(d) && TeamByName(d, "core") == Ambiguous
  {
    var d := SameNameWitness();
    var p := (t: Team) => t.teamName == Some("core");
    FindSpec(d.teams, p);
    assert p(d.teams[0]) && p(d.teams[1]);
  }

  function SameNameWitness(): Directory {
    var org := NoOrganization.(name := Some("a"), createdByZohoId := Some("u"), active := Some(true),
                               createdAt := Some(0));
    var team := NoTeam.(organization := Some(1), teamName := Some("core"), teamLeadZohoId := Some("u"),
                        active := Some(true), createdAt := Some(0));
    Directory([org, org.(name := Some("b"))], [team, team.(organization := Some(2))], [], [], [])
  }
}

=== FILE: integration_service.dfy ===
/** Personal integrations of a user and the choice between personal and
    team tokens (`service/UserIntegrationService.java`). */
module IntegrationService {
  import opened Wrappers
  import opened Entities
  import opened UserService

  /** `UserIntegrationRequest`: every field may be null, the
      `useTeamTokens` flag included. */
  datatype IntegrationRequest = IntegrationRequest(
    userEmail: Option<string>,
    teamId: Option<int>,
    githubUsername: Option<string>,
    githubPersonalToken: Option<string>,
    jiraAccountId: Option<string>,
    jiraPersonalToken: Option<string>,
    useTeamTokens: Option<bool>)

  /** The team and the five integration fields, copied from the request
      with their nulls. */
  function Overwrite(i: UserIntegration, req: IntegrationRequest, team: Option<Id>): (r: UserIntegration)
    ensures r.user == i.user && r.createdAt == i.createdAt && r.updatedAt == i.updatedAt
  {
    i.(team := team, githubUsername := req.githubUsername, githubPersonalToken := req.githubPersonalToken,
       jiraAccountId := req.jiraAccountId, jiraPersonalToken := req.jiraPersonalToken,
       useTeamTokens := req.useTeamTokens)
  }

  /** The user's copy of the integration fields. */
  function MirrorOnUser(u: User, req: IntegrationRequest, team: Option<Id>): User {
    u.(githubUsername := req.githubUsername, jiraAccountId := req.jiraAccountId, team := team)
  }

  /** The request names no team, or a team that exists. */
  predicate TeamKnown(d: Directory, req: IntegrationRequest) {
    req.teamId.None? || 1 <= req.teamId.value <= |d.teams|
  }

  /** The team the request assigns. */
  function RequestTeam(d: Directory, req: IntegrationRequest): (r: Option<Id>)
    requires TeamKnown(d, req)
    ensures r.Some? <==> req.teamId.Some?
    ensures r.Some? ==> r.value == req.teamId.value
  {
    if req.teamId.Some? then Some(req.teamId.value as nat) else None
  }

  /** No user has two integrations. */
  predicate OneIntegrationPerUser(d: Directory) {
    forall i, j :: 0 <= i < j < |d.integrations| && d.integrations[i].user.Some? ==>
      d.integrations[i].user != d.integrations[j].user
  }

  /** The directory `d'` after the upsert for user `uid`: integration `iid`
      is the user's and carries the request's team and four integration
      fields, the user's row mirrors the request, and nothing else changes. */
  predicate Upserted(d: Directory, d': Directory, uid: Id, iid: Id, req: IntegrationRequest, team: Option<Id>,
                     now: Instant)
    requires 1 <= uid <= |d.users|
  {
    && 1 <= iid <= |d'.integrations| && |d.integrations| <= |d'.integrations|
    && d'.integrations[iid - 1].user == Some(uid)
    && d'.integrations[iid - 1].team == team
    && d'.integrations[iid - 1].githubUsername == req.githubUsername
    && d'.integrations[iid - 1].githubPersonalToken == req.githubPersonalToken
    && d'.integrations[iid - 1].jiraAccountId == req.jiraAccountId
    && d'.integrations[iid - 1].jiraPersonalToken == req.jiraPersonalToken
    && (forall j :: 0 <= j < |d.integrations| && j != iid - 1 ==> d'.integrations[j] == d.integrations[j])
    && |d'.users| == |d.users|
    && d'.users[uid - 1] == UserOnUpdate(d.users[uid - 1], MirrorOnUser(d.users[uid - 1], req, team), now)
    && (forall j :: 0 <= j < |d.users| && j != uid - 1 ==> d'.users[j] == d.users[j])
    && d'.orgs == d.orgs && d'.teams == d.teams && d'.standups == d.standups
  }

  /** The update branch of the upsert: the user's integration `iid` is
      overwritten, then the user's row. */
  function OverwriteExisting(d: Directory, uid: Id, iid: Id, req: IntegrationRequest, team: Option<Id>,
                             now: Instant): (r: Result<(Directory, Id), Fault>)
    requires 1 <= uid <= |d.users| && IntegrationByUser(d, uid) == Unique(iid)
    ensures r.Ok? <==> IntegrationSaves(d, iid, Overwrite(d.integrations[iid - 1], req, team), now)
                       && UserSaves(d, uid, MirrorOnUser(d.users[uid - 1], req, team), now)
    ensures r.Err? ==> r.error == ConstraintViolation
    ensures r.Ok? ==> && r.value.1 == iid && |r.value.0.integrations| == |d.integrations|
                      && r.value.0.integrations[iid - 1].useTeamTokens == req.useTeamTokens
                      && Upserted(d, r.value.0, uid, iid, req, team, now)
    ensures r.Ok? && Valid(d) ==> Valid(r.value.0)
  {
    var d1 :- UpdateIntegration(d, iid, Overwrite(d.integrations[iid - 1], req, team), now);
    assert UserSaves(d1, uid, MirrorOnUser(d.users[uid - 1], req, team), now)
       <==> UserSaves(d, uid, MirrorOnUser(d.users[uid - 1], req, team), now);
    var d2 :- UpdateUser(d1, uid, MirrorOnUser(d.users[uid - 1], req, team), now);
    Ok((d2, iid))
  }

  /** The create branch of the upsert: a new integration for the user,
      whose null flag `onCreate` defaults to true, then the user's row. */
  function AttachNew(d: Directory, uid: Id, req: IntegrationRequest, team: Option<Id>, now: Instant)
    : (r: Result<(Directory, Id), Fault>)
    requires 1 <= uid <= |d.users| && IntegrationByUser(d, uid) == Missing
    ensures r.Ok? <==> IntegrationFits(d, IntegrationOnCreate(Overwrite(NoIntegration.(user := Some(uid)), req, team), now))
                       && UserSaves(d, uid, MirrorOnUser(d.users[uid - 1], req, team), now)
    ensures r.Err? ==> r.error == ConstraintViolation
    ensures r.Ok? ==> && r.value.1 == |d.integrations| + 1 && |r.value.0.integrations| == r.value.1
                      && r.value.0.integrations[r.value.1 - 1].useTeamTokens == Some(req.useTeamTokens.GetOr(true))
                      && Upserted(d, r.value.0, uid, r.value.1, req, team, now)
    ensures r.Ok? && Valid(d) ==> Valid(r.value.0)
  {
    var (d1, iid) :- InsertIntegration(d, Overwrite(NoIntegration.(user := Some(uid)), req, team), now);
    assert UserSaves(d1, uid, MirrorOnUser(d.users[uid - 1], req, team), now)
       <==> UserSaves(d, uid, MirrorOnUser(d.users[uid - 1], req, team), now);
    var d2 :- UpdateUser(d1, uid, MirrorOnUser(d.users[uid - 1], req, team), now);
    Ok((d2, iid))
  }

  /** `createOrUpdateIntegration(request)`: finds the user by e-mail and the
      team by id, overwrites the user's integration (creating it if there
      is none) and mirrors the GitHub username, Jira account and team onto
      the user. Returns the integration id. */
  function CreateOrUpdateIntegration(d: Directory, req: IntegrationRequest, now: Instant)
    : (r: Result<(Directory, Id), Fault>)
    ensures UserByOptEmail(d, req.userEmail) == Missing ==> r == Err(NotFound)
    ensures UserByOptEmail(d, req.userEmail) == Ambiguous ==> r == Err(NonUniqueResult)
    ensures UserByOptEmail(d, req.userEmail).Unique? && !TeamKnown(d, req) ==> r == Err(NotFound)
    ensures UserByOptEmail(d, req.userEmail).Unique? && TeamKnown(d, req) ==>
              var uid := UserByOptEmail(d, req.userEmail).id;
              var team := RequestTeam(d, req);
              var user := MirrorOnUser(d.users[uid - 1], req, team);
              && (IntegrationByUser(d, uid) == Ambiguous ==> r == Err(NonUniqueResult))
              && (IntegrationByUser(d, uid).Unique? ==>
                    var iid := IntegrationByUser(d, uid).id;
                    (r.Ok? <==> IntegrationSaves(d, iid, Overwrite(d.integrations[iid - 1], req, team), now)
                                && UserSaves(d, uid, user, now)))
              && (IntegrationByUser(d, uid) == Missing ==>
                    (r.Ok? <==> IntegrationFits(d, IntegrationOnCreate(Overwrite(NoIntegration.(user := Some(uid)), req, team), now))
                                && UserSaves(d, uid, user, now)))
              && (r.Err? && IntegrationByUser(d, uid) != Ambiguous ==> r.error == ConstraintViolation)
    ensures r.Ok? ==>
              && UserByOptEmail(d, req.userEmail).Unique? && TeamKnown(d, req)
              && var uid := UserByOptEmail(d, req.userEmail).id;
              && var (d', iid) := r.value;
              && Upserted(d, d', uid, iid, req, RequestTeam(d, req), now)
              && (IntegrationByUser(d, uid).Unique? ==>
                    iid == IntegrationByUser(d, uid).id && |d'.integrations| == |d.integrations|
                    && d'.integrations[iid - 1].useTeamTokens == req.useTeamTokens)
              && (IntegrationByUser(d, uid) == Missing ==>
                    iid == |d.integrations| + 1 && |d'.integrations| == iid
                    && d'.integrations[iid - 1].useTeamTokens == Some(req.useTeamTokens.GetOr(true)))
    ensures r.Ok? && Valid(d) ==> Valid(r.value.0)
  {
    match UserByOptEmail(d, req.userEmail)
    case Missing => Err(NotFound)
    case Ambiguous => Err(NonUniqueResult)
    case Unique(uid) =>
      if !TeamKnown(d, req) then Err(NotFound)
      else
        match IntegrationByUser(d, uid)
        case Ambiguous => Err(NonUniqueResult)
        case Unique(iid) => OverwriteExisting(d, uid, iid, req, RequestTeam(d, req), now)
        case Missing => AttachNew(d, uid, req, RequestTeam(d, req), now)
  }

  /** The token rule of `getGithubToken` and `getJiraToken` as written: with
      an integration whose flag is false and whose personal token is set,
      the personal token; otherwise the team token. The flag is unboxed, so
      a null flag throws. */
  function ChooseToken(d: Directory, uid: Id, personal: UserIntegration -> Option<string>, teamToken: Option<string>)
    : (r: Result<Option<string>, Fault>)
    ensures IntegrationByUser(d, uid) == Missing ==> r == Ok(teamToken)
    ensures IntegrationByUser(d, uid) == Ambiguous ==> r == Err(NonUniqueResult)
    ensures IntegrationByUser(d, uid).Unique? ==>
              var ui := d.integrations[IntegrationByUser(d, uid).id - 1];
              && (ui.useTeamTokens.None? <==> r == Err(NullPointer))
              && (ui.useTeamTokens.Some? ==>
                    r == Ok(if ui.useTeamTokens == Some(false) && personal(ui).Some? then personal(ui) else teamToken))
  {
    match IntegrationByUser(d, uid)
    case Missing => Ok(teamToken)
    case Ambiguous => Err(NonUniqueResult)
    case Unique(iid) =>
      var ui := d.integrations[iid - 1];
      if ui.useTeamTokens.None? then Err(NullPointer)
      else if !ui.useTeamTokens.value && personal(ui).Some? then Ok(personal(ui))
      else Ok(teamToken)
  }

  /** `getGithubToken(user, teamToken)` as written. */
  function GetGithubToken(d: Directory, uid: Id, teamToken: Option<string>): (r: Result<Option<string>, Fault>)
    ensures IntegrationByUser(d, uid) == Missing ==> r == Ok(teamToken)
    ensures IntegrationByUser(d, uid) == Ambiguous ==> r == Err(NonUniqueResult)
    ensures IntegrationByUser(d, uid).Unique? ==>
              var ui := d.integrations[IntegrationByUser(d, uid).id - 1];
              && (ui.useTeamTokens.None? <==> r == Err(NullPointer))
              && (ui.useTeamTokens == Some(false) && ui.githubPersonalToken.Some? ==> r == Ok(ui.githubPersonalToken))
              && (ui.useTeamTokens == Some(true) ==> r == Ok(teamToken))
              && (ui.useTeamTokens == Some(false) && ui.githubPersonalToken.None? ==> r == Ok(teamToken))
    ensures r.Ok? && r.value != teamToken ==>
              IntegrationByUser(d, uid).Unique?
              && var ui := d.integrations[IntegrationByUser(d, uid).id - 1];
              ui.useTeamTokens == Some(false) && r.value == ui.githubPersonalToken && r.value.Some?
  {
    ChooseToken(d, uid, (i: UserIntegration) => i.githubPersonalToken, teamToken)
  }

  /** `getJiraToken(user, teamToken)` as written. */
  function GetJiraToken(d: Directory, uid: Id, teamToken: Option<string>): (r: Result<Option<string>, Fault>)
    ensures IntegrationByUser(d, uid) == Missing ==> r == Ok(teamToken)
    ensures IntegrationByUser(d, uid) == Ambiguous ==> r == Err(NonUniqueResult)
    ensures IntegrationByUser(d, uid).Unique? ==>
              var ui := d.integrations[IntegrationByUser(d, uid).id - 1];
              && (ui.useTeamTokens.None? <==> r == Err(NullPointer))
              && (ui.useTeamTokens == Some(false) && ui.jiraPersonalToken.Some? ==> r == Ok(ui.jiraPersonalToken))
              && (ui.useTeamTokens == Some(true) ==> r == Ok(teamToken))
              && (ui.useTeamTokens == Some(false) && ui.jiraPersonalToken.None? ==> r == Ok(teamToken))
    ensures r.Ok? && r.value != teamToken ==>
              IntegrationByUser(d, uid).Unique?
              && var ui := d.integrations[IntegrationByUser(d, uid).id - 1];
              ui.useTeamTokens == Some(false) && r.value == ui.jiraPersonalToken && r.value.Some?
  {
    ChooseToken(d, uid, (i: UserIntegration) => i.jiraPersonalToken, teamToken)
  }

  /** The evidently intended rule: a null flag means what a new integration
      defaults to (use the team tokens), so the choice never throws on it. */
  function ChooseTokenNullSafe(d: Directory, uid: Id, personal: UserIntegration -> Option<string>,
                               teamToken: Option<string>): (r: Result<Option<string>, Fault>)
    ensures r.Err? <==> IntegrationByUser(d, uid) == Ambiguous
    ensures r.Ok? && r.value != teamToken ==>
              IntegrationByUser(d, uid).Unique?
              && var ui := d.integrations[IntegrationByUser(d, uid).id - 1];
              ui.useTeamTokens == Some(false) && r.value == personal(ui)
  {
    match IntegrationByUser(d, uid)
    case Missing => Ok(teamToken)
    case Ambiguous => Err(NonUniqueResult)
    case Unique(iid) =>
      var ui := d.integrations[iid - 1];
      if ui.useTeamTokens == Some(false) && personal(ui).Some? then Ok(personal(ui)) else Ok(teamToken)
  }

  function GetGithubTokenNullSafe(d: Directory, uid: Id, teamToken: Option<string>): (r: Result<Option<string>, Fault>)
    ensures r.Err? <==> IntegrationByUser(d, uid) == Ambiguous
    ensures IntegrationByUser(d, uid) == Missing ==> r == Ok(teamToken)
    ensures IntegrationByUser(d, uid).Unique? ==>
              var ui := d.integrations[IntegrationByUser(d, uid).id - 1];
              r == Ok(if ui.useTeamTokens == Some(false) && ui.githubPersonalToken.Some? then ui.githubPersonalToken else teamToken)
  {
    ChooseTokenNullSafe(d, uid, (i: UserIntegration) => i.githubPersonalToken, teamToken)
  }

  function GetJiraTokenNullSafe(d: Directory, uid: Id, teamToken: Option<string>): (r: Result<Option<string>, Fault>)
    ensures r.Err? <==> IntegrationByUser(d, uid) == Ambiguous
    ensures IntegrationByUser(d, uid) == Missing ==> r == Ok(teamToken)
    ensures IntegrationByUser(d, uid).Unique? ==>
              var ui := d.integrations[IntegrationByUser(d, uid).id - 1];
              r == Ok(if ui.useTeamTokens == Some(false) && ui.jiraPersonalToken.Some? then ui.jiraPersonalToken else teamToken)
  {
    ChooseTokenNullSafe(d, uid, (i: UserIntegration) => i.jiraPersonalToken, teamToken)
  }

  // ------------------------------------------------------------ properties

  /** With at most one integration per user the lookup by user is never
      ambiguous. */
  lemma OnePerUserUnambiguous(d: Directory, uid: Id)
    requires OneIntegrationPerUser(d)
    ensures IntegrationByUser(d, uid) != Ambiguous
  {
    var p := (i: UserIntegration) => i.user == Some(uid);
    FindSpec(d.integrations, p);
  }

  /** The upsert keeps "at most one integration per user": an existing
      integration is overwritten in place, a new one is created only for a
      user that had none. */
  lemma UpsertKeepsOnePerUser(d: Directory, req: IntegrationRequest, now: Instant)
    requires OneIntegrationPerUser(d)
    requires CreateOrUpdateIntegration(d, req, now).Ok?
    ensures OneIntegrationPerUser(CreateOrUpdateIntegration(d, req, now).value.0)
  {
    var (d', iid) := CreateOrUpdateIntegration(d, req, now).value;
    var uid := UserByOptEmail(d, req.userEmail).id;
    OnePerUserUnambiguous(d, uid);
    var p := (i: UserIntegration) => i.user == Some(uid);
    FindSpec(d.integrations, p);
    if IntegrationByUser(d, uid) == Missing {
      forall i, j | 0 <= i < j < |d'.integrations| && d'.integrations[i].user.Some?
        ensures d'.integrations[i].user != d'.integrations[j].user
      {
        if j == |d.integrations| {
          assert !p(d.integrations[i]);
        }
      }
    } else {
      forall i, j | 0 <= i < j < |d'.integrations| && d'.integrations[i].user.Some?
        ensures d'.integrations[i].user != d'.integrations[j].user
      {
        assert d'.integrations[i].user == d.integrations[i].user;
        assert d'.integrations[j].user == d.integrations[j].user;
      }
    }
  }

  /** The mirrored user row fits whenever the request's GitHub username and
      Jira account fit their columns and the team is known. */
  lemma MirrorFits(d: Directory, uid: Id, req: IntegrationRequest, now: Instant)
    requires Valid(d) && 1 <= uid <= |d.users| && TeamKnown(d, req)
    requires FitsIn(req.githubUsername, DefaultLength) && FitsIn(req.jiraAccountId, DefaultLength)
    ensures UserSaves(d, uid, MirrorOnUser(d.users[uid - 1], req, RequestTeam(d, req)), now)
  {
    var o := d.users[uid - 1];
    var u := MirrorOnUser(o, req, RequestTeam(d, req)).(updatedAt := Some(now));
    assert UserFits(d, o, uid - 1);
    var before := [o.email, o.name, o.zohoUserId, o.githubUsername, o.jiraAccountId];
    var after := [u.email, u.name, u.zohoUserId, u.githubUsername, u.jiraAccountId];
    forall k | 0 <= k < |after| ensures FitsIn(after[k], DefaultLength) {
      if k < 3 {
        assert after[k] == before[k];
      }
    }
    assert UserFits(d, u, uid - 1);
  }

  /** The update branch goes through for fitting fields, and the user's
      integration stays the one overwritten. */
  lemma OverwriteExistingSucceeds(d: Directory, uid: Id, iid: Id, req: IntegrationRequest, now: Instant)
    requires Valid(d) && 1 <= uid <= |d.users| && IntegrationByUser(d, uid) == Unique(iid) && TeamKnown(d, req)
    requires FitsIn(req.githubUsername, DefaultLength) && FitsIn(req.jiraAccountId, DefaultLength)
    requires FitsIn(req.githubPersonalToken, 500) && FitsIn(req.jiraPersonalToken, 500)
    ensures var r := OverwriteExisting(d, uid, iid, req, RequestTeam(d, req), now);
            r.Ok? && IntegrationByUser(r.value.0, uid) == Unique(iid)
  {
    var team := RequestTeam(d, req);
    MirrorFits(d, uid, req, now);
    assert IntegrationFits(d, d.integrations[iid - 1]);
    var row := IntegrationOnUpdate(d.integrations[iid - 1], Overwrite(d.integrations[iid - 1], req, team), now);
    var d' := OverwriteExisting(d, uid, iid, req, team, now).value.0;
    assert d'.integrations == d.integrations[iid - 1 := row];
    FindAfterUpdate(d.integrations, (i: UserIntegration) => i.user == Some(uid), iid - 1, row);
  }

  /** The create branch goes through for fitting fields, and the new
      integration is then the user's only one. */
  lemma AttachNewSucceeds(d: Directory, uid: Id, req: IntegrationRequest, now: Instant)
    requires Valid(d) && 1 <= uid <= |d.users| && IntegrationByUser(d, uid) == Missing && TeamKnown(d, req)
    requires FitsIn(req.githubUsername, DefaultLength) && FitsIn(req.jiraAccountId, DefaultLength)
    requires FitsIn(req.githubPersonalToken, 500) && FitsIn(req.jiraPersonalToken, 500)
    ensures var r := AttachNew(d, uid, req, RequestTeam(d, req), now);
            r.Ok? && IntegrationByUser(r.value.0, uid) == Unique(r.value.1)
  {
    var team := RequestTeam(d, req);
    MirrorFits(d, uid, req, now);
    var row := IntegrationOnCreate(Overwrite(NoIntegration.(user := Some(uid)), req, team), now);
    var d' := AttachNew(d, uid, req, team, now).value.0;
    assert d'.integrations == d.integrations + [row];
    FindAppendMatch(d.integrations, (i: UserIntegration) => i.user == Some(uid), row);
  }

  /** In a valid directory with one integration per user, the upsert for a
      known e-mail and a known (or no) team always goes through when the
      four integration fields fit their columns; the user's integration is
      then the one returned. */
  lemma CreateOrUpdateIntegrationSucceeds(d: Directory, req: IntegrationRequest, now: Instant)
    requires Valid(d) && OneIntegrationPerUser(d)
    requires UserByOptEmail(d, req.userEmail).Unique? && TeamKnown(d, req)
    requires FitsIn(req.githubUsername, DefaultLength) && FitsIn(req.jiraAccountId, DefaultLength)
    requires FitsIn(req.githubPersonalToken, 500) && FitsIn(req.jiraPersonalToken, 500)
    ensures var r := CreateOrUpdateIntegration(d, req, now);
            && r.Ok? && Valid(r.value.0)
            && IntegrationByUser(r.value.0, UserByOptEmail(d, req.userEmail).id) == Unique(r.value.1)
  {
    var uid := UserByOptEmail(d, req.userEmail).id;
    OnePerUserUnambiguous(d, uid);
    if IntegrationByUser(d, uid).Unique? {
      OverwriteExistingSucceeds(d, uid, IntegrationByUser(d, uid).id, req, now);
    } else {
      AttachNewSucceeds(d, uid, req, now);
    }
  }

  /** Where the choice as written answers at all, the null-safe rule gives
      the same token. */
  lemma NullSafeAgrees(d: Directory, uid: Id, personal: UserIntegration -> Option<string>, teamToken: Option<string>)
    requires ChooseToken(d, uid, personal, teamToken).Ok?
    ensures ChooseTokenNullSafe(d, uid, personal, teamToken) == ChooseToken(d, uid, personal, teamToken)
  {
  }

  /** An update whose request leaves `useTeamTokens` null stores a null
      flag (only creation defaults it), and the token choice as written
      then throws for that user; the null-safe rule answers with the team
      token. */
  lemma NullFlagAfterUpdateThrows(d: Directory, req: IntegrationRequest, now: Instant, teamToken: Option<string>)
    requires OneIntegrationPerUser(d) && req.useTeamTokens.None?
    requires CreateOrUpdateIntegration(d, req, now).Ok?
    requires IntegrationByUser(d, UserByOptEmail(d, req.userEmail).id).Unique?
    ensures var d' := CreateOrUpdateIntegration(d, req, now).value.0;
            var uid := UserByOptEmail(d, req.userEmail).id;
            && GetGithubToken(d', uid, teamToken) == Err(NullPointer)
            && GetJiraToken(d', uid, teamToken) == Err(NullPointer)
            && GetGithubTokenNullSafe(d', uid, teamToken) == Ok(teamToken)
            && GetJiraTokenNullSafe(d', uid, teamToken) == Ok(teamToken)
  {
    var (d', iid) := CreateOrUpdateIntegration(d, req, now).value;
    var uid := UserByOptEmail(d, req.userEmail).id;
    var p := (i: UserIntegration) => i.user == Some(uid);
    assert d'.integrations == d.integrations[iid - 1 := d'.integrations[iid - 1]];
    FindAfterUpdate(d.integrations, p, iid - 1, d'.integrations[iid - 1]);
  }

  /** A concrete instance: a user with a personal GitHub token and the
      flag false re-submits the form without the flag. */
  lemma NullFlagExample()
    ensures var d := NullFlagDirectory();
            var req := IntegrationRequest(Some("a@x"), None, Some("gh"), Some("p"), None, None, None);
            && GetGithubToken(d, 1, Some("team")) == Ok(Some("p"))
            && CreateOrUpdateIntegration(d, req, 5).Ok?
            && GetGithubToken(CreateOrUpdateIntegration(d, req, 5).value.0, 1, Some("team")) == Err(NullPointer)
  {
    var d := NullFlagDirectory();
    var req := IntegrationRequest(Some("a@x"), None, Some("gh"), Some("p"), None, None, None);
    FindSpec(d.users, (u: User) => u.email == Some("a@x"));
    FindSpec(d.integrations, (i: UserIntegration) => i.user == Some(1));
    NullFlagAfterUpdateThrows(d, req, 5, Some("team"));
  }

  function NullFlagDirectory(): Directory {
    var user := NoUser.(email := Some("a@x"), name := Some("A"), zohoUserId := Some("z"), createdAt := Some(0));
    var ui := NoIntegration.(user := Some(1), githubPersonalToken := Some("p"), useTeamTokens := Some(false),
                             createdAt := Some(0));
    Directory([], [], [user], [], [ui])
  }
}

=== FILE: java_string.dfy ===
/** The subset of `java.lang.String` behaviour the bot relies on, stated
    over `seq<char>`: `trim`, ASCII case mapping, `contains`/`indexOf`,
    `startsWith`, `split` with a literal key (limit 0) and with the
    whitespace patterns `\\s` and `\\s+`, `replace` of one character,
    `Long.parseLong` and decimal rendering of a non-negative `long`. */
module JavaString {
  import opened Wrappers

  // ---------------------------------------------------------------- trim

  /** `String.trim` removes every character whose code is at most U+0020. */
  predicate IsTrimmable(c: char) {
    c <= ' '
  }

  function TrimStart(s: string): (r: string)
    ensures |r| <= |s| && r == s[|s| - |r|..]
    ensures r == [] || !IsTrimmable(r[0])
    ensures forall i :: 0 <= i < |s| - |r| ==> IsTrimmable(s[i])
    decreases |s|
  {
    if |s| > 0 && IsTrimmable(s[0]) then TrimStart(s[1..]) else s
  }

  function TrimEnd(s: string): (r: string)
    ensures |r| <= |s| && r == s[..|r|]
    ensures r == [] || !IsTrimmable(r[|r| - 1])
    ensures forall i :: |r| <= i < |s| ==> IsTrimmable(s[i])
    decreases |s|
  {
    if |s| > 0 && IsTrimmable(s[|s| - 1]) then TrimEnd(s[..|s| - 1]) else s
  }

  /** `s.trim()`: the longest infix of `s` that neither starts nor ends with
      a character at or below U+0020. */
  function Trim(s: string): (r: string)
    ensures IsTrimmed(r)
    ensures TrimOffset(s) + |r| <= |s| && r == s[TrimOffset(s)..TrimOffset(s) + |r|]
    ensures forall i :: 0 <= i < TrimOffset(s) ==> IsTrimmable(s[i])
    ensures forall i :: TrimOffset(s) + |r| <= i < |s| ==> IsTrimmable(s[i])
  {
    var a := TrimStart(s);
    var r := TrimEnd(a);
    assert r == s[|s| - |a|..][..|r|] == s[|s| - |a|..|s| - |a| + |r|];
    r
  }

  /** Number of characters `trim` removes at the front. */
  function TrimOffset(s: string): nat {
    |s| - |TrimStart(s)|
  }

  predicate IsTrimmed(s: string) {
    s == [] || (!IsTrimmable(s[0]) && !IsTrimmable(s[|s| - 1]))
  }

  /** Trimming a string that is already trimmed changes nothing. */
  lemma {:induction false} TrimOfTrimmed(s: string)
    requires IsTrimmed(s)
    ensures Trim(s) == s
  {
    assert TrimStart(s) == s;
    assert TrimEnd(s) == s;
  }

  /** When `p` begins and ends with characters `trim` keeps and stands in `s`
      after nothing but removable characters, `s.trim()` starts with `p`. */
  lemma TrimHead(s: string, k: nat, p: string)
    requires |p| > 0 && k + |p| <= |s| && s[k..k + |p|] == p
    requires forall i :: 0 <= i < k ==> IsTrimmable(s[i])
    requires !IsTrimmable(p[0]) && !IsTrimmable(p[|p| - 1])
    ensures StartsWith(Trim(s), p)
  {
    var r := Trim(s);
    var off := TrimOffset(s);
    assert s[k] == p[0] && s[k + |p| - 1] == p[|p| - 1];
    assert off <= k;
    assert k + |p| <= off + |r|;
    assert r[..|p|] == s[k..k + |p|];
  }

  // --------------------------------------------------------- case mapping

  /** `Character.toLowerCase` restricted to ASCII letters. */
  function LowerChar(c: char): char {
    if 'A' <= c <= 'Z' then (c as int - 'A' as int + 'a' as int) as char else c
  }

  /** `String.toLowerCase` on ASCII letters; every other character is kept. */
  function Lower(s: string): (r: string)
    ensures |r| == |s|
    ensures forall i :: 0 <= i < |s| ==> r[i] == LowerChar(s[i])
  {
    seq(|s|, i requires 0 <= i < |s| => LowerChar(s[i]))
  }

  /** `s.equalsIgnoreCase(t)` for ASCII case differences. */
  predicate EqualsIgnoreCase(s: string, t: string) {
    Lower(s) == Lower(t)
  }

  /** Lower-casing is idempotent. */
  lemma LowerIdempotent(s: string)
    ensures Lower(Lower(s)) == Lower(s)
  {
  }

  // ----------------------------------------------------- search primitives

  predicate StartsWith(s: string, prefix: string) {
    |prefix| <= |s| && s[..|prefix|] == prefix
  }

  predicate EndsWith(s: string, suffix: string) {
    |suffix| <= |s| && s[|s| - |suffix|..] == suffix
  }

  /** A concatenation starts with its first part and ends with its last. */
  lemma ConcatEnds(a: string, b: string, c: string)
    ensures StartsWith(a + b + c, a) && EndsWith(a + b + c, c)
    ensures StartsWith(a + b, a) && EndsWith(a + b, b)
  {
    assert (a + b + c)[..|a|] == a;
    assert (a + b + c)[|a + b + c| - |c|..] == c;
  }

  /** The middle part of a three-part concatenation is what lies between
      the first part and the last. */
  lemma MiddleOfThree(a: string, b: string, c: string)
    ensures |a| + |c| <= |a + b + c|
    ensures (a + b + c)[|a|..|a + b + c| - |c|] == b
    ensures (a + b + c)[..|a|] == a && (a + b + c)[|a| + |b|..] == c
  {
    assert (a + b + c)[|a|..|a + b + c| - |c|] == b;
    assert (a + b + c)[|a| + |b|..] == c;
  }

  /** A text that starts with `p` agrees with `p` on every slice within it. */
  lemma SliceOfPrefix(s: string, p: string, i: int, j: int)
    requires StartsWith(s, p) && 0 <= i <= j <= |p|
    ensures s[i..j] == p[i..j]
  {
    forall k | i <= k < j ensures s[k] == p[k] {
      assert s[..|p|][k] == s[k];
    }
    assert s[i..j] == p[i..j];
  }

  lemma PrefixOfFour(a: string, b: string, c: string, d: string)
    ensures StartsWith(a + b + c + d, a)
  {
    assert (a + b + c + d)[..|a|] == a;
  }

  lemma SuffixOfThree(a: string, b: string, c: string)
    ensures EndsWith(a + b + c, b + c)
  {
    assert a + b + c == a + (b + c);
  }

  lemma StartsWithTrans(s: string, p: string, q: string)
    requires StartsWith(s, p) && StartsWith(p, q)
    ensures StartsWith(s, q)
  {
    assert s[..|q|] == p[..|q|];
  }

  lemma EndsWithTrans(s: string, p: string, q: string)
    requires EndsWith(s, p) && EndsWith(p, q)
    ensures EndsWith(s, q)
  {
    assert s[|s| - |q|..] == p[|p| - |q|..];
  }

  predicate OccursAt(s: string, key: string, j: int) {
    0 <= j && j + |key| <= |s| && s[j..j + |key|] == key
  }

  /** `s.indexOf(key, from)`: the first occurrence at or after `from`. */
  function IndexOfFrom(s: string, key: string, from: nat): (r: Option<nat>)
    requires from <= |s|
    ensures r.Some? ==> from <= r.value && OccursAt(s, key, r.value)
    ensures r.Some? ==> forall j :: from <= j < r.value ==> !OccursAt(s, key, j)
    ensures r.None? ==> forall j :: from <= j ==> !OccursAt(s, key, j)
    decreases |s| - from
  {
    if from + |key| > |s| then None
    else if s[from..from + |key|] == key then Some(from)
    else IndexOfFrom(s, key, from + 1)
  }

  function IndexOf(s: string, key: string): (r: Option<nat>)
    ensures r.Some? ==> OccursAt(s, key, r.value)
    ensures r.Some? ==> forall j :: 0 <= j < r.value ==> !OccursAt(s, key, j)
    ensures r.None? ==> forall j :: !OccursAt(s, key, j)
  {
    IndexOfFrom(s, key, 0)
  }

  /** `s.contains(key)`. */
  predicate Contains(s: string, key: string) {
    IndexOf(s, key).Some?
  }

  /** `contains` holds exactly when the key occurs at some position. */
  lemma ContainsIff(s: string, key: string)
    ensures Contains(s, key) <==> exists j :: OccursAt(s, key, j)
  {
    if Contains(s, key) {
      assert OccursAt(s, key, IndexOf(s, key).value);
    }
  }

  /** The part of a string before the first occurrence of a key does not
      contain that key. */
  lemma {:induction false} PrefixBeforeFirstIsKeyFree(s: string, key: string, i: nat)
    requires |key| > 0 && i <= |s|
    requires forall j :: 0 <= j < i ==> !OccursAt(s, key, j)
    ensures !Contains(s[..i], key)
  {
    var t := s[..i];
    forall j | 0 <= j && j + |key| <= |t| ensures !OccursAt(t, key, j) {
      assert t[j..j + |key|] == s[j..j + |key|];
      assert j < i && !OccursAt(s, key, j);
    }
    assert forall j :: !OccursAt(t, key, j);
  }

  /** An infix of a string that does not contain a key does not contain it
      either. */
  lemma InfixKeyFree(s: string, key: string, lo: nat, hi: nat)
    requires lo <= hi <= |s|
    requires !Contains(s, key)
    ensures !Contains(s[lo..hi], key)
  {
    var t := s[lo..hi];
    assert forall k :: !OccursAt(s, key, k);
    forall j | 0 <= j && j + |key| <= |t| ensures !OccursAt(t, key, j) {
      assert forall m :: j <= m < j + |key| ==> t[m] == s[lo + m];
      assert t[j..j + |key|] == s[lo + j..lo + j + |key|];
      assert !OccursAt(s, key, lo + j);
    }
    assert forall j :: !OccursAt(t, key, j);
  }

  /** The result of `Trim` never contains a key its argument lacks. */
  lemma TrimKeyFree(s: string, key: string)
    requires !Contains(s, key)
    ensures !Contains(Trim(s), key)
  {
    var r := Trim(s);
    InfixKeyFree(s, key, TrimOffset(s), TrimOffset(s) + |r|);
  }

  // ----------------------------------------------------- split on a literal

  /** Every piece between leftmost, non-overlapping occurrences of `key`
      (Java's `split(key, -1)` for a key free of regex metacharacters). */
  function SplitAll(s: string, key: string): (r: seq<string>)
    requires |key| > 0
    ensures |r| >= 1
    ensures forall k :: 0 <= k < |r| ==> !Contains(r[k], key)
    decreases |s|
  {
    match IndexOf(s, key)
    case None => [s]
    case Some(i) =>
      PrefixBeforeFirstIsKeyFree(s, key, i);
      var r := [s[..i]] + SplitAll(s[i + |key|..], key);
      assert forall k :: 1 <= k < |r| ==> r[k] == SplitAll(s[i + |key|..], key)[k - 1];
      r
  }

  /** Java's limit-0 rule: trailing empty strings are dropped. */
  function StripTrailingEmpty(p: seq<string>): (r: seq<string>)
    ensures |r| <= |p| && r == p[..|r|]
    ensures r == [] || r[|r| - 1] != []
    ensures forall k :: |r| <= k < |p| ==> p[k] == []
  {
    if |p| > 0 && p[|p| - 1] == [] then StripTrailingEmpty(p[..|p| - 1]) else p
  }

  /** `s.split(key)` for a literal key: the whole string when the key does not
      occur, otherwise the pieces with trailing empty ones removed. */
  function Split(s: string, key: string): (r: seq<string>)
    requires |key| > 0
    ensures forall k :: 0 <= k < |r| ==> !Contains(r[k], key)
  {
    if !Contains(s, key) then [s] else StripTrailingEmpty(SplitAll(s, key))
  }

  /** `s` has no occurrence of the character `c`. */
  predicate Lacks(s: string, c: char) {
    forall j :: 0 <= j < |s| ==> s[j] != c
  }

  lemma LacksNotContains(s: string, c: char)
    requires Lacks(s, c)
    ensures !Contains(s, [c])
  {
    forall j | 0 <= j && j + 1 <= |s| ensures !OccursAt(s, [c], j) {
      assert s[j..j + 1] == [s[j]];
    }
  }

  /** No whitespace character in `s`. */
  predicate NoWs(s: string) {
    forall j :: 0 <= j < |s| ==> !IsWs(s[j])
  }

  lemma NoWsConcat(a: string, b: string)
    requires NoWs(a) && NoWs(b)
    ensures NoWs(a + b)
  {
    forall j | 0 <= j < |a + b| ensures !IsWs((a + b)[j]) {
      if j >= |a| { assert (a + b)[j] == b[j - |a|]; }
    }
  }

  /** The pieces separated by single characters `c`, as `split` reads them
      back. */
  function Join(parts: seq<string>, c: char): string
    requires |parts| > 0
  {
    if |parts| == 1 then parts[0] else parts[0] + [c] + Join(parts[1..], c)
  }

  lemma JoinTwo(a: string, b: string, c: char)
    ensures Join([a, b], c) == a + [c] + b
  {
    assert [a, b][1..] == [b];
  }

  lemma JoinThree(a: string, b: string, x: string, c: char)
    ensures Join([a, b, x], c) == a + [c] + b + [c] + x
  {
    assert [a, b, x][1..] == [b, x];
    JoinTwo(b, x, c);
  }

  lemma JoinFour(a: string, b: string, x: string, y: string, c: char)
    ensures Join([a, b, x, y], c) == a + [c] + b + [c] + x + [c] + y
  {
    assert [a, b, x, y][1..] == [b, x, y];
    JoinThree(b, x, y, c);
  }

  /** Splitting at a character first cuts at its first occurrence. */
  lemma SplitAllAt(a: string, c: char, rest: string)
    requires Lacks(a, c)
    ensures SplitAll(a + [c] + rest, [c]) == [a] + SplitAll(rest, [c])
  {
    var s := a + [c] + rest;
    assert s[|a|..|a| + 1] == [c];
    assert OccursAt(s, [c], |a|);
    assert forall j :: 0 <= j < |a| ==> s[j] == a[j];
    var i := IndexOf(s, [c]).value;
    assert s[i..i + 1] == [c] && s[i] == c;
    assert i == |a|;
    assert s[..i] == a && s[i + 1..] == rest;
  }

  /** `split` gives back the pieces a string was joined from, when none of
      them contains the separator and the last one is not empty. */
  lemma {:induction false} SplitAllJoin(parts: seq<string>, c: char)
    requires |parts| > 0 && forall k :: 0 <= k < |parts| ==> Lacks(parts[k], c)
    ensures SplitAll(Join(parts, c), [c]) == parts
    decreases |parts|
  {
    if |parts| == 1 {
      LacksNotContains(parts[0], c);
    } else {
      SplitAllAt(parts[0], c, Join(parts[1..], c));
      SplitAllJoin(parts[1..], c);
      assert parts == [parts[0]] + parts[1..];
    }
  }

  lemma SplitJoin(parts: seq<string>, c: char)
    requires |parts| > 0 && forall k :: 0 <= k < |parts| ==> Lacks(parts[k], c)
    requires parts[|parts| - 1] != []
    ensures Split(Join(parts, c), [c]) == parts
  {
    SplitAllJoin(parts, c);
  }

  /** A separator at the very end yields no empty last piece. */
  lemma SplitDropsTrailing(parts: seq<string>, c: char)
    requires |parts| >= 2 && forall k :: 0 <= k < |parts| ==> Lacks(parts[k], c)
    requires parts[|parts| - 1] == [] && parts[|parts| - 2] != []
    ensures Split(Join(parts, c), [c]) == parts[..|parts| - 1]
  {
    SplitAllJoin(parts, c);
    var s := Join(parts, c);
    assert s == parts[0] + [c] + Join(parts[1..], c);
    assert s[|parts[0]|..|parts[0]| + 1] == [c];
    assert OccursAt(s, [c], |parts[0]|);
    var r := StripTrailingEmpty(parts);
    assert |r| != |parts|;
  }

  /** The first piece of a split keeps a separator-free head whole. */
  lemma FirstPieceKeepsHead(x: string, y: string, c: char)
    requires Lacks(x, c)
    ensures |SplitAll(x + y, [c])[0]| >= |x|
  {
    var s := x + y;
    match IndexOf(s, [c])
    case None =>
    case Some(i) =>
      assert forall j :: 0 <= j < |x| ==> s[j] == x[j];
      assert s[i..i + 1] == [c] && s[i] == c;
  }

  /** A string made only of copies of `key` (possibly none). */
  predicate OnlyKeys(s: string, key: string)
    requires |key| > 0
    decreases |s|
  {
    s == [] || (StartsWith(s, key) && OnlyKeys(s[|key|..], key))
  }

  predicate AllEmpty(p: seq<string>) {
    forall k :: 0 <= k < |p| ==> p[k] == []
  }

  /** All pieces of `SplitAll` are empty exactly when the string is made of
      copies of the key. */
  lemma {:induction false} AllPiecesEmptyIff(s: string, key: string)
    requires |key| > 0
    ensures AllEmpty(SplitAll(s, key)) <==> OnlyKeys(s, key)
    decreases |s|
  {
    var p := SplitAll(s, key);
    match IndexOf(s, key)
    case None =>
      assert p == [s] && p[0] == s;
      if s != [] {
        assert !StartsWith(s, key) by {
          if StartsWith(s, key) { assert OccursAt(s, key, 0); }
        }
      }
    case Some(i) =>
      var rest := s[i + |key|..];
      AllPiecesEmptyIff(rest, key);
      assert p == [s[..i]] + SplitAll(rest, key);
      if i == 0 {
        assert StartsWith(s, key);
        assert s[|key|..] == rest;
        forall k | 0 <= k < |SplitAll(rest, key)|
          ensures p[k + 1] == SplitAll(rest, key)[k]
        {
        }
        if OnlyKeys(rest, key) {
          forall k | 0 <= k < |p| ensures p[k] == [] {
            if k > 0 { assert p[k] == SplitAll(rest, key)[k - 1]; }
          }
        }
        if forall k :: 0 <= k < |p| ==> p[k] == [] {
          forall k | 0 <= k < |SplitAll(rest, key)| ensures SplitAll(rest, key)[k] == [] {
            assert p[k + 1] == [];
          }
        }
      } else {
        assert p[0] != [];
        assert !StartsWith(s, key) by {
          if StartsWith(s, key) { assert OccursAt(s, key, 0); }
        }
      }
  }

  /** `Split` yields at least two pieces exactly when the key occurs and the
      text after its first occurrence is not made only of further copies of
      it; the second piece is then the text between the first and the second
      occurrence (or the end). */
  lemma SplitSecondPiece(s: string, key: string)
    requires |key| > 0 && Contains(s, key)
    ensures var i := IndexOf(s, key).value;
            var rest := s[i + |key|..];
            (|Split(s, key)| > 1 <==> !OnlyKeys(rest, key))
            && (|Split(s, key)| > 1 ==> Split(s, key)[1] == SplitAll(rest, key)[0])
  {
    var i := IndexOf(s, key).value;
    var rest := s[i + |key|..];
    var all := SplitAll(s, key);
    var tail := SplitAll(rest, key);
    assert all == [s[..i]] + tail;
    var r := Split(s, key);
    assert r == StripTrailingEmpty(all);
    AllPiecesEmptyIff(rest, key);
    if OnlyKeys(rest, key) {
      assert |r| <= 1;
    } else {
      var k :| 0 <= k < |tail| && tail[k] != [];
      assert all[k + 1] != [];
      assert |r| > k + 1;
    }
  }

  /** The result of `Split` is empty exactly when the key occurs and the
      whole string is made of copies of it (Java then yields a zero-length
      array and indexing `[0]` throws). */
  lemma SplitEmptyIff(s: string, key: string)
    requires |key| > 0
    ensures |Split(s, key)| == 0 <==> (Contains(s, key) && OnlyKeys(s, key))
  {
    if Contains(s, key) {
      var all := SplitAll(s, key);
      var r := Split(s, key);
      AllPiecesEmptyIff(s, key);
      if OnlyKeys(s, key) {
        assert |r| == 0;
      } else {
        var k :| 0 <= k < |all| && all[k] != [];
        assert |r| > k;
      }
    }
  }

  /** The text after the first occurrence of `key`. */
  function AfterFirst(s: string, key: string): string
    requires Contains(s, key)
  {
    s[IndexOf(s, key).value + |key|..]
  }

  /** The text before the first occurrence of `key`, or all of `s`. */
  function UpToKey(s: string, key: string): (r: string)
    requires |key| > 0
    ensures StartsWith(s, r) && !Contains(r, key)
    ensures !Contains(s, key) ==> r == s
  {
    match IndexOf(s, key)
    case None => s
    case Some(i) =>
      PrefixBeforeFirstIsKeyFree(s, key, i);
      s[..i]
  }

  /** The text between the first and the second occurrence of `key` (or the
      end of `s`). */
  function Between(s: string, key: string): string
    requires |key| > 0 && Contains(s, key)
  {
    UpToKey(AfterFirst(s, key), key)
  }

  /** The first piece of a non-empty `split` is the text before the first
      occurrence. */
  lemma SplitFirstPiece(s: string, key: string)
    requires |key| > 0 && |Split(s, key)| > 0
    ensures Split(s, key)[0] == UpToKey(s, key)
  {
    if Contains(s, key) {
      assert Split(s, key)[0] == SplitAll(s, key)[0];
    }
  }

  /** The second piece of `split`, when there is one, is the text between
      the first two occurrences; when there is none, that text is empty. */
  lemma SplitSecondIsBetween(s: string, key: string)
    requires |key| > 0 && Contains(s, key)
    ensures |Split(s, key)| > 1 ==> Split(s, key)[1] == Between(s, key)
    ensures |Split(s, key)| <= 1 ==> Between(s, key) == []
  {
    SplitSecondPiece(s, key);
    var rest := AfterFirst(s, key);
    assert SplitAll(rest, key)[0] == UpToKey(rest, key);
    if OnlyKeys(rest, key) && rest != [] {
      assert OccursAt(rest, key, 0);
    }
  }

  /** A key whose last character occurs nowhere before it is first found
      where it ends the string. */
  lemma KeyAtEnd(before: string, key: string)
    requires |key| > 0 && Lacks(before, key[|key| - 1]) && Lacks(key[..|key| - 1], key[|key| - 1])
    ensures IndexOf(before + key, key) == Some(|before|)
  {
    var s := before + key;
    var c := key[|key| - 1];
    assert OccursAt(s, key, |before|) by { assert s[|before|..] == key; }
    assert forall k :: 0 <= k < |key| - 1 ==> key[k] == key[..|key| - 1][k];
    assert forall k :: 0 <= k < |key| - 1 ==> s[|before| + k] == key[k];
    assert forall k :: 0 <= k < |before| ==> s[k] == before[k];
    forall j | 0 <= j < |before| ensures !OccursAt(s, key, j) {
      var e := j + |key| - 1;
      assert s[e] != c;
      assert s[j..j + |key|][|key| - 1] == s[e];
    }
  }

  // --------------------------------------------------- split on whitespace

  /** A character of the regex class `\s`: space, tab, newline, vertical
      tab, form feed, carriage return. */
  predicate IsWs(c: char) {
    c == ' ' || c == '\t' || c == '\n' || c == '\U{000B}' || c == '\U{000C}' || c == '\r'
  }

  function WsIndex(s: string): (r: Option<nat>)
    ensures r.Some? ==> r.value < |s| && IsWs(s[r.value])
    ensures r.Some? ==> forall j :: 0 <= j < r.value ==> !IsWs(s[j])
    ensures r.None? ==> forall j :: 0 <= j < |s| ==> !IsWs(s[j])
  {
    if |s| == 0 then None
    else if IsWs(s[0]) then Some(0)
    else match WsIndex(s[1..])
      case None => None
      case Some(i) => Some(i + 1)
  }

  /** Every piece between single whitespace characters (`split("\\s", -1)`). */
  function SplitAtWs(s: string): (r: seq<string>)
    ensures |r| >= 1
    decreases |s|
  {
    match WsIndex(s)
    case None => [s]
    case Some(i) => [s[..i]] + SplitAtWs(s[i + 1..])
  }

  /** `s.split("\\s")`. */
  function SplitWs(s: string): seq<string> {
    if WsIndex(s).None? then [s] else StripTrailingEmpty(SplitAtWs(s))
  }

  /** The text before the first whitespace character. */
  function Token(s: string): (r: string)
    ensures StartsWith(s, r)
    ensures forall j :: 0 <= j < |r| ==> !IsWs(r[j])
  {
    match WsIndex(s)
    case None => s
    case Some(i) => s[..i]
  }

  /** `t.split("\\s")[0]` on a trimmed string never throws and yields the
      text before the first whitespace character. */
  lemma {:induction false} SplitWsHeadOfTrimmed(t: string)
    requires IsTrimmed(t)
    ensures |SplitWs(t)| > 0 && SplitWs(t)[0] == Token(t)
  {
    match WsIndex(t)
    case None =>
    case Some(i) =>
      assert i > 0 by { assert !IsTrimmable(t[0]); }
      var all := SplitAtWs(t);
      assert all[0] == t[..i] != [];
      var r := StripTrailingEmpty(all);
      assert |r| > 0;
  }

  /** `t.split("\\s")[0]` for a trimmed `t`. */
  function FirstToken(t: string): (r: string)
    requires IsTrimmed(t)
    ensures r == [] <==> t == []
    ensures forall j :: 0 <= j < |r| ==> !IsWs(r[j])
    ensures StartsWith(t, r)
  {
    SplitWsHeadOfTrimmed(t);
    assert t != [] ==> !IsWs(t[0]);
    SplitWs(t)[0]
  }

  /** Length of the run of whitespace characters at the start of `s`. */
  function WsRun(s: string): (n: nat)
    ensures n <= |s|
    ensures forall j :: 0 <= j < n ==> IsWs(s[j])
    ensures n == |s| || !IsWs(s[n])
  {
    if |s| > 0 && IsWs(s[0]) then 1 + WsRun(s[1..]) else 0
  }

  /** `s.split("\\s+", 2)`: the text before the first whitespace run and,
      when there is one, everything after it (limit 2 keeps empty pieces). */
  function SplitWsOnce(s: string): (r: seq<string>)
    ensures 1 <= |r| <= 2
    ensures |r| == 2 <==> WsIndex(s).Some?
    ensures r[0] == Token(s)
  {
    match WsIndex(s)
    case None => [s]
    case Some(i) => [s[..i], s[i + WsRun(s[i..])..]]
  }

  /** Cutting at a single space after a whitespace-free token. */
  lemma SplitWsOnceAt(t: string, rest: string)
    requires forall j :: 0 <= j < |t| ==> !IsWs(t[j])
    requires rest == [] || !IsWs(rest[0])
    ensures SplitWsOnce(t + " " + rest) == [t, rest]
  {
    var s := t + " " + rest;
    assert IsWs(s[|t|]);
    assert forall j :: 0 <= j < |t| ==> s[j] == t[j];
    var i := WsIndex(s).value;
    assert i == |t|;
    assert s[i..] == " " + rest;
    assert WsRun(s[i..]) == 1 by {
      assert WsRun(s[i..][1..]) == 0 by { assert s[i..][1..] == rest; }
    }
    assert s[..i] == t && s[i + 1..] == rest;
  }

  // ------------------------------------------------------------- utilities

  /** `s.replace(String.valueOf(c), "")`. */
  function RemoveChar(s: string, c: char): (r: string)
    ensures forall j :: 0 <= j < |r| ==> r[j] != c
    ensures |r| <= |s|
  {
    if |s| == 0 then []
    else if s[0] == c then RemoveChar(s[1..], c)
    else [s[0]] + RemoveChar(s[1..], c)
  }

  predicate IsDigit(c: char) {
    '0' <= c <= '9'
  }

  function DigitValue(c: char): nat
    requires IsDigit(c)
  {
    c as int - '0' as int
  }

  function DigitChar(d: nat): (c: char)
    requires d < 10
    ensures IsDigit(c) && DigitValue(c) == d
  {
    ('0' as int + d) as char
  }

  /** The value of a string of decimal digits. */
  function DigitsValue(s: string): nat
    requires forall j :: 0 <= j < |s| ==> IsDigit(s[j])
  {
    if |s| == 0 then 0 else DigitsValue(s[..|s| - 1]) * 10 + DigitValue(s[|s| - 1])
  }

  /** Decimal rendering of a natural number, as `Long.toString` renders a
      non-negative long. */
  function NatToString(n: nat): (r: string)
    ensures |r| > 0
    ensures forall j :: 0 <= j < |r| ==> IsDigit(r[j])
    ensures DigitsValue(r) == n
  {
    if n < 10 then [DigitChar(n)]
    else
      var r := NatToString(n / 10) + [DigitChar(n % 10)];
      assert r[..|r| - 1] == NatToString(n / 10);
      r
  }

  const LongMin: int := -0x8000_0000_0000_0000
  const LongMax: int := 0x7FFF_FFFF_FFFF_FFFF

  /** The text after an optional leading sign. */
  function Unsigned(s: string): string {
    if |s| > 0 && (s[0] == '-' || s[0] == '+') then s[1..] else s
  }

  /** Non-empty text made only of ASCII digits. */
  predicate DigitText(s: string) {
    |s| > 0 && forall j :: 0 <= j < |s| ==> IsDigit(s[j])
  }

  /** The value a signed digit string denotes, negated after a minus sign. */
  function SignedValue(s: string): int
    requires DigitText(Unsigned(s))
  {
    var m: int := DigitsValue(Unsigned(s));
    if |s| > 0 && s[0] == '-' then -m else m
  }

  /** `Long.parseLong(s)` on ASCII digits: an optional sign followed by at
      least one digit, with a value inside the `long` range; `None` models
      the `NumberFormatException`. */
  function ParseLong(s: string): (r: Option<int>)
    ensures r.Some? <==> DigitText(Unsigned(s)) && LongMin <= SignedValue(s) <= LongMax
    ensures r.Some? ==> r.value == SignedValue(s)
    ensures r.Some? ==> LongMin <= r.value <= LongMax
  {
    var negative := |s| > 0 && s[0] == '-';
    var start := if |s| > 0 && (s[0] == '-' || s[0] == '+') then 1 else 0;
    var digits := s[start..];
    assert digits == Unsigned(s);
    if |digits| == 0 || !(forall j :: 0 <= j < |digits| ==> IsDigit(digits[j])) then None
    else
      var magnitude: int := DigitsValue(digits);
      var v := if negative then -magnitude else magnitude;
      if LongMin <= v <= LongMax then Some(v) else None
  }

  /** A leading zero does not change the value of a digit string. */
  lemma {:induction false} LeadingZero(t: string)
    requires forall j :: 0 <= j < |t| ==> IsDigit(t[j])
    ensures DigitsValue("0" + t) == DigitsValue(t)
    decreases |t|
  {
    if |t| > 0 {
      var z := "0" + t;
      assert z[..|z| - 1] == "0" + t[..|t| - 1];
      assert z[|z| - 1] == t[|t| - 1];
      LeadingZero(t[..|t| - 1]);
    } else {
      assert "0" + t == "0";
    }
  }

  /** Leading zeros are ignored: "007" parses as 7. */
  lemma ParseLongLeadingZero(t: string)
    requires DigitText(t)
    ensures ParseLong("0" + t) == ParseLong(t)
  {
    LeadingZero(t);
    assert Unsigned("0" + t) == "0" + t;
    assert Unsigned(t) == t;
  }

  /** Parsing the rendering of a natural number in the `long` range gives it
      back. */
  lemma ParseLongOfNatToString(n: nat)
    requires n <= LongMax
    ensures ParseLong(NatToString(n)) == Some(n)
  {
    var s := NatToString(n);
    assert s[0] != '-' && s[0] != '+' by { assert IsDigit(s[0]); }
    assert Unsigned(s) == s;
  }

  /** Every `long` is parsed back from its decimal rendering, with a minus
      sign for negatives, and a leading plus sign is accepted. */
  lemma ParseLongOfRendering(v: int)
    requires LongMin <= v <= LongMax
    ensures v >= 0 ==> ParseLong("+" + NatToString(v)) == Some(v)
    ensures v < 0 ==> ParseLong("-" + NatToString(-v)) == Some(v)
  {
    var t := NatToString(if v < 0 then -v else v);
    var s := (if v < 0 then "-" else "+") + t;
    assert Unsigned(s) == t;
  }
}

=== FILE: organization_service.dfy ===
/** Organization registration (`service/OrganizationService.java`). The
    method is transactional: the organization and its admin are stored
    together, or the directory is left as it was. */
module OrganizationService {
  import opened Wrappers
  import opened Entities

  /** `registerOrganization(orgName, domain, creatorZohoId, creatorName,
      creatorEmail)`: refuses a taken name and a creator who is already a
      user; otherwise stores an active organization created by the creator
      and the creator as its `ORG_ADMIN`. Returns the organization id. */
  function RegisterOrganization(d: Directory, orgName: string, domain: Option<string>, creatorZohoId: string,
                                creatorName: Option<string>, creatorEmail: Option<string>, now: Instant)
    : (r: Result<(Directory, Id), Fault>)
    ensures OrgNameTaken(d, orgName) ==> r == Err(Duplicate)
    ensures UserExists(d, creatorZohoId) ==> r.Err?
    ensures r.Ok? ==>
              var (d', orgId) := r.value;
              && orgId == |d.orgs| + 1 && |d'.orgs| == orgId && d'.orgs[..|d.orgs|] == d.orgs
              && d'.orgs[orgId - 1].name == Some(orgName)
              && d'.orgs[orgId - 1].domain == domain
              && d'.orgs[orgId - 1].createdByZohoId == Some(creatorZohoId)
              && d'.orgs[orgId - 1].createdByName == creatorName
              && d'.orgs[orgId - 1].active == Some(true)
              && |d'.users| == |d.users| + 1 && d'.users[..|d.users|] == d.users
              && d'.users[|d.users|].zohoUserId == Some(creatorZohoId)
              && d'.users[|d.users|].organization == Some(orgId)
              && d'.users[|d.users|].role == Some(OrgAdmin)
              && d'.users[|d.users|].team == None
              && d'.users[|d.users|].githubUsername == None && d'.users[|d.users|].jiraEmail == None
              && d'.users[|d.users|].name == creatorName && d'.users[|d.users|].email == creatorEmail
              && d'.teams == d.teams && d'.standups == d.standups && d'.integrations == d.integrations
    ensures r.Ok? && Valid(d) ==> Valid(r.value.0)
  {
    if OrgNameTaken(d, orgName) then Err(Duplicate)
    else match UserByZohoId(d, creatorZohoId)
      case Ambiguous => Err(NonUniqueResult)
      case Unique(id) =>
        // the refusal message reads the existing user's organization name
        if d.users[id - 1].organization.None? then Err(NullPointer) else Err(Duplicate)
      case Missing =>
        FindSpec(d.users, u => HasZohoId(u, creatorZohoId));
        var org := NoOrganization.(name := Some(orgName), domain := domain, createdByZohoId := Some(creatorZohoId),
                                   createdByName := creatorName, active := Some(true));
        var (d1, orgId) :- InsertOrg(d, org, now);
        var admin := NoUser.(organization := Some(orgId), zohoUserId := Some(creatorZohoId), name := creatorName,
                             email := creatorEmail, role := Some(OrgAdmin));
        var (d2, _) :- InsertUser(d1, admin, now);
        assert d2.orgs[..|d.orgs|] == d.orgs;
        Ok((d2, orgId))
  }

  /** `organizationExists(name)`. */
  predicate OrganizationExists(d: Directory, name: string) {
    OrgNameTaken(d, name)
  }

  /** Registration fails only for the reasons the service and the schema
      give: in a valid directory it succeeds whenever the name is free and
      fits its column, the creator is not yet a user, the creator's id and
      name fit their columns, and the creator's e-mail is present, fits its
      column and is not used by another user. */
  lemma {:induction false} RegisterSucceeds(d: Directory, orgName: string, domain: Option<string>, creatorZohoId: string,
                         creatorName: Option<string>, creatorEmail: Option<string>, now: Instant)
    requires Valid(d)
    requires !OrgNameTaken(d, orgName) && !UserExists(d, creatorZohoId)
    requires |orgName| <= 100 && FitsIn(domain, 100) && |creatorZohoId| <= 100 && FitsIn(creatorName, 100)
    requires creatorName.Some? && creatorEmail.Some? && FitsIn(creatorEmail, DefaultLength)
    requires UserByEmail(d, creatorEmail.value) == Missing
    ensures RegisterOrganization(d, orgName, domain, creatorZohoId, creatorName, creatorEmail, now).Ok?
  {
    var p := (o: Organization) => o.name == Some(orgName);
    FindSpec(d.orgs, p);
    var zp := (u: User) => HasZohoId(u, creatorZohoId);
    FindSpec(d.users, zp);
    var ep := (u: User) => u.email == creatorEmail;
    FindSpec(d.users, ep);
    var org := NoOrganization.(name := Some(orgName), domain := domain, createdByZohoId := Some(creatorZohoId),
                               createdByName := creatorName, active := Some(true));
    assert OrgFits(d, OrgOnCreate(org, now), -1) by {
      forall j | 0 <= j < |d.orgs| ensures d.orgs[j].name != Some(orgName) {
        assert !p(d.orgs[j]);
      }
    }
    var (d1, orgId) := InsertOrg(d, org, now).value;
    var admin := NoUser.(organization := Some(orgId), zohoUserId := Some(creatorZohoId), name := creatorName,
                         email := creatorEmail, role := Some(OrgAdmin));
    assert UserFits(d1, UserOnCreate(admin, now), -1) by {
      forall j | 0 <= j < |d1.users|
        ensures d1.users[j].email != creatorEmail && d1.users[j].zohoUserId != Some(creatorZohoId)
      {
        assert !ep(d.users[j]) && !zp(d.users[j]);
      }
    }
  }
}

=== FILE: permissions.dfy ===
/** Role-based permission predicates (`service/PermissionService.java`).
    Each answers `Ok(b)`, or `Err(NullPointer)` where the Java code
    dereferences a null organization or team lead: those exceptions are
    not caught, only the failure of the user lookup itself is. */
module Permissions {
  import opened Wrappers
  import opened Entities

  /** Row `i` is the only user row carrying the identity `zid`. */
  predicate OnlyUser(d: Directory, zid: string, i: int) {
    0 <= i < |d.users| && HasZohoId(d.users[i], zid)
    && forall j :: 0 <= j < |d.users| && j != i ==> !HasZohoId(d.users[j], zid)
  }

  /** `getUserByZohoId`: the lookup, with any exception it throws (several
      rows) turned into "no user". A user is found exactly when a single row
      carries the identity, and it is that row. */
  function UserOf(d: Directory, zid: string): (r: Option<User>)
    ensures r.Some? <==> UserByZohoId(d, zid).Unique?
    ensures r.Some? ==> r.value.zohoUserId == Some(zid) && r.value in d.users
    ensures r.Some? <==> exists i :: OnlyUser(d, zid, i)
    ensures forall i :: OnlyUser(d, zid, i) ==> r == Some(d.users[i])
  {
    FindSpec(d.users, (u: User) => HasZohoId(u, zid));
    match UserByZohoId(d, zid)
    case Unique(id) => assert OnlyUser(d, zid, id - 1); Some(d.users[id - 1])
    case _ => None
  }

  /** `user.getOrganization().getId()`. */
  function OrgIdOf(u: User): Result<Id, Fault> {
    if u.organization.None? then Err(NullPointer) else Ok(u.organization.value)
  }

  /** `canManageOrganization`: an organization admin of exactly that
      organization. The organization is dereferenced before the role test,
      so a user without one makes the call throw. */
  function CanManageOrganization(d: Directory, zid: string, orgId: Id): (r: Result<bool, Fault>)
    ensures UserOf(d, zid).None? ==> r == Ok(false)
    ensures r.Err? <==> UserOf(d, zid).Some? && UserOf(d, zid).value.organization.None?
    ensures r == Ok(true) <==>
              UserOf(d, zid).Some? && UserOf(d, zid).value.role == Some(OrgAdmin)
              && UserOf(d, zid).value.organization == Some(orgId)
  {
    match UserOf(d, zid)
    case None => Ok(false)
    case Some(u) =>
      var o :- OrgIdOf(u);
      Ok(o == orgId && u.role == Some(OrgAdmin))
  }

  /** `canCreateTeam`. */
  function CanCreateTeam(d: Directory, zid: string, orgId: Id): (r: Result<bool, Fault>)
    ensures UserOf(d, zid).None? ==> r == Ok(false)
    ensures r.Err? <==> UserOf(d, zid).Some? && UserOf(d, zid).value.organization.None?
    ensures r == Ok(true) <==>
              UserOf(d, zid).Some? && UserOf(d, zid).value.role == Some(OrgAdmin)
              && UserOf(d, zid).value.organization == Some(orgId)
  {
    CanManageOrganization(d, zid, orgId)
  }

  /** `canViewOrgDashboard`. */
  function CanViewOrgDashboard(d: Directory, zid: string, orgId: Id): (r: Result<bool, Fault>)
    ensures UserOf(d, zid).None? ==> r == Ok(false)
    ensures r.Err? <==> UserOf(d, zid).Some? && UserOf(d, zid).value.organization.None?
    ensures r == Ok(true) <==>
              UserOf(d, zid).Some? && UserOf(d, zid).value.role == Some(OrgAdmin)
              && UserOf(d, zid).value.organization == Some(orgId)
  {
    CanManageOrganization(d, zid, orgId)
  }

  /** The admin branch shared by `canManageTeam` and `canViewTeamProgress`:
      the team exists and belongs to the admin's organization. */
  function TeamInOwnOrg(d: Directory, u: User, teamId: Id): Result<bool, Fault> {
    match TeamById(d, teamId)
    case None => Ok(false)
    case Some(t) =>
      if t.organization.None? then Err(NullPointer)
      else
        var o :- OrgIdOf(u);
        Ok(t.organization.value == o)
  }

  /** `team.getTeamLeadZohoId().equals(zid)` for an existing team. */
  function LeadsTeam(d: Directory, zid: string, teamId: Id): Result<bool, Fault> {
    match TeamById(d, teamId)
    case None => Ok(false)
    case Some(t) => if t.teamLeadZohoId.None? then Err(NullPointer) else Ok(t.teamLeadZohoId.value == zid)
  }

  /** `canManageTeam`: an admin manages every team of its organization, a
      lead the teams naming it as lead, anybody else nothing. */
  function CanManageTeam(d: Directory, zid: string, teamId: Id): (r: Result<bool, Fault>)
    ensures UserOf(d, zid).None? ==> r == Ok(false)
    ensures r == Ok(true) <==>
              && UserOf(d, zid).Some? && 1 <= teamId <= |d.teams|
              && var u := UserOf(d, zid).value;
              && var t := d.teams[teamId - 1];
              || (u.role == Some(OrgAdmin) && t.organization.Some? && t.organization == u.organization)
              || (u.role == Some(TeamLead) && t.teamLeadZohoId == Some(zid))
    ensures r.Err? <==>
              && UserOf(d, zid).Some? && 1 <= teamId <= |d.teams|
              && var u := UserOf(d, zid).value;
              && var t := d.teams[teamId - 1];
              || (u.role == Some(OrgAdmin) && (t.organization.None? || u.organization.None?))
              || (u.role == Some(TeamLead) && t.teamLeadZohoId.None?)
  {
    match UserOf(d, zid)
    case None => Ok(false)
    case Some(u) =>
      if u.role == Some(OrgAdmin) then TeamInOwnOrg(d, u, teamId)
      else if u.role == Some(TeamLead) then LeadsTeam(d, zid, teamId)
      else Ok(false)
  }

  /** `canAddUserToTeam`. */
  function CanAddUserToTeam(d: Directory, zid: string, teamId: Id): (r: Result<bool, Fault>)
    ensures UserOf(d, zid).None? ==> r == Ok(false)
    ensures r == Ok(true) <==>
              && UserOf(d, zid).Some? && 1 <= teamId <= |d.teams|
              && var u := UserOf(d, zid).value;
              && var t := d.teams[teamId - 1];
              || (u.role == Some(OrgAdmin) && t.organization.Some? && t.organization == u.organization)
              || (u.role == Some(TeamLead) && t.teamLeadZohoId == Some(zid))
    ensures r.Err? <==>
              && UserOf(d, zid).Some? && 1 <= teamId <= |d.teams|
              && var u := UserOf(d, zid).value;
              && var t := d.teams[teamId - 1];
              || (u.role == Some(OrgAdmin) && (t.organization.None? || u.organization.None?))
              || (u.role == Some(TeamLead) && t.teamLeadZohoId.None?)
  {
    CanManageTeam(d, zid, teamId)
  }

  /** `canRemoveUserFromTeam`. */
  function CanRemoveUserFromTeam(d: Directory, zid: string, teamId: Id): (r: Result<bool, Fault>)
    ensures UserOf(d, zid).None? ==> r == Ok(false)
    ensures r == Ok(true) <==>
              && UserOf(d, zid).Some? && 1 <= teamId <= |d.teams|
              && var u := UserOf(d, zid).value;
              && var t := d.teams[teamId - 1];
              || (u.role == Some(OrgAdmin) && t.organization.Some? && t.organization == u.organization)
              || (u.role == Some(TeamLead) && t.teamLeadZohoId == Some(zid))
    ensures r.Err? <==>
              && UserOf(d, zid).Some? && 1 <= teamId <= |d.teams|
              && var u := UserOf(d, zid).value;
              && var t := d.teams[teamId - 1];
              || (u.role == Some(OrgAdmin) && (t.organization.None? || u.organization.None?))
              || (u.role == Some(TeamLead) && t.teamLeadZohoId.None?)
  {
    CanManageTeam(d, zid, teamId)
  }

  /** `canViewTeamProgress`: admins see the teams of their organization,
      everybody else only their own team. */
  function CanViewTeamProgress(d: Directory, zid: string, teamId: Id): (r: Result<bool, Fault>)
    ensures UserOf(d, zid).None? ==> r == Ok(false)
    ensures r == Ok(true) <==>
              && UserOf(d, zid).Some?
              && var u := UserOf(d, zid).value;
              || (u.role == Some(OrgAdmin) && 1 <= teamId <= |d.teams|
                  && d.teams[teamId - 1].organization.Some? && d.teams[teamId - 1].organization == u.organization)
              || (u.role != Some(OrgAdmin) && u.team == Some(teamId))
    ensures r.Err? <==>
              && UserOf(d, zid).Some? && UserOf(d, zid).value.role == Some(OrgAdmin) && 1 <= teamId <= |d.teams|
              && (d.teams[teamId - 1].organization.None? || UserOf(d, zid).value.organization.None?)
  {
    match UserOf(d, zid)
    case None => Ok(false)
    case Some(u) =>
      if u.role == Some(OrgAdmin) then TeamInOwnOrg(d, u, teamId)
      else Ok(u.team == Some(teamId))
  }

  /** `isOrgAdmin`. */
  function IsOrgAdmin(d: Directory, zid: string): (b: bool)
    ensures b <==> exists i :: OnlyUser(d, zid, i) && d.users[i].role == Some(OrgAdmin)
  {
    UserOf(d, zid).Some? && UserOf(d, zid).value.role == Some(OrgAdmin)
  }

  /** `isTeamLead(zid)`: the role alone. */
  function IsTeamLead(d: Directory, zid: string): (b: bool)
    ensures b <==> exists i :: OnlyUser(d, zid, i) && d.users[i].role == Some(TeamLead)
  {
    UserOf(d, zid).Some? && UserOf(d, zid).value.role == Some(TeamLead)
  }

  /** `isTeamLead(zid, teamId)`: the role and the team's lead id. */
  function IsTeamLeadOf(d: Directory, zid: string, teamId: Id): (r: Result<bool, Fault>)
    ensures !IsTeamLead(d, zid) ==> r == Ok(false)
    ensures IsTeamLead(d, zid) ==>
              && (r.Err? <==> 1 <= teamId <= |d.teams| && d.teams[teamId - 1].teamLeadZohoId.None?)
              && (r == Ok(true) <==> 1 <= teamId <= |d.teams| && d.teams[teamId - 1].teamLeadZohoId == Some(zid))
  {
    match UserOf(d, zid)
    case None => Ok(false)
    case Some(u) => if u.role != Some(TeamLead) then Ok(false) else LeadsTeam(d, zid, teamId)
  }

  /** `belongsToOrganization`. */
  function BelongsToOrganization(d: Directory, zid: string, orgId: Id): (r: Result<bool, Fault>)
    ensures UserOf(d, zid).None? ==> r == Ok(false)
    ensures r.Err? <==> UserOf(d, zid).Some? && UserOf(d, zid).value.organization.None?
    ensures r == Ok(true) <==> exists i :: OnlyUser(d, zid, i) && d.users[i].organization == Some(orgId)
  {
    match UserOf(d, zid)
    case None => Ok(false)
    case Some(u) =>
      var o :- OrgIdOf(u);
      Ok(o == orgId)
  }

  /** `belongsToTeam`. */
  function BelongsToTeam(d: Directory, zid: string, teamId: Id): (b: bool)
    ensures b <==> exists i :: OnlyUser(d, zid, i) && d.users[i].team == Some(teamId)
  {
    UserOf(d, zid).Some? && UserOf(d, zid).value.team == Some(teamId)
  }

  // ------------------------------------------------------------ properties

  /** An identity with no user row, or one the lookup cannot resolve to a
      single row, is refused by every predicate, without an exception. */
  lemma UnknownUserRefused(d: Directory, zid: string, orgId: Id, teamId: Id)
    requires !UserByZohoId(d, zid).Unique?
    ensures CanManageOrganization(d, zid, orgId) == Ok(false)
    ensures CanCreateTeam(d, zid, orgId) == Ok(false)
    ensures CanViewOrgDashboard(d, zid, orgId) == Ok(false)
    ensures CanManageTeam(d, zid, teamId) == Ok(false)
    ensures CanAddUserToTeam(d, zid, teamId) == Ok(false)
    ensures CanRemoveUserFromTeam(d, zid, teamId) == Ok(false)
    ensures CanViewTeamProgress(d, zid, teamId) == Ok(false)
    ensures !IsOrgAdmin(d, zid) && !IsTeamLead(d, zid)
    ensures IsTeamLeadOf(d, zid, teamId) == Ok(false)
    ensures BelongsToOrganization(d, zid, orgId) == Ok(false)
    ensures !BelongsToTeam(d, zid, teamId)
  {
  }

  /** The organization-scope predicates hold exactly for an organization
      admin of that very organization; they throw only for a known user
      without an organization. */
  lemma OrgScope(d: Directory, zid: string, orgId: Id)
    ensures CanManageOrganization(d, zid, orgId) == Ok(true) <==>
              UserOf(d, zid).Some? && UserOf(d, zid).value.role == Some(OrgAdmin)
              && UserOf(d, zid).value.organization == Some(orgId)
    ensures CanManageOrganization(d, zid, orgId).Err? <==>
              UserOf(d, zid).Some? && UserOf(d, zid).value.organization.None?
    ensures CanCreateTeam(d, zid, orgId) == CanManageOrganization(d, zid, orgId)
    ensures CanViewOrgDashboard(d, zid, orgId) == CanManageOrganization(d, zid, orgId)
  {
  }

  /** For an organization admin, `canManageTeam` holds exactly when the team
      exists and belongs to the admin's organization; in a valid directory
      it cannot throw for an admin that has an organization. */
  lemma AdminManagesOwnOrgTeams(d: Directory, zid: string, teamId: Id)
    requires Valid(d)
    requires UserOf(d, zid).Some? && UserOf(d, zid).value.role == Some(OrgAdmin)
    requires UserOf(d, zid).value.organization.Some?
    ensures CanManageTeam(d, zid, teamId).Ok?
    ensures CanManageTeam(d, zid, teamId).value <==>
              1 <= teamId <= |d.teams| && d.teams[teamId - 1].organization == UserOf(d, zid).value.organization
  {
    if 1 <= teamId <= |d.teams| {
      assert TeamFits(d, d.teams[teamId - 1], teamId - 1);
    }
  }

  /** For a team lead, `canManageTeam` holds exactly when the team exists and
      names the caller as lead; the lead's own organization is never
      compared. */
  lemma LeadManagesLedTeams(d: Directory, zid: string, teamId: Id)
    requires Valid(d)
    requires UserOf(d, zid).Some? && UserOf(d, zid).value.role == Some(TeamLead)
    ensures CanManageTeam(d, zid, teamId).Ok?
    ensures CanManageTeam(d, zid, teamId).value <==>
              1 <= teamId <= |d.teams| && d.teams[teamId - 1].teamLeadZohoId == Some(zid)
  {
    if 1 <= teamId <= |d.teams| {
      assert TeamFits(d, d.teams[teamId - 1], teamId - 1);
    }
  }

  /** A lead may manage a team of another organization: the lead check
      looks only at the team's lead id. */
  lemma LeadOfForeignTeam()
    ensures var d := ForeignLeadWitness();
            Valid(d) && UserOf(d, "lead").Some? && UserOf(d, "lead").value.organization == Some(1)
            && d.teams[1].organization == Some(2) && CanManageTeam(d, "lead", 2) == Ok(true)
  {
    var d := ForeignLeadWitness();
    assert OnlyUser(d, "lead", 0);
    assert UserOf(d, "lead") == Some(d.users[0]);
  }

  function ForeignLeadWitness(): Directory {
    var org := NoOrganization.(name := Some("a"), createdByZohoId := Some("lead"), active := Some(true),
                               createdAt := Some(0));
    var team := NoTeam.(organization := Some(1), teamName := Some("t"), teamLeadZohoId := Some("lead"),
                        active := Some(true), createdAt := Some(0));
    var lead := NoUser.(email := Some("l@x"), name := Some("L"), zohoUserId := Some("lead"),
                        organization := Some(1), team := Some(1), role := Some(TeamLead), createdAt := Some(0));
    Directory([org, org.(name := Some("b"))], [team, team.(organization := Some(2))], [lead], [], [])
  }

  /** Users without the admin or lead role manage no team. */
  lemma OthersManageNothing(d: Directory, zid: string, teamId: Id)
    requires UserOf(d, zid).Some?
    requires UserOf(d, zid).value.role != Some(OrgAdmin) && UserOf(d, zid).value.role != Some(TeamLead)
    ensures CanManageTeam(d, zid, teamId) == Ok(false)
    ensures CanAddUserToTeam(d, zid, teamId) == Ok(false)
    ensures CanRemoveUserFromTeam(d, zid, teamId) == Ok(false)
  {
  }

  /** Adding and removing members is exactly managing the team. */
  lemma AddRemoveAreManage(d: Directory, zid: string, teamId: Id)
    ensures CanAddUserToTeam(d, zid, teamId) == CanManageTeam(d, zid, teamId)
    ensures CanRemoveUserFromTeam(d, zid, teamId) == CanManageTeam(d, zid, teamId)
  {
  }

  /** Anyone but an admin sees exactly the team recorded on their own row. */
  lemma NonAdminSeesOwnTeam(d: Directory, zid: string, teamId: Id)
    requires UserOf(d, zid).Some? && UserOf(d, zid).value.role != Some(OrgAdmin)
    ensures CanViewTeamProgress(d, zid, teamId) == Ok(UserOf(d, zid).value.team == Some(teamId))
    ensures CanViewTeamProgress(d, zid, teamId) == Ok(BelongsToTeam(d, zid, teamId))
  {
  }

  /** An admin sees exactly the teams it manages. */
  lemma AdminSeesManagedTeams(d: Directory, zid: string, teamId: Id)
    requires IsOrgAdmin(d, zid)
    ensures CanViewTeamProgress(d, zid, teamId) == CanManageTeam(d, zid, teamId)
  {
  }

  /** Leading a given team implies the lead role and the right to manage
      that team. */
  lemma LeadImplications(d: Directory, zid: string, teamId: Id)
    requires IsTeamLeadOf(d, zid, teamId) == Ok(true)
    ensures IsTeamLead(d, zid)
    ensures CanManageTeam(d, zid, teamId) == Ok(true)
  {
  }
}

=== FILE: router_properties.dfy ===
/** Properties of the conversation engine that span several handlers: the
    command table, the states a conversation can reach, the dialogue rules
    and what the add-user and standup dialogues store. */
module RouterProperties {
  import opened Wrappers
  import opened JavaString
  import opened UserSessions
  import opened SessionStore
  import opened Entities
  import opened Permissions
  import opened CommandRouter
  import UserService

  // ------------------------------------------------------- command table

  /** The router trims and lower-cases the text before the table sees it:
      "Help" between any blanks is the help command. */
  lemma CommandTextExample(a: string, b: string)
    requires forall i :: 0 <= i < |a| ==> IsTrimmable(a[i])
    requires forall i :: 0 <= i < |b| ==> IsTrimmable(b[i])
    ensures CommandFor(Lower(Trim(a + "Help" + b))) == Some(HelpCmd)
  {
    calc {
      CommandFor(Lower(Trim(a + "Help" + b)));
    == { TrimAround(a, "Help", b); }
      CommandFor(Lower("Help"));
    == { assert Lower("Help") == "help"; }
      CommandFor("help");
    == { HelpWord(); }
      Some(HelpCmd);
    }
  }

  /** The bare word "help" is the help command: no earlier command of the
      table is triggered by it. */
  lemma HelpWord()
    ensures CommandFor("help") == Some(HelpCmd)
  {
    assert "help"[0] == 'h';
  }

  /** A slash command matches as a prefix; a bare word only as the whole
      message. */
  lemma CommandTableExamples()
    ensures CommandFor("/register-org now") == Some(RegisterOrgCmd)
    ensures CommandFor("/helpme") == Some(HelpCmd)
    ensures CommandFor("standup") == Some(StandupCmd)
    ensures CommandFor("standup now") == None
  {
    assert "/register-org now"[..13] == "/register-org";
    assert "/helpme"[..5] == "/help";
    assert "standup now"[0] == 's';
  }

  /** Trimming `a + s + b` gives `s` when `a` and `b` are all whitespace and
      `s` is already trimmed. */
  lemma TrimAround(a: string, s: string, b: string)
    requires forall i :: 0 <= i < |a| ==> IsTrimmable(a[i])
    requires forall i :: 0 <= i < |b| ==> IsTrimmable(b[i])
    requires s != [] && IsTrimmed(s)
    ensures Trim(a + s + b) == s
  {
    var w := a + s + b;
    var r := Trim(w);
    var off := TrimOffset(w);
    assert w[|a|] == s[0] && w[|a| + |s| - 1] == s[|s| - 1];
    assert off <= |a|;
    assert |a| + |s| <= off + |r|;
    assert r != [] && !IsTrimmable(r[0]) && !IsTrimmable(r[|r| - 1]);
    assert r == w[|a|..|a| + |s|] == s;
  }

  /** While a dialogue is open, the message is an answer: it is never looked
      up in the command table. In the organization dialogue at step 0 any
      text, a command or "cancel" included, becomes the organization name. */
  lemma {:induction false} AnswerNotCommand(d: Directory, m: Sessions, ctx: Context, env: Env)
    requires ctx.zohoUserId in m && m[ctx.zohoUserId].state == RegisteringOrg && m[ctx.zohoUserId].step == 0
    ensures Route(d, m, ctx, env).Ok?
    ensures var o := Route(d, m, ctx, env).value;
            && o.dir == d && o.reply == Ask(Domain)
            && MovedTo(m, o.sessions, ctx.zohoUserId, RegisteringOrg, 1)
            && Stored(o.sessions, ctx.zohoUserId, OrgNameKey) == Some(Text(Trim(ctx.message)))
  {
    assert HasActiveSession(m, ctx.zohoUserId);
    var o := OrganizationFlow(d, m, ctx, env);
    assert Continue(d, m, ctx, env) == o;
  }

  /** No command and no open dialogue: the "didn't understand" reply and no
      change at all. */
  lemma UnknownCommandChangesNothing(d: Directory, m: Sessions, ctx: Context, env: Env)
    requires !HasActiveSession(m, ctx.zohoUserId)
    requires forall c :: !Triggers(c, Lower(Trim(ctx.message)))
    ensures Route(d, m, ctx, env) == Ok(Outcome(d, m, NotUnderstood))
  {
  }

  /** Replies that a dialogue handler may give: no refusal (those belong to
      the start handlers) and none of the fall-backs for impossible states. */
  predicate Productive(reply: Reply) {
    !reply.Refused? && !reply.SomethingWentWrong? && !reply.SessionExpired? && !reply.NotImplemented?
  }

  /** A refusal leaves the directory and every session as they were, so the
      sender stays without an open dialogue. */
  lemma {:induction false} RefusalChangesNothing(d: Directory, m: Sessions, ctx: Context, env: Env)
    requires Route(d, m, ctx, env).Ok? && Route(d, m, ctx, env).value.reply.Refused?
    ensures var o := Route(d, m, ctx, env).value;
            o.dir == d && o.sessions == m && !HasActiveSession(o.sessions, ctx.zohoUserId)
  {
    var zid := ctx.zohoUserId;
    if HasActiveSession(m, zid) {
      AnswerNeverRefused(d, m, ctx, env);
    } else {
      StartOutcome(d, m, ctx, env);
    }
  }

  // ---------------------------------------------------- reachable states

  /** The states and steps the engine can put a session in. The GitHub and
      Jira update dialogues are never entered; the organization and team
      dialogues stop at step 1 and the add-user dialogue at step 6. */
  predicate SessionOk(s: UserSession) {
    match s.state
    case Idle => true
    case RegisteringOrg => 0 <= s.step <= 1
    case CreatingTeam => 0 <= s.step <= 1
    case AddingUser => 0 <= s.step <= 6
    case StandupYesterday => true
    case StandupToday => true
    case StandupBlockers => true
    case UpdatingGithub => false
    case UpdatingJira => false
  }

  ghost predicate Reachable(m: Sessions) {
    forall k :: k in m ==> SessionOk(m[k])
  }

  /** Only `id` changed, and its session is one the engine can reach. */
  ghost predicate ChangedOk(m: Sessions, m': Sessions, id: string) {
    OthersUnchanged(m, m', id) && (id in m' ==> SessionOk(m'[id]))
  }

  lemma ChangedOkKeeps(m: Sessions, m': Sessions, id: string)
    requires Reachable(m) && ChangedOk(m, m', id)
    ensures Reachable(m')
  {
    forall k | k in m' ensures SessionOk(m'[k]) {
      if k != id {
        assert k in m && m'[k] == m[k];
      }
    }
  }

  /** The expiry sweep only removes sessions. */
  lemma SweepKeepsReachable(m: Sessions, now: Entities.Instant)
    requires Reachable(m)
    ensures Reachable(CleanupExpired(m, now))
  {
  }

  /** A start handler either refuses without touching anything or opens its
      own dialogue at step 0; help and status only read. */
  lemma {:induction false} StartOutcome(d: Directory, m: Sessions, ctx: Context, env: Env)
    requires !HasActiveSession(m, ctx.zohoUserId) && Route(d, m, ctx, env).Ok?
    ensures var o := Route(d, m, ctx, env).value;
            && o.dir == d && ChangedOk(m, o.sessions, ctx.zohoUserId)
            && !o.reply.SomethingWentWrong? && !o.reply.SessionExpired? && !o.reply.NotImplemented?
            && (o.reply.Refused? ==> o.sessions == m)
  {
    var c := CommandFor(Lower(Trim(ctx.message)));
    if c.Some? {
      StartHandlerOutcome(d, m, ctx, env, c.value);
    }
  }

  lemma {:induction false} StartHandlerOutcome(d: Directory, m: Sessions, ctx: Context, env: Env, c: Command)
    requires !HasActiveSession(m, ctx.zohoUserId) && Start(d, m, ctx, env, c).Ok?
    ensures var o := Start(d, m, ctx, env, c).value;
            && o.dir == d && ChangedOk(m, o.sessions, ctx.zohoUserId)
            && !o.reply.SomethingWentWrong? && !o.reply.SessionExpired? && !o.reply.NotImplemented?
            && (o.reply.Refused? ==> o.sessions == m)
  {
    match c
    case RegisterOrgCmd =>
    case CreateTeamCmd =>
    case AddUserCmd =>
    case StandupCmd =>
    case HelpCmd =>
    case StatusCmd =>
  }

  lemma {:induction false} OrganizationAnswer(d: Directory, m: Sessions, ctx: Context, env: Env)
    requires ctx.zohoUserId in m && m[ctx.zohoUserId].state == RegisteringOrg
    ensures var o := OrganizationFlow(d, m, ctx, env);
            !o.reply.Refused? && (SessionOk(m[ctx.zohoUserId]) ==> ChangedOk(m, o.sessions, ctx.zohoUserId) && Productive(o.reply))
  {
    var s := m[ctx.zohoUserId];
    if s.step == 1 && !IsCancel(Answer(ctx)) {
      match RegisterFromSession(d, s, ctx, env)
      case Ok(_) =>
      case Err(_) =>
    }
  }

  lemma {:induction false} TeamAnswer(d: Directory, m: Sessions, ctx: Context, env: Env)
    requires ctx.zohoUserId in m && m[ctx.zohoUserId].state == CreatingTeam
    ensures var o := TeamFlow(d, m, ctx, env);
            !o.reply.Refused? && (SessionOk(m[ctx.zohoUserId]) ==> ChangedOk(m, o.sessions, ctx.zohoUserId) && Productive(o.reply))
  {
    var s := m[ctx.zohoUserId];
    if s.step == 1 && !IsCancel(Answer(ctx)) {
      match CreateFromSession(d, s, ctx, env)
      case Ok(_) =>
      case Err(_) =>
    }
  }

  lemma {:induction false} MemberAnswer(d: Directory, m: Sessions, ctx: Context, env: Env)
    requires ctx.zohoUserId in m && m[ctx.zohoUserId].state == AddingUser
    ensures var o := UserFlow(d, m, ctx, env);
            !o.reply.Refused? && (SessionOk(m[ctx.zohoUserId]) ==> ChangedOk(m, o.sessions, ctx.zohoUserId) && Productive(o.reply))
  {
    var zid := ctx.zohoUserId;
    var s := m[zid];
    var msg := Answer(ctx);
    var o := UserFlow(d, m, ctx, env);
    if IsCancel(msg) {
      assert ResetIn(m, o.sessions, zid);
    } else if 0 <= s.step <= 5 && !(IsSkip(msg) && s.step in {2, 4, 5}) {
      assert MovedTo(m, o.sessions, zid, AddingUser, s.step + 1) && o.reply.Ask?;
    } else if s.step == 2 {
      assert MovedTo(m, o.sessions, zid, AddingUser, 4) && o.reply.Ask?;
    } else if 0 <= s.step <= 6 {
      assert s.step == 6 || (s.step in {4, 5} && IsSkip(msg));
      assert ResetIn(m, o.sessions, zid) && (o.reply.UserAdded? || o.reply.Failed?);
    } else {
      assert o.reply == SomethingWentWrong(AddingUser);
    }
  }

  lemma {:induction false} StandupAnswer(d: Directory, m: Sessions, ctx: Context, env: Env)
    requires ctx.zohoUserId in m && m[ctx.zohoUserId].state in {StandupYesterday, StandupToday, StandupBlockers}
    ensures var o := StandupFlow(d, m, ctx, env);
            ChangedOk(m, o.sessions, ctx.zohoUserId) && Productive(o.reply)
  {
    var s := m[ctx.zohoUserId];
    if s.state == StandupBlockers && !IsCancel(Answer(ctx)) {
      match SaveStandup(d, s, ctx.zohoUserId, Answer(ctx), env)
      case Ok(_) =>
      case Err(_) =>
    }
  }

  /** Answers inside a dialogue are never refused; from a reachable state
      they keep the session reachable and avoid the fall-back replies. */
  lemma {:induction false} AnswerNeverRefused(d: Directory, m: Sessions, ctx: Context, env: Env)
    requires HasActiveSession(m, ctx.zohoUserId)
    ensures var o := Continue(d, m, ctx, env);
            !o.reply.Refused?
            && (SessionOk(m[ctx.zohoUserId]) ==> ChangedOk(m, o.sessions, ctx.zohoUserId) && Productive(o.reply))
  {
    match m[ctx.zohoUserId].state
    case RegisteringOrg => OrganizationAnswer(d, m, ctx, env);
    case CreatingTeam => TeamAnswer(d, m, ctx, env);
    case AddingUser => MemberAnswer(d, m, ctx, env);
    case StandupYesterday => StandupAnswer(d, m, ctx, env);
    case StandupToday => StandupAnswer(d, m, ctx, env);
    case StandupBlockers => StandupAnswer(d, m, ctx, env);
    case UpdatingGithub =>
    case UpdatingJira =>
  }

  /** Every call keeps every session in a reachable state. */
  lemma {:induction false} RouteKeepsReachable(d: Directory, m: Sessions, ctx: Context, env: Env)
    requires Reachable(m) && Route(d, m, ctx, env).Ok?
    ensures Reachable(Route(d, m, ctx, env).value.sessions)
  {
    var zid := ctx.zohoUserId;
    if HasActiveSession(m, zid) {
      AnswerNeverRefused(d, m, ctx, env);
    } else {
      StartOutcome(d, m, ctx, env);
    }
    ChangedOkKeeps(m, Route(d, m, ctx, env).value.sessions, zid);
  }

  /** From reachable sessions the fall-back replies "Something went wrong",
      "Session expired" and "to be implemented" never occur. */
  lemma {:induction false} NoDeadEndReplies(d: Directory, m: Sessions, ctx: Context, env: Env)
    requires Reachable(m) && Route(d, m, ctx, env).Ok?
    ensures var reply := Route(d, m, ctx, env).value.reply;
            !reply.SomethingWentWrong? && !reply.SessionExpired? && !reply.NotImplemented?
  {
    if HasActiveSession(m, ctx.zohoUserId) {
      AnswerNeverRefused(d, m, ctx, env);
    } else {
      StartOutcome(d, m, ctx, env);
    }
  }

  // -------------------------------------------------- add-user dialogue

  /** The text stored under `key`, if there is one. */
  function Collected(s: UserSession, key: string): Option<string> {
    var v := UserSessions.GetData(s, key);
    if v.Some? && v.value.Text? then Some(v.value.text) else None
  }

  /** In a valid directory, the identity of row `k` resolves to that row. */
  lemma {:induction false} RowFound(d: Directory, zid: string, k: nat)
    requires Valid(d) && k < |d.users| && d.users[k].zohoUserId == Some(zid)
    ensures UserByZohoId(d, zid) == Unique(k + 1)
  {
    var p := (u: User) => HasZohoId(u, zid);
    FindSpec(d.users, p);
    assert p(d.users[k]);
    UserByZohoIdUnique(d, zid);
  }

  /** The GitHub update of the new member touches its row only, and only
      when both answers were given. */
  lemma {:induction false} SaveGithubEffect(d: Directory, k: nat, zid: string, user: Option<string>,
                                            token: Option<string>, now: Entities.Instant)
    requires Valid(d) && k < |d.users| && d.users[k].zohoUserId == Some(zid)
    requires SaveGithub(d, zid, user, token, now).Ok?
    ensures var d' := SaveGithub(d, zid, user, token, now).value;
            && Valid(d')
            && d' == (if user.Some? && token.Some?
                      then d.(users := d.users[k := UserOnUpdate(d.users[k], d.users[k].(githubUsername := user,
                                                                                           githubToken := token), now)])
                      else d)
  {
    if user.Some? && token.Some? {
      RowFound(d, zid, k);
    }
  }

  /** The Jira update of the new member touches its row only, and only when
      all three answers were given. */
  lemma {:induction false} SaveJiraEffect(d: Directory, k: nat, zid: string, account: Option<string>,
                                          email: Option<string>, token: Option<string>, now: Entities.Instant)
    requires Valid(d) && k < |d.users| && d.users[k].zohoUserId == Some(zid)
    requires SaveJira(d, zid, account, email, token, now).Ok?
    ensures var d' := SaveJira(d, zid, account, email, token, now).value;
            && Valid(d')
            && d' == (if account.Some? && email.Some? && token.Some?
                      then d.(users := d.users[k := UserOnUpdate(d.users[k], d.users[k].(jiraAccountId := account,
                                                                                           jiraEmail := email,
                                                                                           jiraApiToken := token), now)])
                      else d)
  {
    if account.Some? && email.Some? && token.Some? {
      RowFound(d, zid, k);
    }
  }

  /** The two credential updates after the member's row is added: they
      touch that row only, and each writes its fields only when all of its
      answers were given. */
  lemma {:induction false} CredentialUpdates(d1: Directory, k: nat, newZid: string, gu: Option<string>,
                                             gt: Option<string>, ja: Option<string>, je: Option<string>,
                                             jt: Option<string>, now: Entities.Instant)
    requires Valid(d1) && k < |d1.users| && d1.users[k].zohoUserId == Some(newZid)
    requires SaveGithub(d1, newZid, gu, gt, now).Ok?
    requires SaveJira(SaveGithub(d1, newZid, gu, gt, now).value, newZid, ja, je, jt, now).Ok?
    ensures var d3 := SaveJira(SaveGithub(d1, newZid, gu, gt, now).value, newZid, ja, je, jt, now).value;
            var u0 := d1.users[k];
            && |d3.users| == |d1.users| && d3.users[..k] == d1.users[..k]
            && var u := d3.users[k];
            && u.zohoUserId == u0.zohoUserId && u.role == u0.role && u.name == u0.name && u.email == u0.email
            && (if gu.Some? && gt.Some? then u.githubUsername == gu && u.githubToken == gt
                else u.githubUsername == u0.githubUsername && u.githubToken == u0.githubToken)
            && (if ja.Some? && je.Some? && jt.Some?
                then u.jiraAccountId == ja && u.jiraEmail == je && u.jiraApiToken == jt
                else u.jiraAccountId == u0.jiraAccountId && u.jiraEmail == u0.jiraEmail
                     && u.jiraApiToken == u0.jiraApiToken)
  {
    SaveGithubEffect(d1, k, newZid, gu, gt, now);
    var d2 := SaveGithub(d1, newZid, gu, gt, now).value;
    SaveJiraEffect(d2, k, newZid, ja, je, jt, now);
    var d3 := SaveJira(d2, newZid, ja, je, jt, now).value;
    assert d3.users[..k] == d2.users[..k] == d1.users[..k];
  }

  /** What a successful add-user dialogue stores: one new developer under a
      `temp_` identity, with the GitHub pair only when both answers were
      given and the Jira triple only when all three were. */
  lemma {:induction false} AddMemberStores(d: Directory, s: UserSession, zid: string, env: Env)
    requires Valid(d) && AddMember(d, s, zid, env).Ok?
    ensures var d' := AddMember(d, s, zid, env).value.0;
            && |d'.users| == |d.users| + 1 && d'.users[..|d.users|] == d.users
            && var u := d'.users[|d.users|];
            && u.zohoUserId == Some(TempId(env.millis)) && u.role == Some(Developer)
            && u.name == Collected(s, NewUserNameKey) && u.email == Collected(s, NewUserEmailKey)
            && (if Collected(s, GithubUsernameKey).Some? && Collected(s, GithubTokenKey).Some?
                then u.githubUsername == Collected(s, GithubUsernameKey)
                     && u.githubToken == Collected(s, GithubTokenKey)
                else u.githubUsername == None && u.githubToken == None)
            && (if Collected(s, JiraAccountIdKey).Some? && Collected(s, JiraEmailKey).Some?
                   && Collected(s, JiraApiTokenKey).Some?
                then u.jiraAccountId == Collected(s, JiraAccountIdKey) && u.jiraEmail == Collected(s, JiraEmailKey)
                     && u.jiraApiToken == Collected(s, JiraApiTokenKey)
                else u.jiraAccountId == None && u.jiraEmail == None && u.jiraApiToken == None)
  {
    var tid: Id := AsId(UserSessions.GetData(s, TeamIdKey)).value.value;
    var name := AsText(UserSessions.GetData(s, NewUserNameKey)).value;
    var email := AsText(UserSessions.GetData(s, NewUserEmailKey)).value;
    var newZid := TempId(env.millis);
    var k := |d.users|;
    var gu := AsText(UserSessions.GetData(s, GithubUsernameKey)).value;
    var gt := AsText(UserSessions.GetData(s, GithubTokenKey)).value;
    var ja := AsText(UserSessions.GetData(s, JiraAccountIdKey)).value;
    var je := AsText(UserSessions.GetData(s, JiraEmailKey)).value;
    var jt := AsText(UserSessions.GetData(s, JiraApiTokenKey)).value;
    var (d1, _) := UserService.RegisterUser(d, zid, tid, newZid, name, email, env.now).value;
    assert d1.users[k] == UserOnCreate(UserService.NewMember(d.teams[tid - 1], tid, newZid, name, email), env.now);
    CredentialUpdates(d1, k, newZid, gu, gt, ja, je, jt, env.now);
    assert d1.users[..k] == d.users;
  }

  // --------------------------------------------------- standup dialogue

  /** The blockers answer completes the standup: the saved row is COMPLETED,
      dated today, belongs to the sender, carries the summary shown in the
      reply, and has null blockers exactly for "none" in any case. Failure
      saves nothing; the session is reset either way. */
  lemma StandupCompletion(d: Directory, m: Sessions, ctx: Context, env: Env)
    requires ctx.zohoUserId in m && m[ctx.zohoUserId].state == StandupBlockers && !IsCancel(Answer(ctx))
    ensures var o := StandupFlow(d, m, ctx, env);
            && ResetIn(m, o.sessions, ctx.zohoUserId)
            && (o.reply.StandupSubmitted? ==>
                  && UserByZohoId(d, ctx.zohoUserId).Unique?
                  && |o.dir.standups| == |d.standups| + 1 && o.dir.standups[..|d.standups|] == d.standups
                  && var st := o.dir.standups[|d.standups|];
                  && st.status == Some(Completed) && st.standupDate == Some(env.today)
                  && st.user == Some(UserByZohoId(d, ctx.zohoUserId).id)
                  && st.aiSummary == o.reply.summary
                  && (st.blockers.None? <==> EqualsIgnoreCase(Answer(ctx), "none")))
            && (!o.reply.StandupSubmitted? ==> o.dir == d)
  {
    var o := StandupFlow(d, m, ctx, env);
    match SaveStandup(d, m[ctx.zohoUserId], ctx.zohoUserId, Answer(ctx), env)
    case Ok((d', summary)) =>
      assert o.dir.standups[..|d.standups|] == d.standups;
    case Err(_) =>
  }

  /** `/status` right after registering an organization shows the creator
      as its admin: the stored name and e-mail, the new organization's name,
      the ORG_ADMIN role, no team line and neither GitHub nor Jira set. */
  lemma {:induction false} AdminStatusAfterRegistration(d: Directory, orgName: string, domain: Option<string>,
                                                        zid: string, name: Option<string>, email: Option<string>,
                                                        now: Entities.Instant)
    requires Valid(d)
    requires OrganizationService.RegisterOrganization(d, orgName, domain, zid, name, email, now).Ok?
    ensures var d' := OrganizationService.RegisterOrganization(d, orgName, domain, zid, name, email, now).value.0;
            UserStatus(d', zid) == Ok(Status(Profile(name, email, Some(orgName), Some(OrgAdmin), None, None, None)))
  {
    var (d', orgId) := OrganizationService.RegisterOrganization(d, orgName, domain, zid, name, email, now).value;
    var p := (u: User) => HasZohoId(u, zid);
    FindSpec(d.users, p);
    FindSpec(d'.users, p);
    assert p(d'.users[|d.users|]);
    forall j | 0 <= j < |d'.users| && j != |d.users| ensures !p(d'.users[j]) {
      assert d'.users[j] == d.users[j];
    }
    assert UserByZohoId(d', zid) == Unique(|d.users| + 1);
  }

  /** `/help` right after registering an organization names it, shows the
      ORG_ADMIN role and lists `/create-team` and `/help` only: the new admin
      has no team yet. */
  lemma {:induction false} AdminHelpAfterRegistration(d: Directory, orgName: string, domain: Option<string>,
                                                      zid: string, name: Option<string>, email: Option<string>,
                                                      now: Entities.Instant)
    requires Valid(d)
    requires OrganizationService.RegisterOrganization(d, orgName, domain, zid, name, email, now).Ok?
    ensures var d' := OrganizationService.RegisterOrganization(d, orgName, domain, zid, name, email, now).value.0;
            HelpMessage(d', zid) == Ok(Help(Some(orgName), Some(OrgAdmin), [CreateTeamCmd, HelpCmd]))
  {
    var (d', orgId) := OrganizationService.RegisterOrganization(d, orgName, domain, zid, name, email, now).value;
    var p := (u: User) => HasZohoId(u, zid);
    FindSpec(d.users, p);
    FindSpec(d'.users, p);
    assert p(d'.users[|d.users|]);
    forall j | 0 <= j < |d'.users| && j != |d.users| ensures !p(d'.users[j]) {
      assert d'.users[j] == d.users[j];
    }
    assert UserByZohoId(d', zid) == Unique(|d.users| + 1);
    var u := d'.users[|d.users|];
    assert UserOf(d', zid) == Some(u);
    assert u.role == Some(OrgAdmin) && u.team.None?;
    assert IsOrgAdmin(d', zid);
    assert VisibleCommands(d', zid, u) == [CreateTeamCmd, HelpCmd];
    assert Valid(d');
    assert OrgNameOf(d', u) == Ok(Some(orgName));
  }

  /** `/register-org` right after registering an organization refuses its
      creator with the new organization's name and changes nothing. */
  lemma {:induction false} RegisterAgainRefused(d: Directory, orgName: string, domain: Option<string>,
                                                zid: string, name: Option<string>, email: Option<string>,
                                                now: Entities.Instant, m: Sessions, ctx: Context, env: Env)
    requires Valid(d) && ctx.zohoUserId == zid
    requires OrganizationService.RegisterOrganization(d, orgName, domain, zid, name, email, now).Ok?
    ensures var d' := OrganizationService.RegisterOrganization(d, orgName, domain, zid, name, email, now).value.0;
            StartOrganizationRegistration(d', m, ctx, env) == Ok(Outcome(d', m, Refused(AlreadyRegistered(Some(orgName)))))
  {
    var (d', orgId) := OrganizationService.RegisterOrganization(d, orgName, domain, zid, name, email, now).value;
    var p := (u: User) => HasZohoId(u, zid);
    FindSpec(d.users, p);
    FindSpec(d'.users, p);
    assert p(d'.users[|d.users|]);
    forall j | 0 <= j < |d'.users| && j != |d.users| ensures !p(d'.users[j]) {
      assert d'.users[j] == d.users[j];
    }
    assert UserByZohoId(d', zid) == Unique(|d.users| + 1);
    var u := d'.users[|d.users|];
    assert UserOf(d', zid) == Some(u);
    assert Valid(d');
    assert OrgNameOf(d', u) == Ok(Some(orgName));
  }

  /** One standup per user and day is not a table constraint: a valid
      directory may hold two standups of the same user for the same date. */
  lemma SameDayStandupsAllowed()
    ensures var d := TwoStandupsWitness();
            Valid(d) && d.standups[0].user == d.standups[1].user
            && d.standups[0].standupDate == d.standups[1].standupDate
  {
  }

  function TwoStandupsWitness(): Directory {
    var u := NoUser.(email := Some("a@b"), name := Some("a"), zohoUserId := Some("z"), createdAt := Some(0));
    var s := NoStandup.(user := Some(1), standupDate := Some(7), status := Some(Completed), createdAt := Some(0));
    Directory([], [], [u], [s, s], [])
  }

  // -------------------------------------------------------------- help

  /** `/create-team` is listed exactly for organization admins, and an admin
      who is shown it is let into the team dialogue. */
  lemma {:induction false} ListedCreateTeamIsUsable(d: Directory, m: Sessions, ctx: Context, env: Env)
    requires HelpMessage(d, ctx.zohoUserId).Ok? && HelpMessage(d, ctx.zohoUserId).value.Help?
    requires CreateTeamCmd in HelpMessage(d, ctx.zohoUserId).value.commands
    ensures StartTeamCreation(d, m, ctx, env).Ok?
    ensures StartTeamCreation(d, m, ctx, env).value.reply == Ask(TeamName)
  {
    var zid := ctx.zohoUserId;
    var u := UserOf(d, zid).value;
    assert IsOrgAdmin(d, zid);
    assert UserService.IsUserRegistered(d, zid);
    assert u.organization.Some?;
    assert CanCreateTeam(d, zid, u.organization.value) == Ok(true);
  }

  /** `/add-user` is listed for every TEAM_LEAD with a team, but the
      permission check also wants the team to name the sender as its lead:
      a sender shown the command enters the add-user dialogue, with the team
      id stored, exactly when the team does. */
  lemma {:induction false} ListedAddUserIsUsable(d: Directory, m: Sessions, ctx: Context, env: Env)
    requires Valid(d)
    requires HelpMessage(d, ctx.zohoUserId).Ok? && HelpMessage(d, ctx.zohoUserId).value.Help?
    requires AddUserCmd in HelpMessage(d, ctx.zohoUserId).value.commands
    ensures UserOf(d, ctx.zohoUserId).Some? && UserOf(d, ctx.zohoUserId).value.team.Some?
    ensures var t := UserOf(d, ctx.zohoUserId).value.team.value;
            var r := StartUserAddition(d, m, ctx, env);
            && r.Ok?
            && (r.value.reply == Ask(Member) <==>
                  1 <= t <= |d.teams| && d.teams[t - 1].teamLeadZohoId == Some(ctx.zohoUserId))
            && (r.value.reply == Ask(Member) ==> Stored(r.value.sessions, ctx.zohoUserId, TeamIdKey) == Some(Value.Id(t)))
  {
    var zid := ctx.zohoUserId;
    var u := UserOf(d, zid).value;
    assert IsTeamLead(d, zid);
    LeadManagesLedTeams(d, zid, u.team.value);
  }
}

=== FILE: session_manager.dfy ===
/** The in-memory session store keyed by chat identity
    (`service/SessionManager.java`). Every mutating call returns the new
    store; the Java `ConcurrentHashMap` is a plain map here. */
module SessionStore {
  import opened Wrappers
  import opened UserSessions

  type Sessions = map<string, UserSession>

  /** Sessions idle for longer than this many minutes are swept. */
  const SessionTimeoutMinutes: int := 30
  const NanosPerMinute: int := 60_000_000_000

  /** Every entry except `id` is the same in both stores. */
  ghost predicate OthersUnchanged(before: Sessions, after: Sessions, id: string) {
    forall k :: k != id ==> (k in after <==> k in before) && (k in before ==> after[k] == before[k])
  }

  /** Two calls that each leave every other entry alone leave every other
      entry alone together. */
  lemma OthersUnchangedTrans(a: Sessions, b: Sessions, c: Sessions, id: string)
    requires OthersUnchanged(a, b, id) && OthersUnchanged(b, c, id)
    ensures OthersUnchanged(a, c, id)
  {
  }

  /** `getSession(id)`: the stored session, or a fresh `Idle` one at step 0
      with an empty data map, which is then stored. */
  function GetSession(m: Sessions, id: string, now: Instant): (r: (Sessions, UserSession))
    ensures id in m ==> r.0 == m && r.1 == m[id]
    ensures id !in m ==> r.1.state == Idle && r.1.step == 0 && r.1.data == Some(map[])
                          && r.1.createdAt == now && r.1.lastActivity == now
    ensures id in r.0 && r.0[id] == r.1 && r.1.zohoUserId == (if id in m then m[id].zohoUserId else id)
    ensures OthersUnchanged(m, r.0, id)
  {
    if id in m then (m, m[id]) else (m[id := Fresh(id, now)], Fresh(id, now))
  }

  /** `setState(id, state)`: switches the dialogue, restarts its step count
      and stamps the activity; collected data is kept. */
  function SetState(m: Sessions, id: string, st: SessionState, now: Instant): (r: Sessions)
    ensures id in r && r[id].state == st && r[id].step == 0 && r[id].lastActivity == now
    ensures r[id].data == GetSession(m, id, now).1.data
    ensures OthersUnchanged(m, r, id)
  {
    var (m1, s) := GetSession(m, id, now);
    m1[id := s.(state := st, step := 0, lastActivity := now)]
  }

  /** `nextStep(id)`: one step further in the same dialogue. */
  function NextStep(m: Sessions, id: string, now: Instant): (r: Sessions)
    ensures id in r && r[id].step == Int32Succ(GetSession(m, id, now).1.step)
    ensures r[id].state == GetSession(m, id, now).1.state
    ensures r[id].data == GetSession(m, id, now).1.data
    ensures r[id].lastActivity == now
    ensures OthersUnchanged(m, r, id)
  {
    var (m1, s) := GetSession(m, id, now);
    m1[id := s.(step := Int32Succ(s.step), lastActivity := now)]
  }

  /** `getSession(id).setStep(n)`: jumps to a step without a new stamp. */
  function SetStep(m: Sessions, id: string, n: Int32, now: Instant): (r: Sessions)
    ensures id in r && r[id].step == n
    ensures r[id] == GetSession(m, id, now).1.(step := n)
    ensures OthersUnchanged(m, r, id)
  {
    var (m1, s) := GetSession(m, id, now);
    m1[id := s.(step := n)]
  }

  /** `putData(id, key, value)` on the (possibly new) session of `id`. */
  function PutData(m: Sessions, id: string, key: string, v: Value, now: Instant): (r: Sessions)
    ensures id in r && UserSessions.GetData(r[id], key) == Some(v)
    ensures forall k :: k != key ==>
              UserSessions.GetData(r[id], k) == UserSessions.GetData(GetSession(m, id, now).1, k)
    ensures r[id].state == GetSession(m, id, now).1.state
    ensures r[id].step == GetSession(m, id, now).1.step
    ensures OthersUnchanged(m, r, id)
  {
    var (m1, s) := GetSession(m, id, now);
    m1[id := UserSessions.PutData(s, key, v, now)]
  }

  /** `getData(id, key)`: reads through `getSession`, so it creates the
      session when the identity has none. */
  function GetData(m: Sessions, id: string, key: string, now: Instant): (r: (Sessions, Option<Value>))
    ensures r.0 == GetSession(m, id, now).0
    ensures id in m ==> r.0 == m
    ensures r.1 == UserSessions.GetData(r.0[id], key)
  {
    var (m1, s) := GetSession(m, id, now);
    (m1, UserSessions.GetData(s, key))
  }

  /** `resetSession(id)`: resets an existing session; does nothing (and
      creates nothing) for an identity without one. */
  function ResetSession(m: Sessions, id: string, now: Instant): (r: Sessions)
    ensures id !in m ==> r == m
    ensures id in m ==> id in r && r[id].state == Idle && r[id].step == 0
                        && r[id].data == Some(map[]) && r[id].lastActivity == now
    ensures OthersUnchanged(m, r, id)
  {
    if id in m then m[id := Reset(m[id], now)] else m
  }

  /** `clearSession(id)`: removes the entry. */
  function ClearSession(m: Sessions, id: string): (r: Sessions)
    ensures id !in r
    ensures OthersUnchanged(m, r, id)
  {
    m - {id}
  }

  /** `hasActiveSession(id)`: a session exists and is not `Idle`. */
  predicate HasActiveSession(m: Sessions, id: string) {
    id in m && m[id].state != Idle
  }

  /** `getState(id)`: `Idle` for an identity without a session. */
  function GetState(m: Sessions, id: string): SessionState {
    if id in m then m[id].state else Idle
  }

  /** `getStep(id)`: 0 for an identity without a session. */
  function GetStep(m: Sessions, id: string): Int32 {
    if id in m then m[id].step else 0
  }

  /** `lastActivity.plusMinutes(30).isBefore(now)`. */
  predicate Expired(s: UserSession, now: Instant) {
    s.lastActivity + SessionTimeoutMinutes * NanosPerMinute < now
  }

  /** `cleanupExpiredSessions()` as one atomic sweep. */
  function CleanupExpired(m: Sessions, now: Instant): (r: Sessions)
    ensures forall k :: k in r <==> k in m && !Expired(m[k], now)
    ensures forall k :: k in r ==> r[k] == m[k]
  {
    map k | k in m && !Expired(m[k], now) :: m[k]
  }

  // ------------------------------------------------------------ properties

  /** The read-only queries answer from the store as it is; the answer for
      an unknown identity is `Idle` and step 0, so no session is created. */
  lemma QueriesOnUnknown(m: Sessions, id: string)
    requires id !in m
    ensures !HasActiveSession(m, id) && GetState(m, id) == Idle && GetStep(m, id) == 0
  {
  }

  /** `hasActiveSession` is exactly "the state `getState` reports is not
      `Idle`". */
  lemma ActiveIffNotIdle(m: Sessions, id: string)
    ensures HasActiveSession(m, id) <==> GetState(m, id) != Idle
  {
  }

  /** After `clearSession` the identity has no active session and reads as
      `Idle` at step 0. */
  lemma ClearThenInactive(m: Sessions, id: string)
    ensures !HasActiveSession(ClearSession(m, id), id)
    ensures GetState(ClearSession(m, id), id) == Idle && GetStep(ClearSession(m, id), id) == 0
  {
  }

  /** A value stored with `putData` is what `getData` then returns, and
      reading does not disturb the store any further. */
  lemma PutThenGet(m: Sessions, id: string, key: string, v: Value, now: Instant, later: Instant)
    ensures var m1 := PutData(m, id, key, v, now);
            GetData(m1, id, key, later) == (m1, Some(v))
  {
  }

  /** Only `Idle` sessions are inactive, so resetting any stored session
      makes it inactive, and resetting an unknown identity keeps it
      unknown. */
  lemma ResetDeactivates(m: Sessions, id: string, now: Instant)
    ensures !HasActiveSession(ResetSession(m, id, now), id)
    ensures id in ResetSession(m, id, now) <==> id in m
  {
  }

  /** `setState` to a non-idle state makes the session active; from a
      missing session it creates one with an empty data map. */
  lemma SetStateActivates(m: Sessions, id: string, st: SessionState, now: Instant)
    requires st != Idle
    ensures HasActiveSession(SetState(m, id, st, now), id)
    ensures id !in m ==> SetState(m, id, st, now)[id].data == Some(map[])
  {
  }

  /** Sweeping twice at the same instant removes nothing more. */
  lemma CleanupIdempotent(m: Sessions, now: Instant)
    ensures CleanupExpired(CleanupExpired(m, now), now) == CleanupExpired(m, now)
  {
    var r := CleanupExpired(m, now);
    assert CleanupExpired(r, now) == r;
  }

  /** A session active within the last 30 minutes survives the sweep; one
      idle for longer is removed. */
  lemma CleanupBoundary(m: Sessions, id: string, now: Instant)
    requires id in m
    ensures now - m[id].lastActivity <= 30 * 60_000_000_000 ==> id in CleanupExpired(m, now)
    ensures now - m[id].lastActivity > 30 * 60_000_000_000 ==> id !in CleanupExpired(m, now)
  {
  }
}

=== FILE: team_config.dfy ===
/** The team configuration request of the administrative upsert
    (`dto/TeamConfigRequest.java`) and its two bean-validation rules: a
    non-blank team name and an `HH:mm` reminder time. */
module TeamConfig {
  import opened Wrappers
  import opened JavaString

  datatype TeamConfigRequest = TeamConfigRequest(
    teamName: Option<string>,
    zohoChannelId: Option<string>,
    zohoWebhookUrl: Option<string>,
    jiraApiUrl: Option<string>,
    jiraEmail: Option<string>,
    jiraApiToken: Option<string>,
    githubOrganization: Option<string>,
    githubToken: Option<string>,
    openaiApiKey: Option<string>,
    openaiModel: Option<string>,
    calendarEnabled: Option<bool>,
    reminderEnabled: Option<bool>,
    reminderTime: Option<string>)

  /** `@NotBlank`: present, and something is left once the string is trimmed. */
  predicate NotBlank(s: Option<string>) {
    s.Some? && Trim(s.value) != []
  }

  /** A non-blank value is exactly one holding a character above U+0020. */
  lemma NotBlankIff(s: Option<string>)
    ensures NotBlank(s) <==> s.Some? && exists j :: 0 <= j < |s.value| && !IsTrimmable(s.value[j])
  {
    if s.Some? {
      var t := s.value;
      var r := Trim(t);
      var off := TrimOffset(t);
      if r != [] {
        assert t[off] == r[0];
        assert !IsTrimmable(t[off]);
      } else {
        forall j | 0 <= j < |t| ensures IsTrimmable(t[j]) {
          assert j < off || j >= off + |r|;
        }
      }
    }
  }

  // ---------------------------------------------------- the HH:mm pattern

  /** `[01]?[0-9]|2[0-3]`: the hour alternatives of the pattern. */
  predicate HourPart(h: string) {
    (|h| == 1 && IsDigit(h[0]))
    || (|h| == 2 && (h[0] == '0' || h[0] == '1') && IsDigit(h[1]))
    || (|h| == 2 && h[0] == '2' && '0' <= h[1] <= '3')
  }

  /** `[0-5][0-9]`. */
  predicate MinutePart(m: string) {
    |m| == 2 && '0' <= m[0] <= '5' && IsDigit(m[1])
  }

  /** `^([01]?[0-9]|2[0-3]):[0-5][0-9]$` matched against the whole value:
      an hour part, a colon and a minute part, and nothing else. */
  predicate MatchesReminderPattern(s: string) {
    exists k :: 0 <= k < |s| && HourPart(s[..k]) && s[k] == ':' && MinutePart(s[k + 1..])
  }

  /** `@Pattern` accepts null and otherwise requires the match. */
  predicate ReminderTimeValid(t: Option<string>) {
    t.None? || MatchesReminderPattern(t.value)
  }

  /** Both constraints of the request. */
  predicate RequestValid(req: TeamConfigRequest) {
    NotBlank(req.teamName) && ReminderTimeValid(req.reminderTime)
  }

  predicate AllDigits(s: string) {
    forall j :: 0 <= j < |s| ==> IsDigit(s[j])
  }

  /** What the pattern is meant to accept, stated with numbers: a one- or
      two-digit hour of at most 23, a colon, and a two-digit minute of at
      most 59. */
  predicate IsClockTime(s: string) {
    (|s| == 4 || |s| == 5)
    && s[|s| - 3] == ':'
    && AllDigits(s[..|s| - 3]) && DigitsValue(s[..|s| - 3]) <= 23
    && AllDigits(s[|s| - 2..]) && DigitsValue(s[|s| - 2..]) <= 59
  }

  lemma HourPartIsHour(h: string)
    ensures HourPart(h) <==> (|h| == 1 || |h| == 2) && AllDigits(h) && DigitsValue(h) <= 23
  {
    if |h| == 2 && AllDigits(h) {
      assert h[..1] == [h[0]];
      assert h[..1][..0] == [];
      assert DigitsValue(h[..1]) == DigitValue(h[0]);
      assert DigitsValue(h) == DigitValue(h[0]) * 10 + DigitValue(h[1]);
    }
    if |h| == 1 && AllDigits(h) {
      assert h[..0] == [];
    }
  }

  lemma MinutePartIsMinute(m: string)
    ensures MinutePart(m) <==> |m| == 2 && AllDigits(m) && DigitsValue(m) <= 59
  {
    if |m| == 2 && AllDigits(m) {
      assert m[..1] == [m[0]];
      assert m[..1][..0] == [];
      assert DigitsValue(m[..1]) == DigitValue(m[0]);
      assert DigitsValue(m) == DigitValue(m[0]) * 10 + DigitValue(m[1]);
    }
  }

  /** The pattern accepts exactly the clock times: hours 0 to 23 with an
      optional leading zero, minutes 00 to 59 with exactly two digits, and
      no surrounding characters. */
  lemma {:induction false} PatternIsClockTime(s: string)
    ensures MatchesReminderPattern(s) <==> IsClockTime(s)
  {
    if MatchesReminderPattern(s) {
      var k :| 0 <= k < |s| && HourPart(s[..k]) && s[k] == ':' && MinutePart(s[k + 1..]);
      HourPartIsHour(s[..k]);
      MinutePartIsMinute(s[k + 1..]);
      assert k == |s| - 3;
    }
    if IsClockTime(s) {
      var k := |s| - 3;
      HourPartIsHour(s[..k]);
      MinutePartIsMinute(s[k + 1..]);
      assert s[k + 1..] == s[|s| - 2..];
      assert HourPart(s[..k]) && s[k] == ':' && MinutePart(s[k + 1..]);
    }
  }

  /** The boundary cases: 24:00, a 60th minute, a one-digit minute and a
      trailing space are refused; a one-digit hour and 23:59 are accepted. */
  lemma ReminderExamples()
    ensures !MatchesReminderPattern("24:00") && !MatchesReminderPattern("09:60")
    ensures !MatchesReminderPattern("9:5") && !MatchesReminderPattern("09:00 ")
    ensures MatchesReminderPattern("9:05") && MatchesReminderPattern("23:59") && MatchesReminderPattern("00:00")
  {
    PatternIsClockTime("24:00");
    assert "24:00"[..2] == "24";
    PatternIsClockTime("09:60");
    assert "09:60"[3..] == "60";
    PatternIsClockTime("9:5");
    PatternIsClockTime("09:00 ");
    PatternIsClockTime("9:05");
    assert "9:05"[..1] == "9" && "9:05"[2..] == "05";
    PatternIsClockTime("23:59");
    assert "23:59"[..2] == "23" && "23:59"[3..] == "59";
    PatternIsClockTime("00:00");
    assert "00:00"[..2] == "00" && "00:00"[3..] == "00";
  }
}

=== FILE: team_service.dfy ===
/** Team creation, team credential updates, the legacy upsert by name and
    the team-or-global fallbacks (`service/TeamService.java`). The mutating
    operations are transactional: on `Err` the caller keeps the directory
    it had. */
module TeamService {
  import opened Wrappers
  import opened Entities
  import opened Permissions
  import opened TeamConfig

  /** The team `createTeam` builds before saving it. */
  function NewTeam(org: Id, teamName: string, leadZid: string, githubOrg: Option<string>,
                   channel: Option<string>): Team {
    NoTeam.(organization := Some(org), teamName := Some(teamName), teamLeadZohoId := Some(leadZid),
            githubOrganization := githubOrg, zohoChannelId := channel, active := Some(true))
  }

  /** `createTeam(creatorZohoId, teamName, githubOrg, zohoChannelId)`: only
      an admin of the creator's own organization may create a team, the
      name must be new inside that organization, and the creator becomes
      the team's lead and a member of it. Returns the new team id. */
  function CreateTeam(d: Directory, creatorZid: string, teamName: string, githubOrg: Option<string>,
                      channel: Option<string>, now: Instant): (r: Result<(Directory, Id), Fault>)
    ensures UserByZohoId(d, creatorZid) == Missing ==> r == Err(NotFound)
    ensures r.Ok? ==>
              && UserOf(d, creatorZid).Some? && UserOf(d, creatorZid).value.organization.Some?
              && var org := UserOf(d, creatorZid).value.organization.value;
              && CanCreateTeam(d, creatorZid, org) == Ok(true)
              && TeamByOrgAndName(d, org, teamName) == Missing
              && var (d', tid) := r.value;
              && tid == |d.teams| + 1
              && d'.teams == d.teams + [TeamOnCreate(NewTeam(org, teamName, creatorZid, githubOrg, channel), now)]
              && d'.orgs == d.orgs && d'.standups == d.standups && d'.integrations == d.integrations
              && var cid := UserByZohoId(d, creatorZid).id;
              && |d'.users| == |d.users|
              && d'.users[cid - 1] == d.users[cid - 1].(role := Some(TeamLead), team := Some(tid), updatedAt := Some(now))
              && (forall j :: 0 <= j < |d.users| && j != cid - 1 ==> d'.users[j] == d.users[j])
    ensures r.Ok? && Valid(d) ==> Valid(r.value.0)
  {
    match UserByZohoId(d, creatorZid)
    case Missing => Err(NotFound)
    case Ambiguous => Err(NonUniqueResult)
    case Unique(cid) =>
      var creator := d.users[cid - 1];
      if creator.organization.None? then Err(NullPointer)
      else
        var org := creator.organization.value;
        // the creator has an organization, so the permission check cannot throw
        var allowed := CanCreateTeam(d, creatorZid, org).value;
        if !allowed then Err(Forbidden)
        else match TeamByOrgAndName(d, org, teamName)
          case Unique(_) => Err(Duplicate)
          case Ambiguous => Err(NonUniqueResult)
          case Missing =>
            var (d1, tid) :- InsertTeam(d, NewTeam(org, teamName, creatorZid, githubOrg, channel), now);
            var d2 :- UpdateUser(d1, cid, creator.(role := Some(TeamLead), team := Some(tid)), now);
            Ok((d2, tid))
  }

  /** `updateGitHubToken(teamId, zohoUserId, githubToken)`: a manager of the
      team overwrites the team's GitHub token and nothing else. */
  function UpdateGitHubToken(d: Directory, teamId: Id, zid: string, token: Option<string>, now: Instant)
    : (r: Result<Directory, Fault>)
    ensures CanManageTeam(d, zid, teamId).Err? ==> r == Err(CanManageTeam(d, zid, teamId).error)
    ensures CanManageTeam(d, zid, teamId) == Ok(false) ==> r == Err(Forbidden)
    ensures CanManageTeam(d, zid, teamId) == Ok(true) ==>
              && 1 <= teamId <= |d.teams|
              && var t := d.teams[teamId - 1].(githubToken := token);
              && (r.Ok? <==> TeamSaves(d, teamId, t, now))
              && (r.Ok? ==> r.value == d.(teams := d.teams[teamId - 1 := TeamOnUpdate(d.teams[teamId - 1], t, now)]))
              && (r.Err? ==> r.error == ConstraintViolation)
    ensures r.Ok? ==> CanManageTeam(d, zid, teamId) == Ok(true)
    ensures r.Ok? && Valid(d) ==> Valid(r.value)
  {
    var allowed :- CanManageTeam(d, zid, teamId);
    if !allowed then Err(Forbidden)
    else match TeamById(d, teamId)
      case None => Err(NotFound)
      case Some(t) => UpdateTeam(d, teamId, t.(githubToken := token), now)
  }

  /** `updateJiraCredentials(teamId, zohoUserId, url, email, token)`: a
      manager of the team overwrites the three Jira fields and nothing
      else. */
  function UpdateJiraCredentials(d: Directory, teamId: Id, zid: string, url: Option<string>, email: Option<string>,
                                 token: Option<string>, now: Instant): (r: Result<Directory, Fault>)
    ensures CanManageTeam(d, zid, teamId).Err? ==> r == Err(CanManageTeam(d, zid, teamId).error)
    ensures CanManageTeam(d, zid, teamId) == Ok(false) ==> r == Err(Forbidden)
    ensures CanManageTeam(d, zid, teamId) == Ok(true) ==>
              && 1 <= teamId <= |d.teams|
              && var t := d.teams[teamId - 1].(jiraApiUrl := url, jiraEmail := email, jiraApiToken := token);
              && (r.Ok? <==> TeamSaves(d, teamId, t, now))
              && (r.Ok? ==> r.value == d.(teams := d.teams[teamId - 1 := TeamOnUpdate(d.teams[teamId - 1], t, now)]))
              && (r.Err? ==> r.error == ConstraintViolation)
    ensures r.Ok? ==> CanManageTeam(d, zid, teamId) == Ok(true)
    ensures r.Ok? && Valid(d) ==> Valid(r.value)
  {
    var allowed :- CanManageTeam(d, zid, teamId);
    if !allowed then Err(Forbidden)
    else match TeamById(d, teamId)
      case None => Err(NotFound)
      case Some(t) => UpdateTeam(d, teamId, t.(jiraApiUrl := url, jiraEmail := email, jiraApiToken := token), now)
  }

  /** The twelve configuration fields the upsert copies from the request,
      nulls included. */
  function ApplyConfig(t: Team, req: TeamConfigRequest): (r: Team)
    ensures r.organization == t.organization && r.teamName == t.teamName
    ensures r.teamLeadZohoId == t.teamLeadZohoId && r.timezone == t.timezone && r.active == t.active
    ensures r.createdAt == t.createdAt && r.updatedAt == t.updatedAt
  {
    t.(zohoChannelId := req.zohoChannelId, zohoWebhookUrl := req.zohoWebhookUrl, jiraApiUrl := req.jiraApiUrl,
       jiraEmail := req.jiraEmail, jiraApiToken := req.jiraApiToken, githubOrganization := req.githubOrganization,
       githubToken := req.githubToken, openaiApiKey := req.openaiApiKey, openaiModel := req.openaiModel,
       calendarEnabled := req.calendarEnabled, reminderEnabled := req.reminderEnabled,
       reminderTime := req.reminderTime)
  }

  /** Every configuration field of `t` is the request's. */
  predicate HasConfig(t: Team, req: TeamConfigRequest) {
    t.zohoChannelId == req.zohoChannelId && t.zohoWebhookUrl == req.zohoWebhookUrl
    && t.jiraApiUrl == req.jiraApiUrl && t.jiraEmail == req.jiraEmail && t.jiraApiToken == req.jiraApiToken
    && t.githubOrganization == req.githubOrganization && t.githubToken == req.githubToken
    && t.openaiApiKey == req.openaiApiKey && t.openaiModel == req.openaiModel
    && t.calendarEnabled == req.calendarEnabled && t.reminderEnabled == req.reminderEnabled
    && t.reminderTime == req.reminderTime
  }

  /** `teamRepository.findByTeamName` with the request's (possibly null)
      name; a null parameter is matched with IS NULL. */
  function TeamByRequestName(d: Directory, name: Option<string>): (r: Lookup)
    ensures r.Unique? ==> 1 <= r.id <= |d.teams| && d.teams[r.id - 1].teamName == name
  {
    Find(d.teams, (t: Team) => t.teamName == name)
  }

  /** The request's configuration fits the `teams` columns, and its channel
      is not another team's. */
  predicate ConfigFits(d: Directory, id: Id, req: TeamConfigRequest) {
    && FitsIn(req.zohoWebhookUrl, 500) && FitsIn(req.jiraApiToken, 500)
    && FitsIn(req.githubToken, 500) && FitsIn(req.openaiApiKey, 500)
    && AllFit([req.zohoChannelId, req.jiraApiUrl, req.jiraEmail, req.githubOrganization, req.openaiModel,
               req.reminderTime], DefaultLength)
    && (req.zohoChannelId.Some? ==> forall j :: 0 <= j < |d.teams| && j != id - 1 ==> d.teams[j].zohoChannelId != req.zohoChannelId)
  }

  /** `createOrUpdateTeam(request)`: the legacy upsert by team name across
      all organizations. An existing team gets every configuration field
      from the request; a missing one would be created from the name and
      the configuration alone. Returns the team id. */
  function CreateOrUpdateTeam(d: Directory, req: TeamConfigRequest, now: Instant): (r: Result<(Directory, Id), Fault>)
    ensures TeamByRequestName(d, req.teamName) == Ambiguous ==> r == Err(NonUniqueResult)
    ensures TeamByRequestName(d, req.teamName).Unique? ==>
              var id := TeamByRequestName(d, req.teamName).id;
              var t := ApplyConfig(d.teams[id - 1], req);
              && (r.Ok? <==> TeamSaves(d, id, t, now))
              && (r.Ok? ==> r.value == (d.(teams := d.teams[id - 1 := TeamOnUpdate(d.teams[id - 1], t, now)]), id))
              && (r.Ok? ==> HasConfig(r.value.0.teams[id - 1], req))
              && (r.Err? ==> r.error == ConstraintViolation)
    ensures r.Ok? ==> TeamByRequestName(d, req.teamName).Unique?
    ensures r.Ok? && Valid(d) ==> Valid(r.value.0)
  {
    match TeamByRequestName(d, req.teamName)
    case Ambiguous => Err(NonUniqueResult)
    case Unique(id) =>
      var d' :- UpdateTeam(d, id, ApplyConfig(d.teams[id - 1], req), now);
      Ok((d', id))
    case Missing =>
      InsertTeam(d, ApplyConfig(NoTeam.(teamName := req.teamName), req), now)
  }

  /** `getGithubToken(team, globalToken)`: the team's token when it has
      one, the global token otherwise. */
  function GetGithubToken(t: Team, global: Option<string>): (r: Option<string>)
    ensures t.githubToken.Some? ==> r == t.githubToken
    ensures t.githubToken.None? ==> r == global
  {
    if t.githubToken.Some? then t.githubToken else global
  }

  /** `hasJiraConfig(team)`. */
  predicate HasJiraConfig(t: Team) {
    t.jiraApiToken.Some? && t.jiraApiUrl.Some?
  }

  /** `getOpenAiKey(team, globalKey)`. */
  function GetOpenAiKey(t: Team, global: Option<string>): (r: Option<string>)
    ensures t.openaiApiKey.Some? ==> r == t.openaiApiKey
    ensures t.openaiApiKey.None? ==> r == global
  {
    if t.openaiApiKey.Some? then t.openaiApiKey else global
  }

  // ------------------------------------------------------------ properties

  /** The creator's row after `createTeam` has the lead role, so the former
      organization admin can no longer create teams: the permission check
      answers false from then on. */
  lemma CreateTeamDemotesCreator(d: Directory, creatorZid: string, teamName: string, githubOrg: Option<string>,
                                 channel: Option<string>, now: Instant)
    requires CreateTeam(d, creatorZid, teamName, githubOrg, channel, now).Ok?
    ensures var (d', tid) := CreateTeam(d, creatorZid, teamName, githubOrg, channel, now).value;
            var org := UserOf(d, creatorZid).value.organization.value;
            && UserOf(d', creatorZid).Some?
            && UserOf(d', creatorZid).value.role == Some(TeamLead)
            && UserOf(d', creatorZid).value.team == Some(tid)
            && CanCreateTeam(d', creatorZid, org) == Ok(false)
            && IsTeamLeadOf(d', creatorZid, tid) == Ok(true)
  {
    var (d', tid) := CreateTeam(d, creatorZid, teamName, githubOrg, channel, now).value;
    var cid := UserByZohoId(d, creatorZid).id;
    var p := (u: User) => HasZohoId(u, creatorZid);
    assert d'.users == d.users[cid - 1 := d'.users[cid - 1]];
    FindAfterUpdate(d.users, p, cid - 1, d'.users[cid - 1]);
    assert UserByZohoId(d', creatorZid) == UserByZohoId(d, creatorZid);
    assert d'.teams[tid - 1].teamLeadZohoId == Some(creatorZid);
  }

  /** Creation succeeds for an organization admin whenever the name is new
      inside the admin's organization and the row fits its columns, even if
      another organization already has a team of that name. */
  lemma CreateTeamSucceeds(d: Directory, creatorZid: string, teamName: string, githubOrg: Option<string>,
                           channel: Option<string>, now: Instant)
    requires Valid(d)
    requires UserOf(d, creatorZid).Some? && UserOf(d, creatorZid).value.role == Some(OrgAdmin)
    requires UserOf(d, creatorZid).value.organization.Some?
    requires TeamByOrgAndName(d, UserOf(d, creatorZid).value.organization.value, teamName) == Missing
    requires |teamName| <= 100 && |creatorZid| <= 100
    requires FitsIn(githubOrg, DefaultLength) && FitsIn(channel, DefaultLength)
    requires channel.Some? ==> forall j :: 0 <= j < |d.teams| ==> d.teams[j].zohoChannelId != channel
    ensures CreateTeam(d, creatorZid, teamName, githubOrg, channel, now).Ok?
  {
    var cid := UserByZohoId(d, creatorZid).id;
    var creator := d.users[cid - 1];
    var org := creator.organization.value;
    assert UserFits(d, creator, cid - 1);
    var p := (t: Team) => t.organization == Some(org) && t.teamName == Some(teamName);
    FindSpec(d.teams, p);
    var row := TeamOnCreate(NewTeam(org, teamName, creatorZid, githubOrg, channel), now);
    assert TeamFits(d, row, -1) by {
      forall j | 0 <= j < |d.teams|
        ensures d.teams[j].organization != row.organization || d.teams[j].teamName != row.teamName
      {
        assert !p(d.teams[j]);
      }
    }
    var (d1, tid) := InsertTeam(d, NewTeam(org, teamName, creatorZid, githubOrg, channel), now).value;
    var promoted := creator.(role := Some(TeamLead), team := Some(tid), updatedAt := Some(now));
    assert UserFits(d1, promoted, cid - 1) by {
      assert d1.users == d.users && |d1.teams| == |d.teams| + 1;
      forall j | 0 <= j < |d1.users| && j != cid - 1
        ensures d1.users[j].email != promoted.email
        ensures promoted.zohoUserId.Some? ==> d1.users[j].zohoUserId != promoted.zohoUserId
      {
      }
    }
  }

  /** A team that does not exist is refused by the permission check before
      it is looked up, so the credential updates report `Forbidden`, never
      `NotFound`, for it; an unknown caller is refused too. */
  lemma MissingTeamForbidden(d: Directory, teamId: Id, zid: string, token: Option<string>, now: Instant)
    requires !(1 <= teamId <= |d.teams|)
    ensures UpdateGitHubToken(d, teamId, zid, token, now) == Err(Forbidden)
    ensures UpdateJiraCredentials(d, teamId, zid, token, token, token, now) == Err(Forbidden)
  {
  }

  /** The upsert never creates a team: a new team would have neither an
      organization nor a lead, which the `teams` table refuses. */
  lemma UpsertNeverCreates(d: Directory, req: TeamConfigRequest, now: Instant)
    ensures TeamByRequestName(d, req.teamName) == Missing ==> CreateOrUpdateTeam(d, req, now) == Err(ConstraintViolation)
    ensures CreateOrUpdateTeam(d, req, now).Ok? ==> |CreateOrUpdateTeam(d, req, now).value.0.teams| == |d.teams|
  {
  }

  /** `hasJiraConfig` agrees with the Jira fields an upsert or a credential
      update has just written. */
  lemma JiraConfigAfterUpdate(d: Directory, teamId: Id, zid: string, url: Option<string>, email: Option<string>,
                              token: Option<string>, now: Instant)
    requires UpdateJiraCredentials(d, teamId, zid, url, email, token, now).Ok?
    ensures HasJiraConfig(UpdateJiraCredentials(d, teamId, zid, url, email, token, now).value.teams[teamId - 1])
            <==> url.Some? && token.Some?
  {
  }

  /** A manager of the team always sets its GitHub token when the token
      fits its column; the team then carries exactly that token. */
  lemma UpdateGitHubTokenSucceeds(d: Directory, teamId: Id, zid: string, token: Option<string>, now: Instant)
    requires Valid(d) && CanManageTeam(d, zid, teamId) == Ok(true) && FitsIn(token, 500)
    ensures var r := UpdateGitHubToken(d, teamId, zid, token, now);
            && r.Ok? && Valid(r.value) && |r.value.teams| == |d.teams|
            && r.value.teams[teamId - 1].githubToken == token
  {
    var o := d.teams[teamId - 1];
    var t := o.(githubToken := token).(updatedAt := Some(now));
    assert TeamFits(d, o, teamId - 1);
    assert [t.zohoChannelId, t.jiraApiUrl, t.jiraEmail, t.githubOrganization, t.openaiModel, t.reminderTime, t.timezone]
        == [o.zohoChannelId, o.jiraApiUrl, o.jiraEmail, o.githubOrganization, o.openaiModel, o.reminderTime, o.timezone];
    assert TeamFits(d, t, teamId - 1);
  }

  /** A manager of the team always sets its Jira configuration when the URL
      and e-mail fit 255 characters and the token 500; the team then
      carries exactly those three values. */
  lemma UpdateJiraCredentialsSucceeds(d: Directory, teamId: Id, zid: string, url: Option<string>,
                                      email: Option<string>, token: Option<string>, now: Instant)
    requires Valid(d) && CanManageTeam(d, zid, teamId) == Ok(true)
    requires FitsIn(url, DefaultLength) && FitsIn(email, DefaultLength) && FitsIn(token, 500)
    ensures var r := UpdateJiraCredentials(d, teamId, zid, url, email, token, now);
            && r.Ok? && Valid(r.value) && |r.value.teams| == |d.teams|
            && var t := r.value.teams[teamId - 1];
            && t.jiraApiUrl == url && t.jiraEmail == email && t.jiraApiToken == token
  {
    var o := d.teams[teamId - 1];
    var t := o.(jiraApiUrl := url, jiraEmail := email, jiraApiToken := token).(updatedAt := Some(now));
    assert TeamFits(d, o, teamId - 1);
    var before := [o.zohoChannelId, o.jiraApiUrl, o.jiraEmail, o.githubOrganization, o.openaiModel, o.reminderTime,
                   o.timezone];
    var after := [t.zohoChannelId, t.jiraApiUrl, t.jiraEmail, t.githubOrganization, t.openaiModel, t.reminderTime,
                  t.timezone];
    forall k | 0 <= k < |after| ensures FitsIn(after[k], DefaultLength) {
      if k != 1 && k != 2 {
        assert after[k] == before[k];
      }
    }
    assert TeamFits(d, t, teamId - 1);
  }

  /** The upsert of a team found by name always overwrites its whole
      configuration when the configuration fits the columns and the channel
      is not another team's; no team is added. */
  lemma CreateOrUpdateTeamSucceeds(d: Directory, req: TeamConfigRequest, now: Instant)
    requires Valid(d) && TeamByRequestName(d, req.teamName).Unique?
    requires ConfigFits(d, TeamByRequestName(d, req.teamName).id, req)
    ensures var id := TeamByRequestName(d, req.teamName).id;
            var r := CreateOrUpdateTeam(d, req, now);
            && r.Ok? && r.value.1 == id && Valid(r.value.0) && |r.value.0.teams| == |d.teams|
            && HasConfig(r.value.0.teams[id - 1], req)
  {
    var id := TeamByRequestName(d, req.teamName).id;
    var o := d.teams[id - 1];
    var t := ApplyConfig(o, req).(updatedAt := Some(now));
    assert TeamFits(d, o, id - 1);
    var after := [t.zohoChannelId, t.jiraApiUrl, t.jiraEmail, t.githubOrganization, t.openaiModel, t.reminderTime,
                  t.timezone];
    var given := [req.zohoChannelId, req.jiraApiUrl, req.jiraEmail, req.githubOrganization, req.openaiModel,
                  req.reminderTime];
    forall k | 0 <= k < |after| ensures FitsIn(after[k], DefaultLength) {
      if k < 6 {
        assert after[k] == given[k];
      } else {
        assert [o.zohoChannelId, o.jiraApiUrl, o.jiraEmail, o.githubOrganization, o.openaiModel, o.reminderTime,
                o.timezone][6] == after[k];
      }
    }
    assert TeamFits(d, t, id - 1);
  }
}

=== FILE: user_service.dfy ===
/** Adding members to a team, personal credential updates and the legacy
    find-or-create (`service/UserService.java`). Each operation is
    transactional: on `Err` the caller keeps the directory it had. */
module UserService {
  import opened Wrappers
  import opened Entities
  import opened Permissions

  /** The member `registerUser` builds: a developer of the team and of the
      team's organization. */
  function NewMember(t: Team, teamId: Id, zid: string, name: Option<string>, email: Option<string>): User {
    NoUser.(organization := t.organization, team := Some(teamId), zohoUserId := Some(zid), name := name,
            email := email, role := Some(Developer))
  }

  /** `registerUser(adderZohoId, team, newUserZohoId, name, email)`: a
      manager of the team adds a new identity to it as a developer. Returns
      the new user's id. */
  function RegisterUser(d: Directory, adderZid: string, teamId: Id, newZid: string, name: Option<string>,
                        email: Option<string>, now: Instant): (r: Result<(Directory, Id), Fault>)
    requires 1 <= teamId <= |d.teams|
    ensures CanAddUserToTeam(d, adderZid, teamId).Err? ==> r == Err(CanAddUserToTeam(d, adderZid, teamId).error)
    ensures CanAddUserToTeam(d, adderZid, teamId) == Ok(false) ==> r == Err(Forbidden)
    ensures UserExists(d, newZid) ==> r.Err?
    ensures CanAddUserToTeam(d, adderZid, teamId) == Ok(true) && UserByZohoId(d, newZid).Unique? ==>
              r == Err(if d.users[UserByZohoId(d, newZid).id - 1].organization.None? then NullPointer else Duplicate)
    ensures CanAddUserToTeam(d, adderZid, teamId) == Ok(true) && UserByZohoId(d, newZid).Missing? ==>
              && (r.Ok? <==> UserFits(d, UserOnCreate(NewMember(d.teams[teamId - 1], teamId, newZid, name, email), now), -1))
              && (r.Err? ==> r.error == ConstraintViolation)
    ensures r.Ok? ==> CanAddUserToTeam(d, adderZid, teamId) == Ok(true)
    ensures r.Ok? ==>
              var (d', uid) := r.value;
              && uid == |d.users| + 1 && |d'.users| == uid && d'.users[..|d.users|] == d.users
              && d'.users[uid - 1].role == Some(Developer)
              && d'.users[uid - 1].team == Some(teamId)
              && d'.users[uid - 1].organization == d.teams[teamId - 1].organization
              && d'.users[uid - 1].zohoUserId == Some(newZid)
              && d'.users[uid - 1].name == name && d'.users[uid - 1].email == email
              && d'.orgs == d.orgs && d'.teams == d.teams && d'.standups == d.standups
              && d'.integrations == d.integrations
    ensures r.Ok? ==> r.value.0.users[|d.users|] == UserOnCreate(NewMember(d.teams[teamId - 1], teamId, newZid, name, email), now)
    ensures r.Ok? && Valid(d) ==> Valid(r.value.0)
  {
    var allowed :- CanAddUserToTeam(d, adderZid, teamId);
    if !allowed then Err(Forbidden)
    else match UserByZohoId(d, newZid)
      case Ambiguous => Err(NonUniqueResult)
      case Unique(id) =>
        // the refusal message reads the existing user's organization name
        if d.users[id - 1].organization.None? then Err(NullPointer) else Err(Duplicate)
      case Missing =>
        FindSpec(d.users, u => HasZohoId(u, newZid));
        var (d', uid) :- InsertUser(d, NewMember(d.teams[teamId - 1], teamId, newZid, name, email), now);
        assert d'.users[..|d.users|] == d.users;
        Ok((d', uid))
  }

  /** `updateGitHubCredentials(zohoUserId, username, token)`: overwrites the
      user's GitHub username and token and nothing else. */
  function UpdateGitHubCredentials(d: Directory, zid: string, username: Option<string>, token: Option<string>,
                                   now: Instant): (r: Result<Directory, Fault>)
    ensures UserByZohoId(d, zid) == Missing ==> r == Err(NotFound)
    ensures UserByZohoId(d, zid) == Ambiguous ==> r == Err(NonUniqueResult)
    ensures UserByZohoId(d, zid).Unique? ==>
              var id := UserByZohoId(d, zid).id;
              var u := d.users[id - 1].(githubUsername := username, githubToken := token);
              && (r.Ok? <==> UserSaves(d, id, u, now))
              && (r.Ok? ==> r.value == d.(users := d.users[id - 1 := UserOnUpdate(d.users[id - 1], u, now)]))
              && (r.Err? ==> r.error == ConstraintViolation)
    ensures r.Ok? && Valid(d) ==> Valid(r.value)
  {
    match UserByZohoId(d, zid)
    case Missing => Err(NotFound)
    case Ambiguous => Err(NonUniqueResult)
    case Unique(id) => UpdateUser(d, id, d.users[id - 1].(githubUsername := username, githubToken := token), now)
  }

  /** `updateJiraCredentials(zohoUserId, accountId, email, token)`:
      overwrites the user's three Jira fields and nothing else. */
  function UpdateJiraCredentials(d: Directory, zid: string, accountId: Option<string>, jiraEmail: Option<string>,
                                 token: Option<string>, now: Instant): (r: Result<Directory, Fault>)
    ensures UserByZohoId(d, zid) == Missing ==> r == Err(NotFound)
    ensures UserByZohoId(d, zid) == Ambiguous ==> r == Err(NonUniqueResult)
    ensures UserByZohoId(d, zid).Unique? ==>
              var id := UserByZohoId(d, zid).id;
              var u := d.users[id - 1].(jiraAccountId := accountId, jiraEmail := jiraEmail, jiraApiToken := token);
              && (r.Ok? <==> UserSaves(d, id, u, now))
              && (r.Ok? ==> r.value == d.(users := d.users[id - 1 := UserOnUpdate(d.users[id - 1], u, now)]))
              && (r.Err? ==> r.error == ConstraintViolation)
    ensures r.Ok? && Valid(d) ==> Valid(r.value)
  {
    match UserByZohoId(d, zid)
    case Missing => Err(NotFound)
    case Ambiguous => Err(NonUniqueResult)
    case Unique(id) =>
      UpdateUser(d, id, d.users[id - 1].(jiraAccountId := accountId, jiraEmail := jiraEmail, jiraApiToken := token), now)
  }

  /** `isUserRegistered(zohoUserId)`. */
  predicate IsUserRegistered(d: Directory, zid: string) {
    UserExists(d, zid)
  }

  /** `userRepository.findByEmail` with a possibly null address, which the
      query matches with IS NULL. */
  function UserByOptEmail(d: Directory, email: Option<string>): Lookup {
    Find(d.users, (u: User) => u.email == email)
  }

  /** The e-mail fallback of `findOrCreateUser`: the row found by e-mail is
      given the identity and saved. */
  function AttachIdentity(d: Directory, id: Id, zid: string, now: Instant): (r: Result<(Directory, Id), Fault>)
    requires 1 <= id <= |d.users| && UserByZohoId(d, zid).Missing?
    ensures r.Ok? <==> UserSaves(d, id, d.users[id - 1].(zohoUserId := Some(zid)), now)
    ensures r.Err? ==> r.error == ConstraintViolation
    ensures r.Ok? ==> r.value == (d.(users := d.users[id - 1 := d.users[id - 1].(zohoUserId := Some(zid),
                                                                                  updatedAt := Some(now))]), id)
    ensures r.Ok? && Valid(d) ==> Valid(r.value.0)
  {
    FindSpec(d.users, (u: User) => HasZohoId(u, zid));
    assert !HasZohoId(d.users[id - 1], zid);
    var d' :- UpdateUser(d, id, d.users[id - 1].(zohoUserId := Some(zid)), now);
    Ok((d', id))
  }

  /** `findOrCreateUser(zohoUserId, email, name)`: the user with that
      identity; otherwise the user with that e-mail, which is given the
      identity; otherwise a new user with no role, organization or team.
      Returns the user's id. */
  function FindOrCreateUser(d: Directory, zid: string, email: Option<string>, name: Option<string>, now: Instant)
    : (r: Result<(Directory, Id), Fault>)
    ensures UserByZohoId(d, zid).Unique? ==> r == Ok((d, UserByZohoId(d, zid).id))
    ensures r.Ok? ==>
              var (d', uid) := r.value;
              && 1 <= uid <= |d'.users| && d'.users[uid - 1].zohoUserId == Some(zid)
              && |d.users| <= |d'.users| <= |d.users| + 1
              && d'.orgs == d.orgs && d'.teams == d.teams && d'.standups == d.standups
              && d'.integrations == d.integrations
              && (forall j :: 0 <= j < |d.users| && j != uid - 1 ==> d'.users[j] == d.users[j])
              && (uid <= |d.users| ==> d'.users[uid - 1].role == d.users[uid - 1].role
                                       && d'.users[uid - 1].organization == d.users[uid - 1].organization)
              && (uid > |d.users| ==> d'.users[uid - 1].role == None && d'.users[uid - 1].organization == None
                                      && d'.users[uid - 1].email == email && d'.users[uid - 1].name == name)
    ensures UserByZohoId(d, zid).Ambiguous? ==> r == Err(NonUniqueResult)
    ensures UserByZohoId(d, zid).Missing? && UserByOptEmail(d, email).Ambiguous? ==> r == Err(NonUniqueResult)
    ensures UserByZohoId(d, zid).Missing? && UserByOptEmail(d, email).Unique? ==>
              var id := UserByOptEmail(d, email).id;
              && (r.Ok? <==> UserSaves(d, id, d.users[id - 1].(zohoUserId := Some(zid)), now))
              && (r.Err? ==> r.error == ConstraintViolation)
              && (r.Ok? ==> r.value.1 == id
                            && r.value.0 == d.(users := d.users[id - 1 := d.users[id - 1].(zohoUserId := Some(zid),
                                                                                         updatedAt := Some(now))]))
    ensures UserByZohoId(d, zid).Missing? && UserByOptEmail(d, email).Missing? ==>
              var row := UserOnCreate(NoUser.(email := email, name := name, zohoUserId := Some(zid)), now);
              && (r.Ok? <==> UserFits(d, row, -1))
              && (r.Ok? ==> r.value == (d.(users := d.users + [row]), |d.users| + 1))
              && (r.Err? ==> r.error == ConstraintViolation)
    ensures r.Ok? && r.value.1 > |d.users| ==>
              && UserByZohoId(d, zid).Missing? && UserByOptEmail(d, email).Missing?
              && r.value.0.users == d.users + [UserOnCreate(NoUser.(email := email, name := name, zohoUserId := Some(zid)), now)]
    ensures r.Ok? && Valid(d) ==> Valid(r.value.0)
  {
    match UserByZohoId(d, zid)
    case Unique(id) => Ok((d, id))
    case Ambiguous => Err(NonUniqueResult)
    case Missing =>
      match UserByOptEmail(d, email)
      case Ambiguous => Err(NonUniqueResult)
      case Unique(id) => AttachIdentity(d, id, zid, now)
      case Missing => InsertUser(d, NoUser.(email := email, name := name, zohoUserId := Some(zid)), now)
  }

  // ------------------------------------------------------------ properties

  /** `isUserRegistered` holds exactly when some row carries the identity. */
  lemma RegisteredIff(d: Directory, zid: string)
    ensures IsUserRegistered(d, zid) <==> exists j :: 0 <= j < |d.users| && d.users[j].zohoUserId == Some(zid)
  {
    var p := (u: User) => HasZohoId(u, zid);
    FindSpec(d.users, p);
    if IsUserRegistered(d, zid) {
      var j := FirstFrom(d.users, p, 0).value;
      assert d.users[j].zohoUserId == Some(zid);
    }
  }

  /** After a successful `findOrCreateUser` in a valid directory, the
      identity resolves to exactly the user returned. */
  lemma FindOrCreateThenFound(d: Directory, zid: string, email: Option<string>, name: Option<string>, now: Instant)
    requires Valid(d)
    requires FindOrCreateUser(d, zid, email, name, now).Ok?
    ensures var (d', uid) := FindOrCreateUser(d, zid, email, name, now).value;
            UserByZohoId(d', zid) == Unique(uid) && IsUserRegistered(d', zid)
  {
    var (d', uid) := FindOrCreateUser(d, zid, email, name, now).value;
    UserByZohoIdUnique(d', zid);
    var p := (u: User) => HasZohoId(u, zid);
    FindSpec(d'.users, p);
    assert p(d'.users[uid - 1]);
  }

  /** An identity and an e-mail that match no row give a new user, when
      the name and e-mail are given and the three values fit their columns:
      it is appended with no role, organization or team, and the identity
      then resolves to it. */
  lemma FindOrCreateCreates(d: Directory, zid: string, email: string, name: string, now: Instant)
    requires Valid(d)
    requires UserByZohoId(d, zid).Missing? && UserByEmail(d, email).Missing?
    requires |zid| <= DefaultLength && |email| <= DefaultLength && |name| <= DefaultLength
    ensures var r := FindOrCreateUser(d, zid, Some(email), Some(name), now);
            && r.Ok? && r.value.1 == |d.users| + 1 && Valid(r.value.0)
            && |r.value.0.users| == |d.users| + 1
            && var u := r.value.0.users[|d.users|];
            && u.role.None? && u.organization.None? && u.team.None?
            && UserByZohoId(r.value.0, zid) == Unique(|d.users| + 1)
  {
    var row := UserOnCreate(NoUser.(email := Some(email), name := Some(name), zohoUserId := Some(zid)), now);
    var p := (u: User) => HasZohoId(u, zid);
    var q := (u: User) => u.email == Some(email);
    FindSpec(d.users, p);
    FindSpec(d.users, q);
    assert AllFit([row.email, row.name, row.zohoUserId, row.githubUsername, row.jiraAccountId], DefaultLength);
    forall j | 0 <= j < |d.users| ensures d.users[j].email != row.email && d.users[j].zohoUserId != row.zohoUserId {
      assert !p(d.users[j]) && !q(d.users[j]);
    }
    assert UserFits(d, row, -1);
    FindAppendMatch(d.users, p, row);
  }

  /** The e-mail fallback of `findOrCreateUser`: in a valid directory an
      identity no user has, arriving with the e-mail of an existing user,
      is attached to that user, whose other fields stay as they were; no
      user is created. */
  lemma FindOrCreateAttachesByEmail(d: Directory, zid: string, email: string, name: Option<string>, now: Instant)
    requires Valid(d)
    requires UserByZohoId(d, zid).Missing? && UserByEmail(d, email).Unique?
    requires |zid| <= DefaultLength
    ensures var id := UserByEmail(d, email).id;
            var r := FindOrCreateUser(d, zid, Some(email), name, now);
            && r.Ok? && r.value.1 == id && |r.value.0.users| == |d.users|
            && r.value.0.users[id - 1] == d.users[id - 1].(zohoUserId := Some(zid), updatedAt := Some(now))
            && r.value.0.users[id - 1].email == Some(email)
            && UserByZohoId(r.value.0, zid) == Unique(id)
  {
    var id := UserByEmail(d, email).id;
    var row := d.users[id - 1].(zohoUserId := Some(zid), updatedAt := Some(now));
    var p := (u: User) => HasZohoId(u, zid);
    FindSpec(d.users, p);
    assert UserFits(d, d.users[id - 1], id - 1);
    assert UserFits(d, row, id - 1) by {
      var o := d.users[id - 1];
      var before := [o.email, o.name, o.zohoUserId, o.githubUsername, o.jiraAccountId];
      var after := [row.email, row.name, row.zohoUserId, row.githubUsername, row.jiraAccountId];
      forall k | 0 <= k < |after| ensures FitsIn(after[k], DefaultLength) {
        if k != 2 {
          assert after[k] == before[k];
        }
      }
      forall j | 0 <= j < |d.users| && j != id - 1 ensures d.users[j].zohoUserId != Some(zid) {
        assert !p(d.users[j]);
      }
    }
    var d' := FindOrCreateUser(d, zid, Some(email), name, now).value.0;
    UserByZohoIdUnique(d', zid);
    FindSpec(d'.users, p);
    assert p(d'.users[id - 1]);
  }

  /** A newly added member is registered afterwards and belongs to the
      team, in the sense the permission predicates use. */
  lemma RegisterUserThenMember(d: Directory, adderZid: string, teamId: Id, newZid: string, name: Option<string>,
                               email: Option<string>, now: Instant)
    requires Valid(d) && 1 <= teamId <= |d.teams|
    requires RegisterUser(d, adderZid, teamId, newZid, name, email, now).Ok?
    ensures var (d', uid) := RegisterUser(d, adderZid, teamId, newZid, name, email, now).value;
            IsUserRegistered(d', newZid) && BelongsToTeam(d', newZid, teamId)
            && UserOf(d', newZid).value.role == Some(Developer)
            && CanManageTeam(d', newZid, teamId) == Ok(false)
  {
    var (d', uid) := RegisterUser(d, adderZid, teamId, newZid, name, email, now).value;
    UserByZohoIdUnique(d', newZid);
    var p := (u: User) => HasZohoId(u, newZid);
    FindSpec(d'.users, p);
    assert p(d'.users[uid - 1]);
  }

  /** A manager of the team always adds a new identity whose row fits: the
      name and e-mail are given, the e-mail is unused and the three values
      fit their columns. */
  lemma RegisterUserSucceeds(d: Directory, adderZid: string, teamId: Id, newZid: string, name: Option<string>,
                             email: Option<string>, now: Instant)
    requires Valid(d) && 1 <= teamId <= |d.teams|
    requires CanAddUserToTeam(d, adderZid, teamId) == Ok(true) && !UserExists(d, newZid)
    requires name.Some? && email.Some? && forall j :: 0 <= j < |d.users| ==> d.users[j].email != email
    requires FitsIn(name, DefaultLength) && FitsIn(email, DefaultLength) && |newZid| <= DefaultLength
    ensures RegisterUser(d, adderZid, teamId, newZid, name, email, now).Ok?
  {
    var row := UserOnCreate(NewMember(d.teams[teamId - 1], teamId, newZid, name, email), now);
    assert TeamFits(d, d.teams[teamId - 1], teamId - 1);
    assert AllFit([row.email, row.name, row.zohoUserId, row.githubUsername, row.jiraAccountId], DefaultLength);
  }

  /** In a valid directory the GitHub update of a registered identity always
      goes through when the username fits its column, and the identity then
      resolves to a row carrying exactly the new username and token. */
  lemma UpdateGitHubCredentialsSucceeds(d: Directory, zid: string, username: Option<string>, token: Option<string>,
                                        now: Instant)
    requires Valid(d) && UserExists(d, zid) && FitsIn(username, DefaultLength)
    ensures var r := UpdateGitHubCredentials(d, zid, username, token, now);
            && r.Ok? && Valid(r.value)
            && UserOf(r.value, zid).Some?
            && UserOf(r.value, zid).value.githubUsername == username
            && UserOf(r.value, zid).value.githubToken == token
  {
    UserByZohoIdUnique(d, zid);
    var id := UserByZohoId(d, zid).id;
    var o := d.users[id - 1];
    var u := o.(githubUsername := username, githubToken := token);
    assert UserFits(d, o, id - 1);
    assert UserFits(d, u.(updatedAt := Some(now)), id - 1) by {
      var before := [o.email, o.name, o.zohoUserId, o.githubUsername, o.jiraAccountId];
      var after := [u.email, u.name, u.zohoUserId, u.githubUsername, u.jiraAccountId];
      forall k | 0 <= k < |after| ensures FitsIn(after[k], DefaultLength) {
        if k != 3 {
          assert after[k] == before[k];
        }
      }
    }
    var d' := UpdateGitHubCredentials(d, zid, username, token, now).value;
    FindAfterUpdate(d.users, (v: User) => HasZohoId(v, zid), id - 1, UserOnUpdate(o, u, now));
    assert d'.users == d.users[id - 1 := UserOnUpdate(o, u, now)];
  }

  /** The Jira counterpart: the update always goes through when the account
      id fits its column, and the identity then resolves to a row carrying
      exactly the three new values. */
  lemma UpdateJiraCredentialsSucceeds(d: Directory, zid: string, accountId: Option<string>,
                                      jiraEmail: Option<string>, token: Option<string>, now: Instant)
    requires Valid(d) && UserExists(d, zid) && FitsIn(accountId, DefaultLength)
    ensures var r := UpdateJiraCredentials(d, zid, accountId, jiraEmail, token, now);
            && r.Ok? && Valid(r.value)
            && UserOf(r.value, zid).Some?
            && UserOf(r.value, zid).value.jiraAccountId == accountId
            && UserOf(r.value, zid).value.jiraEmail == jiraEmail
            && UserOf(r.value, zid).value.jiraApiToken == token
  {
    UserByZohoIdUnique(d, zid);
    var id := UserByZohoId(d, zid).id;
    var o := d.users[id - 1];
    var u := o.(jiraAccountId := accountId, jiraEmail := jiraEmail, jiraApiToken := token);
    assert UserFits(d, o, id - 1);
    assert UserFits(d, u.(updatedAt := Some(now)), id - 1) by {
      var before := [o.email, o.name, o.zohoUserId, o.githubUsername, o.jiraAccountId];
      var after := [u.email, u.name, u.zohoUserId, u.githubUsername, u.jiraAccountId];
      forall k | 0 <= k < |after| ensures FitsIn(after[k], DefaultLength) {
        if k != 4 {
          assert after[k] == before[k];
        }
      }
    }
    var d' := UpdateJiraCredentials(d, zid, accountId, jiraEmail, token, now).value;
    FindAfterUpdate(d.users, (v: User) => HasZohoId(v, zid), id - 1, UserOnUpdate(o, u, now));
    assert d'.users == d.users[id - 1 := UserOnUpdate(o, u, now)];
  }

  /** Re-sending the GitHub credentials a user already has writes nothing:
      the row, its `updatedAt` included, stays as it was. */
  lemma SameGitHubCredentialsKeepRow(d: Directory, zid: string, now: Instant)
    requires UserByZohoId(d, zid).Unique?
    ensures var u := d.users[UserByZohoId(d, zid).id - 1];
            UpdateGitHubCredentials(d, zid, u.githubUsername, u.githubToken, now) == Ok(d)
  {
  }
}

=== FILE: user_session.dfy ===
/** One user's conversation session: the state of the multi-step dialogue,
    the step inside it, the answers collected so far and the time of the
    last activity (`dto/UserSession.java`). */
module UserSessions {
  import opened Wrappers

  /** The nine conversation states: `Idle` and eight dialogue states. */
  datatype SessionState =
    | Idle
    | RegisteringOrg
    | CreatingTeam
    | AddingUser
    | StandupYesterday
    | StandupToday
    | StandupBlockers
    | UpdatingGithub
    | UpdatingJira

  /** A Java `int`. */
  newtype Int32 = x: int | -0x8000_0000 <= x < 0x8000_0000

  /** `x + 1` on a Java `int`: `Integer.MAX_VALUE + 1` wraps to
      `Integer.MIN_VALUE`. */
  function Int32Succ(x: Int32): (r: Int32)
    ensures x < 0x7FFF_FFFF ==> r as int == x as int + 1
    ensures x == 0x7FFF_FFFF ==> r == -0x8000_0000
  {
    if x == 0x7FFF_FFFF then -0x8000_0000 else x + 1
  }

  /** Instants (`LocalDateTime`), as a count of nanoseconds. */
  type Instant = int

  /** The values the dialogues store: text answers, a team id, and the
      commit and issue lines fetched when a standup starts. */
  datatype Value = Text(text: string) | Id(id: int) | Lines(lines: seq<string>)

  /** The data map is a Java reference, so it may be null (`None`). */
  type Data = Option<map<string, Value>>

  datatype UserSession = UserSession(
    zohoUserId: string,
    state: SessionState,
    step: Int32,
    data: Data,
    createdAt: Instant,
    lastActivity: Instant)

  /** The session the builder makes for a new identity: `Idle`, step 0, the
      builder-default empty data map, both stamps at `now`. */
  function Fresh(id: string, now: Instant): UserSession {
    UserSession(id, Idle, 0, Some(map[]), now, now)
  }

  /** `getData(key)`: null when the map is null or lacks the key. */
  function GetData(s: UserSession, key: string): (r: Option<Value>)
    ensures r.Some? <==> s.data.Some? && key in s.data.value
    ensures r.Some? ==> r.value == s.data.value[key]
  {
    match s.data
    case None => None
    case Some(m) => if key in m then Some(m[key]) else None
  }

  /** `putData(key, value)`: replaces a null map by an empty one, stores the
      value under the key and stamps the last activity. */
  function PutData(s: UserSession, key: string, v: Value, now: Instant): (r: UserSession)
    ensures GetData(r, key) == Some(v)
    ensures forall k :: k != key ==> GetData(r, k) == GetData(s, k)
    ensures r.zohoUserId == s.zohoUserId && r.state == s.state && r.step == s.step
    ensures r.createdAt == s.createdAt && r.lastActivity == now
  {
    var m := s.data.GetOr(map[]);
    s.(data := Some(m[key := v]), lastActivity := now)
  }

  /** `reset()`: back to `Idle`, step 0, an empty data map, and a new stamp. */
  function Reset(s: UserSession, now: Instant): (r: UserSession)
    ensures r.state == Idle && r.step == 0 && r.data == Some(map[])
    ensures forall k :: GetData(r, k) == None
    ensures r.zohoUserId == s.zohoUserId && r.createdAt == s.createdAt
    ensures r.lastActivity == now
  {
    s.(state := Idle, step := 0, data := Some(map[]), lastActivity := now)
  }
}

=== FILE: webhook_v1.dfy ===
/** The legacy chat webhook (`controller/ZohoWebhookController.java`): the
    lower-cased payload is routed by substring to team creation, user
    registration or one of four fixed answers. Values are read after
    `key:` markers with defaults; each handler turns its own exceptions
    into an error reply, so the webhook always answers. */
module WebhookV1 {
  import opened Wrappers
  import opened JavaString
  import opened Entities

  const NameKey := "name:"
  const EmailKey := "email:"
  const DefaultTeamName := "DefaultTeam"
  const DefaultUserName := "testuser"
  const DefaultEmail := "test@example.com"
  const ChannelPrefix := "zoho-channel-"
  const ZohoIdPrefix := "zoho-"

  // ------------------------------------------------------------ parsing

  /** `message.split(key)[1].trim().split("\\s")[0]` when the message holds
      the key, else the default. The second piece is missing when nothing
      but copies of the key follow its first occurrence, and indexing it
      throws. On trimmed text the first piece of a split at single
      whitespace characters is the first token ("" for blank text). */
  function ValueOr(message: string, key: string, default: string): (r: Result<string, Fault>)
    requires |key| > 0
    ensures !Contains(message, key) ==> r == Ok(default)
    ensures r.Err? ==> r.error == IndexOutOfBounds && Contains(message, key)
    ensures r.Ok? && Contains(message, key) ==> NoWs(r.value) && !Contains(r.value, key)
  {
    if Contains(message, key) then
      var parts := Split(message, key);
      if |parts| > 1 then
        var t := Trim(parts[1]);
        TrimKeyFree(parts[1], key);
        var value := FirstToken(t);
        InfixKeyFree(t, key, 0, |value|);
        assert t[0..|value|] == value;
        Ok(value)
      else Err(IndexOutOfBounds)
    else Ok(default)
  }

  // ------------------------------------------------------------ replies

  datatype Reply =
    | TeamExists(teamName: string)
    | TeamCreated(teamId: Id)
    | CreateTeamFailed(createFault: Fault)
    | UserExists(email: string)
    | UserRegistered(userId: Id)
    | RegisterFailed(registerFault: Fault)
    | StandupInstructions
    | HelpText
    | Status(teamCount: nat, userCount: nat)
    | Welcome

  // ------------------------------------------------------------ handlers

  /** The row `handleCreateTeam` saves: a name and a channel id only. */
  function NewTeam(teamName: string): Team {
    NoTeam.(teamName := Some(teamName), zohoChannelId := Some(ChannelPrefix + teamName))
  }

  /** `handleCreateTeam(message)`. The row names no organization and no
      team lead, both of which the table requires, so no team is ever
      saved; a taken name is reported instead of attempted. */
  function CreateTeam(d: Directory, message: string, now: Instant): (r: (Directory, Reply))
    ensures r.0 == d && !r.1.TeamCreated?
    ensures ValueOr(message, NameKey, DefaultTeamName).Err? ==> r.1 == CreateTeamFailed(IndexOutOfBounds)
    ensures ValueOr(message, NameKey, DefaultTeamName).Ok? ==>
              var teamName := ValueOr(message, NameKey, DefaultTeamName).value;
              && (TeamByName(d, teamName).Unique? ==> r.1 == TeamExists(teamName))
              && (TeamByName(d, teamName).Ambiguous? ==> r.1 == CreateTeamFailed(NonUniqueResult))
              && (TeamByName(d, teamName).Missing? ==> r.1 == CreateTeamFailed(ConstraintViolation))
  {
    match ValueOr(message, NameKey, DefaultTeamName)
    case Err(f) => (d, CreateTeamFailed(f))
    case Ok(teamName) =>
      match TeamByName(d, teamName)
      case Unique(_) => (d, TeamExists(teamName))
      case Ambiguous => (d, CreateTeamFailed(NonUniqueResult))
      case Missing =>
        match InsertTeam(d, NewTeam(teamName), now)
        case Ok((d', id)) => (d', TeamCreated(id))
        case Err(f) => (d, CreateTeamFailed(f))
  }

  /** The row `handleRegisterUser` saves. */
  function NewUser(name: string, email: string): User {
    NoUser.(name := Some(name), email := Some(email), zohoUserId := Some(ZohoIdPrefix + name))
  }

  /** `handleRegisterUser(message)` once the values are read: a known
      e-mail is reported and nothing is saved; otherwise the user is saved
      unless the database refuses the row. */
  function RegisterAs(d: Directory, name: string, email: string, now: Instant): (r: (Directory, Reply))
    ensures r.1.UserRegistered? <==> r.0 != d
    ensures UserByEmail(d, email).Unique? ==> r == (d, UserExists(email))
    ensures UserByEmail(d, email) == Ambiguous ==> r == (d, RegisterFailed(NonUniqueResult))
    ensures UserByEmail(d, email).Missing? && !UserFits(d, UserOnCreate(NewUser(name, email), now), -1) ==>
              r == (d, RegisterFailed(ConstraintViolation))
    ensures UserByEmail(d, email).Missing? && UserFits(d, UserOnCreate(NewUser(name, email), now), -1) ==>
              r == (d.(users := d.users + [UserOnCreate(NewUser(name, email), now)]), UserRegistered(|d.users| + 1))
    ensures r.1.UserRegistered? ==>
              && UserByEmail(d, email).Missing?
              && r.1.userId == |d.users| + 1
              && r.0 == d.(users := d.users + [UserOnCreate(NewUser(name, email), now)])
  {
    match UserByEmail(d, email)
    case Unique(_) => (d, UserExists(email))
    case Ambiguous => (d, RegisterFailed(NonUniqueResult))
    case Missing =>
      match InsertUser(d, NewUser(name, email), now)
      case Err(f) => (d, RegisterFailed(f))
      case Ok((d', id)) =>
        assert |d'.users| != |d.users|;
        (d', UserRegistered(id))
  }

  /** `handleRegisterUser(message)`: the name is read first, then the
      e-mail; either read throwing ends the handler with an error reply. */
  function Register(d: Directory, message: string, now: Instant): (r: (Directory, Reply))
    ensures ValueOr(message, NameKey, DefaultUserName).Err? ==> r == (d, RegisterFailed(IndexOutOfBounds))
    ensures ValueOr(message, NameKey, DefaultUserName).Ok? && ValueOr(message, EmailKey, DefaultEmail).Err? ==>
              r == (d, RegisterFailed(IndexOutOfBounds))
    ensures ValueOr(message, NameKey, DefaultUserName).Ok? && ValueOr(message, EmailKey, DefaultEmail).Ok? ==>
              r == RegisterAs(d, ValueOr(message, NameKey, DefaultUserName).value,
                              ValueOr(message, EmailKey, DefaultEmail).value, now)
  {
    match ValueOr(message, NameKey, DefaultUserName)
    case Err(f) => (d, RegisterFailed(f))
    case Ok(name) =>
      match ValueOr(message, EmailKey, DefaultEmail)
      case Err(f) => (d, RegisterFailed(f))
      case Ok(email) => RegisterAs(d, name, email, now)
  }

  // ------------------------------------------------------------ routing

  datatype Handler = CreateTeamHandler | RegisterHandler | StandupHandler | HelpHandler | StatusHandler | WelcomeHandler

  /** The substring test of `handleWebhook` that sends a lower-cased
      message to `h`; the welcome reply is what is left when none holds. */
  predicate Routes(h: Handler, message: string) {
    match h
    case CreateTeamHandler => Contains(message, "create team")
    case RegisterHandler => Contains(message, "register") || Contains(message, "add user")
    case StandupHandler => Contains(message, "standup")
    case HelpHandler => Contains(message, "help")
    case StatusHandler => Contains(message, "status")
    case WelcomeHandler => false
  }

  /** The position of a test in `handleWebhook`'s if-chain. */
  function Rank(h: Handler): nat {
    match h
    case CreateTeamHandler => 0
    case RegisterHandler => 1
    case StandupHandler => 2
    case HelpHandler => 3
    case StatusHandler => 4
    case WelcomeHandler => 5
  }

  /** The handler a lower-cased message goes to: the first of the
      substring tests that holds. */
  function Classify(message: string): (r: Handler)
    ensures r != WelcomeHandler ==> Routes(r, message)
    ensures forall h :: Rank(h) < Rank(r) ==> !Routes(h, message)
    ensures r == WelcomeHandler ==> forall h :: !Routes(h, message)
  {
    if Contains(message, "create team") then CreateTeamHandler
    else if Contains(message, "register") || Contains(message, "add user") then RegisterHandler
    else if Contains(message, "standup") then StandupHandler
    else if Contains(message, "help") then HelpHandler
    else if Contains(message, "status") then StatusHandler
    else WelcomeHandler
  }

  /** `handleWebhook(payload)`: a missing payload reads as "". Only the two
      writing handlers can change the directory. */
  function Webhook(d: Directory, payload: Option<string>, now: Instant): (r: (Directory, Reply))
    ensures var message := Lower(payload.GetOr(""));
            && (Classify(message) != RegisterHandler ==> r.0 == d)
            && (Classify(message) == CreateTeamHandler ==> r == CreateTeam(d, message, now))
            && (Classify(message) == RegisterHandler ==> r == Register(d, message, now))
            && (Classify(message) == StatusHandler ==> r.1 == Status(|d.teams|, |d.users|))
    ensures r.1.StandupInstructions? || r.1.HelpText? || r.1.Welcome? || r.1.Status? ==> r.0 == d
  {
    var message := Lower(payload.GetOr(""));
    match Classify(message)
    case CreateTeamHandler => CreateTeam(d, message, now)
    case RegisterHandler => Register(d, message, now)
    case StandupHandler => (d, StandupInstructions)
    case HelpHandler => (d, HelpText)
    case StatusHandler => (d, Status(|d.teams|, |d.users|))
    case WelcomeHandler => (d, Welcome)
  }
}

=== FILE: webhook_v1_properties.dfy ===
/** Properties of the legacy chat webhook: what a value read returns in
    terms of the text around the first key, that a key with nothing after
    it is caught as an error reply, and that a registered e-mail cannot
    register again. */
module WebhookV1Properties {
  import opened Wrappers
  import opened JavaString
  import opened Entities
  import opened WebhookV1

  /** A message mentioning "standup" reaches the standup instructions
      exactly when it mentions neither "create team" nor a registration
      word, which are tested first. */
  lemma StandupWordShadowed(message: string)
    requires Routes(StandupHandler, message)
    ensures Classify(message) == StandupHandler <==>
              !Routes(CreateTeamHandler, message) && !Routes(RegisterHandler, message)
  {
  }

  /** A value read fails exactly when nothing but copies of the key follow
      its first occurrence; otherwise it is the first token of the trimmed
      text between the first and the second occurrence (or the end). */
  lemma ValueOrReadsBetween(message: string, key: string, default: string)
    requires |key| > 0 && Contains(message, key)
    ensures var r := ValueOr(message, key, default);
            && (r.Err? <==> OnlyKeys(AfterFirst(message, key), key))
            && (r.Ok? ==> r.value == FirstToken(Trim(Between(message, key))))
  {
    SplitSecondPiece(message, key);
    SplitSecondIsBetween(message, key);
  }

  /** "name:" at the very end of a message (with no colon before it)
      leaves no second piece: the read throws. */
  lemma NameAtEndFails(before: string, default: string)
    requires Lacks(before, ':')
    ensures ValueOr(before + NameKey, NameKey, default) == Err(IndexOutOfBounds)
  {
    assert Lacks(NameKey[..|NameKey| - 1], ':');
    KeyAtEnd(before, NameKey);
    var m := before + NameKey;
    assert AfterFirst(m, NameKey) == [];
    ValueOrReadsBetween(m, NameKey, default);
  }

  /** ... and the team handler catches it: the webhook answers with an
      error reply and saves nothing. */
  lemma DanglingTeamNameCaught(d: Directory, before: string, now: Instant)
    requires Lacks(before, ':')
    ensures CreateTeam(d, before + NameKey, now) == (d, CreateTeamFailed(IndexOutOfBounds))
  {
    NameAtEndFails(before, DefaultTeamName);
  }

  /** The registration handler catches the same failure for "email:". */
  lemma DanglingEmailCaught(d: Directory, before: string, now: Instant)
    requires Lacks(before, ':')
    ensures Register(d, before + EmailKey, now) == (d, RegisterFailed(IndexOutOfBounds))
  {
    var m := before + EmailKey;
    assert Lacks(EmailKey[..|EmailKey| - 1], ':');
    KeyAtEnd(before, EmailKey);
    assert AfterFirst(m, EmailKey) == [];
    ValueOrReadsBetween(m, EmailKey, DefaultEmail);
    forall k | 0 <= k && k + |NameKey| <= |m| ensures !OccursAt(m, NameKey, k) {
      // the window differs from "name:" at its colon or at its first letter
      var w := m[k..k + 5];
      if k + 4 < |before| {
        assert w[4] == before[k + 4];
        assert w[4] != NameKey[4];
      } else if k + 4 < |m| - 1 {
        assert w[4] == EmailKey[k + 4 - |before|];
        assert w[4] != NameKey[4];
      } else {
        assert w[0] == EmailKey[1];
        assert w[0] != NameKey[0];
      }
    }
    assert !Contains(m, NameKey);
  }

  /** Once an e-mail registers, registering it again under any name is
      refused and saves nothing. */
  lemma RegisterTwice(d: Directory, name: string, email: string, now: Instant, name2: string, now2: Instant)
    requires RegisterAs(d, name, email, now).1.UserRegistered?
    ensures var d' := RegisterAs(d, name, email, now).0;
            RegisterAs(d', name2, email, now2) == (d', UserExists(email))
  {
    var row := UserOnCreate(NewUser(name, email), now);
    assert row.email == Some(email);
    FindAppendMatch(d.users, (u: User) => u.email == Some(email), row);
  }

  /** Registration goes through in a valid directory for a new e-mail when
      the values fit their columns and no user carries the identity derived
      from the name; the e-mail then names the new user. */
  lemma RegisterSucceeds(d: Directory, name: string, email: string, now: Instant)
    requires Valid(d) && UserByEmail(d, email).Missing?
    requires |email| <= DefaultLength && |ZohoIdPrefix + name| <= DefaultLength
    requires forall j :: 0 <= j < |d.users| ==> d.users[j].zohoUserId != Some(ZohoIdPrefix + name)
    ensures var r := RegisterAs(d, name, email, now);
            && r.1 == UserRegistered(|d.users| + 1)
            && UserByEmail(r.0, email) == Unique(|d.users| + 1)
  {
    var row := UserOnCreate(NewUser(name, email), now);
    assert AllFit([row.email, row.name, row.zohoUserId, row.githubUsername, row.jiraAccountId], DefaultLength);
    assert UserFits(d, row, -1);
    FindAppendMatch(d.users, (u: User) => u.email == Some(email), row);
  }

  /** The identity is derived from the display name, so once a name is
      registered, nobody else of that name can register under any e-mail:
      the unique identity column refuses the second row. */
  lemma SameNameCollides(d: Directory, name: string, email: string, now: Instant, email2: string, now2: Instant)
    requires RegisterAs(d, name, email, now).1.UserRegistered?
    ensures var d' := RegisterAs(d, name, email, now).0;
            !RegisterAs(d', name, email2, now2).1.UserRegistered?
  {
    var d' := RegisterAs(d, name, email, now).0;
    assert d'.users[|d.users|].zohoUserId == Some(ZohoIdPrefix + name);
  }
}

=== FILE: webhook_v2.dfy ===
/** The keyword-driven chat webhook (`controller/ZohoWebhookControllerNew.java`):
    the lower-cased payload is routed by substring, values are read after
    `key:` markers, and a standup is collected over three messages keyed by
    e-mail address. Each handler catches its own exceptions and turns them
    into an error reply. */
module WebhookV2 {
  import opened Wrappers
  import opened JavaString
  import opened Entities
  import AIService

  const NameKey := "name:"
  const EmailKey := "email:"
  const TeamIdKey := "teamid:"
  const GithubKey := "github:"
  const ReminderKey := "reminder:"
  const YesterdayKey := "yesterday:"
  const TodayKey := "today:"
  const BlockersKey := "blockers:"

  // ------------------------------------------------------------ parsing

  /** `extractValue(message, key, default)`: the first whitespace-free token
      of the trimmed second `split(key)` piece, or the default when the key
      is absent or nothing follows it. */
  function ExtractValue(message: string, key: string, default: Option<string>): (r: Option<string>)
    requires |key| > 0
    ensures !Contains(message, key) ==> r == default
    ensures r != default ==> r.Some? && r.value != [] && NoWs(r.value) && !Contains(r.value, key)
  {
    if Contains(message, key) then
      var parts := Split(message, key);
      if |parts| > 1 then
        var t := Trim(parts[1]);
        TrimKeyFree(parts[1], key);
        var value := FirstToken(t);
        InfixKeyFree(t, key, 0, |value|);
        assert t[0..|value|] == value;
        if value == [] then default else Some(value)
      else default
    else default
  }

  /** `extractTextAfter(message, key)`: the trimmed second `split(key)`
      piece, cut before its first "email:". A piece made only of "email:"
      copies makes `split("email:")` return no pieces, and indexing it
      throws. */
  function ExtractTextAfter(message: string, key: string): (r: Result<string, Fault>)
    requires |key| > 0
    ensures !Contains(message, key) ==> r == Ok("")
    ensures r.Err? ==> r.error == IndexOutOfBounds
    ensures r.Ok? ==> IsTrimmed(r.value) && !Contains(r.value, key) && !Contains(r.value, EmailKey)
  {
    if Contains(message, key) then
      var parts := Split(message, key);
      if |parts| > 1 then
        var text := Trim(parts[1]);
        TrimKeyFree(parts[1], key);
        if Contains(text, EmailKey) then
          var pieces := Split(text, EmailKey);
          if |pieces| == 0 then Err(IndexOutOfBounds)
          else
            SplitFirstPiece(text, EmailKey);
            InfixKeyFree(text, key, 0, |pieces[0]|);
            assert text[0..|pieces[0]|] == pieces[0];
            TrimKeyFree(pieces[0], key);
            TrimKeyFree(pieces[0], EmailKey);
            Ok(Trim(pieces[0]))
        else Ok(text)
      else Ok("")
    else Ok("")
  }

  /** `truncate(text, n)`: null reads as "", longer text is cut to `n`
      characters followed by "...". */
  function Truncate(text: Option<string>, n: nat): (r: string)
    ensures text.None? ==> r == ""
    ensures text.Some? && |text.value| <= n ==> r == text.value
    ensures text.Some? && |text.value| > n ==> r == text.value[..n] + "..."
    ensures |r| <= n + 3
  {
    match text
    case None => ""
    case Some(t) => if |t| > n then t[..n] + "..." else t
  }

  // ------------------------------------------------------------ routing

  datatype Handler =
    | CreateTeamHandler | RegisterHandler | StartStandupHandler | StandupInputHandler
    | HistoryHandler | StatsHandler | HelpHandler | StatusHandler | WelcomeHandler

  /** The substring test of `handleWebhook` that sends a lower-cased
      message to `h`; the welcome reply is what is left when none holds. */
  predicate Routes(h: Handler, message: string) {
    match h
    case CreateTeamHandler => Contains(message, "create team")
    case RegisterHandler => Contains(message, "register") || Contains(message, "add user")
    case StartStandupHandler => Contains(message, "start standup")
    case StandupInputHandler =>
      Contains(message, YesterdayKey) || Contains(message, TodayKey) || Contains(message, BlockersKey)
    case HistoryHandler => Contains(message, "my standups")
    case StatsHandler => Contains(message, "team stats")
    case HelpHandler => Contains(message, "help")
    case StatusHandler => Contains(message, "status")
    case WelcomeHandler => false
  }

  /** The position of a test in `handleWebhook`'s if-chain. */
  function Rank(h: Handler): nat {
    match h
    case CreateTeamHandler => 0
    case RegisterHandler => 1
    case StartStandupHandler => 2
    case StandupInputHandler => 3
    case HistoryHandler => 4
    case StatsHandler => 5
    case HelpHandler => 6
    case StatusHandler => 7
    case WelcomeHandler => 8
  }

  /** The handler of the first test that holds, in the order of the chain. */
  function Classify(message: string): (r: Handler)
    ensures r != WelcomeHandler ==> Routes(r, message)
    ensures forall h :: Rank(h) < Rank(r) ==> !Routes(h, message)
    ensures r == WelcomeHandler ==> forall h :: !Routes(h, message)
  {
    if Contains(message, "create team") then CreateTeamHandler
    else if Contains(message, "register") || Contains(message, "add user") then RegisterHandler
    else if Contains(message, "start standup") then StartStandupHandler
    else if Contains(message, YesterdayKey) || Contains(message, TodayKey) || Contains(message, BlockersKey) then
      StandupInputHandler
    else if Contains(message, "my standups") then HistoryHandler
    else if Contains(message, "team stats") then StatsHandler
    else if Contains(message, "help") then HelpHandler
    else if Contains(message, "status") then StatusHandler
    else WelcomeHandler
  }

  // -------------------------------------------------------------- state

  /** `StandupSession`: the standup being collected, the address it is
      keyed by and a step counter that nothing reads. */
  datatype StandupSession = StandupSession(standupId: Id, userEmail: string, step: int)

  /** `activeSessions`, keyed by e-mail address. */
  type Live = map<string, StandupSession>

  /** The clock, the configured AI key and model, and the AI providers. */
  datatype Env = Env(
    now: Instant,
    today: Date,
    apiKey: Option<string>,
    model: Option<string>,
    gemini: (AIService.Prompt, string) -> Option<Option<string>>,
    openAi: (AIService.Prompt, string, string) -> Option<Option<string>>)

  /** Replies, by meaning; the texts are not modelled. */
  datatype Reply =
    | TeamExists(teamName: string)
    | TeamCreated(teamId: Id)
    | NeedNameAndEmail
    | UserExistsAlready(email: string)
    | TeamIdNotFound(givenId: int)
    | InvalidTeamId
    | UserRegistered(userId: Id)
    | NeedEmail
    | UserNotFound(email: string)
    | AlreadyCompleted
    | StandupStarted(standupId: Id)
    | IncludeEmail
    | NoActiveSession(email: string)
    | StandupNotFound
    | AskToday
    | AskBlockers
    | StandupComplete(standupId: Id)
    | NoReply
    | ReadOnly(handler: Handler)
    | Error(fault: Fault)

  // ----------------------------------------------------------- handlers

  /** The row `handleCreateTeam` builds. */
  function NewTeam(teamName: string, githubOrg: Option<string>, reminderTime: string): Team {
    NoTeam.(teamName := Some(teamName), zohoChannelId := Some("zoho-channel-" + teamName),
            githubOrganization := githubOrg, reminderEnabled := Some(true), reminderTime := Some(reminderTime),
            calendarEnabled := Some(false), active := Some(true))
  }

  /** `handleCreateTeam(message)`. The row names no organization and no
      team lead, so the database refuses it whenever the name is free. */
  function CreateTeam(d: Directory, message: string, now: Instant): (r: (Directory, Reply))
    ensures r.0 == d
    ensures var teamName := ExtractValue(message, NameKey, Some("DefaultTeam")).value;
            && (TeamByName(d, teamName).Unique? ==> r.1 == TeamExists(teamName))
            && (TeamByName(d, teamName).Missing? ==> r.1 == Error(ConstraintViolation))
            && (TeamByName(d, teamName).Ambiguous? ==> r.1 == Error(NonUniqueResult))
  {
    var teamName := ExtractValue(message, NameKey, Some("DefaultTeam")).value;
    var githubOrg := ExtractValue(message, GithubKey, None);
    var reminderTime := ExtractValue(message, ReminderKey, Some("09:00")).value;
    match TeamByName(d, teamName)
    case Unique(_) => (d, TeamExists(teamName))
    case Ambiguous => (d, Error(NonUniqueResult))
    case Missing =>
      match InsertTeam(d, NewTeam(teamName, githubOrg, reminderTime), now)
      case Ok((d', id)) => (d', TeamCreated(id))
      case Err(f) => (d, Error(f))
  }

  /** The row `handleRegisterUser` builds, before the team is set. */
  function NewUser(name: string, email: string, zid: string, githubUsername: Option<string>): User {
    NoUser.(name := Some(name), email := Some(email), zohoUserId := Some(zid), githubUsername := githubUsername)
  }

  /** The local part of an address: the first `split("@")` piece, or `None`
      when `split` yields nothing and indexing it throws (an address made
      only of "@"s). */
  function LocalPart(email: string): Option<string> {
    var pieces := Split(email, "@");
    if |pieces| == 0 then None else Some(pieces[0])
  }

  /** The `teamid:` value resolved to a team: no value leaves the user
      without one; text that is not a `long` and an id naming no team are
      refused with their replies. */
  function TeamFor(d: Directory, teamIdText: Option<string>): (r: Result<Option<Id>, Reply>)
    ensures r.Ok? && r.value.Some? ==> 1 <= r.value.value <= |d.teams|
    ensures r.Err? ==> r.error == InvalidTeamId || r.error.TeamIdNotFound?
  {
    match teamIdText
    case None => Ok(None)
    case Some(text) =>
      match ParseLong(text)
      case None => Err(InvalidTeamId)
      case Some(n) => if 1 <= n <= |d.teams| then Ok(Some(n as Id)) else Err(TeamIdNotFound(n))
  }

  /** `handleRegisterUser` once the values are read: name and e-mail are
      required, the e-mail must be new, and a given team id must name a
      team; nothing is saved otherwise. The identity is "zoho-" followed by
      the e-mail's local part. */
  function Register(d: Directory, name: Option<string>, email: Option<string>, teamIdText: Option<string>,
                    github: Option<string>, now: Instant): (r: (Directory, Reply))
    ensures r.1.UserRegistered? <==> r.0 != d
    ensures name.None? || email.None? ==> r == (d, NeedNameAndEmail)
    ensures name.Some? && email.Some? && UserByEmail(d, email.value).Unique? ==>
              r == (d, UserExistsAlready(email.value))
    ensures name.Some? && email.Some? && UserByEmail(d, email.value) == Ambiguous ==> r == (d, Error(NonUniqueResult))
    ensures name.Some? && email.Some? && UserByEmail(d, email.value).Missing? && LocalPart(email.value).None? ==>
              r == (d, Error(IndexOutOfBounds))
    ensures (name.Some? && email.Some? && UserByEmail(d, email.value).Missing? && LocalPart(email.value).Some?
             && TeamFor(d, teamIdText).Err?) ==> r == (d, TeamFor(d, teamIdText).error)
    ensures name.Some? && email.Some? && UserByEmail(d, email.value).Missing? && LocalPart(email.value).Some?
            && TeamFor(d, teamIdText).Ok? ==>
              var row := UserOnCreate(NewUser(name.value, email.value, "zoho-" + LocalPart(email.value).value, github)
                                        .(team := TeamFor(d, teamIdText).value), now);
              && (r.1.UserRegistered? <==> UserFits(d, row, -1))
              && (!UserFits(d, row, -1) ==> r == (d, Error(ConstraintViolation)))
    ensures r.1.UserRegistered? ==>
              && name.Some? && email.Some? && UserByEmail(d, email.value).Missing?
              && LocalPart(email.value).Some? && TeamFor(d, teamIdText).Ok?
              && r.1.userId == |d.users| + 1
              && r.0 == d.(users := d.users + [UserOnCreate(NewUser(name.value, email.value,
                                                                     "zoho-" + LocalPart(email.value).value, github)
                                                               .(team := TeamFor(d, teamIdText).value), now)])
  {
    if name.None? || email.None? then (d, NeedNameAndEmail)
    else match UserByEmail(d, email.value)
      case Unique(_) => (d, UserExistsAlready(email.value))
      case Ambiguous => (d, Error(NonUniqueResult))
      case Missing =>
        match LocalPart(email.value)
        case None => (d, Error(IndexOutOfBounds))
        case Some(local) =>
          match TeamFor(d, teamIdText)
          case Err(reply) => (d, reply)
          case Ok(team) =>
            match InsertUser(d, NewUser(name.value, email.value, "zoho-" + local, github).(team := team), now)
            case Err(f) => (d, Error(f))
            case Ok((d', id)) =>
              assert |d'.users| != |d.users|;
              (d', UserRegistered(id))
  }

  /** `handleRegisterUser(message)`. */
  function RegisterUser(d: Directory, message: string, now: Instant): (r: (Directory, Reply))
    ensures r.1.UserRegistered? <==> r.0 != d
    ensures var name := ExtractValue(message, NameKey, None);
            var email := ExtractValue(message, EmailKey, None);
            && (name.None? || email.None? ==> r == (d, NeedNameAndEmail))
            && (name.Some? && email.Some? && UserByEmail(d, email.value).Unique? ==>
                  r == (d, UserExistsAlready(email.value)))
    ensures var name := ExtractValue(message, NameKey, None);
            var email := ExtractValue(message, EmailKey, None);
            var teamIdText := ExtractValue(message, TeamIdKey, None);
            name.Some? && email.Some? && UserByEmail(d, email.value).Missing? && LocalPart(email.value).Some?
            && TeamFor(d, teamIdText).Ok? ==>
              var row := UserOnCreate(NewUser(name.value, email.value, "zoho-" + LocalPart(email.value).value,
                                              ExtractValue(message, GithubKey, None))
                                        .(team := TeamFor(d, teamIdText).value), now);
              r.1.UserRegistered? <==> UserFits(d, row, -1)
    ensures r.1.UserRegistered? ==>
              && ExtractValue(message, NameKey, None).Some?
              && var email := ExtractValue(message, EmailKey, None);
              && email.Some? && UserByEmail(d, email.value).Missing?
              && |r.0.users| == |d.users| + 1 && r.0.users[..|d.users|] == d.users
              && r.0.users[|d.users|].email == email
              && r.0.users[|d.users|].name == ExtractValue(message, NameKey, None)
              && r.0.users[|d.users|].githubUsername == ExtractValue(message, GithubKey, None)
  {
    Register(d, ExtractValue(message, NameKey, None), ExtractValue(message, EmailKey, None),
             ExtractValue(message, TeamIdKey, None), ExtractValue(message, GithubKey, None), now)
  }

  /** The row `handleStartStandup` creates. */
  function NewStandup(uid: Id, today: Date): Standup {
    NoStandup.(user := Some(uid), standupDate := Some(today), status := Some(InProgress), currentStep := Some(1))
  }

  /** Creates today's standup for a user who has none and opens the
      session on it. */
  function CreateToday(d: Directory, live: Live, email: string, uid: Id, env: Env): (r: (Directory, Live, Reply))
    requires StandupByUserAndDate(d, uid, env.today).Missing?
    ensures r.2.StandupStarted? <==> 1 <= uid <= |d.users|
    ensures !r.2.StandupStarted? ==> r == (d, live, Error(ConstraintViolation))
    ensures r.2.StandupStarted? ==>
              && r.2.standupId == |d.standups| + 1
              && r.0 == d.(standups := d.standups + [StandupOnCreate(NewStandup(uid, env.today), env.now)])
    ensures r.2.StandupStarted? ==>
              var sid := r.2.standupId;
              && r.1 == live[email := StandupSession(sid, email, 1)]
              && StandupByUserAndDate(r.0, uid, env.today) == Unique(sid)
              && r.0.standups[sid - 1].status != Some(Completed)
              && r.0.(standups := d.standups) == d && d.standups <= r.0.standups
              && (Valid(d) ==> Valid(r.0))
  {
    match InsertStandup(d, NewStandup(uid, env.today), env.now)
    case Err(f) => (d, live, Error(f))
    case Ok((d', sid)) =>
      var row := StandupOnCreate(NewStandup(uid, env.today), env.now);
      var p := (s: Standup) => s.user == Some(uid) && s.standupDate == Some(env.today);
      FindAppendMatch(d.standups, p, row);
      assert d'.standups == d.standups + [row] && d'.standups[sid - 1] == row;
      (d', live[email := StandupSession(sid, email, 1)], StandupStarted(sid))
  }

  /** Today's standup of user `uid`: reused unless completed, or created
      at step 1; the session for the e-mail then points at it, at step 1. */
  function ResumeOrCreate(d: Directory, live: Live, email: string, uid: Id, env: Env): (r: (Directory, Live, Reply))
    ensures !r.2.StandupStarted? ==> r.0 == d && r.1 == live
    ensures StandupByUserAndDate(d, uid, env.today) == Ambiguous ==> r == (d, live, Error(NonUniqueResult))
    ensures StandupByUserAndDate(d, uid, env.today).Unique?
            && d.standups[StandupByUserAndDate(d, uid, env.today).id - 1].status == Some(Completed) ==>
              r.2 == AlreadyCompleted
    ensures StandupByUserAndDate(d, uid, env.today).Unique?
            && d.standups[StandupByUserAndDate(d, uid, env.today).id - 1].status != Some(Completed) ==>
              var sid := StandupByUserAndDate(d, uid, env.today).id;
              r == (d, live[email := StandupSession(sid, email, 1)], StandupStarted(sid))
    ensures StandupByUserAndDate(d, uid, env.today) == Missing && 1 <= uid <= |d.users| ==>
              var sid := |d.standups| + 1;
              r == (d.(standups := d.standups + [StandupOnCreate(NewStandup(uid, env.today), env.now)]),
                    live[email := StandupSession(sid, email, 1)], StandupStarted(sid))
    ensures r.2.StandupStarted? ==>
              var sid := r.2.standupId;
              && r.1 == live[email := StandupSession(sid, email, 1)]
              && StandupByUserAndDate(r.0, uid, env.today) == Unique(sid)
              && r.0.standups[sid - 1].status != Some(Completed)
              && r.0.(standups := d.standups) == d && d.standups <= r.0.standups
              && (Valid(d) ==> Valid(r.0))
  {
    match StandupByUserAndDate(d, uid, env.today)
    case Ambiguous => (d, live, Error(NonUniqueResult))
    case Unique(sid) =>
      if d.standups[sid - 1].status == Some(Completed) then (d, live, AlreadyCompleted)
      else (d, live[email := StandupSession(sid, email, 1)], StandupStarted(sid))
    case Missing => CreateToday(d, live, email, uid, env)
  }

  /** `handleStartStandup` once the e-mail is read: the e-mail names a
      user; today's standup is reused unless completed, or created at step
      1; the session for the e-mail then points at it, at step 1. */
  function StartFor(d: Directory, live: Live, email: string, env: Env): (r: (Directory, Live, Reply))
    ensures !r.2.StandupStarted? ==> r.0 == d && r.1 == live
    ensures UserByEmail(d, email).Missing? ==> r == (d, live, UserNotFound(email))
    ensures UserByEmail(d, email) == Ambiguous ==> r == (d, live, Error(NonUniqueResult))
    ensures UserByEmail(d, email).Unique? ==>
              var uid := UserByEmail(d, email).id;
              && (StandupByUserAndDate(d, uid, env.today) == Missing ==>
                    var sid := |d.standups| + 1;
                    r == (d.(standups := d.standups + [StandupOnCreate(NewStandup(uid, env.today), env.now)]),
                          live[email := StandupSession(sid, email, 1)], StandupStarted(sid)))
              && (StandupByUserAndDate(d, uid, env.today).Unique?
                  && d.standups[StandupByUserAndDate(d, uid, env.today).id - 1].status != Some(Completed) ==>
                    var sid := StandupByUserAndDate(d, uid, env.today).id;
                    r == (d, live[email := StandupSession(sid, email, 1)], StandupStarted(sid)))
    ensures (UserByEmail(d, email).Unique? && StandupByUserAndDate(d, UserByEmail(d, email).id, env.today).Unique?
             && d.standups[StandupByUserAndDate(d, UserByEmail(d, email).id, env.today).id - 1].status
                == Some(Completed)) ==> r.2 == AlreadyCompleted
    ensures r.2.StandupStarted? ==> UserByEmail(d, email).Unique?
    ensures r.2.StandupStarted? && UserByEmail(d, email).Unique? ==>
              var uid := UserByEmail(d, email).id;
              var sid := r.2.standupId;
              && r.1 == live[email := StandupSession(sid, email, 1)]
              && StandupByUserAndDate(r.0, uid, env.today) == Unique(sid)
              && r.0.standups[sid - 1].status != Some(Completed)
              && r.0.(standups := d.standups) == d && d.standups <= r.0.standups
              && (Valid(d) ==> Valid(r.0))
  {
    match UserByEmail(d, email)
    case Missing => (d, live, UserNotFound(email))
    case Ambiguous => (d, live, Error(NonUniqueResult))
    case Unique(uid) => ResumeOrCreate(d, live, email, uid, env)
  }

  /** `handleStartStandup(message)`. */
  function StartStandup(d: Directory, live: Live, message: string, env: Env): (r: (Directory, Live, Reply))
    ensures ExtractValue(message, EmailKey, None).None? ==> r == (d, live, NeedEmail)
    ensures !r.2.StandupStarted? ==> r.0 == d && r.1 == live
    ensures var email := ExtractValue(message, EmailKey, None);
            email.Some? && UserByEmail(d, email.value).Missing? ==> r == (d, live, UserNotFound(email.value))
    ensures var email := ExtractValue(message, EmailKey, None);
            email.Some? && UserByEmail(d, email.value).Unique? ==>
              var today := StandupByUserAndDate(d, UserByEmail(d, email.value).id, env.today);
              (today == Missing || (today.Unique? && d.standups[today.id - 1].status != Some(Completed))) ==>
                r.2.StandupStarted?
    ensures r.2.StandupStarted? ==>
              && var email := ExtractValue(message, EmailKey, None);
              && email.Some? && UserByEmail(d, email.value).Unique?
              && r.1 == live[email.value := StandupSession(r.2.standupId, email.value, 1)]
              && StandupByUserAndDate(r.0, UserByEmail(d, email.value).id, env.today) == Unique(r.2.standupId)
  {
    match ExtractValue(message, EmailKey, None)
    case None => (d, live, NeedEmail)
    case Some(email) => StartFor(d, live, email, env)
  }

  /** The AI summary of a completed standup; a provider failing falls back
      to the template, and a provider answering with a null text leaves the
      summary null. */
  function Summary(s: Standup, env: Env): (r: Option<string>)
    ensures !AIService.KeyConfigured(env.apiKey) ==>
              r == Some(AIService.FallbackSummary(s.yesterdayWork, s.todayPlan, s.blockers))
    ensures var prompt := AIService.BuildPrompt(s.yesterdayWork, s.todayPlan, s.blockers, [], [], []);
            || r == Some(AIService.FallbackSummary(s.yesterdayWork, s.todayPlan, s.blockers))
            || (AIService.KeyConfigured(env.apiKey)
                && (env.gemini(prompt, env.apiKey.value) == Some(r)
                    || env.openAi(prompt, env.apiKey.value, env.model.GetOr(AIService.DefaultModel)) == Some(r)))
  {
    AIService.SummaryIsAnswerOrTemplate(s.yesterdayWork, s.todayPlan, s.blockers, [], [], [], env.apiKey, env.model,
                                        env.gemini, env.openAi);
    AIService.GenerateSummary(s.yesterdayWork, s.todayPlan, s.blockers, [], [], [], env.apiKey, env.model,
                              env.gemini, env.openAi)
  }

  /** Saves an answer for the session's standup and moves the session to
      `step`. */
  function SaveAnswer(d: Directory, live: Live, email: string, row: Standup, step: int, reply: Reply, now: Instant)
    : (r: (Directory, Live, Reply))
    requires email in live && 1 <= live[email].standupId <= |d.standups|
    ensures r.2 == reply || (r.2 == Error(ConstraintViolation) && r.0 == d && r.1 == live)
    ensures var sid := live[email].standupId;
            if StandupSaves(d, sid, row, now) then
              r == (d.(standups := d.standups[sid - 1 := StandupOnUpdate(d.standups[sid - 1], row, now)]),
                    live[email := live[email].(step := step)], reply)
            else r == (d, live, Error(ConstraintViolation))
  {
    match UpdateStandup(d, live[email].standupId, row, now)
    case Err(f) => (d, live, Error(f))
    case Ok(d') => (d', live[email := live[email].(step := step)], reply)
  }

  /** The standup as the last answer leaves it: blockers recorded,
      status completed, submission stamped and the summary attached. */
  function CompletedRow(s: Standup, blockers: string, summary: Option<string>, now: Instant): (r: Standup)
    ensures r.blockers == Some(blockers) && r.status == Some(Completed) && r.submittedAt == Some(now)
    ensures r.aiSummary == summary
    ensures r == s.(blockers := r.blockers, status := r.status, submittedAt := r.submittedAt, aiSummary := r.aiSummary)
  {
    s.(blockers := Some(blockers), status := Some(Completed), submittedAt := Some(now), aiSummary := summary)
  }

  /** Completes the session's standup with the blockers and the summary
      and ends the session. */
  function Complete(d: Directory, live: Live, email: string, blockers: string, summary: Option<string>, now: Instant)
    : (r: (Directory, Live, Reply))
    requires email in live && 1 <= live[email].standupId <= |d.standups|
    ensures r.2 == StandupComplete(live[email].standupId) || (r.2 == Error(ConstraintViolation) && r.0 == d && r.1 == live)
    ensures var sid := live[email].standupId;
            var row := CompletedRow(d.standups[sid - 1], blockers, summary, now);
            if StandupSaves(d, sid, row, now) then
              r == (d.(standups := d.standups[sid - 1 := StandupOnUpdate(d.standups[sid - 1], row, now)]), live - {email},
                    StandupComplete(sid))
            else r == (d, live, Error(ConstraintViolation))
  {
    var sid := live[email].standupId;
    match UpdateStandup(d, sid, CompletedRow(d.standups[sid - 1], blockers, summary, now), now)
    case Err(f) => (d, live, Error(f))
    case Ok(d') => (d', live - {email}, StandupComplete(sid))
  }

  /** The summary of the standup once its blockers are in: the summary
      is generated from the row as the completion leaves it. */
  function SummaryFor(s: Standup, blockers: string, env: Env): (r: Option<string>)
    ensures !AIService.KeyConfigured(env.apiKey) ==>
              r == Some(AIService.FallbackSummary(s.yesterdayWork, s.todayPlan, Some(blockers)))
    ensures var prompt := AIService.BuildPrompt(s.yesterdayWork, s.todayPlan, Some(blockers), [], [], []);
            || r == Some(AIService.FallbackSummary(s.yesterdayWork, s.todayPlan, Some(blockers)))
            || (AIService.KeyConfigured(env.apiKey)
                && (env.gemini(prompt, env.apiKey.value) == Some(r)
                    || env.openAi(prompt, env.apiKey.value, env.model.GetOr(AIService.DefaultModel)) == Some(r)))
  {
    Summary(s.(blockers := Some(blockers), status := Some(Completed), submittedAt := Some(env.now)), env)
  }

  /** The answer of a live session: the first of "yesterday:", "today:"
      and "blockers:" present decides the field written; the session's step
      is never consulted. */
  function Record(d: Directory, live: Live, email: string, message: string, env: Env): (r: (Directory, Live, Reply))
    requires email in live && 1 <= live[email].standupId <= |d.standups|
    ensures r.2.Error? || r.2.NoReply? ==> r.0 == d && r.1 == live
    ensures !Contains(message, YesterdayKey) && !Contains(message, TodayKey) && !Contains(message, BlockersKey) ==>
              r == (d, live, NoReply)
  {
    var s := d.standups[live[email].standupId - 1];
    if Contains(message, YesterdayKey) then
      match ExtractTextAfter(message, YesterdayKey)
      case Err(f) => (d, live, Error(f))
      case Ok(text) => SaveAnswer(d, live, email, s.(yesterdayWork := Some(text), currentStep := Some(2)), 2, AskToday, env.now)
    else if Contains(message, TodayKey) then
      match ExtractTextAfter(message, TodayKey)
      case Err(f) => (d, live, Error(f))
      case Ok(text) => SaveAnswer(d, live, email, s.(todayPlan := Some(text), currentStep := Some(3)), 3, AskBlockers, env.now)
    else if Contains(message, BlockersKey) then
      match ExtractTextAfter(message, BlockersKey)
      case Err(f) => (d, live, Error(f))
      case Ok(text) => Complete(d, live, email, text, SummaryFor(s, text, env), env.now)
    else (d, live, NoReply)
  }

  /** `handleStandupInput(message)`: the e-mail must have a live session
      whose standup exists. */
  function StandupInput(d: Directory, live: Live, message: string, env: Env): (r: (Directory, Live, Reply))
    ensures ExtractValue(message, EmailKey, None).None? ==> r == (d, live, IncludeEmail)
    ensures var email := ExtractValue(message, EmailKey, None);
            email.Some? && email.value !in live ==> r == (d, live, NoActiveSession(email.value))
    ensures var email := ExtractValue(message, EmailKey, None);
            email.Some? && email.value in live && !(1 <= live[email.value].standupId <= |d.standups|) ==>
              r == (d, live, StandupNotFound)
    ensures var email := ExtractValue(message, EmailKey, None);
            email.Some? && email.value in live && 1 <= live[email.value].standupId <= |d.standups| ==>
              r == Record(d, live, email.value, message, env)
  {
    match ExtractValue(message, EmailKey, None)
    case None => (d, live, IncludeEmail)
    case Some(email) =>
      if email !in live then (d, live, NoActiveSession(email))
      else if !(1 <= live[email].standupId <= |d.standups|) then (d, live, StandupNotFound)
      else Record(d, live, email, message, env)
  }

  /** `handleWebhook(payload)`: route the lower-cased payload. History,
      statistics, help, status and welcome only read. */
  function Webhook(d: Directory, live: Live, payload: Option<string>, env: Env): (r: (Directory, Live, Reply))
    ensures var message := Lower(payload.GetOr(""));
            match Classify(message)
            case CreateTeamHandler => r == (d, live, CreateTeam(d, message, env.now).1)
            case RegisterHandler => var (d', reply) := RegisterUser(d, message, env.now); r == (d', live, reply)
            case StartStandupHandler => r == StartStandup(d, live, message, env)
            case StandupInputHandler => r == StandupInput(d, live, message, env)
            case _ => r == (d, live, ReadOnly(Classify(message)))
    ensures var h := Classify(Lower(payload.GetOr("")));
            h != RegisterHandler && h != StartStandupHandler && h != StandupInputHandler ==> r.0 == d && r.1 == live
  {
    var message := Lower(payload.GetOr(""));
    match Classify(message)
    case CreateTeamHandler => var (d', reply) := CreateTeam(d, message, env.now); (d', live, reply)
    case RegisterHandler => var (d', reply) := RegisterUser(d, message, env.now); (d', live, reply)
    case StartStandupHandler => StartStandup(d, live, message, env)
    case StandupInputHandler => StandupInput(d, live, message, env)
    case h => (d, live, ReadOnly(h))
  }
}

=== FILE: webhook_v2_properties.dfy ===
/** Properties of the keyword-driven chat webhook: what the value readers
    return in terms of the text around the first key, that a registered
    e-mail cannot register again, and that a standup started and answered
    with its blockers is complete and cannot be started again that day. */
module WebhookV2Properties {
  import opened Wrappers
  import opened JavaString
  import opened Entities
  import opened WebhookV2

  // ------------------------------------------------------------ routing

  /** A standup answer reaches the standup-input handler exactly when it
      mentions none of the earlier tests' words: an answer such as
      "yesterday: registered the domain" is taken as a registration. */
  lemma StandupAnswerRoutedAway(message: string)
    requires Routes(StandupInputHandler, message)
    ensures Classify(message) == StandupInputHandler <==>
              !Routes(CreateTeamHandler, message) && !Routes(RegisterHandler, message)
              && !Routes(StartStandupHandler, message)
    ensures Contains(message, "register") ==> Classify(message) == RegisterHandler || Classify(message) == CreateTeamHandler
  {
  }

  // ------------------------------------------------------------ value readers

  /** The value after a key is the first token of the trimmed text between
      the first and the second occurrence of the key (or the end); the
      default stands only when that text is blank. */
  lemma ExtractValueReadsBetween(message: string, key: string, default: Option<string>)
    requires |key| > 0 && Contains(message, key)
    ensures var t := Trim(Between(message, key));
            ExtractValue(message, key, default) == if t == [] then default else Some(FirstToken(t))
  {
    SplitSecondIsBetween(message, key);
    if |Split(message, key)| <= 1 {
      assert |Trim(Between(message, key))| <= |Between(message, key)|;
    }
  }

  /** An absent key and a blank value read the same: the default. */
  lemma ExtractValueDefaultIff(message: string, key: string, default: Option<string>)
    requires |key| > 0
    ensures ExtractValue(message, key, default) == default
            <==> !Contains(message, key) || Trim(Between(message, key)) == [] || Some(FirstToken(Trim(Between(message, key)))) == default
  {
    if Contains(message, key) {
      ExtractValueReadsBetween(message, key, default);
    }
  }

  /** The free text after a key is the trimmed text between the first and
      the second key, cut before its first "email:". It fails exactly when
      that text is nothing but "email:" markers. */
  lemma ExtractTextAfterReadsBetween(message: string, key: string)
    requires |key| > 0 && Contains(message, key)
    ensures var t := Trim(Between(message, key));
            var r := ExtractTextAfter(message, key);
            && (r.Err? <==> Contains(t, EmailKey) && OnlyKeys(t, EmailKey))
            && (r.Ok? ==> r.value == Trim(UpToKey(t, EmailKey)))
  {
    var t := Trim(Between(message, key));
    SplitSecondIsBetween(message, key);
    SplitEmptyIff(t, EmailKey);
    if |Split(message, key)| <= 1 {
      assert |t| <= |Between(message, key)|;
      assert t == [];
      assert !Contains(t, EmailKey);
      assert UpToKey(t, EmailKey) == [];
    } else if Contains(t, EmailKey) {
      if |Split(t, EmailKey)| > 0 {
        SplitFirstPiece(t, EmailKey);
      }
    } else {
      TrimOfTrimmed(t);
    }
  }

  /** A key occurs in itself, and nothing but itself follows. */
  lemma KeyAlone(k: string)
    requires |k| > 0
    ensures Contains(k, k) && OnlyKeys(k, k)
  {
    assert k[0..|k|] == k;
    assert k[|k|..] == [];
  }

  /** A space before trimmed text is dropped by `trim`. */
  lemma TrimLeadingSpace(k: string)
    requires |k| > 0 && IsTrimmed(k)
    ensures Trim(" " + k) == k
  {
    var s := " " + k;
    assert s[1..1 + |k|] == k;
    TrimHead(s, 1, k);
    assert IsTrimmable(s[0]);
  }

  /** An answer whose text is only an "email:" marker throws. */
  lemma EmailOnlyAnswerFails(m: string, key: string)
    requires |key| > 0 && Contains(m, key) && Between(m, key) == " " + EmailKey
    ensures ExtractTextAfter(m, key) == Err(IndexOutOfBounds)
  {
    ExtractTextAfterReadsBetween(m, key);
    TrimLeadingSpace(EmailKey);
    KeyAlone(EmailKey);
  }

  /** The same after any key that does not occur in " email:". */
  lemma DanglingEmailFails(m: string, key: string)
    requires |key| > 0 && !Contains(" " + EmailKey, key) && m == key + " " + EmailKey
    ensures ExtractTextAfter(m, key) == Err(IndexOutOfBounds)
  {
    var tail := " " + EmailKey;
    assert m[0..|key|] == key;
    assert IndexOf(m, key) == Some(0);
    assert AfterFirst(m, key) == tail;
    EmailOnlyAnswerFails(m, key);
  }

  /** The answer "yesterday: email:" throws. */
  lemma YesterdayDanglingEmail()
    ensures ExtractTextAfter("yesterday: email:", YesterdayKey) == Err(IndexOutOfBounds)
  {
    var tail := " " + EmailKey;
    assert !Contains(tail, YesterdayKey) by {
      assert |tail| < |YesterdayKey|;
      assert forall j :: !OccursAt(tail, YesterdayKey, j);
    }
    DanglingEmailFails("yesterday: email:", YesterdayKey);
  }

  // ------------------------------------------------------------ registration

  /** Once an e-mail registers, registering it again, under any name and
      team, is refused and saves nothing. */
  lemma RegisterTwice(d: Directory, name: Option<string>, email: Option<string>, teamIdText: Option<string>,
                      github: Option<string>, now: Instant,
                      name2: Option<string>, teamIdText2: Option<string>, github2: Option<string>, now2: Instant)
    requires Register(d, name, email, teamIdText, github, now).1.UserRegistered?
    requires name2.Some?
    ensures var d' := Register(d, name, email, teamIdText, github, now).0;
            email.Some? && Register(d', name2, email, teamIdText2, github2, now2) == (d', UserExistsAlready(email.value))
  {
    var d' := Register(d, name, email, teamIdText, github, now).0;
    var row := UserOnCreate(NewUser(name.value, email.value, "zoho-" + LocalPart(email.value).value, github)
                              .(team := TeamFor(d, teamIdText).value), now);
    assert row.email == Some(email.value);
    FindAppendMatch(d.users, (u: User) => u.email == Some(email.value), row);
    assert UserByEmail(d', email.value).Unique?;
  }

  /** Registration goes through in a valid directory for a new e-mail
      with a local part and a resolvable team, when the values fit their
      columns and no user carries the derived identity; the e-mail then
      names the new user. */
  lemma RegisterSucceeds(d: Directory, name: string, email: string, teamIdText: Option<string>,
                         github: Option<string>, now: Instant)
    requires Valid(d)
    requires UserByEmail(d, email).Missing? && LocalPart(email).Some? && TeamFor(d, teamIdText).Ok?
    requires |name| <= DefaultLength && |email| <= DefaultLength && FitsIn(github, DefaultLength)
    requires |"zoho-" + LocalPart(email).value| <= DefaultLength
    requires forall j :: 0 <= j < |d.users| ==> d.users[j].zohoUserId != Some("zoho-" + LocalPart(email).value)
    ensures var r := Register(d, Some(name), Some(email), teamIdText, github, now);
            && r.1 == UserRegistered(|d.users| + 1)
            && UserByEmail(r.0, email) == Unique(|d.users| + 1)
  {
    var row := UserOnCreate(NewUser(name, email, "zoho-" + LocalPart(email).value, github)
                              .(team := TeamFor(d, teamIdText).value), now);
    assert AllFit([row.email, row.name, row.zohoUserId, row.githubUsername, row.jiraAccountId], DefaultLength);
    assert UserFits(d, row, -1);
    FindAppendMatch(d.users, (u: User) => u.email == Some(email), row);
  }

  /** The identity is derived from the local part alone, so once an
      address is registered, another address with the same local part (at
      another domain, say) can never be: the unique identity column
      refuses it. */
  lemma SameLocalPartCollides(d: Directory, name: Option<string>, email: string, teamIdText: Option<string>,
                              github: Option<string>, now: Instant, name2: Option<string>, email2: string,
                              teamIdText2: Option<string>, github2: Option<string>, now2: Instant)
    requires Register(d, name, Some(email), teamIdText, github, now).1.UserRegistered?
    requires LocalPart(email2) == LocalPart(email)
    ensures var d' := Register(d, name, Some(email), teamIdText, github, now).0;
            !Register(d', name2, Some(email2), teamIdText2, github2, now2).1.UserRegistered?
  {
    var d' := Register(d, name, Some(email), teamIdText, github, now).0;
    assert d'.users[|d.users|].zohoUserId == Some("zoho-" + LocalPart(email).value);
  }

  /** A numeric team id naming a team resolves to it. */
  lemma TeamForNumber(d: Directory, n: nat)
    requires 1 <= n <= |d.teams| && n <= LongMax
    ensures TeamFor(d, Some(NatToString(n))) == Ok(Some(n))
  {
    ParseLongOfNatToString(n);
  }

  // ------------------------------------------------------------ standups

  /** An answer carrying only the blockers key completes the session's
      standup with the summary of the row as the blockers leave it,
      whatever step the session is at. */
  lemma BlockersAnswerCompletes(d: Directory, live: Live, email: string, message: string, env: Env)
    requires email in live && 1 <= live[email].standupId <= |d.standups|
    requires Contains(message, BlockersKey) && !Contains(message, YesterdayKey) && !Contains(message, TodayKey)
    requires ExtractTextAfter(message, BlockersKey).Ok?
    ensures var s := d.standups[live[email].standupId - 1];
            var text := ExtractTextAfter(message, BlockersKey).value;
            Record(d, live, email, message, env) == Complete(d, live, email, text, SummaryFor(s, text, env), env.now)
  {
  }

  /** Completing a valid standup row succeeds: the row is completed with
      the summary, keeps its user and day, and the session ends. */
  lemma CompletionSucceeds(d: Directory, live: Live, email: string, text: string, summary: Option<string>, now: Instant)
    requires email in live && 1 <= live[email].standupId <= |d.standups|
    requires StandupFits(d, d.standups[live[email].standupId - 1])
    ensures var sid := live[email].standupId;
            var row := StandupOnUpdate(d.standups[sid - 1], CompletedRow(d.standups[sid - 1], text, summary, now), now);
            && row.status == Some(Completed) && row.aiSummary == summary
            && row.user == d.standups[sid - 1].user && row.standupDate == d.standups[sid - 1].standupDate
            && Complete(d, live, email, text, summary, now)
               == (d.(standups := d.standups[sid - 1 := row]), live - {email}, StandupComplete(sid))
  {
    var sid := live[email].standupId;
    var done := CompletedRow(d.standups[sid - 1], text, summary, now);
    assert StandupFits(d, done.(updatedAt := Some(now)));
  }

  /** A completed standup of today cannot be started again: the lookup by
      user and day still finds it after the update. */
  lemma CompletedStaysFound(d: Directory, live: Live, email: string, uid: Id, sid: Id, row: Standup, env: Env)
    requires UserByEmail(d, email) == Unique(uid)
    requires StandupByUserAndDate(d, uid, env.today) == Unique(sid)
    requires row.user == d.standups[sid - 1].user && row.standupDate == d.standups[sid - 1].standupDate
    requires row.status == Some(Completed)
    ensures StartFor(d.(standups := d.standups[sid - 1 := row]), live, email, env).2 == AlreadyCompleted
  {
    var d2 := d.(standups := d.standups[sid - 1 := row]);
    assert UserByEmail(d2, email) == UserByEmail(d, email);
    var p := (s: Standup) => s.user == Some(uid) && s.standupDate == Some(env.today);
    FindAfterUpdate(d.standups, p, sid - 1, row);
    assert StandupByUserAndDate(d2, uid, env.today) == Unique(sid);
  }

  /** What a start leaves behind, in the terms the later steps use. */
  lemma StartedFacts(d: Directory, live: Live, email: string, env: Env, d1: Directory, live1: Live, sid: Id)
    requires Valid(d)
    requires StartFor(d, live, email, env) == (d1, live1, StandupStarted(sid))
    ensures Valid(d1) && email in live1 && live1[email].standupId == sid && 1 <= sid <= |d1.standups|
    ensures UserByEmail(d, email).Unique? && UserByEmail(d1, email) == UserByEmail(d, email)
    ensures StandupByUserAndDate(d1, UserByEmail(d, email).id, env.today) == Unique(sid)
  {
    assert d1.users == d.users;
  }

  /** Starting is idempotent within a day: a second start after a
      successful one, at any later instant of the same day, resumes the
      same standup and changes neither the directory nor the sessions. */
  lemma StartTwiceResumes(d: Directory, live: Live, email: string, env: Env, env2: Env)
    requires StartFor(d, live, email, env).2.StandupStarted? && env2.today == env.today
    ensures var (d1, live1, reply) := StartFor(d, live, email, env);
            StartFor(d1, live1, email, env2) == (d1, live1, reply)
  {
    var (d1, live1, reply) := StartFor(d, live, email, env);
    assert d1.users == d.users;
    assert UserByEmail(d1, email) == UserByEmail(d, email);
    assert live1[email := StandupSession(reply.standupId, email, 1)] == live1;
  }

  /** Completing an open standup of today with any summary ends its
      session, and starting it again the same day is refused. */
  lemma CompleteThenRestart(d: Directory, live: Live, email: string, text: string, summary: Option<string>, env: Env,
                            uid: Id, sid: Id)
    requires email in live && live[email].standupId == sid && 1 <= sid <= |d.standups|
    requires StandupFits(d, d.standups[sid - 1])
    requires UserByEmail(d, email) == Unique(uid) && StandupByUserAndDate(d, uid, env.today) == Unique(sid)
    ensures var done := Complete(d, live, email, text, summary, env.now);
            && |done.0.standups| == |d.standups|
            && done.2 == StandupComplete(sid)
            && email !in done.1
            && done.0.standups[sid - 1].status == Some(Completed)
            && done.0.standups[sid - 1].aiSummary == summary
            && StartFor(done.0, done.1, email, env).2 == AlreadyCompleted
  {
    CompletionSucceeds(d, live, email, text, summary, env.now);
    var row := StandupOnUpdate(d.standups[sid - 1], CompletedRow(d.standups[sid - 1], text, summary, env.now), env.now);
    var d2 := d.(standups := d.standups[sid - 1 := row]);
    assert d2.standups[sid - 1] == row;
    CompletedStaysFound(d, live - {email}, email, uid, sid, row, env);
  }

  /** The standup flow end to end: after a start, completing the session
      (which an answer carrying only the blockers key does, by
      `BlockersAnswerCompletes`) stores the summary, ends the session, and
      starting again the same day is refused. */
  lemma StartThenComplete(d: Directory, live: Live, email: string, text: string, summary: Option<string>,
                          env: Env, env2: Env, d1: Directory, live1: Live, sid: Id)
    requires Valid(d)
    requires StartFor(d, live, email, env) == (d1, live1, StandupStarted(sid))
    requires env2.today == env.today
    ensures email in live1 && live1[email].standupId == sid && 1 <= sid <= |d1.standups|
    ensures var done := Complete(d1, live1, email, text, summary, env2.now);
            && |done.0.standups| == |d1.standups|
            && done.2 == StandupComplete(sid)
            && email !in done.1
            && done.0.standups[sid - 1].status == Some(Completed)
            && done.0.standups[sid - 1].aiSummary == summary
            && StartFor(done.0, done.1, email, env2).2 == AlreadyCompleted
  {
    StartedFacts(d, live, email, env, d1, live1, sid);
    assert StandupFits(d1, d1.standups[sid - 1]);
    CompleteThenRestart(d1, live1, email, text, summary, env2, UserByEmail(d, email).id, sid);
  }
}

=== FILE: webhook_v3.dfy ===
/** Identity resolution of the main chat webhook
    (`controller/ZohoWebhookControllerV3.java`): who sent a message and what
    the message says, worked out from a JSON payload, the request headers or
    a plain-text payload, before the conversation engine sees it. */
module WebhookV3 {
  import opened Wrappers
  import opened JavaString
  import opened Entities
  import opened SessionStore
  import CommandRouter

  /** The identity fields of a JSON object as `path(..).asText(null)` reads
      them: `None` for a field that is missing or JSON null, otherwise the
      field's text. An object that is present but JSON null, or not an
      object at all, reads as three `None`s. */
  datatype Person = Person(id: Option<string>, name: Option<string>, email: Option<string>)

  /** A payload the JSON parser accepted, reduced to the fields the
      controller reads: the `user`, `actor`, `sender` and `from` objects
      (`None` when the key is absent), the `message` and `text` fields and
      `channel.id`. A document whose root is not an object has every field
      `None`. */
  datatype Payload = Payload(
    user: Option<Person>,
    actor: Option<Person>,
    sender: Option<Person>,
    from: Option<Person>,
    message: Option<string>,
    text: Option<string>,
    channelId: Option<string>)

  /** Request headers by name. */
  type Headers = map<string, string>

  /** `ZohoUserContext` as the controller builds it. */
  datatype UserContext = UserContext(
    zohoUserId: Option<string>,
    name: Option<string>,
    email: Option<string>,
    channelId: Option<string>,
    message: string)

  const UnknownUser := "Unknown User"
  const UnknownEmail := "unknown@example.com"
  const TestUserPrefix := "test_user_"
  const DefaultTestUserId := "test_user_001"
  const UnknownIp := "unknown"

  // ------------------------------------------------------------- JSON

  /** The message: the `message` field, or `text` when that is missing or
      empty. */
  function MessageOf(p: Payload): string {
    var m := p.message.GetOr("");
    if m == "" then p.text.GetOr("") else m
  }

  /** `parseUserContext(root)`: nothing without a `user` object; otherwise
      the user's id (possibly null), name (defaulted) and e-mail, the
      message and the channel id. */
  function ParseUserContext(p: Payload): (r: Option<UserContext>)
    ensures r.None? <==> p.user.None?
  {
    match p.user
    case None => None
    case Some(u) => Some(UserContext(u.id, Some(u.name.GetOr(UnknownUser)), u.email, p.channelId, MessageOf(p)))
  }

  function Header(h: Headers, key: string): Option<string> {
    if key in h then Some(h[key]) else None
  }

  /** A header, or a second one when the first is absent. */
  function HeaderOr(h: Headers, first: string, second: string): Option<string> {
    if first in h then Some(h[first]) else Header(h, second)
  }

  /** What the headers say about the sender. */
  function FromHeaders(h: Headers): Person {
    Person(HeaderOr(h, "x-zoho-user-id", "zoho-user-id"),
           HeaderOr(h, "x-zoho-user-name", "zoho-user-name"),
           HeaderOr(h, "x-zoho-user-email", "zoho-user-email"))
  }

  /** One more place to look while no id has been found: a present object
      replaces all three fields, even when it has no id itself. */
  function Consult(found: Person, obj: Option<Person>): Person {
    if found.id.None? && obj.Some? then obj.value else found
  }

  /** The headers, then `actor`, `sender` and `from`. The three fields
      always come from one and the same place. */
  function Sought(p: Payload, h: Headers): (r: Person)
    ensures r == FromHeaders(h) || Some(r) == p.actor || Some(r) == p.sender || Some(r) == p.from
  {
    Consult(Consult(Consult(FromHeaders(h), p.actor), p.sender), p.from)
  }

  /** The client address: `x-real-ip`, else `x-forwarded-for`, else
      "unknown". */
  function ClientIp(h: Headers): (r: string)
    ensures "x-real-ip" in h ==> r == h["x-real-ip"]
    ensures "x-real-ip" !in h && "x-forwarded-for" in h ==> r == h["x-forwarded-for"]
    ensures r == UnknownIp <==>
              if "x-real-ip" in h then h["x-real-ip"] == UnknownIp
              else "x-forwarded-for" !in h || h["x-forwarded-for"] == UnknownIp
  {
    if "x-real-ip" in h then h["x-real-ip"]
    else if "x-forwarded-for" in h then h["x-forwarded-for"]
    else UnknownIp
  }

  /** `generateConsistentTestUserId(ip)`: the fourth dot-separated part of
      the address, when `split` yields at least four. */
  function TestUserId(ip: string): (r: string)
    ensures StartsWith(r, TestUserPrefix) && |r| >= |TestUserPrefix|
  {
    var parts := Split(ip, ".");
    var r := if ip != UnknownIp && |parts| >= 4 then TestUserPrefix + parts[3] else DefaultTestUserId;
    assert r[..|TestUserPrefix|] == TestUserPrefix;
    r
  }

  /** Without an address header every anonymous caller is the same default
      test user. */
  lemma NoAddressDefaultUser(h: Headers)
    requires "x-real-ip" !in h && "x-forwarded-for" !in h
    ensures TestUserId(ClientIp(h)) == DefaultTestUserId
  {
  }

  /** `extractUserFromPayloadAndHeaders(root, headers)`: the sender found in
      the headers or the payload objects when its id is not empty, with
      placeholder name and e-mail; otherwise a test user derived from the
      client address. The message is the `message` field only. */
  function FromPayloadAndHeaders(p: Payload, h: Headers): (r: UserContext)
    ensures r.zohoUserId.Some? && r.zohoUserId.value != ""
    ensures r.message == p.message.GetOr("") && r.channelId.None?
    ensures var f := Sought(p, h);
            if f.id.Some? && f.id.value != "" then
              r.zohoUserId == f.id && r.name == Some(f.name.GetOr(UnknownUser))
              && r.email == Some(f.email.GetOr(UnknownEmail))
            else
              r.zohoUserId == Some(TestUserId(ClientIp(h))) && r.name == Some("Test User")
              && r.email == Some("test@example.com")
  {
    var f := Sought(p, h);
    var message := p.message.GetOr("");
    if f.id.Some? && f.id.value != "" then
      UserContext(f.id, Some(f.name.GetOr(UnknownUser)), Some(f.email.GetOr(UnknownEmail)), None, message)
    else
      var id := TestUserId(ClientIp(h));
      UserContext(Some(id), Some("Test User"), Some("test@example.com"), None, message)
  }

  // ------------------------------------------------------- plain text

  /** The test user `user:N` stands for. */
  function TestUser(n: string, message: string): UserContext {
    UserContext(Some(TestUserPrefix + n), Some("Test User " + n), Some("testuser" + n + "@example.com"), None,
                message)
  }

  /** A message with a space in it has a whitespace character. */
  lemma SpaceIsWs(s: string)
    requires Contains(s, " ")
    ensures WsIndex(s).Some?
  {
    var j := IndexOf(s, " ").value;
    assert s[j..j + 1] == " " && IsWs(s[j]);
  }

  /** The fallback user, with the whole text as the message. */
  function DefaultUser(message: string): UserContext {
    UserContext(Some(DefaultTestUserId), Some("Test User 1"), Some("testuser1@example.com"), None, message)
  }

  /** The form `id:name:email[:...] [message]`, when the text has it. */
  function TripleForm(message: string): Option<UserContext> {
    if Contains(message, ":") && |Split(message, ":")| >= 3 then
      var parts := SplitWsOnce(message);
      var userInfo := Split(parts[0], ":");
      if |userInfo| >= 3 then
        Some(UserContext(Some(userInfo[0]), Some(userInfo[1]), Some(userInfo[2]), None,
                         if |parts| > 1 then parts[1] else ""))
      else None
    else None
  }

  /** The form `user:N message`, when the text has it. */
  function TestUserForm(message: string): Option<UserContext> {
    if StartsWith(message, "user:") && Contains(message, " ") then
      SpaceIsWs(message);
      var parts := SplitWsOnce(message);
      if Contains(parts[0], ":") then
        var userInfo := Split(parts[0], ":");
        if |userInfo| == 2 && userInfo[0] == "user" then Some(TestUser(userInfo[1], parts[1])) else None
      else None
    else None
  }

  /** `parsePlainTextPayload(payload)` on the trimmed text: the
      `id:name:email` form, else the `user:N` form, else the default test
      user. */
  function ParsePlainText(payload: string): (r: UserContext)
    ensures r.zohoUserId.Some? && r.channelId.None?
  {
    var message := Trim(payload);
    match TripleForm(message)
    case Some(c) => c
    case None =>
      match TestUserForm(message)
      case Some(c) => c
      case None => DefaultUser(message)
  }

  // ------------------------------------------------------------ handler

  /** The identity step of `handleWebhook`: JSON first (the user object,
      then headers and payload objects), then the plain-text forms. `None`
      stands for the "could not identify user" reply. */
  function Identify(json: Option<Payload>, payload: string, h: Headers): (r: Option<UserContext>)
    ensures r.Some? && r.value.zohoUserId.Some?
    ensures json.None? ==> r == Some(ParsePlainText(payload))
    ensures json.Some? && json.value.user.Some? && json.value.user.value.id.Some? ==>
              r == ParseUserContext(json.value)
    ensures json.Some? && (json.value.user.None? || json.value.user.value.id.None?) ==>
              r == Some(FromPayloadAndHeaders(json.value, h))
  {
    var fromJson :=
      if json.None? then None
      else
        var c := ParseUserContext(json.value);
        if c.None? || c.value.zohoUserId.None? then Some(FromPayloadAndHeaders(json.value, h)) else c;
    if fromJson.None? || fromJson.value.zohoUserId.None? then Some(ParsePlainText(payload)) else fromJson
  }

  /** The context the router receives. */
  function ToContext(c: UserContext): (r: CommandRouter.Context)
    requires c.zohoUserId.Some?
    ensures r.zohoUserId == c.zohoUserId.value && r.message == c.message
    ensures r.name == c.name && r.email == c.email && r.channelId == c.channelId
  {
    CommandRouter.Context(c.zohoUserId.value, c.name, c.email, c.channelId, c.message)
  }

  /** The controller's answer: the router's reply, the "could not identify"
      text, or the text of an exception escaping the router. */
  datatype Answer = Routed(reply: CommandRouter.Reply) | CouldNotIdentify | ErrorOccurred(fault: Fault)

  /** `handleWebhook(payload, headers)`: identify the sender, then route.
      `json` is what the JSON parser made of `payload` (`None` when it
      threw). */
  function HandleWebhook(d: Directory, m: Sessions, json: Option<Payload>, payload: string, h: Headers,
                         env: CommandRouter.Env): (r: (Directory, Sessions, Answer))
    ensures !r.2.CouldNotIdentify?
    ensures r.2.ErrorOccurred? ==> r.0 == d && r.1 == m
    ensures var c := ToContext(Identify(json, payload, h).value);
            match CommandRouter.Route(d, m, c, env)
            case Ok(o) => r == (o.dir, o.sessions, Routed(o.reply))
            case Err(f) => r == (d, m, ErrorOccurred(f))
  {
    var c := Identify(json, payload, h);
    if c.None? || c.value.zohoUserId.None? then (d, m, CouldNotIdentify)
    else match CommandRouter.Route(d, m, ToContext(c.value), env)
      case Ok(o) => (o.dir, o.sessions, Routed(o.reply))
      case Err(f) => (d, m, ErrorOccurred(f))
  }

  // --------------------------------------------------------- properties

  /** With a user object carrying an id, that object names the sender: its
      id, its name or "Unknown User", its e-mail; the message is `message`,
      or `text` when `message` is missing or empty. */
  lemma JsonUserNode(p: Payload, payload: string, h: Headers)
    requires p.user.Some? && p.user.value.id.Some?
    ensures var c := Identify(Some(p), payload, h).value;
            && c.zohoUserId == p.user.value.id
            && c.name == Some(p.user.value.name.GetOr(UnknownUser))
            && c.email == p.user.value.email
            && c.channelId == p.channelId
            && c.message == (if p.message.Some? && p.message.value != "" then p.message.value else p.text.GetOr(""))
  {
  }

  /** The first candidate that is present. */
  function FirstPresent(candidates: seq<Option<string>>): (r: Option<string>)
  {
    if |candidates| == 0 then None
    else if candidates[0].Some? then candidates[0]
    else FirstPresent(candidates[1..])
  }

  function IdOf(obj: Option<Person>): Option<string> {
    if obj.Some? then obj.value.id else None
  }

  /** The places the id is looked up, in order. */
  function IdCandidates(p: Payload, h: Headers): seq<Option<string>> {
    [Header(h, "x-zoho-user-id"), Header(h, "zoho-user-id"), IdOf(p.actor), IdOf(p.sender), IdOf(p.from)]
  }

  /** The id is the first one present among the two headers and the
      `actor`, `sender` and `from` objects. An empty id counts as present:
      it stops the search and then yields the address-derived test user. */
  lemma {:induction false} IdPrecedence(p: Payload, h: Headers)
    ensures Sought(p, h).id == FirstPresent(IdCandidates(p, h))
  {
    var c := IdCandidates(p, h);
    assert c[1..][1..][1..][1..][1..] == [];
    assert FirstPresent(c[1..][1..][1..][1..]) == IdOf(p.from);
    assert FirstPresent(c[1..][1..][1..]) == FirstPresent([IdOf(p.sender), IdOf(p.from)]);
    assert FirstPresent(c[1..][1..]) == FirstPresent([IdOf(p.actor), IdOf(p.sender), IdOf(p.from)]);
  }

  /** A JSON payload always identifies the sender without falling back to
      the plain-text forms, and the identity is never null; it is empty
      only when the user object carries an empty id. */
  lemma JsonAlwaysIdentifies(p: Payload, payload: string, h: Headers)
    ensures var c := Identify(Some(p), payload, h).value;
            c.zohoUserId.Some?
            && (c.zohoUserId.value == "" ==> p.user.Some? && p.user.value.id == Some(""))
  {
  }

  /** An address with four dot-separated parts gives the test user named
      after the fourth. */
  lemma TestIdFromFourthPart(a: string, b: string, c: string, x: string)
    requires Lacks(a, '.') && Lacks(b, '.') && Lacks(c, '.') && Lacks(x, '.') && x != []
    ensures TestUserId(a + "." + b + "." + c + "." + x) == TestUserPrefix + x
  {
    var ip := a + "." + b + "." + c + "." + x;
    JoinFour(a, b, c, x, '.');
    SplitJoin([a, b, c, x], '.');
    UnknownHasNoDot();
  }

  /** Java's `split` drops trailing empty strings, so an address ending in
      a dot after three parts has no fourth part. */
  lemma TrailingDotGivesDefault(a: string, b: string, c: string)
    requires Lacks(a, '.') && Lacks(b, '.') && Lacks(c, '.') && c != []
    ensures TestUserId(a + "." + b + "." + c + ".") == DefaultTestUserId
  {
    var ip := a + "." + b + "." + c + ".";
    JoinFour(a, b, c, "", '.');
    assert Join([a, b, c, ""], '.') == ip;
    SplitDropsTrailing([a, b, c, ""], '.');
    assert Split(ip, ".") == [a, b, c];
  }

  lemma UnknownHasNoDot()
    ensures Split(UnknownIp, ".") == [UnknownIp]
  {
    assert Lacks(UnknownIp, '.');
    LacksNotContains(UnknownIp, '.');
  }

  /** An unknown address gives the default test user. */
  lemma UnknownIpGivesDefault()
    ensures TestUserId(UnknownIp) == DefaultTestUserId
  {
  }

  /** Three colon-free parts, the last non-empty, give `split(":")` at least
      three pieces. */
  lemma ColonPieces(id: string, name: string, email: string, y: string)
    requires Lacks(id, ':') && Lacks(name, ':') && Lacks(email, ':') && email != []
    ensures var s := id + ":" + name + ":" + email + y;
            Contains(s, ":") && |Split(s, ":")| >= 3
  {
    var s := id + ":" + name + ":" + email + y;
    assert s == id + [':'] + (name + [':'] + (email + y));
    SplitAllAt(id, ':', name + [':'] + (email + y));
    SplitAllAt(name, ':', email + y);
    FirstPieceKeepsHead(email, y, ':');
    assert OccursAt(s, ":", |id|) by { assert s[|id|..|id| + 1] == ":"; }
    var all := SplitAll(s, ":");
    assert all[2] != [];
  }

  /** `id:name:email` splits back into its three parts. */
  lemma TripleTokenSplits(id: string, name: string, email: string)
    requires Lacks(id, ':') && Lacks(name, ':') && Lacks(email, ':') && email != []
    ensures Split(id + ":" + name + ":" + email, ":") == [id, name, email]
  {
    JoinThree(id, name, email, ':');
    SplitJoin([id, name, email], ':');
    assert id + [':'] + name + [':'] + email == id + ":" + name + ":" + email;
  }

  /** `id:name:email` holds no whitespace when its parts hold none. */
  lemma TripleTokenNoWs(id: string, name: string, email: string)
    requires NoWs(id) && NoWs(name) && NoWs(email)
    ensures NoWs(id + ":" + name + ":" + email)
  {
    NoWsConcat(id, ":");
    NoWsConcat(id + ":", name);
    NoWsConcat(id + ":" + name, ":");
    NoWsConcat(id + ":" + name + ":", email);
  }

  lemma TripleFormOf(id: string, name: string, email: string, rest: string)
    requires Lacks(id, ':') && Lacks(name, ':') && Lacks(email, ':') && email != []
    requires NoWs(id) && NoWs(name) && NoWs(email)
    requires rest != [] && !IsWs(rest[0])
    ensures TripleForm(id + ":" + name + ":" + email + " " + rest)
              == Some(UserContext(Some(id), Some(name), Some(email), None, rest))
  {
    var token := id + ":" + name + ":" + email;
    var m := token + " " + rest;
    ColonPieces(id, name, email, " " + rest);
    assert m == id + ":" + name + ":" + email + (" " + rest);
    assert Contains(m, ":") && |Split(m, ":")| >= 3;
    TripleTokenNoWs(id, name, email);
    SplitWsOnceAt(token, rest);
    assert SplitWsOnce(m) == [token, rest];
    TripleTokenSplits(id, name, email);
  }

  /** `id:name:email message`: the three parts name the sender and the rest
      is the message. */
  lemma PlainTextTriple(payload: string, id: string, name: string, email: string, rest: string)
    requires Lacks(id, ':') && Lacks(name, ':') && Lacks(email, ':') && email != []
    requires NoWs(id) && NoWs(name) && NoWs(email)
    requires rest != [] && !IsWs(rest[0])
    requires Trim(payload) == id + ":" + name + ":" + email + " " + rest
    ensures ParsePlainText(payload) == UserContext(Some(id), Some(name), Some(email), None, rest)
  {
    TripleFormOf(id, name, email, rest);
  }

  /** `split("\\s+", 2)` and `split(":")` on `user:N message`. */
  lemma TestUserPieces(n: string, rest: string)
    requires Lacks(n, ':') && n != [] && NoWs(n)
    requires rest != [] && !IsWs(rest[0])
    ensures SplitWsOnce("user:" + n + " " + rest) == ["user:" + n, rest]
    ensures Split("user:" + n, ":") == ["user", n]
  {
    NoWsConcat("user:", n);
    SplitWsOnceAt("user:" + n, rest);
    JoinTwo("user", n, ':');
    assert "user" + [':'] + n == "user:" + n;
    SplitJoin(["user", n], ':');
  }

  lemma TestUserFormOf(n: string, rest: string)
    requires Lacks(n, ':') && n != [] && NoWs(n)
    requires rest != [] && !IsWs(rest[0])
    ensures var message := "user:" + n + " " + rest;
            TripleForm(message).None? && TestUserForm(message) == Some(TestUser(n, rest))
  {
    var token := "user:" + n;
    var message := token + " " + rest;
    TestUserPieces(n, rest);
    assert StartsWith(message, "user:") by { assert message[..5] == "user:"; }
    assert OccursAt(message, " ", |token|) by { assert message[|token|..|token| + 1] == " "; }
    assert OccursAt(token, ":", 4) by { assert token[4..5] == ":"; }
  }

  /** `user:N message` (N without colons) stands for test user N. */
  lemma PlainTextTestUser(payload: string, n: string, rest: string)
    requires Lacks(n, ':') && n != [] && NoWs(n)
    requires rest != [] && !IsWs(rest[0])
    requires Trim(payload) == "user:" + n + " " + rest
    ensures ParsePlainText(payload) == TestUser(n, rest)
  {
    TestUserFormOf(n, rest);
  }

  lemma BareUserForm(rest: string)
    requires rest != [] && !IsWs(rest[0])
    ensures TripleForm("user: " + rest).None? && TestUserForm("user: " + rest).None?
  {
    var token := "user:";
    assert "user: " + rest == token + " " + rest;
    SplitWsOnceAt(token, rest);
    JoinTwo("user", "", ':');
    assert Join(["user", ""], ':') == token;
    SplitDropsTrailing(["user", ""], ':');
    assert Split(token, ":") == ["user"];
  }

  /** `user:` with nothing before the space is not a test-user command: the
      whole text goes to the default test user. */
  lemma BareUserPrefix(payload: string, rest: string)
    requires rest != [] && !IsWs(rest[0])
    requires Trim(payload) == "user: " + rest
    ensures ParsePlainText(payload) == DefaultUser(Trim(payload))
  {
    BareUserForm(rest);
  }

  /** Text without a colon goes to the default test user, whole. */
  lemma PlainTextDefault(payload: string)
    requires !Contains(Trim(payload), ":")
    ensures ParsePlainText(payload) == DefaultUser(Trim(payload))
  {
    var message := Trim(payload);
    if StartsWith(message, "user:") {
      assert message[4..5] == ":";
      assert OccursAt(message, ":", 4);
    }
  }
}

=== FILE: wrappers.dfy ===
/** Failure-compatible wrappers used throughout the model: `Option` stands
    for a Java reference that may be null, `Result` for a call that either
    returns a value or throws. */
module Wrappers {

  datatype Option<+T> = None | Some(value: T) {

    predicate IsFailure() {
      None?
    }

    function PropagateFailure<U>(): Option<U>
      requires None?
    {
      None
    }

    function Extract(): T
      requires Some?
    {
      value
    }

    /** Java's `x != null ? x : other`. */
    function GetOr(default: T): T {
      match this
      case Some(v) => v
      case None => default
    }
  }

  datatype Result<+R, +E> = Ok(value: R) | Err(error: E) {

    predicate IsFailure() {
      Err?
    }

    function PropagateFailure<U>(): Result<U, E>
      requires Err?
    {
      Err(error)
    }

    function Extract(): R
      requires Ok?
    {
      value
    }
  }
}
